=== FILE: README.md ===
# Bookkeeping core of a Persian accounting application, in Dafny

This project models the logic at the heart of a small Persian-language
accounting system. The backend is a FastAPI/SQLAlchemy application and the
frontend is a React/TypeScript application. The model covers:

- **Books** (`books.dfy`): the invoice, payment, ledger and financial-year
  records, and the operations on them. These are creating a draft invoice or
  payment with its generated document number, updating invoice fields,
  finalizing an invoice, posting a payment, and creating a financial year.
  Finalizing and posting append double-entry ledger lines.
- **Reports** (`reports.dfy`): the profit-and-loss report over final invoices
  and the cash-balance report over posted payments. Each report is tied to
  the operations that move it.
- **YearEnd** (`year_end.dfy`): closing a financial year. Per-account
  balances are folded over the ledger up to the period end. Closing entries
  move each non-zero balance to `RetainedEarnings`, and the balances are
  recorded as the year's opening balances.
- **AuditChain** (`audit_chain.dfy`): the per-entity hash chain of audit
  entries. This covers appending an entry, reading an entity's history,
  verifying the chain and exporting an entry's Merkle position.
- **FinancialAutomation** (`financial_automation.dfy`): finding or creating
  the financial year for a Jalali year, the context for a transaction date,
  and the date suggestions.
- **Normalizer** (`normalizer.dfy`) and **WebNormalizer**
  (`web_normalizer.dfy`): the Persian/Arabic text normalizers of the backend
  and the frontend, and the frontend's phone-number normalization.
- **TtlCache** (`ttl_cache.dfy`): the in-process cache with time-to-live.
- **ReportQuery** (`report_query.dfy`): the natural-language report query
  parser of the API (amount, week/month, party and type) and the filter it
  drives. It also covers the time-zone offset text of the server clock
  endpoint.
- **AuditAnalyzer** (`audit_analyzer.dfy`): the heuristic audit of a
  period. This covers extracting numbers from log text, the users who
  deleted often, the large edits, and the summary counts.
- **Assistant** (`assistant.dfy`): the rule-based assistant. It parses
  "create invoice" and "today's receipts" commands.
- **PersianNumbers** (`persian_numbers.dfy`): the frontend's number
  formatting. This covers grouped digits, Persian digits, amounts in words,
  and currency text.
- **JalaliInput** (`jalali_input.dfy`): the frontend's permissive parser
  for typed Jalali dates.
- **SidebarOrder** (`sidebar_order.dfy`): the user-defined order of the
  sidebar menu. This covers merging a saved order with the known modules and
  moving an item by drag and drop.
- **Text**, **Civil** and **Wrappers** are support modules. They hold
  character classes, decimal text, trimming and whitespace collapsing, the
  proleptic Gregorian calendar, and `Option`/`Result`.

Time is an `int` count of seconds on one time line (`Civil.Seconds`). The
clock, the database and every external library (the Jalali calendar
conversion, the hash function, the people search) are parameters of the
operations that use them. Persistence is a value: each table is a sequence
of rows in insertion order. A new row gets the table's length plus one as
its id, which is what the id sequence hands out when no row was deleted.
`Books.Wf` says that the `k`-th row has id `k + 1`. Creating, finalizing and
posting keep that, but an update that changes an invoice's id does not.

## Model

| member | source | states |
|---|---|---|
| Books.InvoiceIndex | backend/app/crud.py:309-311 | finds the first invoice with the id, or -1 exactly when no invoice has it (the `.first()` lookup) |
| Books.PaymentIndex | backend/app/crud.py:416-418 | finds the first payment with the id, or -1 exactly when none has it |
| Books.YearIndex | backend/app/crud.py:634-636 | finds the first financial year with the id, or -1 exactly when none has it |
| Books.PaymentPrefix | backend/app/crud.py:378 | incoming payments are numbered with `I` and outgoing ones with `O` |
| Books.DocNumberRoundTrip | backend/app/crud.py:240-242 | a generated document number `P-YYYYMMDD-id` parses back to its prefix, its date digits and its id |
| Books.DocNumbersDistinct | backend/app/crud.py:240-242 | two documents with different ids never get the same number, whatever their prefixes and dates |
| Books.MakeItems | backend/app/crud.py:244-254 | one item per input line, in order, each totalling unit price times quantity, and the items' totals add up to the lines' amount |
| Books.CreateInvoice | backend/app/crud.py:223-258 | the new invoice is a draft with the next id and the server time. Its subtotal and total are the sum of its lines and it has no tax. It carries the generated number, is appended to the invoices, and keeps the table well formed |
| Books.ApplyFields | backend/app/crud.py:312-314 | applying field updates never touches the invoice's items; its id changes only through an `id` key, and the last such key wins |
| Books.UpdateInvoice | backend/app/crud.py:308-319 | fails with NotFound exactly when no invoice has the id, and with DuplicateKey exactly when the updated row would share its id or number with another invoice; otherwise replaces that invoice, and only it, by the updated one, which keeps its items only when its id is unchanged |
| Books.UpdatedFoundUnderNewId | backend/app/crud.py:308-319 | after a successful update the row is found, under its new id, at the position it had; payments, ledger and fiscal years are unchanged |
| Books.UnknownKeysIgnored | backend/app/crud.py:312-314 | keys the invoice does not have (the `hasattr` guard) leave it unchanged |
| Books.Post | backend/app/crud.py:446-460 | posting appends exactly one entry with the next id and the given accounts, amount, reference and date, and keeps every earlier entry |
| Books.FinalizeInvoice | backend/app/crud.py:321-350 | fails exactly when the id is unknown. Otherwise the invoice becomes final, its client time is replaced only when one is given, and its server time is now. One entry debits AccountsReceivable and credits Sales for the invoice total (0 when unset), referencing the invoice. Nothing else changes |
| Books.FinalizeInvoicePostsTotal | backend/app/crud.py:332-344 | after finalizing an invoice that had no postings, the ledger holds exactly its total against it |
| Books.FinalizeInvoiceTwicePostsTwice | backend/app/crud.py:321-344 | finalizing is not guarded by the status, so finalizing twice posts the total twice |
| Books.CreatePayment | backend/app/crud.py:359-400 | the new payment is a draft with the next id, the given amount and direction and the generated `I`/`O` number, appended to the payments |
| Books.AssetAccount | backend/app/crud.py:427-435 | the asset account is Cash when there is no method or it is "cash" in any case. It is Bank exactly when otherwise the method contains "bank" in any case, and POS in every other case |
| Books.PaymentAccounts | backend/app/crud.py:427-435 | the two accounts differ; the asset account is on the debit side exactly for a receipt and on the credit side exactly for a payment out; the other account is AccountsReceivable for a receipt and Expenses for a payment out |
| Books.FinalizePayment | backend/app/crud.py:415-443 | fails exactly when the id is unknown; otherwise the payment becomes posted with now as its server time, and one entry for its amount is posted on the accounts of PaymentAccounts. Nothing else changes |
| Books.FinalizePaymentMovesAmount | backend/app/crud.py:427-442 | posting a receipt raises the asset account's balance and lowers AccountsReceivable by the amount; posting a payment out lowers the asset and raises Expenses by it |
| Books.CreateFinancialYear | backend/app/crud.py:607-621 | fails exactly when a year of that name exists (the unique name column, backend/app/models.py:198); otherwise appends an open year with the next id, the name and the dates |
| Reports.ReportPnl | backend/app/crud.py:696-706 | gross profit is sales minus purchases, the range is echoed, and a ledger without final invoices reports zero sales and purchases |
| Reports.NoFinalNoAmount | backend/app/crud.py:698 | only final invoices contribute to a report amount |
| Reports.FinalAmountUpdate | backend/app/crud.py:698-704 | replacing one invoice changes a report amount by exactly the difference of the two invoices' contributions |
| Reports.CreateInvoiceKeepsPnl | backend/app/crud.py:223-258 | creating a (draft) invoice leaves the profit-and-loss report unchanged |
| Reports.FinalizeInvoiceMovesPnl | backend/app/crud.py:321-329 | finalizing a non-final invoice adds its total to sales or purchases, according to its type, when now lies in the report range, and nothing otherwise |
| Reports.ReportCashBalance | backend/app/crud.py:744-751 | the balance is posted receipts minus posted payments out among those whose method matches the pattern `%filter%` of `ilike`; the title is the filter or "all" |
| Reports.CashFlowSplits | backend/app/crud.py:748-751 | the signed running sum of posted payments equals receipts minus payments out |
| Reports.CashFlowAppend | backend/app/crud.py:748-751 | the cash flow of two lists of payments is the sum of their cash flows |
| Reports.UnpostedIgnored | backend/app/crud.py:745-747 | payments that are not posted, or whose method does not match the `ilike` pattern, move no cash |
| Reports.MethodMatchesLiteral | backend/app/crud.py:746-747 | a filter with neither `%` nor `_` keeps exactly the payments whose method contains it, ignoring case |
| Reports.UnderscoreMatchesOne | backend/app/crud.py:747 | a `_` in the filter stands for any one character: "ca_h" keeps a "cash" payment that does not contain it |
| Text.LikeContains | backend/app/crud.py:747 | the pattern `%f%`, with `f` free of wildcards, matches exactly the strings that contain `f` |
| Text.LikeLeadingAny | backend/app/crud.py:747 | a leading `%` matches exactly when the rest of the pattern matches some suffix |
| Text.LikePrefix | backend/app/crud.py:747 | literal characters followed by `%` match exactly the strings that start with them |
| Reports.CashFlowUpdate | backend/app/crud.py:745-751 | replacing one payment changes the cash flow by exactly the difference of their effects |
| Reports.FinalizePaymentMovesCash | backend/app/crud.py:415-435 | posting a not-yet-posted payment moves the unfiltered cash balance by its amount, up for receipts and down for payments out |
| YearEnd.Find | backend/app/crud.py:645-646 | the position of an account in the insertion-ordered dictionary, or -1 exactly when it is absent |
| YearEnd.SetDefault | backend/app/crud.py:645-646 | `setdefault` keeps the tally well formed (distinct keys) and the account present |
| YearEnd.AddTo | backend/app/crud.py:651-652 | adding to a present account keeps the key order |
| YearEnd.Step | backend/app/crud.py:644-652 | folding one entry keeps the tally well formed |
| YearEnd.Fold | backend/app/crud.py:642-652 | the fold over all entries yields a well-formed tally |
| YearEnd.SetDefaultValue | backend/app/crud.py:645-646 | `setdefault` changes no value and adds exactly the given key |
| YearEnd.AddToValue | backend/app/crud.py:651-652 | adding changes the value of that account only, by the amount |
| YearEnd.StepValue | backend/app/crud.py:644-652 | one entry raises the debit account and lowers the credit account by its amount, and introduces exactly those two keys |
| YearEnd.FoldIsBalance | backend/app/crud.py:641-652 | the folded value of every account is its ledger balance (debits minus credits), and absent accounts have zero balance |
| YearEnd.StepSum | backend/app/crud.py:651-652 | each entry leaves the sum of all balances unchanged |
| YearEnd.FoldSumsToZero | backend/app/crud.py:641-652 | the balances of all accounts sum to zero (double entry) |
| YearEnd.DatedBy | backend/app/crud.py:643 | an entry is selected exactly when it is in the ledger and dated no later than the period end; no more entries than the ledger holds |
| YearEnd.Closable | backend/app/crud.py:655-657 | the accounts to close are never RetainedEarnings and never have a zero balance |
| YearEnd.ClosingEntry | backend/app/crud.py:659-664 | a closing entry has a positive amount; it debits RetainedEarnings and credits a debit-balance account, and the reverse for a credit balance |
| YearEnd.PostClosings | backend/app/crud.py:655-667 | one closing entry per closable account, in dictionary order, appended after the existing ledger |
| YearEnd.PostClosingsBalance | backend/app/crud.py:659-664 | the closing entries lower each closed account's balance by its closed amount and raise RetainedEarnings by the total closed |
| YearEnd.ClosableFor | backend/app/crud.py:654-665 | each account other than RetainedEarnings is closed by exactly its balance, and it is in the rollover map exactly when that balance is non-zero, with the balance as its value |
| YearEnd.ClosableSum | backend/app/crud.py:655-665 | the amounts closed add up to the sum of all balances less that of RetainedEarnings |
| YearEnd.ClosableCount | backend/app/crud.py:655-657 | each account is closed at most once, and exactly once when its balance is non-zero |
| YearEnd.PostClosingsTouching | backend/app/crud.py:659-664 | the closing entries touch an account exactly as often as it is closed |
| YearEnd.CloseOpenYear | backend/app/crud.py:640-671 | closing an open year marks it closed at now, keeps every earlier entry and appends only closing entries |
| YearEnd.CloseYear | backend/app/crud.py:628-680 | fails exactly when the id is unknown and returns a closed year unchanged. Otherwise the year is closed, keeping its id and name, invoices and payments are untouched, and the ledger only grows |
| YearEnd.CloseYearIdempotent | backend/app/crud.py:637-638 | closing a year a second time changes nothing |
| YearEnd.CloseYearMovesBalances | backend/app/crud.py:640-671 | the opening balances hold exactly the non-zero period balances of the accounts other than RetainedEarnings. Each such account's balance drops by its period balance |
| YearEnd.CloseYearOneEntryPerAccount | backend/app/crud.py:655-667 | closing adds exactly one ledger line for each account with a non-zero period balance, and none for the others |
| YearEnd.CloseYearZeroesAccounts | backend/app/crud.py:640-667 | when the whole ledger lies in the period, closing leaves every account at a zero balance, RetainedEarnings included |
| AuditChain.Filter | backend/app/blockchain.py:89-94 | the entries selected are exactly the stored entries of the entity |
| AuditChain.InsertByTime | backend/app/blockchain.py:95 | inserting an entry keeps all entries and adds exactly it, at the end when no entry is later than it |
| AuditChain.InsertKeepsSorted | backend/app/blockchain.py:95 | insertion keeps a history ordered by timestamp |
| AuditChain.History | backend/app/blockchain.py:81-97 | an entity's history holds exactly its stored entries, each as often as stored |
| AuditChain.HistorySorted | backend/app/blockchain.py:95 | the history is in ascending timestamp order |
| AuditChain.HistoryMembers | backend/app/blockchain.py:89-96 | an entry is in the history exactly when it is stored and belongs to the entity |
| AuditChain.LatestEntry | backend/app/blockchain.py:48-56 | the previous entry of an entity is absent exactly when the entity has no entries; otherwise it is one of its entries, and none of them is later |
| AuditChain.LatestOfHistory | backend/app/blockchain.py:48-58 | the last element of the ascending history is a latest entry of the entity, and there is none exactly when the history is empty |
| AuditChain.Append | backend/app/blockchain.py:22-78 | appending fails exactly when an entry with the same data hash exists (the unique data_hash column, backend/alembic/versions/0027_blockchain_entries.py:37). Otherwise it stores one new entry with the next id and the time now. The entry carries the data hash as its Merkle root and the latest entry's hash of the entity as its previous hash |
| AuditChain.SameDataRejected | backend/app/blockchain.py:45 | the same data can never be recorded twice, for any entity or action |
| AuditChain.OtherEntitiesIgnored | backend/app/blockchain.py:48-58 | an entry of another entity changes neither the history nor the latest entry of this one |
| AuditChain.FirstBreak | backend/app/blockchain.py:124-130 | the first position from `i` on where an entry's previous hash does not match its predecessor's data hash, or the length when every link holds |
| AuditChain.VerifyHistory | backend/app/blockchain.py:100-132 | an empty history is valid with its fixed message; a single entry is valid exactly when it has no previous hash; a longer one is valid exactly when every link holds, and otherwise the message names the first broken link |
| AuditChain.VerifyChainMeans | backend/app/blockchain.py:100-132 | an entity with no stored entries verifies with "No entries to verify"; otherwise its chain is valid exactly when, in timestamp order, a lone entry names no predecessor and every later entry names the data hash of the one before it |
| AuditChain.ExtendKeepsValid | backend/app/blockchain.py:114-132 | adding an entry that links to the last one keeps a valid history valid |
| AuditChain.AppendKeepsChainValid | backend/app/blockchain.py:22-78 | recording a change later than all of an entity's entries keeps its chain valid |
| AuditChain.HistoryAppendLater | backend/app/blockchain.py:95 | an entry later than all of its entity's entries goes to the end of the history |
| AuditChain.IndexOfId | backend/app/blockchain.py:186 | the first position of an id in the history, or -1 exactly when it is absent |
| AuditChain.ExportProof | backend/app/blockchain.py:152-187 | fails with "Entry not found" exactly when no stored entry has the id. Otherwise it reports the history's length and the chain's validity, and the entry's 1-based position, which is 0 exactly when the entry is not in this entity's history |
| AuditChain.ForeignEntryPositionZero | backend/app/blockchain.py:162-186 | an entry that exists but belongs to another entity is exported with position 0 rather than an error |
| FinancialAutomation.YearNameInjective | backend/app/financial_automation.py:37 | different Jalali years get different financial-year names |
| FinancialAutomation.ToJalaliText | backend/app/financial_automation.py:8-19 | a missing date gives no text; a convertible date gives its Jalali `Y/MM/DD` text |
| FinancialAutomation.YearNamed | backend/app/financial_automation.py:36-38 | the first year with the name, or -1 exactly when none has it |
| FinancialAutomation.GetOrCreateYearAsWritten | backend/app/financial_automation.py:28-58 | as written, the existing year is returned when there is one, and the call fails exactly when the year must be created |
| FinancialAutomation.GetOrCreateYear | backend/app/financial_automation.py:33-58 | the year returned is named for the current Jalali year. An existing one is returned with nothing changed. Otherwise an open year running from 1 Farvardin to 29 Esfand is appended |
| FinancialAutomation.AsWrittenVersusIntended | backend/app/financial_automation.py:51-56 | the code as written agrees with the intended behaviour when the year exists, and fails where the intended behaviour creates it |
| FinancialAutomation.GetOrCreateYearIdempotent | backend/app/financial_automation.py:36-41 | a second call returns the same year and creates nothing more |
| FinancialAutomation.AutoDetermineContext | backend/app/financial_automation.py:61-98 | on the corrected get-or-create: `auto_created` holds exactly when no year of that name existed before. The context names the current year, which is open and has an end date when just created. The books change only then, and today's Jalali text is reported |
| FinancialAutomation.AutoDetermineContextAsWritten | backend/app/financial_automation.py:61-98 | as written, the call raises exactly when no year of the current name exists (the get-or-create fails), so a context it returns never has `auto_created` set; it names the current year and reports today's Jalali text |
| FinancialAutomation.ContextAsWrittenVersusIntended | backend/app/financial_automation.py:61-98 | when the year exists the context as written equals the corrected one and nothing is stored; when it does not, the code as written fails while the corrected one creates the year and reports `auto_created` |
| FinancialAutomation.QuarterMonth | backend/app/financial_automation.py:122 | the quarter's first month is 1, 4, 7 or 10, is at most two months before the given month, and lies in the same quarter |
| FinancialAutomation.SmartDateSuggestions | backend/app/financial_automation.py:101-126 | on the corrected get-or-create: today's text is reported; the month start is day 1 of this month; the quarter start is day 1 of the quarter's first month; the year bounds are those of the year named for the current Jalali year; the books change as GetOrCreateYear changes them |
| FinancialAutomation.SmartDateSuggestionsAsWritten | backend/app/financial_automation.py:101-126 | as written, the call raises exactly when no year of the current name exists; otherwise the month and quarter starts are day 1 of this month and of the quarter's first month |
| FinancialAutomation.SuggestionsAsWrittenVersusIntended | backend/app/financial_automation.py:101-126 | when the year exists the suggestions as written equal the corrected ones and nothing is stored; when it does not, the code as written fails |
| TtlCache.Set | backend/app/cache.py:10-12 | the key now holds the value with expiry now plus the time to live, and every other key is untouched |
| TtlCache.Get | backend/app/cache.py:15-26 | a value is returned exactly when the key is present and not expired, and it is the stored value. An expired key is removed, and nothing else changes |
| TtlCache.Invalidate | backend/app/cache.py:29-33 | the key is gone and every other key is untouched, whether or not it was present |
| TtlCache.GetAbsent | backend/app/cache.py:16-18 | reading an absent key yields nothing and changes nothing |
| TtlCache.SetThenGet | backend/app/cache.py:10-26 | a value is read back unchanged until its expiry instant, inclusive |
| TtlCache.GetAfterExpiry | backend/app/cache.py:20-25 | after its expiry a value is gone, and reading it evicts it |
| TtlCache.SetOverwrites | backend/app/cache.py:10-12 | the later of two writes to a key wins entirely |
| TtlCache.GetOtherKey | backend/app/cache.py:15-26 | reading one key does not affect what another key reads |
| TtlCache.InvalidateThenGet | backend/app/cache.py:29-33 | an invalidated key reads as absent |
| Normalizer.LatinDigit | backend/app/normalizer.py:21-27 | a Persian or Arabic-Indic digit becomes the ASCII digit of the same value; any other character is kept |
| Normalizer.DigitsToLatin | backend/app/normalizer.py:19-28 | same length; each Persian or Arabic-Indic digit becomes the ASCII digit of its value, and every other character is kept in place |
| Normalizer.DigitsToLatinLeavesLatin | backend/app/normalizer.py:19-28 | no Persian or Arabic-Indic digit survives |
| Normalizer.DigitsToLatinIdempotent | backend/app/normalizer.py:19-28 | text without such digits is unchanged, so converting twice is converting once |
| Normalizer.DigitsToLatinValue | backend/app/normalizer.py:19-28 | a numeral in any of the three digit sets keeps its value when converted |
| Normalizer.PersianLetter | backend/app/normalizer.py:7-16 | each of the eight Arabic letter forms maps to a Persian letter; everything else is kept; no Arabic form is produced |
| Normalizer.ReplaceArabicLetters | backend/app/normalizer.py:31-32 | same length; Arabic forms become Persian letters in place, other characters are kept, and no Arabic form remains |
| Normalizer.ReplaceArabicLettersIdempotent | backend/app/normalizer.py:31-32 | text without Arabic forms is unchanged, so replacing twice is replacing once |
| Normalizer.DigitsAndLettersCommute | backend/app/normalizer.py:46-47 | the digit and the letter rewriting can be applied in either order |
| Normalizer.RemoveTatweel | backend/app/normalizer.py:35-36 | exactly the tatweel, zero-width non-joiner, zero-width space and soft hyphen are removed |
| Normalizer.NormalizeSpaces | backend/app/normalizer.py:39-40 | the result has no leading, trailing or repeated whitespace and only plain spaces, and its non-space characters are the input's, in order |
| Normalizer.RewritingsClean | backend/app/normalizer.py:46-48 | after the three rewritings no foreign digit, Arabic form or invisible mark is left |
| Normalizer.NormalizeForSearch | backend/app/normalizer.py:43-50 | None gives the empty key; every key is space-normal, clean and free of upper-case ASCII |
| Normalizer.CleanFixed | backend/app/normalizer.py:46-48 | the rewritings leave clean text unchanged |
| Normalizer.KeyFixed | backend/app/normalizer.py:49-50 | spacing and lower-casing leave a search key unchanged |
| Normalizer.NormalizeForSearchIdempotent | backend/app/normalizer.py:43-50 | normalizing a search key again gives the same key |
| Normalizer.KeyIsOwnKey | backend/app/normalizer.py:43-50 | a space-normal, clean text free of upper-case ASCII normalizes to itself, so the normalization changes only what a key may not hold |
| Normalizer.SpellingDoesNotMatter | backend/app/normalizer.py:43-50 | Persian and Latin digit spellings, and Arabic and Persian letter forms, give the same search key |
| ReportQuery.DigitFrom | backend/app/main.py:529 | the first decimal digit (in any script) at or after a position, or -1 exactly when there is none |
| ReportQuery.AmountDigits | backend/app/main.py:531 | removing the separators from an amount leaves only digits |
| ReportQuery.UnitScale | backend/app/main.py:540-544 | the unit multiplies by one million, one thousand or one |
| ReportQuery.Amount | backend/app/main.py:528-545 | there is a minimum amount exactly when the query holds a digit |
| ReportQuery.AmountOf | backend/app/main.py:529-545 | the first digit run, separators included, is read as a number and scaled by the unit that follows it |
| ReportQuery.AmountOfDigits | backend/app/main.py:529-545 | a plain digit run is read at its decimal value, scaled by its unit |
| ReportQuery.SpaceBeforeUnit | backend/app/main.py:529 | whitespace between the number and its unit is skipped |
| ReportQuery.ScalingUnits | backend/app/main.py:541-544 | "million" scales by 10^6 and "thousand" by 10^3 |
| ReportQuery.PlainUnits | backend/app/main.py:529-544 | "toman" and "rial" are recognised but do not scale |
| ReportQuery.SeparatorDeleted | backend/app/main.py:531 | a comma or a dot inside a number is deleted, not read as a decimal point |
| ReportQuery.SeparatorIgnored | backend/app/main.py:529-545 | `5,000` and `5.000` read as 5000 |
| ReportQuery.WeekRange | backend/app/main.py:547-552 | the week runs from this Monday at the current time of day for seven days less one second, and contains now |
| ReportQuery.MonthRange | backend/app/main.py:553-563 | the month starts on day 1 at midnight and contains now. Its end lies one month plus the current time of day, less one second, after the start |
| ReportQuery.MonthEndExactAtMidnight | backend/app/main.py:557-561 | the month end is the last second of the month exactly when now is midnight (the rollover keeps the time of day) |
| ReportQuery.LongKeywordsRedundant | backend/app/main.py:547-553 | the long keywords "this week" and "current month" contain the short ones, so the short test decides alone |
| ReportQuery.DateRange | backend/app/main.py:546-563 | a date range is set exactly when "month" or "week" occurs, and it contains now |
| ReportQuery.NameAt | backend/app/main.py:565-571 | a name is captured only right after the keyword, and it has no surrounding whitespace |
| ReportQuery.Capture | backend/app/main.py:565-567 | a captured name is stripped |
| ReportQuery.FirstName | backend/app/main.py:565-569 | a found name is the capture at some position, and none is found exactly when no position captures |
| ReportQuery.FirstNameLeftmost | backend/app/main.py:565-569 | the search binds the leftmost match: when the pattern first matches at `k`, the name is the capture at `k` |
| ReportQuery.PartyName | backend/app/main.py:564-571 | the name is stripped, and the Persian keyword wins over `for` |
| ReportQuery.PartyAfterKeyword | backend/app/main.py:565-567 | "for" in Persian followed by a name yields exactly that name |
| ReportQuery.InvoiceTypeOf | backend/app/main.py:572-576 | the type is purchase exactly when a purchase word occurs, and sale exactly when a sale word occurs and no purchase word does |
| ReportQuery.ParseQuery | backend/app/main.py:522-577 | the amount is set exactly when there is a digit. A range is set, with both ends, exactly when "month" or "week" occurs, and it contains now. The month wins over the week, and the type follows InvoiceTypeOf |
| ReportQuery.Matches | backend/app/main.py:593-608 | no more matches than invoices; every match is a listed invoice that no parsed filter excludes, and every listed invoice no filter excludes is a match (the order is stated by MatchesInOrder) |
| ReportQuery.Newest | backend/app/crud.py:288-294 | the first `limit` invoices in descending id order |
| ReportQuery.ReportsQuery | backend/app/main.py:581-609 | an empty query is rejected; otherwise at most 500 invoices are returned, each stored and passing every filter, and every one of the 500 newest invoices that passes every filter is returned; the result is the newest 500 filtered in the order `get_invoices` lists them |
| ReportQuery.FiltersOnlyNarrow | backend/app/main.py:593-607 | each parsed filter can only exclude more: clearing any one never excludes a kept invoice. An invoice without a party name passes the party filter, and a zero minimum amount filters nothing |
| ReportQuery.MatchesAppend | backend/app/main.py:593-608 | filtering a concatenation filters each part and concatenates the results |
| ReportQuery.MatchesInOrder | backend/app/main.py:593-608 | the matches are exactly the non-excluded invoices, each once, in their listed order: they equal the front-to-back filter of the loop |
| ReportQuery.NoFiltersKeepAll | backend/app/main.py:593-608 | with no filters every invoice matches |
| ReportQuery.ZeroAmountIgnored | backend/app/main.py:604-606 | a minimum amount of 0 is falsy and filters nothing |
| ReportQuery.MatchesIdempotent | backend/app/main.py:593-608 | filtering twice is filtering once |
| ReportQuery.TwoDigits | backend/app/main.py:177 | `:02d` of a number below 100 is two ASCII digits that read back as it |
| ReportQuery.OffsetText | backend/app/main.py:172-177 | the offset text is six characters, a sign, two digits, a colon and two digits, with `+` exactly for non-negative offsets |
| ReportQuery.OffsetRoundTrip | backend/app/main.py:172-177 | the text reads back as the sign and the offset's magnitude in whole minutes |
| AuditAnalyzer.Translate | backend/app/ai_analyzer.py:22-23 | a Persian digit becomes the ASCII digit of its value, the Persian decimal and thousands separators become `.` and `,`, and every other character is kept; no Persian digit or separator is left, and digits stay digits |
| AuditAnalyzer.TranslateAll | backend/app/ai_analyzer.py:22-23 | the translation is applied to each character in place |
| AuditAnalyzer.MatchAt | backend/app/ai_analyzer.py:24 | a match of `\d[\d,.\s]{0,20}\d` starting at a position spans 2 to 22 characters of digits, separators and whitespace, starting and ending with a digit |
| AuditAnalyzer.MatchAtLongest | backend/app/ai_analyzer.py:24 | the match taken at a position is the longest span there that fits the pattern, and there is no match exactly when no span fits |
| AuditAnalyzer.FindAll | backend/app/ai_analyzer.py:24 | `findall` returns non-overlapping spans, left to right, each starting and ending on a digit and at most 22 characters long |
| AuditAnalyzer.FindAllLeftmost | backend/app/ai_analyzer.py:24 | the spans are the leftmost non-overlapping matches: each is the longest match at its start, and no match starts before the first span, between two spans or after the last |
| AuditAnalyzer.LeftmostUnique | backend/app/ai_analyzer.py:24 | only one list of spans is a leftmost scan of a text, so `findall` is exactly that scan |
| AuditAnalyzer.AsciiDigitsOf | backend/app/ai_analyzer.py:27 | removing every non-ASCII-digit leaves only ASCII digits |
| AuditAnalyzer.ExtractNumbers | backend/app/ai_analyzer.py:19-32 | empty text yields no numbers |
| AuditAnalyzer.FewerThanTwoDigits | backend/app/ai_analyzer.py:24 | a text with fewer than two digits yields no numbers, since a match needs two |
| AuditAnalyzer.OneNumber | backend/app/ai_analyzer.py:24-31 | a grouped numeral such as `12,500,000` of at most 22 characters is read as the one number its digits spell |
| AuditAnalyzer.TranslationFirst | backend/app/ai_analyzer.py:22-24 | translating the text first changes nothing, so Persian and Latin digits are read alike |
| AuditAnalyzer.ArabicIndicSkipped | backend/app/ai_analyzer.py:22-31 | Arabic-Indic digits match `\d` but are removed by `[^0-9]`, so a numeral written in them yields no number |
| AuditAnalyzer.DeletingUsers | backend/app/ai_analyzer.py:59-66 | the users with at least one deletion in the logs, each once (a log without a user counts as user 0) |
| AuditAnalyzer.SuspectsAmong | backend/app/ai_analyzer.py:74-86 | among the given users, exactly those with three or more deletions are reported, with their counts |
| AuditAnalyzer.Suspects | backend/app/ai_analyzer.py:59-86 | every reported user deleted at least three times, with the count reported, and every such user is reported |
| AuditAnalyzer.LargeValues | backend/app/ai_analyzer.py:70-72 | one finding for each number at or above 10,000,000, in the order of the numbers and with repeats kept, each with the log's id, user and detail |
| AuditAnalyzer.LargeEditsOf | backend/app/ai_analyzer.py:68-72 | a log that is not an edit reports nothing; an edit reports one finding for each of its extracted numbers at or above 10,000,000, in order and with repeats kept |
| AuditAnalyzer.LargeEdits | backend/app/ai_analyzer.py:61-72 | every reported large edit is at or above the threshold |
| AuditAnalyzer.LargeEditsSound | backend/app/ai_analyzer.py:61-72 | every reported large edit comes from one of the logs |
| AuditAnalyzer.LargeEditsComplete | backend/app/ai_analyzer.py:61-72 | every large edit of every log is reported |
| AuditAnalyzer.NoNumberNoLargeEdit | backend/app/ai_analyzer.py:68-72 | a detail with fewer than two digits never reports a large edit |
| AuditAnalyzer.PeriodOf | backend/app/ai_analyzer.py:39-43 | the end defaults to now and the start to one day before the end |
| AuditAnalyzer.LogsIn | backend/app/ai_analyzer.py:57-58 | exactly the logs created within the period, ends included |
| AuditAnalyzer.Average | backend/app/ai_analyzer.py:50-52 | the floored mean of the final invoices' totals, and 0 when there are none |
| AuditAnalyzer.AnalyzePeriod | backend/app/ai_analyzer.py:35-106 | over the period's window: the invoice and payment counts of the window, the final-invoice count (at most the invoice count), their floored mean total, the suspects with exactly their deletion counts in the window, and the large edits of exactly the window's logs |
| AuditAnalyzer.FinalsAmongInvoices | backend/app/ai_analyzer.py:46-49 | the period's final invoices are no more than its invoices, which are no more than all invoices |
| AuditAnalyzer.PaymentsAtMost | backend/app/ai_analyzer.py:54-55 | the period's payments are no more than all payments |
| AuditAnalyzer.DeletesOfAppend | backend/app/ai_analyzer.py:61-66 | one more log adds one deletion to its user exactly when it is a deletion |
| AuditAnalyzer.ThreeDeletionsSuspect | backend/app/ai_analyzer.py:64-86 | any three deletions by a user in the period make the user a suspect |
| Assistant.PartyAt | backend/app/ai_assistant.py:16-19 | a party name is captured only right after the "for" keyword and a space, and is stripped |
| Assistant.FirstParty | backend/app/ai_assistant.py:16 | a found party is the capture at some position, and none is found exactly when no position captures |
| Assistant.FirstPartyLeftmost | backend/app/ai_assistant.py:16 | the search binds the leftmost match: when the party pattern first matches at `k`, the party is the capture at `k` |
| Assistant.ItemsAt | backend/app/ai_assistant.py:17-21 | a quantity and product are captured only after the "with" keyword, and the product is stripped |
| Assistant.FirstItems | backend/app/ai_assistant.py:17 | found items are the capture at some position, and none are found exactly when no position captures |
| Assistant.FirstItemsLeftmost | backend/app/ai_assistant.py:17 | the search binds the leftmost match: when the items pattern first matches at `k`, the quantity and product are the capture at `k` |
| Wrappers.FirstSomeLeftmost | backend/app/ai_assistant.py:16-17 | a left-to-right scan gives the value at the first position where one is present |
| Assistant.ParseCreateInvoice | backend/app/ai_assistant.py:12-23 | a command is recognised exactly when "invoice" and "sale" occur and both a party and items are captured; it holds the party and the quantity and product of those searches, stripped |
| Assistant.ItemsAfterKeyword | backend/app/ai_assistant.py:17-21 | "with", a quantity and a product read back as that quantity and product |
| Assistant.PartyRunsOn | backend/app/ai_assistant.py:16-19 | "for" followed by a name reads back the name, however much of the command follows |
| Assistant.ReceiptsKeywords | backend/app/ai_assistant.py:26-31 | the test for "received" already covers the longer "receipts", so the middle keyword is redundant |
| Assistant.CommandInvoiceTotalZero | backend/app/ai_assistant.py:22-75 | an invoice created by the assistant is a draft sale with total 0, made out to the found person or else the parsed party, with one line of the parsed product and quantity at price 0 |
| Assistant.Latest | backend/app/crud.py:403-408 | as many payments as the limit allows (all when there are fewer), and they are the newest ones, those with the highest ids |
| Assistant.ReceiptsOnAppend | backend/app/ai_assistant.py:88-91 | today's receipts of two lists of payments add up |
| Assistant.ReceiptsOnOne | backend/app/ai_assistant.py:88-91 | one payment adds its amount exactly when it is incoming and its server time falls on the day, and nothing otherwise |
| Assistant.OtherPaymentsIgnored | backend/app/ai_assistant.py:90 | payments out, and payments of other days, contribute nothing |
| Assistant.RunAssistant | backend/app/ai_assistant.py:34-97 | when disabled, it refuses and changes nothing. Otherwise a recognised invoice command creates one zero-total sale invoice. The invoice gets the next id, the found person's name or else the parsed party, and one line of the parsed product and quantity at price 0. A receipts question reports today's incoming payments among the newest 1000 and changes nothing. Help is given exactly when neither is recognised |
| PersianNumbers.ToPersianDigits | frontend/src/utils/num.ts:102-114 | same length; each ASCII digit becomes the Persian digit of its value in place, every other character is kept, and the loop agrees with the frontend normalizer's WebNormalizer.DigitsToPersian |
| PersianNumbers.Grouped | frontend/src/utils/num.ts:21 | the integer part with a comma before every third digit from the right: removing the commas gives the digits back, and a comma sits exactly at the positions a multiple of four from the end |
| PersianNumbers.SplitDot | frontend/src/utils/num.ts:18 | splitting at the first dot: the parts rejoin with the dot to the input, and the integer part has no dot |
| PersianNumbers.FormatSpaced | frontend/src/utils/num.ts:11-25 | text that is not a number once non-numeric characters are removed is only given Persian digits |
| PersianNumbers.IntegerReadBack | frontend/src/utils/num.ts:11-25 | the formatted text of an integer, read back in Latin digits without commas, is the integer's decimal text |
| PersianNumbers.IntLatin | frontend/src/utils/num.ts:13-23 | an integer's text survives the character filter, is a number, and groups to Latin text whose digits are the integer's |
| PersianNumbers.PersianAndBack | frontend/src/utils/num.ts:23 | Persian digits convert back to the Latin text they came from |
| PersianNumbers.TensWords | frontend/src/utils/num.ts:41-46 | the words for the last two digits are valid, empty exactly for 00, add up to the two-digit value, and are a single teen word when the tens digit is 1 |
| PersianNumbers.ChunkWords | frontend/src/utils/num.ts:34-48 | the words of a number below 1000 are valid, empty exactly for 0, and add up to the number, ending in a teen word (with no unit word) when the tens digit is 1 |
| PersianNumbers.ThreeDigitToWords | frontend/src/utils/num.ts:34-48 | 0 spells as the empty text and every other chunk as non-empty text |
| PersianNumbers.Groups | frontend/src/utils/num.ts:53-64 | the chunks are collected with strictly descending scales, each non-zero and below 1000 |
| PersianNumbers.Push | frontend/src/utils/num.ts:57-61 | a chunk is put in front only when it is non-zero, keeping the scales descending |
| PersianNumbers.PushValue | frontend/src/utils/num.ts:56-61 | putting a chunk in front adds exactly the chunk times its scale |
| PersianNumbers.WordGroups | frontend/src/utils/num.ts:53-64 | the groups are descending and add up to the number's low five chunks |
| PersianNumbers.GroupsReadBack | frontend/src/utils/num.ts:55-64 | the loop from any scale adds up to what was collected plus the remaining low chunks at that scale |
| PersianNumbers.WordsReadBack | frontend/src/utils/num.ts:50-66 | below 10^15 the groups that are spelled add up to the number, so nothing is lost or doubled |
| PersianNumbers.NumberToWords | frontend/src/utils/num.ts:50-66 | zero is spelled "sefr" and a negative number is "manfi" followed by the spelling of its magnitude |
| PersianNumbers.HighDigitsDropped | frontend/src/utils/num.ts:55 | the loop stops after five scales, so multiples of 10^15 added to a positive number do not change its words |
| PersianNumbers.WholeQuadrillionsVanish | frontend/src/utils/num.ts:55-65 | a positive multiple of 10^15 spells as the empty text |
| PersianNumbers.FormatCurrency | frontend/src/utils/num.ts:74-83 | the numeric part is the grouped Persian text of the value. The words are the value's spelling when asked for and empty otherwise. The full text is the numeric part, a space and the unit; when words are asked for it continues with " (", the words, a space, the unit and ")" |
| PersianNumbers.CurrencyReadBack | frontend/src/utils/num.ts:74-83 | the full currency text opens with the numeric part, and the numeric part read back in ASCII without its separators is the value's decimal text |
| JalaliInput.JalaliDigits | frontend/src/utils/date.ts:35-48 | the digit normalisation keeps the length |
| JalaliInput.JalaliDigitsAreLatin | frontend/src/utils/date.ts:35-48 | the date input's digit normalisation is the same map as the backend normalizer's Persian and Arabic-Indic to ASCII digit map |
| JalaliInput.DigitRuns | frontend/src/utils/date.ts:56 | splitting at non-digit runs and dropping empty parts yields only non-empty runs of ASCII digits |
| JalaliInput.DigitRunsKeepDigits | frontend/src/utils/date.ts:56 | the runs, joined, are exactly the digits of the text in order |
| JalaliInput.NoDigitNoRuns | frontend/src/utils/date.ts:56 | text without digits has no parts |
| JalaliInput.IndexOfLengthFour | frontend/src/utils/date.ts:65 | the index of the first part of length four, or -1 exactly when there is none |
| JalaliInput.Fields | frontend/src/utils/date.ts:56-105 | there are fields exactly when there is at least one digit run, and the year is a parsed number or the current year |
| JalaliInput.AcceptedDate | frontend/src/utils/date.ts:107-118 | a result exactly when the month is 1..12, the day 1..31 and the calendar conversion succeeds; the result carries the converted date and the year/MM/DD text |
| JalaliInput.ParseJalaliInput | frontend/src/utils/date.ts:52-119 | empty input gives no result; any result comes from the fields of the trimmed, digit-normalised input, with month and day in range and the converted date |
| JalaliInput.YearFirst | frontend/src/utils/date.ts:63-69 | three numbers separated by separators, where neither the second nor the third is four digits long, read as year, month, day, whatever the length of the first |
| JalaliInput.DayFirst | frontend/src/utils/date.ts:70-74 | three runs with the only four-digit run last read as day, month, year |
| JalaliInput.MonthDay | frontend/src/utils/date.ts:81-85 | two runs read as month and day of the current year |
| JalaliInput.Compact | frontend/src/utils/date.ts:89-92 | eight digits parse the same as the slashed year/month/day text made of them |
| JalaliInput.YearOnly | frontend/src/utils/date.ts:93-97 | four digits read as the first of Farvardin of that year |
| JalaliInput.DayOnly | frontend/src/utils/date.ts:98-104 | any other single run reads as a day of the current month and year |
| JalaliInput.NoDigitNoDate | frontend/src/utils/date.ts:56-107 | input without any decimal digit gives no result |
| JalaliInput.PadTwo | frontend/src/utils/date.ts:114 | padding a number below 100 to two digits gives two ASCII digits that read back as the number |
| JalaliInput.ReadBack | frontend/src/utils/date.ts:52-119 | the year/MM/DD text the parser emits parses back to the same fields |
| JalaliInput.ResultStable | frontend/src/utils/date.ts:112-118 | feeding a result's text back in gives the same result |
| JalaliInput.PersianDigitsAlike | frontend/src/utils/date.ts:35-54 | writing the digits of the input in Persian does not change the result |
| SidebarOrder.Ids | frontend/src/components/layout/SidebarMenu.tsx:36 | the ids of the modules, position by position |
| SidebarOrder.Keep | frontend/src/components/layout/SidebarMenu.tsx:37 | filtering keeps exactly the members that pass, never lengthens the list and keeps it free of repeats |
| SidebarOrder.KeepAppend | frontend/src/components/layout/SidebarMenu.tsx:37 | filtering keeps the input order: filtering a concatenation is the concatenation of the filtered parts |
| SidebarOrder.KeepAgree | frontend/src/components/layout/SidebarMenu.tsx:37 | filters that agree on the members of a list keep the same sublist |
| SidebarOrder.Merge | frontend/src/components/layout/SidebarMenu.tsx:37-54 | the merged order holds exactly the current module ids |
| SidebarOrder.MergeRestoresSaved | frontend/src/components/layout/SidebarMenu.tsx:54-55 | when every saved id is still a module id, the merged order begins with the saved order, unchanged |
| SidebarOrder.MergeNewModuleLast | frontend/src/components/layout/SidebarMenu.tsx:54-55 | a module id that was not saved is appended after the others, and the rest of the order stays as it was |
| SidebarOrder.MergeDropsStale | frontend/src/components/layout/SidebarMenu.tsx:55 | a saved id that is no longer a module id is dropped and nothing else moves |
| SidebarOrder.MergePermutes | frontend/src/components/layout/SidebarMenu.tsx:37-54 | with no repeats in the saved order and the ids, the merged order is a permutation of the ids |
| SidebarOrder.MergeNothing | frontend/src/components/layout/SidebarMenu.tsx:46-54 | with nothing saved, the order is the modules' own order |
| SidebarOrder.MergeStable | frontend/src/components/layout/SidebarMenu.tsx:37-54 | merging an already merged order again changes nothing |
| SidebarOrder.SavedOrder | frontend/src/components/layout/SidebarMenu.tsx:33-51 | a non-empty server order wins; with no server order and no stored text, nothing is saved; with no server order and non-empty stored text, the saved order is the parsed list, or nothing when the text does not parse |
| SidebarOrder.LoadOrder | frontend/src/components/layout/SidebarMenu.tsx:31-56 | the loaded order holds exactly the current module ids, and when every saved id is still a module id it begins with the saved order, unchanged |
| SidebarOrder.NoSavedOrder | frontend/src/components/layout/SidebarMenu.tsx:45-54 | with no server order and no readable stored order, the modules keep their own order |
| SidebarOrder.PositionOf | frontend/src/components/layout/SidebarMenu.tsx:104-105 | the first position of the id, or -1 exactly when it is absent |
| SidebarOrder.RemoveAt | frontend/src/components/layout/SidebarMenu.tsx:107 | removing one element removes exactly that element |
| SidebarOrder.InsertAt | frontend/src/components/layout/SidebarMenu.tsx:108 | inserting puts the element at the position and adds exactly that element |
| SidebarOrder.Drop | frontend/src/components/layout/SidebarMenu.tsx:99-110 | an empty source, a source dropped on itself or an unknown id leaves the order as it was; otherwise the source lands where the target was and the result is a permutation of the order |
| SidebarOrder.DropMovesOnlySource | frontend/src/components/layout/SidebarMenu.tsx:104-108 | taking the source out of the new order gives the old order without the source, so nothing else moves relative to the rest |
| SidebarOrder.RemoveInserted | frontend/src/components/layout/SidebarMenu.tsx:107-108 | removing what was just inserted at a position gives the list back |
| SidebarOrder.DropKeepsDistinct | frontend/src/components/layout/SidebarMenu.tsx:99-110 | a drop never introduces a repeated id |
| SidebarOrder.SettingsChildren | frontend/src/components/layout/SidebarMenu.tsx:81-83 | exactly the modules whose id mentions system, settings, user, security, integration or auth, ignoring case |
| SidebarOrder.SettingsIds | frontend/src/components/layout/SidebarMenu.tsx:81-83 | an id is among the settings children exactly when it is a module id of the settings kind |
| SidebarOrder.Lookup | frontend/src/components/layout/SidebarMenu.tsx:75-79 | the map has an entry for exactly the module ids, and the entry is a module with that id |
| SidebarOrder.LookupLast | frontend/src/components/layout/SidebarMenu.tsx:75-79 | when an id is defined more than once, the map holds the last module with that id |
| SidebarOrder.Definitions | frontend/src/components/layout/SidebarMenu.tsx:86 | looking ids up yields only known modules |
| SidebarOrder.NonSettings | frontend/src/components/layout/SidebarMenu.tsx:85-87 | the menu shows known modules that are not settings, in the stored order of their ids |
| SidebarOrder.ShownSteps | frontend/src/components/layout/SidebarMenu.tsx:85-87 | filtering out settings ids and then looking up the rest gives non-settings modules in order |
| SidebarOrder.ShownMembers | frontend/src/components/layout/SidebarMenu.tsx:85-87 | an order without repeats shows each id at most once, and shows exactly the ids that are known modules and not settings |
| SidebarOrder.LoadedShowsEachOnce | frontend/src/components/layout/SidebarMenu.tsx:31-87 | after loading, the menu lists every non-settings module exactly once |
| WebNormalizer.DigitsToPersian | frontend/src/utils/normalizer.ts:36-44 | same length; each ASCII digit becomes the Persian digit of the same value in place and every other character is kept |
| WebNormalizer.DigitsRoundTrip | frontend/src/utils/normalizer.ts:24-44 | converting to Persian digits and back to Latin loses nothing, and gives back any text whose digits were already Latin |
| WebNormalizer.NoAsciiDigitsLeft | frontend/src/utils/normalizer.ts:24-44 | after Latin-then-Persian conversion no ASCII digit is left |
| WebNormalizer.NormalizeLetters | frontend/src/utils/normalizer.ts:46-69 | no Arabic letter variant, diacritic or invisible mark survives; every other character of the input survives; every character of the output is from the input or a Persian replacement letter |
| WebNormalizer.NormalizeLettersInOrder | frontend/src/utils/normalizer.ts:46-69 | the result is each input character in turn, replaced by its Persian letter, with diacritics and invisible marks dropped: order and repeats are kept |
| WebNormalizer.NormalizeWhitespace | frontend/src/utils/normalizer.ts:71-73 | the result has no leading, trailing or repeated whitespace and only plain spaces, and its non-space characters are the input's, in order |
| WebNormalizer.NormalizeForSearch | frontend/src/utils/normalizer.ts:75-84 | empty input gives the empty key, and every key is clean: Latin digits, Persian letters, no marks, single spaces, lower case |
| WebNormalizer.RewritingsClean | frontend/src/utils/normalizer.ts:78-79 | digit conversion followed by letter normalisation always leaves clean text |
| WebNormalizer.CleanFixed | frontend/src/utils/normalizer.ts:78-79 | digit and letter normalisation leave clean text unchanged |
| WebNormalizer.KeyFixed | frontend/src/utils/normalizer.ts:80-82 | whitespace normalisation and lower-casing leave a search key unchanged |
| WebNormalizer.NormalizeForSearchIdempotent | frontend/src/utils/normalizer.ts:75-84 | normalising a search key again changes nothing |
| WebNormalizer.KeyIsOwnKey | frontend/src/utils/normalizer.ts:75-84 | a clean, single-spaced, lower-case text normalises to itself, so the normalisation changes only what a key may not hold |
| WebNormalizer.ContainsNormalized | frontend/src/utils/normalizer.ts:90-94 | true exactly when the needle's key occurs in the haystack's key |
| WebNormalizer.EqualsImpliesContains | frontend/src/utils/normalizer.ts:86-94 | texts that are equal after normalisation contain each other, and every text contains the empty needle |
| WebNormalizer.PersianDigitsSearchAlike | frontend/src/utils/normalizer.ts:36-88 | a text and its Persian-digit form are equal for search |
| WebNormalizer.Prepared | frontend/src/utils/normalizer.ts:98-100 | the digit conversion and the trim never bring a '+' to a position after the first |
| WebNormalizer.DropInternational | frontend/src/utils/normalizer.ts:111 | a leading "00" is removed and nothing else changes |
| WebNormalizer.CountryCode | frontend/src/utils/normalizer.ts:115-117 | a number of at least 12 digits starting "989" has its "98" replaced by "0"; any other number is unchanged |
| WebNormalizer.LeadingZero | frontend/src/utils/normalizer.ts:119-121 | the number changes exactly when it has ten digits and starts with 9, and then gains a leading 0 |
| WebNormalizer.LateCountryCodeDead | frontend/src/utils/normalizer.ts:123-125 | the third rule never changes anything the first two have produced |
| WebNormalizer.PhoneRules | frontend/src/utils/normalizer.ts:109-125 | the rewriting rules only drop characters or add '0' |
| WebNormalizer.Accept | frontend/src/utils/normalizer.ts:128-132 | a number is returned exactly when it has at least seven characters, and it is returned unchanged |
| WebNormalizer.NormalizePhoneAsWritten | frontend/src/utils/normalizer.ts:96-133 | empty input gives nothing, and any result has at least seven characters, each a digit or '+' |
| WebNormalizer.NormalizePhone | frontend/src/utils/normalizer.ts:96-133 | empty input gives nothing, and any result has at least seven characters, all ASCII digits |
| WebNormalizer.RulesIdle | frontend/src/utils/normalizer.ts:109-125 | a number that does not start with '+', '0' or '9' passes the rules unchanged |
| WebNormalizer.PreparedDialable | frontend/src/utils/normalizer.ts:98-100 | text made of digits and '+' passes the preparation unchanged |
| WebNormalizer.InnerPlusKept | frontend/src/utils/normalizer.ts:104-109 | as written, a '+' inside a number of at least seven characters is returned in the result |
| WebNormalizer.InnerPlusDropped | frontend/src/utils/normalizer.ts:100-104 | with the filter the comment describes, the same input returns its digits alone |
| WebNormalizer.FiltersAgree | frontend/src/utils/normalizer.ts:100-109 | when '+' can only lead, keeping digits and '+' and then dropping the leading '+' gives the same rewriting as keeping digits only |
| WebNormalizer.AsWrittenAgrees | frontend/src/utils/normalizer.ts:96-133 | when '+' can only lead, the code as written and the corrected filter give the same result |
| WebNormalizer.SamePhoneSymmetric | frontend/src/utils/normalizer.ts:135-140 | phone equality is symmetric |
| WebNormalizer.SamePhoneEquivalence | frontend/src/utils/normalizer.ts:135-140 | a number that does not normalise is the same phone as nothing, not even itself; a normalisable number is the same as itself; two numbers the same as a third are the same as each other |
| WebNormalizer.MobileRules | frontend/src/utils/normalizer.ts:109-125 | the local, bare, country-code and international spellings of a mobile number all rewrite to the 11-digit form starting "09" |
| WebNormalizer.LocalForm | frontend/src/utils/normalizer.ts:115-125 | a number already in the "09" form is left alone |
| WebNormalizer.BareForm | frontend/src/utils/normalizer.ts:119-121 | ten digits starting with 9 gain the leading 0 |
| WebNormalizer.CountryForm | frontend/src/utils/normalizer.ts:115-117 | "989" followed by nine digits becomes "09" followed by them |
| WebNormalizer.InternationalForm | frontend/src/utils/normalizer.ts:111-117 | "00989" followed by nine digits becomes "09" followed by them |
| WebNormalizer.MobileForms | frontend/src/utils/normalizer.ts:96-133 | each of those spellings, with or without a leading '+', normalises to the "09" form |
| WebNormalizer.PhoneAccepted | frontend/src/utils/normalizer.ts:128-131 | a non-empty input whose rewritten digits have at least seven characters is returned as those digits |
| WebNormalizer.MobileFormsSame | frontend/src/utils/normalizer.ts:135-140 | different spellings of one mobile number are the same phone |
| Text.NatToStringRoundTrip | backend/app/crud.py:336 | reading the decimal text of an id back gives the id |
| Text.NatToStringInjective | backend/app/crud.py:336 | different ids have different texts, so a ledger reference names one document |
| Text.ZeroPad | backend/app/crud.py:242 | the padded text has at least the width, ends with the original and is filled with '0' in front |
| Text.ZeroPadValue | backend/app/crud.py:242 | zero padding keeps the number the digits stand for |
| Text.LowerAscii | backend/app/normalizer.py:50 | lower-casing keeps the length and lowers each letter A-Z in place |
| Text.WithoutMembers | backend/app/normalizer.py:36 | removing a class of characters keeps exactly the other characters |
| Text.NormalizeSpacesSpec | backend/app/normalizer.py:39-40 | the result has only single plain spaces between words and none at either end, and its non-space characters are the input's, in order |
| Text.NormalFixed | backend/app/normalizer.py:39-40 | text already in that shape is unchanged |
| Text.NormalizeSpacesIdempotent | backend/app/normalizer.py:39-40 | normalising spaces twice is the same as once |
| Civil.NextMonth | backend/app/main.py:557-560 | the result is a month from 1 to 12 whose running month count (twelve per year) is exactly one more than the input's |
| Civil.MonthSpan | backend/app/main.py:555-561 | the first of the next month is exactly the month's length in days after the first of the month, so the month window ends one second before it |
| Civil.DateDigits | backend/app/crud.py:241 | the date part of an invoice number is ASCII digits, the year followed by four digits, eight in all for four-digit years |

## Left out

- The database session, HTTP routing, authentication, logging and the React
  rendering are not modelled. Tables are sequences and every operation
  returns the new state. A `commit` that fails is not modelled.
- The exceptions that `create_ledger_entry` (backend/app/crud.py:446-460)
  swallows are not modelled: posting a ledger line always succeeds.
- The search index the CRUD layer refreshes after a write is not modelled.
  It is an external service and does not affect the books.
- The SHA-256 hash of the audit chain is a parameter (`digest`). Its
  collision resistance is outside the model.
- Python's `str.lower()` and JavaScript's `toLowerCase()` are modelled on
  ASCII only. Persian letters have no case, and other scripts are outside
  the model.
- Python's `\w` is modelled as ASCII letters and digits, `_`, and the Arabic
  block where a pattern lists it. Letters of other scripts are not word
  characters here.
- The Jalali calendar conversions (`jdatetime`, `jalaali-js`) and the
  current Jalali year are parameters. Their arithmetic belongs to those
  libraries.
- The assistant's `datetime.now()` (local time) and the payments' UTC server
  times are both read on the one time line of the model. The difference
  between local time and UTC is not modelled.
- The people search and creation of the assistant (`crud.get_persons`,
  `crud.create_person`) are a parameter. They are outside the bookkeeping
  core.
- `_generate_invoice_number` and `_generate_payment_number` are not
  modelled. Nothing calls them; the numbers come from the date and the id.
- The `int(float(num))` fallback of the report query
  (backend/app/main.py:536-539) is not modelled. `num` is digits only by
  then, so `int(num)` cannot fail.
- `get_cache`'s `if not v` test (backend/app/cache.py:17) is modelled as "no
  entry". A stored pair is never falsy.
- The Farsi yeh entry of the frontend letter map
  (frontend/src/utils/normalizer.ts:17) is not modelled. The regular
  expression never selects that character.
- JavaScript's `Number` precision is not modelled. Numbers are unbounded
  integers, so `numberToWords` and `formatNumberFa` are modelled only on
  integers.
- `formatCurrencyFa`'s string input and its `NaN` fallback are left out.
  Amounts are integers in the model.
- A stored sidebar order that parses to something other than a list of
  strings is not modelled. The parser is a parameter returning a list or
  nothing.
- The effect that saves the sidebar order (SidebarMenu.tsx:62-73) is not
  modelled. It only writes the order out.
- AuditAnalyzer.ExtractNumbers: its contract states only the empty case.
  What the numbers are is stated by the lemmas `FirstMatchDigits`,
  `OneNumber` and `FewerThanTwoDigits`.
- Normalizer.RemoveTatweel: its contract states which characters remain,
  not that their order is kept.
- Reports.ReportPnl: its contract states the profit relation and the
  empty case. How finalizing moves sales and purchases is stated by
  `FinalizeInvoiceMovesPnl` and `CreateInvoiceKeepsPnl`.
- PersianNumbers.FormatSpaced: its contract states only the not-a-number
  path. The integer path is stated by `IntegerReadBack`; fractions are not
  stated.
- PersianNumbers.NumberToWords: values of 10^15 and more lose their high
  digits, because the loop stops after five scales. `HighDigitsDropped`
  and `WholeQuadrillionsVanish` state this; no words are claimed for such
  values.
- `patch_payment` (backend/app/main.py:495-502) hands a payment id to
  `update_invoice`, so it edits the invoice that has that id, not the
  payment. The model covers it through `Books.UpdateInvoice`; no separate
  payment update exists. The database's foreign-key handling of item rows
  when an invoice's id changes is not modelled either: the renamed invoice
  simply no longer owns the items.
- The report query compares the naive `datetime.utcnow()` bounds
  (backend/app/main.py:548-554) with `server_time`, a timezone-aware column
  (backend/app/models.py:85). Where the database hands back aware values,
  as PostgreSQL does, that comparison raises `TypeError` in Python. The
  model reads both on one time line, as with a database that returns naive
  values.
- Python's `\d` matches every Unicode decimal digit. The model accepts the
  ASCII, Persian and Arabic-Indic digits only, the ones the application
  handles elsewhere.
- The year-end query (backend/app/crud.py:643) has no `ORDER BY`, so the
  order of the balance dictionary is whatever order the database returns.
  The model fixes it to ledger order.
- Books.InvoicePrefix: `invoice_type[:1].upper()` (backend/app/crud.py:242)
  is Python's full Unicode upper-casing, which can turn one character into
  several ('ß' gives "SS"). The model upper-cases ASCII letters only and
  always yields one character. `DocNumber` and `DocNumberRoundTrip` take that
  one-character prefix, so a longer prefix is outside what they state.
- Books.CreateInvoice: the new id is the table's length plus one. PostgreSQL
  takes it from the id sequence instead, and the two agree while no row was
  deleted and no id was changed. After `UpdateInvoice` moved an invoice to a
  later id, the database would reject an insert that reused that id. The
  model does not check for the clash and can then hold two invoices with one
  id, and `Books.Wf` no longer holds.
- Reports.MethodMatches: `ilike` is case-insensitive only for ASCII letters
  here, as with the other case mappings. PostgreSQL's `LIKE` also takes a
  backslash as its escape character by default; the model has no escape
  character, as with SQLite's `LIKE`.
- AuditChain.History and AuditChain.LatestEntry: the source orders by
  timestamp alone (backend/app/blockchain.py:54-55 and 95). Entries with
  equal timestamps come back in whatever order the database returns. The
  model breaks such ties by insertion order.
- AuditAnalyzer.AnalyzePeriod: a suspect is a user id and a deletion
  count. The source also looks up each suspect's username
  (backend/app/ai_analyzer.py:76-85). That is a database read, and the
  model leaves it out.

## Findings

| source | as written | input that shows it | evidently intended | confidence | as-written member | corrected member |
|---|---|---|---|---|---|---|
| backend/app/financial_automation.py:51-56 | `crud.create_financial_year` is called with `session=db`, but its parameter is named `db` (backend/app/crud.py:607), so the call raises `TypeError` | any day whose Jalali year has no financial year yet | create and return the year 1 Farvardin .. 29 Esfand | not executed | FinancialAutomation.GetOrCreateYearAsWritten, with FinancialAutomation.AsWrittenVersusIntended showing the failure; its callers FinancialAutomation.AutoDetermineContextAsWritten and FinancialAutomation.SmartDateSuggestionsAsWritten fail with it | FinancialAutomation.GetOrCreateYear, used by FinancialAutomation.AutoDetermineContext and FinancialAutomation.SmartDateSuggestions |
| frontend/src/utils/normalizer.ts:104-109 | the filter keeps every '+', and only a leading one is removed later, so an inner '+' stays in the "digits only" result | "1+234567" gives "1+234567" | drop every non-digit after the leading '+', giving "1234567" | not executed | WebNormalizer.NormalizePhoneAsWritten, with WebNormalizer.InnerPlusKept showing the kept '+' | WebNormalizer.NormalizePhone, with WebNormalizer.InnerPlusDropped |

=== FILE: assistant.dfy ===
/** The rule-based assistant: a command that creates a sale invoice, a
    question about today's receipts, and a help reply for everything else.
    The person search and creation behind the command are a parameter, and
    the invoice is created through the bookkeeping model. */
module Assistant {
  import opened Wrappers
  import Text
  import Civil
  import opened Books
  import ReportQuery

  // ---------------------------------------------------------------------
  // _parse_create_invoice
  // ---------------------------------------------------------------------

  /** `[؀-ۿ\w\s\-]`: the characters a party name or a product may hold. */
  predicate InName(c: char) {
    ReportQuery.InPersianName(c) || c == '-'
  }

  /** `برای\s+(name+)` at position `i`: the party, stripped. */
  function PartyAt(t: string, i: nat): (r: Option<string>)
    ensures r.Some? ==> i + 5 <= |t| && t[i] == 'ب' && t[i + 1] == 'ر' && t[i + 2] == 'ا' && t[i + 3] == 'ی'
    ensures r.Some? ==> ReportQuery.Stripped(r.value)
  {
    if i + 4 < |t| && t[i] == 'ب' && t[i + 1] == 'ر' && t[i + 2] == 'ا' && t[i + 3] == 'ی'
       && Text.IsPythonSpace(t[i + 4])
    then ReportQuery.Capture(t, i + 4, InName)
    else None
  }

  /** The party pattern tried at every position of `t`. */
  function PartySearch(t: string): nat -> Option<string> {
    (j: nat) => PartyAt(t, j)
  }

  /** `re.search` for the party: the leftmost position where it matches. */
  function FirstParty(t: string, i: nat): (r: Option<string>)
    ensures r.Some? ==> exists k :: i <= k < |t| && PartyAt(t, k) == r
    ensures r.None? ==> forall k :: i <= k < |t| ==> PartyAt(t, k).None?
  {
    assert forall k :: PartySearch(t)(k) == PartyAt(t, k);
    FirstSome(PartySearch(t), i, |t|)
  }

  /** The search binds the leftmost match: when the party first matches at
      `k`, the search from `i` gives the capture at `k`. */
  lemma FirstPartyLeftmost(t: string, i: nat, k: nat)
    requires i <= k < |t| && PartyAt(t, k).Some?
    requires forall j :: i <= j < k ==> PartyAt(t, j).None?
    ensures FirstParty(t, i) == PartyAt(t, k)
  {
    FirstSomeLeftmost(PartySearch(t), i, k, |t|);
  }

  /** `با\s+(\d+)\s+(name+)` at position `i`: the quantity and the product,
      stripped. Neither whitespace run can give back a character to the
      digits, nor the digits to the second run, so each run is maximal; the
      product is then captured as a party name is. */
  function ItemsAt(t: string, i: nat): (r: Option<(nat, string)>)
    ensures r.Some? ==> i + 2 <= |t| && t[i] == 'ب' && t[i + 1] == 'ا'
    ensures r.Some? ==> ReportQuery.Stripped(r.value.1)
  {
    if !(i + 2 <= |t| && t[i] == 'ب' && t[i + 1] == 'ا') then None
    else
      var w := Text.RunEnd(t, i + 2, Text.IsPythonSpace);
      var d := Text.RunEnd(t, w, Text.IsDecimalDigit);
      if w == i + 2 || d == w || d == |t| || !Text.IsPythonSpace(t[d]) then None
      else
        match ReportQuery.Capture(t, d, InName)
        case None => None
        case Some(p) => Some((Quantity(t, w, d), p))
  }

  /** `int` of the digit run `t[w..d]`. */
  function Quantity(t: string, w: nat, d: nat): nat
    requires w <= d <= |t| && forall j :: w <= j < d ==> Text.IsDecimalDigit(t[j])
  {
    var digits := t[w..d];
    assert forall j :: 0 <= j < |digits| ==> digits[j] == t[w + j];
    Text.DecimalValue(digits)
  }

  /** The items pattern tried at every position of `t`. */
  function ItemsSearch(t: string): nat -> Option<(nat, string)> {
    (j: nat) => ItemsAt(t, j)
  }

  /** `re.search` for the quantity and the product. */
  function FirstItems(t: string, i: nat): (r: Option<(nat, string)>)
    ensures r.Some? ==> exists k :: i <= k < |t| && ItemsAt(t, k) == r
    ensures r.None? ==> forall k :: i <= k < |t| ==> ItemsAt(t, k).None?
  {
    assert forall k :: ItemsSearch(t)(k) == ItemsAt(t, k);
    FirstSome(ItemsSearch(t), i, |t|)
  }

  /** The search binds the leftmost match of the items pattern. */
  lemma FirstItemsLeftmost(t: string, i: nat, k: nat)
    requires i <= k < |t| && ItemsAt(t, k).Some?
    requires forall j :: i <= j < k ==> ItemsAt(t, j).None?
    ensures FirstItems(t, i) == ItemsAt(t, k)
  {
    FirstSomeLeftmost(ItemsSearch(t), i, k, |t|);
  }

  /** What the parser returns: a sale for the party with one line of the
      product at unit price 0. */
  datatype Command = Command(partyName: string, quantity: nat, product: string)

  /** `_parse_create_invoice`: a command exactly when the text holds
      'فاکتور' and 'فروش' and both patterns match. */
  function ParseCreateInvoice(text: string): (r: Option<Command>)
    ensures r.Some? <==> Text.Contains(text, "فاکتور") && Text.Contains(text, "فروش")
                         && FirstParty(text, 0).Some? && FirstItems(text, 0).Some?
    ensures r.Some? ==> ReportQuery.Stripped(r.value.partyName) && ReportQuery.Stripped(r.value.product)
    ensures r.Some? ==> r.value == Command(FirstParty(text, 0).value, FirstItems(text, 0).value.0,
                                           FirstItems(text, 0).value.1)
  {
    if Text.Contains(text, "فاکتور") && Text.Contains(text, "فروش") then
      match (FirstParty(text, 0), FirstItems(text, 0))
      case (Some(party), Some((qty, product))) => Some(Command(party, qty, product))
      case _ => None
    else None
  }

  /** "با", one space, the digits, one space and a product of name
      characters with no whitespace at its ends give that quantity and that
      product. */
  lemma ItemsAfterKeyword(d: string, p: string)
    requires |d| > 0 && forall i :: 0 <= i < |d| ==> Text.IsDecimalDigit(d[i])
    requires |p| > 0 && forall i :: 0 <= i < |p| ==> InName(p[i])
    requires !Text.IsPythonSpace(p[0]) && !Text.IsPythonSpace(p[|p| - 1])
    ensures FirstItems("با " + d + " " + p, 0) == Some((Text.DecimalValue(d), p))
  {
    var t := "با " + d + " " + p;
    ItemsRuns(t, d, p);
    ItemsFromRuns(t, 3 + |d|, d, p);
  }

  /** The runs the items pattern finds in "با", a space, the digits, a space
      and the product. */
  lemma ItemsRuns(t: string, d: string, p: string)
    requires t == "با " + d + " " + p
    requires |d| > 0 && forall i :: 0 <= i < |d| ==> Text.IsDecimalDigit(d[i])
    requires |p| > 0 && forall i :: 0 <= i < |p| ==> InName(p[i])
    requires !Text.IsPythonSpace(p[0]) && !Text.IsPythonSpace(p[|p| - 1])
    ensures var q := 3 + |d|;
            && 3 < q < |t| && t[0] == 'ب' && t[1] == 'ا' && Text.IsPythonSpace(t[q])
            && Text.RunEnd(t, 2, Text.IsPythonSpace) == 3
            && Text.RunEnd(t, 3, Text.IsDecimalDigit) == q
            && t[3..q] == d
            && ReportQuery.Capture(t, q, InName) == Some(p)
  {
    var q := 3 + |d|;
    ItemsText(t, d, p);
    assert RunAll(t, 2, 3, Text.IsPythonSpace);
    RunEndAt(t, 2, 3, Text.IsPythonSpace);
    DigitRun(t, 3, d);
    CaptureAll(t, q, InName, p);
  }

  lemma ItemsText(t: string, d: string, p: string)
    requires t == "با " + d + " " + p && |d| > 0
    ensures var q := 3 + |d|;
            && t[0] == 'ب' && t[1] == 'ا' && t[2] == ' ' && t[3] == d[0]
            && t[3..q + 1] == d + " " && t[3..q] == d && t[q..] == " " + p
  {
    var q := 3 + |d|;
    assert t[0] == 'ب' && t[1] == 'ا' && t[2] == ' ' && t[3] == d[0];
    assert t[3..q + 1] == d + " ";
    assert t[q..] == " " + p;
  }

  /** The match at the start once its runs are known. */
  lemma ItemsFromRuns(t: string, q: nat, d: string, p: string)
    requires 3 < q < |t| && t[0] == 'ب' && t[1] == 'ا' && Text.IsPythonSpace(t[q])
    requires Text.RunEnd(t, 2, Text.IsPythonSpace) == 3
    requires Text.RunEnd(t, 3, Text.IsDecimalDigit) == q
    requires t[3..q] == d
    requires ReportQuery.Capture(t, q, InName) == Some(p)
    ensures FirstItems(t, 0) == Some((Text.DecimalValue(d), p))
  {
    assert Quantity(t, 3, q) == Text.DecimalValue(d);
    assert ItemsAt(t, 0) == Some((Text.DecimalValue(d), p));
    FirstItemsLeftmost(t, 0, 0);
  }

  /** A run of digits ended by a space. */
  lemma DigitRun(t: string, j: nat, d: string)
    requires j + |d| < |t| && t[j..j + |d| + 1] == d + " "
    requires forall i :: 0 <= i < |d| ==> Text.IsDecimalDigit(d[i])
    ensures Text.RunEnd(t, j, Text.IsDecimalDigit) == j + |d|
  {
    assert forall i :: j <= i < j + |d| ==> t[i] == (d + " ")[i - j];
    assert t[j + |d|] == (d + " ")[|d|];
    assert RunAll(t, j, j + |d|, Text.IsDecimalDigit);
    RunEndAt(t, j, j + |d|, Text.IsDecimalDigit);
  }

  predicate RunAll(t: string, j: nat, e: nat, cls: char -> bool)
    requires j <= e <= |t|
  {
    forall i :: j <= i < e ==> cls(t[i])
  }

  /** A run of class characters ends at the first character outside the
      class. */
  lemma {:induction false} RunEndAt(t: string, j: nat, e: nat, cls: char -> bool)
    requires j <= e <= |t| && RunAll(t, j, e, cls)
    requires e < |t| ==> !cls(t[e])
    ensures Text.RunEnd(t, j, cls) == e
    decreases e - j
  {
    if j < e {
      RunEndAt(t, j + 1, e, cls);
    }
  }

  /** The capture from a space followed by the rest of the text, all of it
      class characters and with no whitespace at its ends, is that rest. */
  lemma CaptureAll(t: string, j: nat, cls: char -> bool, n: string)
    requires j <= |t| && t[j..] == " " + n
    requires cls(' ') && forall i :: 0 <= i < |n| ==> cls(n[i])
    requires |n| > 0 && !Text.IsPythonSpace(n[0]) && !Text.IsPythonSpace(n[|n| - 1])
    ensures ReportQuery.Capture(t, j, cls) == Some(n)
  {
    assert forall i :: j < i < |t| ==> t[i] == n[i - j - 1];
    assert RunAll(t, j, |t|, cls);
    RunEndAt(t, j, |t|, cls);
    assert t[j..|t|] == " " + n;
    ReportQuery.TrimAfterSpace(n);
  }

  /** The party pattern has no end marker: whitespace and digits are name
      characters, so after "برای" the party runs on over the rest of the
      command, up to the first character that is not a name character. A
      party followed by "با 3 …" keeps that clause in its name. */
  lemma PartyRunsOn(n: string)
    requires |n| > 0 && forall i :: 0 <= i < |n| ==> InName(n[i])
    requires !Text.IsPythonSpace(n[0]) && !Text.IsPythonSpace(n[|n| - 1])
    ensures FirstParty("برای " + n, 0) == Some(n)
  {
    var t := "برای " + n;
    ForKeyword(n);
    CaptureAll(t, 4, InName, n);
    KeywordThenCapture(t, n);
  }

  lemma ForKeyword(n: string)
    requires |n| > 0
    ensures var t := "برای " + n;
            && |t| > 5 && t[0] == 'ب' && t[1] == 'ر' && t[2] == 'ا' && t[3] == 'ی' && t[4] == ' '
            && t[4..] == " " + n
  {
    var t := "برای " + n;
    assert t[0] == 'ب' && t[1] == 'ر' && t[2] == 'ا' && t[3] == 'ی' && t[4] == ' ';
    assert t[4..] == " " + n;
  }

  lemma KeywordThenCapture(t: string, n: string)
    requires |t| > 5 && t[0] == 'ب' && t[1] == 'ر' && t[2] == 'ا' && t[3] == 'ی' && t[4] == ' '
    requires ReportQuery.Capture(t, 4, InName) == Some(n)
    ensures FirstParty(t, 0) == Some(n)
  {
    assert PartyAt(t, 0) == Some(n);
    FirstPartyLeftmost(t, 0, 0);
  }

  // ---------------------------------------------------------------------
  // _parse_receipts_today
  // ---------------------------------------------------------------------

  /** `_parse_receipts_today`, with its three keywords. */
  predicate ParseReceiptsToday(text: string) {
    (Text.Contains(text, "دریافت") || Text.Contains(text, "دریافتی") || Text.Contains(text, "رسید"))
    && Text.Contains(text, "امروز")
  }

  /** 'دریافتی' holds 'دریافت', so two keywords decide: the question is
      recognised exactly when the text holds 'دریافت' or 'رسید', and
      'امروز'. */
  lemma ReceiptsKeywords(text: string)
    ensures ParseReceiptsToday(text) <==>
              (Text.Contains(text, "دریافت") || Text.Contains(text, "رسید")) && Text.Contains(text, "امروز")
  {
    if Text.Contains(text, "دریافتی") {
      Text.ContainsPart(text, "دریافتی", "دریافت", 0);
    }
  }

  // ---------------------------------------------------------------------
  // run_assistant
  // ---------------------------------------------------------------------

  /** The person the command's party resolves to, by search or creation;
      None when both failed. */
  datatype Person = Person(id: string, name: string)

  /** The invoice the command creates: a sale for the person found, or for
      the parsed name when there is none, with one line of the product at
      unit price 0. */
  function CommandInvoice(c: Command, person: Option<Person>): (inp: InvoiceInput)
    ensures inp.invoiceType == "sale" && |inp.items| == 1
    ensures inp.items[0] == ItemInput(c.product, c.quantity, None, 0)
    ensures inp.partyName == Some(if person.Some? then person.value.name else c.partyName)
  {
    InvoiceInput(
      invoiceType := "sale",
      mode := None,
      partyId := if person.Some? then Some(person.value.id) else None,
      partyName := Some(if person.Some? then person.value.name else c.partyName),
      clientTime := None,
      items := [ItemInput(c.product, c.quantity, None, 0)],
      note := None)
  }

  /** An invoice created by the assistant is a sale draft of total 0,
      whatever quantity was asked for. */
  lemma CommandInvoiceTotalZero(b: Books, c: Command, person: Option<Person>, now: Civil.DateTime)
    requires Civil.Valid(now)
    ensures var inv := CreateInvoice(b, CommandInvoice(c, person), now).1;
            && inv.total == Some(0) && inv.invoiceType == "sale" && inv.status == "draft"
            && inv.partyName == Some(if person.Some? then person.value.name else c.partyName)
            && inv.items == [Item(c.product, c.quantity, None, 0, 0)]
  {
    var inp := CommandInvoice(c, person);
    assert inp.items[..0] == [];
    assert LinesAmount(inp.items) == 0;
  }

  /** The payments `get_payments` returns with its limit of 1000: the newest
      ones. The sum does not depend on their order. */
  function Latest(ps: seq<Payment>, limit: nat): (r: seq<Payment>)
    ensures |r| == if |ps| < limit then |ps| else limit
    ensures r == ps[|ps| - |r|..]
  {
    if |ps| <= limit then ps else ps[|ps| - limit..]
  }

  predicate ReceivedOn(p: Payment, day: int) {
    p.direction == In && p.serverTime / 86400 == day
  }

  /** The sum of the incoming payments whose server time falls on `day`. */
  function ReceiptsOn(ps: seq<Payment>, day: int): int {
    if |ps| == 0 then 0
    else ReceiptsOn(ps[..|ps| - 1], day) + (if ReceivedOn(ps[|ps| - 1], day) then ps[|ps| - 1].amount else 0)
  }

  lemma {:induction false} ReceiptsOnAppend(a: seq<Payment>, c: seq<Payment>, day: int)
    ensures ReceiptsOn(a + c, day) == ReceiptsOn(a, day) + ReceiptsOn(c, day)
    decreases |c|
  {
    if |c| == 0 {
      assert a + c == a;
    } else {
      ReceiptsOnAppend(a, c[..|c| - 1], day);
      assert (a + c)[..|a + c| - 1] == a + c[..|c| - 1];
    }
  }

  /** A single payment adds its amount exactly when it is incoming and its
      server time falls on the day; with ReceiptsOnAppend this fixes the
      total of any list. */
  lemma ReceiptsOnOne(p: Payment, day: int)
    ensures ReceiptsOn([p], day) == if p.direction == In && p.serverTime / 86400 == day then p.amount else 0
  {
    assert [p][..0] == [];
  }

  /** Payments that are not incoming receipts of the day add nothing. */
  lemma {:induction false} OtherPaymentsIgnored(ps: seq<Payment>, day: int)
    requires forall k :: 0 <= k < |ps| ==> !ReceivedOn(ps[k], day)
    ensures ReceiptsOn(ps, day) == 0
    decreases |ps|
  {
    if |ps| > 0 {
      OtherPaymentsIgnored(ps[..|ps| - 1], day);
    }
  }

  datatype Reply =
    | Disabled
    | Created(invoice: Invoice)
    | Receipts(total: int)
    | Help
  {
    /** The `ok` field of the reply. */
    predicate Ok() {
      !Disabled?
    }
  }

  /** `run_assistant`: a disabled assistant refuses; otherwise the invoice
      command is tried first, then the receipts question, and anything else
      gets the help text. Only the invoice command changes the books. */
  function RunAssistant(enabled: bool, b: Books, text: string, person: Option<Person>, now: Civil.DateTime): (r: (Books, Reply))
    requires Civil.Valid(now)
    ensures !enabled ==> r == (b, Disabled)
    ensures enabled ==> r.1.Ok()
    ensures enabled && ParseCreateInvoice(text).Some? ==>
              r.1.Created? && r.1.invoice.total == Some(0) && r.1.invoice.invoiceType == "sale"
              && r.0.invoices == b.invoices + [r.1.invoice]
    ensures enabled && ParseCreateInvoice(text).Some? ==>
              var c := ParseCreateInvoice(text).value;
              && r.1.Created? && r.1.invoice.id == |b.invoices| + 1
              && r.1.invoice.partyName == Some(if person.Some? then person.value.name else c.partyName)
              && r.1.invoice.items == [Item(c.product, c.quantity, None, 0, 0)]
    ensures enabled && ParseCreateInvoice(text).None? && ParseReceiptsToday(text) ==>
              r == (b, Receipts(ReceiptsOn(Latest(b.payments, 1000), Civil.Seconds(now) / 86400)))
    ensures r.1.Help? <==> enabled && ParseCreateInvoice(text).None? && !ParseReceiptsToday(text)
    ensures !r.1.Created? ==> r.0 == b
  {
    if !enabled then (b, Disabled)
    else
      match ParseCreateInvoice(text)
      case Some(c) =>
        CommandInvoiceTotalZero(b, c, person, now);
        var (b', inv) := CreateInvoice(b, CommandInvoice(c, person), now);
        (b', Created(inv))
      case None =>
        if ParseReceiptsToday(text) then
          (b, Receipts(ReceiptsOn(Latest(b.payments, 1000), Civil.Seconds(now) / 86400)))
        else (b, Help)
  }
}

=== FILE: audit_analyzer.dfy ===
/** The rule-based audit analysis: numbers are pulled out of the free-text
    detail of audit logs, users who delete often are flagged, edits that
    mention large amounts are listed, and the invoices of the period are
    counted and averaged. The clock is a parameter; the Persian summary text,
    the Jalali rendering of the period and the username looked up for each
    suspect are not modelled. */
module AuditAnalyzer {
  import opened Wrappers
  import Text
  import opened Books

  /** `THRESHOLD_LARGE_AMOUNT`. */
  const LargeAmount: nat := 10000000

  // ---------------------------------------------------------------------
  // _extract_numbers
  // ---------------------------------------------------------------------

  /** The translation table: Persian digits, the Arabic decimal separator
      and the Arabic comma become their ASCII forms. Arabic-Indic digits
      are not in the table. */
  function Translate(c: char): (r: char)
    ensures Text.IsPersianDigit(c) ==> Text.IsAsciiDigit(r) && Text.DigitValue(r) == Text.DigitValue(c)
    ensures !Text.IsPersianDigit(c) && c != '٫' && c != '،' ==> r == c
    ensures !Text.IsPersianDigit(r) && r != '٫' && r != '،'
    ensures Text.IsDecimalDigit(r) <==> Text.IsDecimalDigit(c)
  {
    if Text.IsPersianDigit(c) then Text.AsciiDigit(c as int - 0x06F0)
    else if c == '٫' then '.'
    else if c == '،' then ','
    else c
  }

  function TranslateAll(s: string): (r: string)
    ensures |r| == |s|
    ensures forall i :: 0 <= i < |s| ==> r[i] == Translate(s[i])
  {
    seq(|s|, i requires 0 <= i < |s| => Translate(s[i]))
  }

  /** The class `[\d,\.\s]`. */
  predicate IsNumberChar(c: char) {
    Text.IsDecimalDigit(c) || c == ',' || c == '.' || Text.IsPythonSpace(c)
  }

  /** The highest position in [lo, hi] that holds a digit, or -1. */
  function LastDigit(t: string, lo: nat, hi: nat): (p: int)
    ensures p == -1 || (lo <= p <= hi && p < |t| && Text.IsDecimalDigit(t[p]))
    ensures p >= 0 ==> forall q :: p < q <= hi && q < |t| ==> !Text.IsDecimalDigit(t[q])
    ensures p == -1 ==> forall q :: lo <= q <= hi && q < |t| ==> !Text.IsDecimalDigit(t[q])
    decreases hi - lo
  {
    if hi < lo then -1
    else if hi < |t| && Text.IsDecimalDigit(t[hi]) then hi
    else if hi == lo then -1
    else LastDigit(t, lo, hi - 1)
  }

  /** `t[i..e]` is a match of `\d[\d,\.\s]{0,20}\d`: 2 to 22 characters of
      the class, with a digit at each end. */
  predicate Fits(t: string, i: nat, e: nat) {
    && i + 2 <= e <= i + 22 && e <= |t|
    && Text.IsDecimalDigit(t[i]) && Text.IsDecimalDigit(t[e - 1])
    && forall j :: i <= j < e ==> IsNumberChar(t[j])
  }

  /** The pattern `(\d[\d,\.\s]{0,20}\d)` at position `i`: the end of the
      match, or -1. The bounded repetition takes as many class characters
      as it can, at most 20, and gives them back one at a time until a
      digit follows, so the match found is the longest one there is. */
  function MatchAt(t: string, i: nat): (e: int)
    requires i < |t|
    ensures e == -1 || (i + 2 <= e <= i + 22 && e <= |t|)
    ensures e >= 0 ==> Fits(t, i, e)
  {
    if !Text.IsDecimalDigit(t[i]) then -1
    else
      var stop := Text.RunEnd(t, i + 1, IsNumberChar);
      var run := stop - (i + 1);
      var cap := if run < 20 then run else 20;
      var p := LastDigit(t, i + 1, i + 1 + cap);
      FitsBounded(t, i, stop, cap, p);
      if p < 0 then -1 else p + 1
  }

  /** The match found is the longest there is, and there is none exactly
      when no span from `i` fits the pattern. */
  lemma MatchAtLongest(t: string, i: nat)
    requires i < |t|
    ensures MatchAt(t, i) >= 0 ==> forall e': nat :: Fits(t, i, e') ==> e' <= MatchAt(t, i)
    ensures MatchAt(t, i) == -1 <==> forall e': nat :: !Fits(t, i, e')
  {
    if Text.IsDecimalDigit(t[i]) {
      var stop := Text.RunEnd(t, i + 1, IsNumberChar);
      var run := stop - (i + 1);
      var cap := if run < 20 then run else 20;
      var p := LastDigit(t, i + 1, i + 1 + cap);
      FitsBounded(t, i, stop, cap, p);
    }
  }

  /** Any match from `i` ends on a digit within the stretch the repetition
      can cover, where the last digit is `p`. */
  lemma FitsBounded(t: string, i: nat, stop: nat, cap: nat, p: int)
    requires i < |t| && Text.IsDecimalDigit(t[i])
    requires i + 1 <= stop <= |t| && cap == (if stop - (i + 1) < 20 then stop - (i + 1) else 20)
    requires forall j :: i + 1 <= j < stop ==> IsNumberChar(t[j])
    requires stop < |t| ==> !IsNumberChar(t[stop])
    requires p == -1 || (i + 1 <= p <= i + 1 + cap && p < |t| && Text.IsDecimalDigit(t[p]))
    requires p >= 0 ==> forall q :: p < q <= i + 1 + cap && q < |t| ==> !Text.IsDecimalDigit(t[q])
    requires p == -1 ==> forall q :: i + 1 <= q <= i + 1 + cap && q < |t| ==> !Text.IsDecimalDigit(t[q])
    ensures p >= 0 ==> Fits(t, i, p + 1)
    ensures forall e': nat :: Fits(t, i, e') ==> p >= 0 && e' <= p + 1
  {
    forall e': nat | Fits(t, i, e')
      ensures p >= 0 && e' <= p + 1
    {
      assert IsNumberChar(t[e' - 1]);
    }
    if p >= 0 {
      assert p < stop;
    }
  }

  /** `re.findall`: the matches from left to right, each search resuming
      where the previous match ended. Every match is 2 to 22 characters long
      and starts and ends with a digit; matches do not overlap. */
  function FindAll(t: string, i: nat): (spans: seq<(nat, nat)>)
    requires i <= |t|
    ensures forall k :: 0 <= k < |spans| ==>
              i <= spans[k].0 && spans[k].0 + 2 <= spans[k].1 <= spans[k].0 + 22 && spans[k].1 <= |t|
    ensures forall k :: 0 <= k < |spans| ==>
              Text.IsDecimalDigit(t[spans[k].0]) && Text.IsDecimalDigit(t[spans[k].1 - 1])
    ensures forall k :: 0 <= k < |spans| - 1 ==> spans[k].1 <= spans[k + 1].0
    decreases |t| - i
  {
    if i == |t| then []
    else
      var e := MatchAt(t, i);
      if e < 0 then FindAll(t, i + 1)
      else
        var rest := FindAll(t, e as nat);
        SpansCons(t, i, e as nat, rest);
        [(i, e as nat)] + rest
  }

  /** The span properties `FindAll` promises, carried from the rest of the
      scan to the scan with one more span in front. */
  predicate SpanOk(t: string, i: nat, s: (nat, nat)) {
    && i <= s.0 && s.0 + 2 <= s.1 <= s.0 + 22 && s.1 <= |t|
    && Text.IsDecimalDigit(t[s.0]) && Text.IsDecimalDigit(t[s.1 - 1])
  }

  lemma SpansCons(t: string, i: nat, e: nat, rest: seq<(nat, nat)>)
    requires SpanOk(t, i, (i, e))
    requires forall k :: 0 <= k < |rest| ==> SpanOk(t, e, rest[k])
    requires forall k :: 0 <= k < |rest| - 1 ==> rest[k].1 <= rest[k + 1].0
    ensures forall k :: 0 <= k < |rest| + 1 ==> SpanOk(t, i, ([(i, e)] + rest)[k])
    ensures forall k :: 0 <= k < |rest| ==> ([(i, e)] + rest)[k].1 <= ([(i, e)] + rest)[k + 1].0
  {
  }

  /** No match starts anywhere in `[lo, hi)`. */
  predicate NoMatchIn(t: string, lo: nat, hi: nat) {
    forall p :: lo <= p < hi && p < |t| ==> MatchAt(t, p) == -1
  }

  /** The leftmost-first scan from `i`: no match starts before the first
      span, the first span is the match at its start, and the rest is the
      scan resumed at its end; with no spans, no match starts at all. */
  predicate Leftmost(t: string, i: nat, spans: seq<(nat, nat)>)
    decreases |spans|
  {
    if |spans| == 0 then NoMatchIn(t, i, |t|)
    else
      && i <= spans[0].0 < |t|
      && NoMatchIn(t, i, spans[0].0)
      && MatchAt(t, spans[0].0) == spans[0].1 as int
      && Leftmost(t, spans[0].1, spans[1..])
  }

  /** `findall` returns the leftmost non-overlapping matches: every span is
      the match at its start, no match starts before, between or after the
      spans, and starts inside a span are skipped. */
  lemma {:induction false} FindAllLeftmost(t: string, i: nat)
    requires i <= |t|
    ensures Leftmost(t, i, FindAll(t, i))
    decreases |t| - i
  {
    if i < |t| {
      var e := MatchAt(t, i);
      if e < 0 {
        FindAllLeftmost(t, i + 1);
        SkipNoMatch(t, i, FindAll(t, i + 1));
      } else {
        FindAllLeftmost(t, e as nat);
        var spans := [(i, e as nat)] + FindAll(t, e as nat);
        assert spans[1..] == FindAll(t, e as nat);
      }
    }
  }

  /** The scan is determined by the text and the start: `findall` is the
      only list of spans that is a leftmost scan. */
  lemma {:induction false} LeftmostUnique(t: string, i: nat, a: seq<(nat, nat)>, b: seq<(nat, nat)>)
    requires Leftmost(t, i, a) && Leftmost(t, i, b)
    ensures a == b
    decreases |a|
  {
    if |a| > 0 && |b| > 0 {
      assert a[0].0 == b[0].0;
      LeftmostUnique(t, a[0].1, a[1..], b[1..]);
      assert a == [a[0]] + a[1..] && b == [b[0]] + b[1..];
    }
  }

  /** A position where no match starts can be added in front of a scan. */
  lemma SkipNoMatch(t: string, i: nat, spans: seq<(nat, nat)>)
    requires i < |t| && MatchAt(t, i) == -1
    requires Leftmost(t, i + 1, spans)
    ensures Leftmost(t, i, spans)
  {
  }

  /** `re.sub(r"[^0-9]", "", n)`: only the ASCII digits are kept. */
  function AsciiDigitsOf(s: string): (d: string)
    ensures Text.AllAsciiDigits(d) && Text.AllDigits(d)
  {
    Text.WithoutMembers(s, Text.NotAsciiDigit);
    var d := Text.Without(s, Text.NotAsciiDigit);
    assert forall i :: 0 <= i < |d| ==> d[i] in d;
    d
  }

  /** The values of the matches. A match whose digits are all Arabic-Indic
      keeps no character, `int` rejects the empty string and the match is
      skipped. */
  function Values(t: string, spans: seq<(nat, nat)>): (r: seq<nat>)
    requires forall k :: 0 <= k < |spans| ==> spans[k].0 <= spans[k].1 <= |t|
    ensures |r| <= |spans|
  {
    if |spans| == 0 then []
    else
      var d := AsciiDigitsOf(t[spans[0].0..spans[0].1]);
      (if d == "" then [] else [Text.DecimalValue(d)]) + Values(t, spans[1..])
  }

  /** `_extract_numbers`: no text gives no numbers; otherwise the values of
      the matches after translation. */
  function ExtractNumbers(text: string): (r: seq<nat>)
    ensures text == "" ==> r == []
  {
    var t := TranslateAll(text);
    Values(t, FindAll(t, 0))
  }

  /** Text with fewer than two digits yields nothing, since a match needs a
      digit at each end: an isolated single digit is never extracted. */
  lemma FewerThanTwoDigits(text: string)
    requires forall i, j :: 0 <= i < j < |text| ==> !(Text.IsDecimalDigit(text[i]) && Text.IsDecimalDigit(text[j]))
    ensures ExtractNumbers(text) == []
  {
    FirstMatchDigits(text);
  }

  /** The first match, if any, starts and ends with a digit of the text. */
  lemma FirstMatchDigits(text: string)
    ensures var spans := FindAll(TranslateAll(text), 0);
            |spans| > 0 ==> spans[0].0 < spans[0].1 - 1 < |text|
                            && Text.IsDecimalDigit(text[spans[0].0]) && Text.IsDecimalDigit(text[spans[0].1 - 1])
  {
  }

  /** The characters an amount as written in a log is made of. */
  predicate IsPlainNumberChar(c: char) {
    Text.IsAsciiDigit(c) || c == ',' || c == '.' || Text.IsPythonSpace(c)
  }

  /** A text that is one number of 2 to 22 characters, digits at both ends
      and commas, dots or whitespace between them, is read as the number
      its digits spell: separators and spaces are deleted. */
  lemma OneNumber(s: string)
    requires 2 <= |s| <= 22
    requires Text.IsAsciiDigit(s[0]) && Text.IsAsciiDigit(s[|s| - 1])
    requires forall i :: 0 <= i < |s| ==> IsPlainNumberChar(s[i])
    ensures ExtractNumbers(s) == [Text.DecimalValue(AsciiDigitsOf(s))]
  {
    var t := TranslateAll(s);
    assert t == s;
    OneMatch(s);
    assert FindAll(s, 0) == [(0, |s|)] + FindAll(s, |s|);
    assert s[0..|s|] == s;
    assert AsciiDigitsOf(s) != "" by {
      Text.WithoutMembers(s, Text.NotAsciiDigit);
      assert s[0] in AsciiDigitsOf(s);
    }
  }

  /** The match at the start of such a text covers all of it. */
  lemma OneMatch(s: string)
    requires 2 <= |s| <= 22
    requires Text.IsAsciiDigit(s[0]) && Text.IsAsciiDigit(s[|s| - 1])
    requires forall i :: 0 <= i < |s| ==> IsPlainNumberChar(s[i])
    ensures MatchAt(s, 0) == |s|
  {
    var run := Text.RunEnd(s, 1, IsNumberChar) - 1;
    assert run == |s| - 1;
    var cap := if run < 20 then run else 20;
    assert cap >= |s| - 2;
    var p := LastDigit(s, 1, 1 + cap);
    assert p == |s| - 1;
  }

  /** Persian digits and separators are read as their ASCII forms. */
  lemma TranslationFirst(text: string)
    ensures ExtractNumbers(TranslateAll(text)) == ExtractNumbers(text)
  {
    assert TranslateAll(TranslateAll(text)) == TranslateAll(text);
  }

  /** Arabic-Indic digits match the pattern but are deleted before `int`,
      so a number written in them is skipped. */
  lemma ArabicIndicSkipped(s: string)
    requires 2 <= |s| <= 22
    requires forall i :: 0 <= i < |s| ==> Text.IsArabicIndicDigit(s[i])
    ensures ExtractNumbers(s) == []
  {
    var t := TranslateAll(s);
    assert t == s;
    var run := Text.RunEnd(s, 1, IsNumberChar) - 1;
    assert run == |s| - 1;
    assert LastDigit(s, 1, 1 + (if run < 20 then run else 20)) == |s| - 1;
    assert MatchAt(s, 0) == |s|;
    assert FindAll(s, 0) == [(0, |s|)] + FindAll(s, |s|);
    assert s[0..|s|] == s;
    Text.WithoutAll(s, Text.NotAsciiDigit);
  }

  // ---------------------------------------------------------------------
  // analyze_period
  // ---------------------------------------------------------------------

  datatype Log = Log(id: nat, userId: Option<nat>, detail: Option<string>, createdAt: int)

  /** `l.detail or ''`. */
  function Detail(l: Log): string {
    l.detail.GetOr("")
  }

  /** `l.user_id or 0`: logs without a user are counted under 0. */
  function UserKey(l: Log): nat {
    l.userId.GetOr(0)
  }

  predicate IsDeletion(detail: string) {
    || Text.Contains(detail, "حذف")
    || Text.Contains(Text.LowerAscii(detail), "delete")
    || Text.Contains(Text.LowerAscii(detail), "removed")
  }

  predicate IsEdit(detail: string) {
    || Text.Contains(detail, "ویرایش")
    || Text.Contains(detail, "تغییر")
    || Text.Contains(Text.LowerAscii(detail), "edit")
    || Text.Contains(Text.LowerAscii(detail), "update")
  }

  predicate DeletionBy(l: Log, uid: nat) {
    IsDeletion(Detail(l)) && UserKey(l) == uid
  }

  /** The number of deletion logs counted under `uid`. */
  function Deletes(logs: seq<Log>, uid: nat): nat {
    if |logs| == 0 then 0
    else Deletes(logs[..|logs| - 1], uid) + (if DeletionBy(logs[|logs| - 1], uid) then 1 else 0)
  }

  predicate Distinct(us: seq<nat>) {
    forall i, j :: 0 <= i < j < |us| ==> us[i] != us[j]
  }

  /** The keys of `deletes_per_user` in insertion order: every user with a
      deletion log, once, in the order of their first one. */
  function DeletingUsers(logs: seq<Log>): (us: seq<nat>)
    ensures Distinct(us)
    ensures forall u :: u in us <==> Deletes(logs, u) > 0
  {
    if |logs| == 0 then []
    else
      var us := DeletingUsers(logs[..|logs| - 1]);
      var l := logs[|logs| - 1];
      if IsDeletion(Detail(l)) && UserKey(l) !in us then us + [UserKey(l)] else us
  }

  datatype Suspect = Suspect(userId: nat, deletes: nat)

  function SuspectsAmong(logs: seq<Log>, us: seq<nat>): (r: seq<Suspect>)
    ensures forall s :: s in r ==> s.userId in us && s.deletes == Deletes(logs, s.userId) && s.deletes >= 3
    ensures forall u :: u in us && Deletes(logs, u) >= 3 ==> Suspect(u, Deletes(logs, u)) in r
  {
    if |us| == 0 then []
    else
      var rest := SuspectsAmong(logs, us[..|us| - 1]);
      var u := us[|us| - 1];
      assert forall v :: v in us[..|us| - 1] ==> v in us;
      assert forall v :: v in us ==> v in us[..|us| - 1] || v == u;
      if Deletes(logs, u) >= 3 then rest + [Suspect(u, Deletes(logs, u))] else rest
  }

  /** `suspicious_users`: a user is listed, with their count, exactly when
      at least three deletion logs are counted under them. */
  function Suspects(logs: seq<Log>): (r: seq<Suspect>)
    ensures forall s :: s in r ==> s.deletes == Deletes(logs, s.userId) && s.deletes >= 3
    ensures forall u :: Deletes(logs, u) >= 3 ==> Suspect(u, Deletes(logs, u)) in r
  {
    SuspectsAmong(logs, DeletingUsers(logs))
  }

  datatype LargeEdit = LargeEdit(logId: nat, userId: Option<nat>, value: nat, detail: string)

  /** The numbers of `ns` at or above the threshold, in order, repeats
      kept. */
  function Large(ns: seq<nat>): seq<nat> {
    if |ns| == 0 then []
    else (if ns[0] >= LargeAmount then [ns[0]] else []) + Large(ns[1..])
  }

  lemma {:induction false} LargeSnoc(ns: seq<nat>, v: nat)
    ensures Large(ns + [v]) == Large(ns) + (if v >= LargeAmount then [v] else [])
    decreases |ns|
  {
    var c := ns + [v];
    var tail: seq<nat> := if v >= LargeAmount then [v] else [];
    if |ns| == 0 {
      assert c[1..] == [];
      assert Large(c) == tail + Large(c[1..]);
    } else {
      var head: seq<nat> := if ns[0] >= LargeAmount then [ns[0]] else [];
      assert c[0] == ns[0] && c[1..] == ns[1..] + [v];
      assert Large(c) == head + Large(ns[1..] + [v]);
      LargeSnoc(ns[1..], v);
      assert Large(ns) == head + Large(ns[1..]);
    }
  }

  /** The large values among `ns`, in order, as findings of log `l`. */
  function LargeValues(l: Log, ns: seq<nat>): (r: seq<LargeEdit>)
    ensures forall e :: e in r ==> e == LargeEdit(l.id, l.userId, e.value, Detail(l))
    ensures forall e :: e in r ==> e.value in ns && e.value >= LargeAmount
    ensures |r| == |Large(ns)|
    ensures forall k :: 0 <= k < |r| ==> r[k] == LargeEdit(l.id, l.userId, Large(ns)[k], Detail(l))
    ensures forall v :: v in ns && v >= LargeAmount ==> LargeEdit(l.id, l.userId, v, Detail(l)) in r
  {
    if |ns| == 0 then []
    else
      var init := ns[..|ns| - 1];
      var rest := LargeValues(l, init);
      var v := ns[|ns| - 1];
      assert ns == init + [v];
      LargeSnoc(init, v);
      assert forall w :: w in ns ==> w in init || w == v;
      if v >= LargeAmount then rest + [LargeEdit(l.id, l.userId, v, Detail(l))] else rest
  }

  /** The large-edit findings of one log: none unless the detail reads as
      an edit, and then one for each extracted number of at least
      `LargeAmount`, in the order the numbers appear. */
  function LargeEditsOf(l: Log): (r: seq<LargeEdit>)
    ensures !IsEdit(Detail(l)) ==> r == []
    ensures IsEdit(Detail(l)) ==> |r| == |Large(ExtractNumbers(Detail(l)))|
    ensures IsEdit(Detail(l)) ==> forall k :: 0 <= k < |r| ==>
              r[k] == LargeEdit(l.id, l.userId, Large(ExtractNumbers(Detail(l)))[k], Detail(l))
    ensures forall e :: e in r ==> e.logId == l.id && e.value >= LargeAmount && e.value in ExtractNumbers(Detail(l))
    ensures IsEdit(Detail(l)) ==>
              forall v :: v in ExtractNumbers(Detail(l)) && v >= LargeAmount ==> LargeEdit(l.id, l.userId, v, Detail(l)) in r
  {
    if IsEdit(Detail(l)) then LargeValues(l, ExtractNumbers(Detail(l))) else []
  }

  /** `edits_large_changes`, log after log. */
  function LargeEdits(logs: seq<Log>): (r: seq<LargeEdit>)
    ensures forall e :: e in r ==> e.value >= LargeAmount
  {
    if |logs| == 0 then []
    else LargeEdits(logs[..|logs| - 1]) + LargeEditsOf(logs[|logs| - 1])
  }

  /** Every finding comes from a log of the list. */
  lemma {:induction false} LargeEditsSound(logs: seq<Log>, e: LargeEdit)
    requires e in LargeEdits(logs)
    ensures exists k :: 0 <= k < |logs| && e in LargeEditsOf(logs[k])
    decreases |logs|
  {
    var p := logs[..|logs| - 1];
    if e !in LargeEditsOf(logs[|logs| - 1]) {
      LargeEditsSound(p, e);
      var k :| 0 <= k < |p| && e in LargeEditsOf(p[k]);
      assert p[k] == logs[k];
    }
  }

  /** Every finding of every log of the list is reported. */
  lemma {:induction false} LargeEditsComplete(logs: seq<Log>, k: nat, e: LargeEdit)
    requires k < |logs| && e in LargeEditsOf(logs[k])
    ensures e in LargeEdits(logs)
    decreases |logs|
  {
    LargeEditsConcat(logs);
    ConcatComplete(logs, LargeEditsOf, k, e);
  }

  /** The findings of each log, one log after another. */
  function ConcatEdits(logs: seq<Log>, f: Log -> seq<LargeEdit>): seq<LargeEdit> {
    if |logs| == 0 then [] else ConcatEdits(logs[..|logs| - 1], f) + f(logs[|logs| - 1])
  }

  lemma {:induction false} LargeEditsConcat(logs: seq<Log>)
    ensures LargeEdits(logs) == ConcatEdits(logs, LargeEditsOf)
    decreases |logs|
  {
    if |logs| > 0 {
      LargeEditsConcat(logs[..|logs| - 1]);
    }
  }

  lemma {:induction false} ConcatComplete(logs: seq<Log>, f: Log -> seq<LargeEdit>, k: nat, e: LargeEdit)
    requires k < |logs| && e in f(logs[k])
    ensures e in ConcatEdits(logs, f)
    decreases |logs|
  {
    var p := logs[..|logs| - 1];
    if k < |p| {
      assert p[k] == logs[k];
      ConcatComplete(p, f, k, e);
    }
  }

  /** A log whose detail holds fewer than two digits adds no large edit. */
  lemma NoNumberNoLargeEdit(l: Log)
    requires forall i, j :: 0 <= i < j < |Detail(l)| ==> !(Text.IsDecimalDigit(Detail(l)[i]) && Text.IsDecimalDigit(Detail(l)[j]))
    ensures LargeEditsOf(l) == []
  {
    FewerThanTwoDigits(Detail(l));
  }

  // ---------------------------------------------------------------------
  // The period and the summary counts
  // ---------------------------------------------------------------------

  datatype Window = Window(start: int, end: int)

  /** The period: `end` defaults to now and `start` to one day before the
      end. */
  function PeriodOf(start: Option<int>, end: Option<int>, now: int): (w: Window)
    ensures end.None? ==> w.end == now
    ensures start.None? ==> w.end - w.start == 86400
    ensures start.Some? ==> w.start == start.value
    ensures end.Some? ==> w.end == end.value
  {
    var e := end.GetOr(now);
    Window(start.GetOr(e - 86400), e)
  }

  predicate Within(t: int, w: Window) {
    w.start <= t <= w.end
  }

  function LogsIn(logs: seq<Log>, w: Window): (r: seq<Log>)
    ensures forall l :: l in r <==> l in logs && Within(l.createdAt, w)
  {
    if |logs| == 0 then []
    else
      var rest := LogsIn(logs[..|logs| - 1], w);
      var l := logs[|logs| - 1];
      assert forall x :: x in logs <==> x in logs[..|logs| - 1] || x == l;
      if Within(l.createdAt, w) then rest + [l] else rest
  }

  function InvoicesIn(s: seq<Invoice>, w: Window): nat {
    if |s| == 0 then 0
    else InvoicesIn(s[..|s| - 1], w) + (if Within(s[|s| - 1].serverTime, w) then 1 else 0)
  }

  function PaymentsIn(s: seq<Payment>, w: Window): nat {
    if |s| == 0 then 0
    else PaymentsIn(s[..|s| - 1], w) + (if Within(s[|s| - 1].serverTime, w) then 1 else 0)
  }

  predicate FinalIn(inv: Invoice, w: Window) {
    Within(inv.serverTime, w) && inv.status == "final"
  }

  function FinalCount(s: seq<Invoice>, w: Window): nat {
    if |s| == 0 then 0
    else FinalCount(s[..|s| - 1], w) + (if FinalIn(s[|s| - 1], w) then 1 else 0)
  }

  /** The sum of `total or 0` over the final invoices of the period. */
  function FinalSum(s: seq<Invoice>, w: Window): int {
    if |s| == 0 then 0
    else FinalSum(s[..|s| - 1], w) + (if FinalIn(s[|s| - 1], w) then s[|s| - 1].total.GetOr(0) else 0)
  }

  /** The final invoices of the period are among its invoices, which are
      among all invoices. */
  lemma {:induction false} FinalsAmongInvoices(s: seq<Invoice>, w: Window)
    ensures FinalCount(s, w) <= InvoicesIn(s, w) <= |s|
    decreases |s|
  {
    if |s| > 0 {
      FinalsAmongInvoices(s[..|s| - 1], w);
    }
  }

  lemma {:induction false} PaymentsAtMost(s: seq<Payment>, w: Window)
    ensures PaymentsIn(s, w) <= |s|
    decreases |s|
  {
    if |s| > 0 {
      PaymentsAtMost(s[..|s| - 1], w);
    }
  }

  /** `a` is the mean of `count` values summing to `sum`, rounded down, and
      0 when there are none. */
  predicate FlooredMean(a: int, sum: int, count: nat) {
    && (count == 0 ==> a == 0)
    && (count > 0 ==> a * count <= sum < (a + 1) * count)
  }

  /** Python's `//` by a positive count, which Dafny's `/` agrees with. */
  function Average(sum: int, count: nat): (a: int)
    ensures FlooredMean(a, sum, count)
  {
    if count == 0 then 0
    else
      var a := sum / count;
      assert sum == a * count + sum % count;
      a
  }

  datatype Analysis = Analysis(
    window: Window,
    totalInvoices: nat,
    totalFinalInvoices: nat,
    totalPayments: nat,
    averageInvoiceAmount: int,
    suspects: seq<Suspect>,
    largeEdits: seq<LargeEdit>)

  /** `analyze_period` without its texts: the counts of the period, the
      floored average of the final totals, the users with at least three
      deletions and the large edits, all over the period's records. */
  function AnalyzePeriod(b: Books, logs: seq<Log>, start: Option<int>, end: Option<int>, now: int): (r: Analysis)
    ensures r.window == PeriodOf(start, end, now)
    ensures r.totalFinalInvoices == FinalCount(b.invoices, r.window)
    ensures FlooredMean(r.averageInvoiceAmount, FinalSum(b.invoices, r.window), r.totalFinalInvoices)
    ensures forall s :: s in r.suspects ==> s.deletes == Deletes(LogsIn(logs, r.window), s.userId) >= 3
    ensures forall u :: Deletes(LogsIn(logs, r.window), u) >= 3 ==>
              Suspect(u, Deletes(LogsIn(logs, r.window), u)) in r.suspects
    ensures forall e :: e in r.largeEdits ==> e.value >= LargeAmount
    ensures r.largeEdits == LargeEdits(LogsIn(logs, r.window))
    ensures r.totalInvoices == InvoicesIn(b.invoices, r.window)
    ensures r.totalPayments == PaymentsIn(b.payments, r.window)
    ensures r.totalFinalInvoices <= r.totalInvoices <= |b.invoices|
    ensures r.totalPayments <= |b.payments|
  {
    var w := PeriodOf(start, end, now);
    FinalsAmongInvoices(b.invoices, w);
    PaymentsAtMost(b.payments, w);
    var inWindow := LogsIn(logs, w);
    var finals := FinalCount(b.invoices, w);
    Analysis(w, InvoicesIn(b.invoices, w), finals, PaymentsIn(b.payments, w),
             Average(FinalSum(b.invoices, w), finals), Suspects(inWindow), LargeEdits(inWindow))
  }

  /** Every deletion log of the period is counted once under its user, so
      the counts of all users add up to the number of deletion logs. */
  lemma {:induction false} DeletesOfAppend(logs: seq<Log>, l: Log, u: nat)
    ensures Deletes(logs + [l], u) == Deletes(logs, u) + (if DeletionBy(l, u) then 1 else 0)
  {
    assert (logs + [l])[..|logs|] == logs;
  }

  /** Three deletions by the same user in the period make them a suspect,
      whatever else the period holds. */
  lemma {:induction false} ThreeDeletionsSuspect(logs: seq<Log>, u: nat, i: nat, j: nat, k: nat)
    requires i < j < k < |logs|
    requires DeletionBy(logs[i], u) && DeletionBy(logs[j], u) && DeletionBy(logs[k], u)
    ensures Deletes(logs, u) >= 3
    ensures Suspect(u, Deletes(logs, u)) in Suspects(logs)
  {
    AtLeastThree(logs, u, i, j, k);
  }

  lemma {:induction false} AtLeastThree(logs: seq<Log>, u: nat, i: nat, j: nat, k: nat)
    requires i < j < k < |logs|
    requires DeletionBy(logs[i], u) && DeletionBy(logs[j], u) && DeletionBy(logs[k], u)
    ensures Deletes(logs, u) >= 3
    decreases |logs|
  {
    var p := logs[..|logs| - 1];
    if k < |logs| - 1 {
      AtLeastThree(p, u, i, j, k);
    } else {
      AtLeastTwo(p, u, i, j);
    }
  }

  lemma {:induction false} AtLeastTwo(logs: seq<Log>, u: nat, i: nat, j: nat)
    requires i < j < |logs|
    requires DeletionBy(logs[i], u) && DeletionBy(logs[j], u)
    ensures Deletes(logs, u) >= 2
    decreases |logs|
  {
    var p := logs[..|logs| - 1];
    if j < |logs| - 1 {
      AtLeastTwo(p, u, i, j);
    } else {
      AtLeastOne(p, u, i);
    }
  }

  lemma {:induction false} AtLeastOne(logs: seq<Log>, u: nat, i: nat)
    requires i < |logs|
    requires DeletionBy(logs[i], u)
    ensures Deletes(logs, u) >= 1
    decreases |logs|
  {
    if i < |logs| - 1 {
      AtLeastOne(logs[..|logs| - 1], u, i);
    }
  }
}

=== FILE: audit_chain.dfy ===
/** The per-entity hash chain of the audit trail. Every change to an entity
    appends an entry carrying the digest of the entity's data and the digest
    of the entity's previous entry; verification walks the entity's history
    in time order and checks those links.

    SHA-256 over key-sorted JSON is a parameter `digest` from snapshots to
    hex strings. A snapshot is a map, so two dictionaries with the same
    contents have the same digest whatever their key order, which is what
    `sort_keys=True` secures. */
module AuditChain {
  import opened Wrappers
  import Text

  type Snapshot = map<string, string>

  datatype ChainEntry = ChainEntry(
    id: nat,
    entityType: string,
    entityId: string,
    action: string,
    dataHash: string,
    previousHash: Option<string>,
    merkleRoot: string,
    userId: Option<int>,
    timestamp: int)

  /** The `blockchain_entries` table in insertion order; ids are positions. */
  type Store = seq<ChainEntry>

  predicate StoreWf(s: Store) {
    forall i :: 0 <= i < |s| ==> s[i].id == i + 1
  }

  predicate Belongs(e: ChainEntry, entityType: string, entityId: string) {
    e.entityType == entityType && e.entityId == entityId
  }

  /** `hash_data`. */
  function HashData(digest: Snapshot -> string, data: Snapshot): string {
    digest(data)
  }

  // ---------------------------------------------------------------------
  // History: the entity's entries by ascending timestamp
  // ---------------------------------------------------------------------

  predicate SortedByTime(h: seq<ChainEntry>) {
    forall i, j :: 0 <= i < j < |h| ==> h[i].timestamp <= h[j].timestamp
  }

  /** The entity's entries in insertion order. */
  function Filter(s: Store, entityType: string, entityId: string): (f: seq<ChainEntry>)
    ensures forall x :: x in f <==> x in s && Belongs(x, entityType, entityId)
  {
    if |s| == 0 then []
    else
      var init := Filter(s[..|s| - 1], entityType, entityId);
      assert forall x :: x in s <==> x in s[..|s| - 1] || x == s[|s| - 1];
      if Belongs(s[|s| - 1], entityType, entityId) then init + [s[|s| - 1]] else init
  }

  /** Inserts `e` after every entry not later than it, so that entries with
      equal timestamps keep their insertion order. */
  function InsertByTime(h: seq<ChainEntry>, e: ChainEntry): (r: seq<ChainEntry>)
    ensures multiset(r) == multiset(h) + multiset{e}
    ensures (forall x :: x in h ==> x.timestamp <= e.timestamp) ==> r == h + [e]
  {
    if |h| == 0 || h[|h| - 1].timestamp <= e.timestamp then
      h + [e]
    else
      var init := h[..|h| - 1];
      assert h == init + [h[|h| - 1]];
      InsertByTime(init, e) + [h[|h| - 1]]
  }

  lemma {:induction false} InsertKeepsSorted(h: seq<ChainEntry>, e: ChainEntry)
    requires SortedByTime(h)
    ensures SortedByTime(InsertByTime(h, e))
    decreases |h|
  {
    if !(|h| == 0 || h[|h| - 1].timestamp <= e.timestamp) {
      var init := h[..|h| - 1];
      var last := h[|h| - 1];
      assert SortedByTime(init);
      InsertKeepsSorted(init, e);
      var m := InsertByTime(init, e);
      BoundedByLast(m, init, e, last);
      AppendSorted(m, last);
    }
  }

  /** Every entry of `init` with `e` inserted is no later than `last`, when
      `init` and `e` are not. */
  lemma BoundedByLast(m: seq<ChainEntry>, init: seq<ChainEntry>, e: ChainEntry, last: ChainEntry)
    requires multiset(m) == multiset(init) + multiset{e}
    requires forall x :: x in init ==> x.timestamp <= last.timestamp
    requires e.timestamp <= last.timestamp
    ensures forall x :: x in m ==> x.timestamp <= last.timestamp
  {
    forall x | x in m
      ensures x.timestamp <= last.timestamp
    {
      assert x in multiset(m);
      assert x in multiset(init) || x == e;
    }
  }

  /** Appending an entry no earlier than all others keeps the order. */
  lemma AppendSorted(m: seq<ChainEntry>, last: ChainEntry)
    requires SortedByTime(m)
    requires forall x :: x in m ==> x.timestamp <= last.timestamp
    ensures SortedByTime(m + [last])
  {
    var r := m + [last];
    forall i, j | 0 <= i < j < |r|
      ensures r[i].timestamp <= r[j].timestamp
    {
      if j == |r| - 1 {
        assert r[i] in m;
      }
    }
  }

  /** `get_entity_history`: the entity's entries ordered by ascending
      timestamp; equal timestamps keep insertion order. */
  function History(s: Store, entityType: string, entityId: string): (h: seq<ChainEntry>)
    ensures multiset(h) == multiset(Filter(s, entityType, entityId))
  {
    if |s| == 0 then []
    else
      var init := History(s[..|s| - 1], entityType, entityId);
      var e := s[|s| - 1];
      if Belongs(e, entityType, entityId) then InsertByTime(init, e) else init
  }

  lemma {:induction false} HistorySorted(s: Store, entityType: string, entityId: string)
    ensures SortedByTime(History(s, entityType, entityId))
    decreases |s|
  {
    if |s| > 0 {
      HistorySorted(s[..|s| - 1], entityType, entityId);
      if Belongs(s[|s| - 1], entityType, entityId) {
        InsertKeepsSorted(History(s[..|s| - 1], entityType, entityId), s[|s| - 1]);
      }
    }
  }

  /** The history holds exactly the entity's entries. */
  lemma HistoryMembers(s: Store, entityType: string, entityId: string, x: ChainEntry)
    ensures x in History(s, entityType, entityId) <==> x in s && Belongs(x, entityType, entityId)
  {
    var h := History(s, entityType, entityId);
    assert x in h <==> x in multiset(h);
    assert x in multiset(Filter(s, entityType, entityId)) <==> x in Filter(s, entityType, entityId);
  }

  /** The entity's most recent entry: the one `order_by(timestamp desc).first()`
      returns, ties going to the later insertion. */
  function LatestEntry(s: Store, entityType: string, entityId: string): (r: Option<ChainEntry>)
    ensures r.None? <==> forall x :: x in s ==> !Belongs(x, entityType, entityId)
    ensures r.Some? ==> r.value in s && Belongs(r.value, entityType, entityId)
    ensures r.Some? ==> forall x :: x in s && Belongs(x, entityType, entityId) ==> x.timestamp <= r.value.timestamp
  {
    LatestOfHistory(s, entityType, entityId);
    LastOf(History(s, entityType, entityId))
  }

  /** The last entry of a history, if any. */
  function LastOf(h: seq<ChainEntry>): Option<ChainEntry> {
    if |h| == 0 then None else Some(h[|h| - 1])
  }

  /** The last entry of the history is the entity's entry with the
      greatest timestamp. */
  lemma LatestOfHistory(s: Store, entityType: string, entityId: string)
    ensures var r := LastOf(History(s, entityType, entityId));
            && (r.None? <==> forall x :: x in s ==> !Belongs(x, entityType, entityId))
            && (r.Some? ==> r.value in s && Belongs(r.value, entityType, entityId))
            && (r.Some? ==> forall x :: x in s && Belongs(x, entityType, entityId) ==> x.timestamp <= r.value.timestamp)
  {
    var h := History(s, entityType, entityId);
    HistorySorted(s, entityType, entityId);
    assert forall x :: x in h <==> x in s && Belongs(x, entityType, entityId) by {
      forall x ensures x in h <==> x in s && Belongs(x, entityType, entityId) {
        HistoryMembers(s, entityType, entityId, x);
      }
    }
    if |h| > 0 {
      assert forall i :: 0 <= i < |h| ==> h[i].timestamp <= h[|h| - 1].timestamp;
      assert forall x :: x in h ==> x.timestamp <= h[|h| - 1].timestamp;
      assert h[|h| - 1] in h;
    }
  }

  // ---------------------------------------------------------------------
  // Appending
  // ---------------------------------------------------------------------

  datatype AppendError = DuplicateDataHash

  /** `create_blockchain_entry` at time `now`: the new entry links to the
      data hash of the entity's latest entry, and its merkle root is its own
      data hash. The unique index on `data_hash` rejects a digest already in
      the table, for any entity. */
  function Append(s: Store, digest: Snapshot -> string, entityType: string, entityId: string, action: string,
                  data: Snapshot, userId: Option<int>, now: int): (r: Result<(Store, ChainEntry), AppendError>)
    ensures r.Failure? <==> exists x :: x in s && x.dataHash == HashData(digest, data)
    ensures r.Success? ==>
              var e := r.value.1;
              && r.value.0 == s + [e]
              && e.id == |s| + 1 && e.timestamp == now
              && Belongs(e, entityType, entityId) && e.action == action && e.userId == userId
              && e.dataHash == HashData(digest, data)
              && e.merkleRoot == e.dataHash
              && e.previousHash == (match LatestEntry(s, entityType, entityId)
                                    case None => None
                                    case Some(p) => Some(p.dataHash))
    ensures r.Success? && StoreWf(s) ==> StoreWf(r.value.0)
  {
    var current := HashData(digest, data);
    if exists x :: x in s && x.dataHash == current then Failure(DuplicateDataHash)
    else
      var previous := match LatestEntry(s, entityType, entityId)
                      case None => None
                      case Some(p) => Some(p.dataHash);
      var e := ChainEntry(|s| + 1, entityType, entityId, action, current, previous, current, userId, now);
      Success((s + [e], e))
  }

  /** The same data cannot be recorded twice: its digest is already in the
      table. */
  lemma SameDataRejected(s: Store, digest: Snapshot -> string, t1: string, i1: string, a1: string,
                         t2: string, i2: string, a2: string, data: Snapshot, u1: Option<int>, u2: Option<int>,
                         now1: int, now2: int)
    requires Append(s, digest, t1, i1, a1, data, u1, now1).Success?
    ensures Append(Append(s, digest, t1, i1, a1, data, u1, now1).value.0, digest, t2, i2, a2, data, u2, now2).Failure?
  {
    var s1 := Append(s, digest, t1, i1, a1, data, u1, now1).value.0;
    assert s1[|s|] in s1;
  }

  /** Entries of other entities never change an entity's history, so they
      never decide the previous hash of its next entry. */
  lemma OtherEntitiesIgnored(s: Store, e: ChainEntry, entityType: string, entityId: string)
    requires !Belongs(e, entityType, entityId)
    ensures History(s + [e], entityType, entityId) == History(s, entityType, entityId)
    ensures LatestEntry(s + [e], entityType, entityId) == LatestEntry(s, entityType, entityId)
  {
    OtherHistoryIgnored(s, e, entityType, entityId);
  }

  lemma OtherHistoryIgnored(s: Store, e: ChainEntry, entityType: string, entityId: string)
    requires !Belongs(e, entityType, entityId)
    ensures History(s + [e], entityType, entityId) == History(s, entityType, entityId)
  {
    assert (s + [e])[..|s|] == s;
  }

  // ---------------------------------------------------------------------
  // Verification
  // ---------------------------------------------------------------------

  /** Entry `i` names the data hash of entry `i - 1` as its previous hash. */
  predicate Linked(h: seq<ChainEntry>, i: nat)
    requires 1 <= i < |h|
  {
    h[i].previousHash == Some(h[i - 1].dataHash)
  }

  /** The first broken link at or after `i`, or `|h|` when there is none. */
  function FirstBreak(h: seq<ChainEntry>, i: nat): (r: nat)
    requires 1 <= i <= |h|
    ensures i <= r <= |h|
    ensures forall j :: i <= j < r ==> Linked(h, j)
    ensures r < |h| ==> !Linked(h, r)
    decreases |h| - i
  {
    if i == |h| then i
    else if !Linked(h, i) then i
    else FirstBreak(h, i + 1)
  }

  datatype Verdict = Verdict(valid: bool, message: string)

  /** The verdict `verify_entry_chain` gives for a history. A single entry
      must not name a predecessor; with two or more, every entry from the
      second on must link to the one before it, and the first entry's own
      previous hash goes unchecked. */
  function VerifyHistory(h: seq<ChainEntry>): (v: Verdict)
    ensures |h| == 0 ==> v == Verdict(true, "No entries to verify")
    ensures |h| == 1 ==> (v.valid <==> h[0].previousHash.None?)
    ensures |h| >= 2 ==> (v.valid <==> forall j :: 1 <= j < |h| ==> Linked(h, j))
    ensures |h| >= 2 && !v.valid ==>
              exists i :: 1 <= i < |h| && !Linked(h, i) && (forall j :: 1 <= j < i ==> Linked(h, j))
                          && v.message == "Chain broken at entry " + Text.NatToString(i) + ": previous_hash mismatch"
  {
    if |h| == 0 then Verdict(true, "No entries to verify")
    else if |h| == 1 then
      if h[0].previousHash.Some? then Verdict(false, "First entry should not have previous_hash")
      else Verdict(true, "Single entry chain is valid")
    else
      var i := FirstBreak(h, 1);
      if i < |h| then Verdict(false, "Chain broken at entry " + Text.NatToString(i) + ": previous_hash mismatch")
      else Verdict(true, "Chain integrity verified")
  }

  /** `verify_entry_chain`. */
  function VerifyChain(s: Store, entityType: string, entityId: string): Verdict {
    VerifyHistory(History(s, entityType, entityId))
  }

  /** What the verdict on an entity means in terms of its stored entries:
      an entity with none verifies trivially; otherwise its chain is valid
      exactly when, in timestamp order, a lone entry names no predecessor
      and every later entry names the data hash of the one before it. */
  lemma VerifyChainMeans(s: Store, entityType: string, entityId: string)
    ensures var h := History(s, entityType, entityId);
            VerifyChain(s, entityType, entityId).valid <==>
              (|h| == 1 ==> h[0].previousHash.None?) && forall j :: 1 <= j < |h| ==> Linked(h, j)
    ensures (forall x :: x in s ==> !Belongs(x, entityType, entityId)) ==>
              VerifyChain(s, entityType, entityId) == Verdict(true, "No entries to verify")
  {
    var h := History(s, entityType, entityId);
    if |h| > 0 {
      HistoryMembers(s, entityType, entityId, h[0]);
    }
  }

  /** Extending a verifying history by an entry that links to its last
      entry (or, on an empty history, names no predecessor) keeps it
      verifying. */
  lemma ExtendKeepsValid(h: seq<ChainEntry>, e: ChainEntry)
    requires VerifyHistory(h).valid
    requires |h| == 0 ==> e.previousHash.None?
    requires |h| > 0 ==> e.previousHash == Some(h[|h| - 1].dataHash)
    ensures VerifyHistory(h + [e]).valid
  {
    var h' := h + [e];
    if |h| > 0 {
      assert Linked(h', |h|);
      forall j | 1 <= j < |h|
        ensures Linked(h', j)
      {
        assert Linked(h, j);
      }
    }
  }

  /** Appending to an entity whose chain verifies, at a time later than all
      its entries, keeps the chain verifying. */
  lemma AppendKeepsChainValid(s: Store, digest: Snapshot -> string, entityType: string, entityId: string,
                              action: string, data: Snapshot, userId: Option<int>, now: int)
    requires VerifyChain(s, entityType, entityId).valid
    requires forall x :: x in s && Belongs(x, entityType, entityId) ==> x.timestamp < now
    requires Append(s, digest, entityType, entityId, action, data, userId, now).Success?
    ensures VerifyChain(Append(s, digest, entityType, entityId, action, data, userId, now).value.0,
                        entityType, entityId).valid
  {
    var r := Append(s, digest, entityType, entityId, action, data, userId, now).value;
    var e := r.1;
    var h := History(s, entityType, entityId);
    HistoryAppendLater(s, e);
    ExtendKeepsValid(h, e);
  }

  /** An entry later than all of its entity's entries goes to the end of
      the entity's history. */
  lemma HistoryAppendLater(s: Store, e: ChainEntry)
    requires forall x :: x in s && Belongs(x, e.entityType, e.entityId) ==> x.timestamp < e.timestamp
    ensures History(s + [e], e.entityType, e.entityId) == History(s, e.entityType, e.entityId) + [e]
  {
    assert (s + [e])[..|s|] == s;
    var h := History(s, e.entityType, e.entityId);
    forall x | x in h
      ensures x.timestamp <= e.timestamp
    {
      HistoryMembers(s, e.entityType, e.entityId, x);
    }
  }

  // ---------------------------------------------------------------------
  // Proof export
  // ---------------------------------------------------------------------

  datatype Proof = Proof(
    entityType: string,
    entityId: string,
    entryId: int,
    dataHash: string,
    previousHash: Option<string>,
    merkleRoot: string,
    timestamp: int,
    action: string,
    chainIsValid: bool,
    chainMessage: string,
    totalEntriesInChain: nat,
    entryPosition: nat)

  /** Index of the first entry with id `id`, or -1. */
  function IndexOfId(h: seq<ChainEntry>, id: int): (k: int)
    ensures -1 <= k < |h|
    ensures k >= 0 ==> h[k].id == id && forall j :: 0 <= j < k ==> h[j].id != id
    ensures k == -1 <==> forall j :: 0 <= j < |h| ==> h[j].id != id
  {
    assert forall j :: 0 <= j < |h| ==> (((x: ChainEntry) => x.id == id)(h[j]) <==> h[j].id == id);
    FirstIndex(h, (x: ChainEntry) => x.id == id)
  }

  /** `export_merkle_proof`: an error when no entry has the id (looked up
      over all entities); otherwise the entry's fields, the entity's chain
      verdict, its history length, and the entry's 1-based position in that
      history (0 when the entry belongs to another entity). */
  function ExportProof(s: Store, entityType: string, entityId: string, entryId: int): (r: Result<Proof, string>)
    ensures r.Failure? <==> forall j :: 0 <= j < |s| ==> s[j].id != entryId
    ensures r.Failure? ==> r.error == "Entry not found"
    ensures r.Success? ==>
              var h := History(s, entityType, entityId);
              && r.value.totalEntriesInChain == |h|
              && r.value.chainIsValid == VerifyChain(s, entityType, entityId).valid
              && r.value.entryPosition <= |h|
              && (r.value.entryPosition > 0 ==> h[r.value.entryPosition - 1].id == entryId)
              && (r.value.entryPosition == 0 <==> forall j :: 0 <= j < |h| ==> h[j].id != entryId)
  {
    var k := IndexOfId(s, entryId);
    if k < 0 then Failure("Entry not found")
    else
      var e := s[k];
      var h := History(s, entityType, entityId);
      var v := VerifyChain(s, entityType, entityId);
      Success(Proof(entityType, entityId, entryId, e.dataHash, e.previousHash, e.merkleRoot, e.timestamp,
                    e.action, v.valid, v.message, |h|, IndexOfId(h, entryId) + 1))
  }

  /** In a well-formed table, asking for the proof of an entry under
      another entity's name finds the entry but reports position 0. */
  lemma ForeignEntryPositionZero(s: Store, entityType: string, entityId: string, entryId: int)
    requires StoreWf(s)
    requires exists j :: 0 <= j < |s| && s[j].id == entryId && !Belongs(s[j], entityType, entityId)
    ensures ExportProof(s, entityType, entityId, entryId).Success?
    ensures ExportProof(s, entityType, entityId, entryId).value.entryPosition == 0
  {
    var j :| 0 <= j < |s| && s[j].id == entryId && !Belongs(s[j], entityType, entityId);
    var h := History(s, entityType, entityId);
    forall i | 0 <= i < |h|
      ensures h[i].id != entryId
    {
      HistoryMembers(s, entityType, entityId, h[i]);
      var m :| 0 <= m < |s| && s[m] == h[i];
      assert m != j;
    }
    assert IndexOfId(s, entryId) >= 0;
    assert IndexOfId(h, entryId) == -1;
  }
}

=== FILE: books.dfy ===
/** The bookkeeping records of the backend (invoices with their items,
    payments, double-entry ledger entries, financial years) and the
    operations that create, update and finalize invoices and payments and
    post ledger entries. The database is a value of type `Books`: each table
    is a sequence in insertion order and a row's id is its 1-based position.
    Timestamps are seconds on the `Civil` time line; the clock is a
    parameter. */
module Books {
  import opened Wrappers
  import Text
  import Civil

  // ---------------------------------------------------------------------
  // Records
  // ---------------------------------------------------------------------

  datatype Item = Item(description: string, quantity: int, unit: Option<string>, unitPrice: int, total: int)

  datatype Invoice = Invoice(
    id: nat,
    number: Option<string>,
    invoiceType: string,
    mode: string,
    partyId: Option<string>,
    partyName: Option<string>,
    clientTime: Option<int>,
    serverTime: int,
    status: string,
    subtotal: Option<int>,
    tax: Option<int>,
    total: Option<int>,
    note: Option<string>,
    items: seq<Item>)

  datatype Direction = In | Out {
    /** The stored spelling, `'in'` or `'out'`. */
    function Name(): string {
      match this
      case In => "in"
      case Out => "out"
    }
  }

  datatype Payment = Payment(
    id: nat,
    number: Option<string>,
    direction: Direction,
    mode: string,
    partyId: Option<string>,
    partyName: Option<string>,
    payMethod: Option<string>,
    amount: int,
    reference: Option<string>,
    clientTime: Option<int>,
    serverTime: int,
    status: string,
    note: Option<string>)

  /** One double-entry posting. Amounts are plain integers: nothing upstream
      rejects a negative unit price or payment amount. */
  datatype Entry = Entry(
    id: nat,
    refType: Option<string>,
    refId: Option<string>,
    entryDate: int,
    debit: string,
    credit: string,
    amount: int,
    partyId: Option<string>,
    partyName: Option<string>,
    description: Option<string>)

  datatype FinancialYear = FinancialYear(
    id: nat,
    name: string,
    startDate: int,
    endDate: Option<int>,
    isClosed: bool,
    closedAt: Option<int>,
    openingBalances: Option<map<string, int>>)

  datatype Books = Books(
    invoices: seq<Invoice>,
    payments: seq<Payment>,
    ledger: seq<Entry>,
    years: seq<FinancialYear>)

  /** Row ids are the 1-based positions the autoincrement keys give them. */
  predicate Wf(b: Books) {
    && (forall i :: 0 <= i < |b.invoices| ==> b.invoices[i].id == i + 1)
    && (forall i :: 0 <= i < |b.payments| ==> b.payments[i].id == i + 1)
    && (forall i :: 0 <= i < |b.ledger| ==> b.ledger[i].id == i + 1)
    && (forall i :: 0 <= i < |b.years| ==> b.years[i].id == i + 1)
  }

  // ---------------------------------------------------------------------
  // Lookups by primary key (`filter(X.id == id).first()`)
  // ---------------------------------------------------------------------

  function InvoiceIndex(s: seq<Invoice>, id: int): (k: int)
    ensures -1 <= k < |s|
    ensures k >= 0 ==> s[k].id == id && forall j :: 0 <= j < k ==> s[j].id != id
    ensures k == -1 <==> forall j :: 0 <= j < |s| ==> s[j].id != id
  {
    assert forall j :: 0 <= j < |s| ==> (((x: Invoice) => x.id == id)(s[j]) <==> s[j].id == id);
    FirstIndex(s, (x: Invoice) => x.id == id)
  }

  function PaymentIndex(s: seq<Payment>, id: int): (k: int)
    ensures -1 <= k < |s|
    ensures k >= 0 ==> s[k].id == id && forall j :: 0 <= j < k ==> s[j].id != id
    ensures k == -1 <==> forall j :: 0 <= j < |s| ==> s[j].id != id
  {
    assert forall j :: 0 <= j < |s| ==> (((x: Payment) => x.id == id)(s[j]) <==> s[j].id == id);
    FirstIndex(s, (x: Payment) => x.id == id)
  }

  function YearIndex(s: seq<FinancialYear>, id: int): (k: int)
    ensures -1 <= k < |s|
    ensures k >= 0 ==> s[k].id == id && forall j :: 0 <= j < k ==> s[j].id != id
    ensures k == -1 <==> forall j :: 0 <= j < |s| ==> s[j].id != id
  {
    assert forall j :: 0 <= j < |s| ==> (((x: FinancialYear) => x.id == id)(s[j]) <==> s[j].id == id);
    FirstIndex(s, (x: FinancialYear) => x.id == id)
  }

  // ---------------------------------------------------------------------
  // Document numbers: `{P}-{YYYYMMDD}-{id:06d}`
  // ---------------------------------------------------------------------

  /** `invoice_type[:1].upper() if invoice_type else 'I'`. */
  function InvoicePrefix(invoiceType: string): char {
    if |invoiceType| == 0 then 'I' else Text.AsciiUpper(invoiceType[0])
  }

  /** `direction[:1].upper()`: receipts get 'I' and payments 'O'; the
      unused helper that would give 'R'/'P' plays no part. */
  function PaymentPrefix(d: Direction): (c: char)
    ensures c == (if d == In then 'I' else 'O')
  {
    Text.AsciiUpper(d.Name()[0])
  }

  function DocNumber(prefix: char, now: Civil.DateTime, id: nat): string
    requires Civil.Valid(now)
  {
    [prefix] + "-" + Civil.DateDigits(now) + "-" + Text.ZeroPad(Text.NatToString(id), 6)
  }

  /** Reads a document number back into its prefix, date digits and id. */
  function ParseDocNumber(s: string): Option<(char, string, nat)> {
    if |s| < 4 || s[1] != '-' then None
    else
      var k := Text.IndexFrom(s, "-", 2);
      if k < 0 then None
      else
        var date := s[2..k];
        var id := s[k + 1..];
        if Text.AllDigits(id) then Some((s[0], date, Text.DecimalValue(id))) else None
  }

  lemma DigitsHaveNoDash(d: string, from: nat)
    requires Text.AllAsciiDigits(d) && from <= |d|
    ensures forall j :: from <= j <= |d| - 1 ==> !Text.OccursAt(d, "-", j)
  {
    forall j | from <= j <= |d| - 1
      ensures !Text.OccursAt(d, "-", j)
    {
      assert d[j..j + 1][0] == d[j];
    }
  }

  /** A document number determines the prefix, the date and the row id it
      was built from. */
  lemma DocNumberRoundTrip(prefix: char, now: Civil.DateTime, id: nat)
    requires Civil.Valid(now)
    ensures ParseDocNumber(DocNumber(prefix, now, id)) == Some((prefix, Civil.DateDigits(now), id))
  {
    var digits := Text.ZeroPad(Text.NatToString(id), 6);
    Text.ZeroPadValue(Text.NatToString(id), 6);
    Text.NatToStringRoundTrip(id);
    assert Text.AllDigits(digits) && Text.DecimalValue(digits) == id;
    FieldsRoundTrip(prefix, Civil.DateDigits(now), digits);
  }

  /** The parse splits at the first dash after the prefix, which is the one
      after the date digits. */
  lemma FieldsRoundTrip(prefix: char, date: string, digits: string)
    requires Text.AllAsciiDigits(date) && Text.AllDigits(digits) && |digits| > 0
    ensures ParseDocNumber([prefix] + "-" + date + "-" + digits)
              == Some((prefix, date, Text.DecimalValue(digits)))
  {
    var s := [prefix] + "-" + date + "-" + digits;
    var k := 2 + |date|;
    DashAfterDate(prefix, date, digits);
    assert s[0] == prefix && s[1] == '-';
    assert s[2..k] == date;
    assert s[k + 1..] == digits;
  }

  lemma DashAfterDate(prefix: char, date: string, digits: string)
    requires Text.AllAsciiDigits(date)
    ensures Text.IndexFrom([prefix] + "-" + date + "-" + digits, "-", 2) == 2 + |date|
  {
    var s := [prefix] + "-" + date + "-" + digits;
    var k := 2 + |date|;
    assert s[k..k + 1] == "-";
    assert Text.OccursAt(s, "-", k);
    forall j | 2 <= j < k
      ensures !Text.OccursAt(s, "-", j)
    {
      assert s[j..j + 1][0] == s[j] == date[j - 2];
    }
  }

  /** Different rows never share a number, whatever their prefixes and dates. */
  lemma DocNumbersDistinct(p1: char, t1: Civil.DateTime, id1: nat, p2: char, t2: Civil.DateTime, id2: nat)
    requires Civil.Valid(t1) && Civil.Valid(t2) && id1 != id2
    ensures DocNumber(p1, t1, id1) != DocNumber(p2, t2, id2)
  {
    DocNumberRoundTrip(p1, t1, id1);
    DocNumberRoundTrip(p2, t2, id2);
  }

  // ---------------------------------------------------------------------
  // Invoice creation
  // ---------------------------------------------------------------------

  datatype ItemInput = ItemInput(description: string, quantity: int, unit: Option<string>, unitPrice: int)

  datatype InvoiceInput = InvoiceInput(
    invoiceType: string,
    mode: Option<string>,
    partyId: Option<string>,
    partyName: Option<string>,
    clientTime: Option<int>,
    items: seq<ItemInput>,
    note: Option<string>)

  /** Python's `x or default` for an optional string. */
  function OrDefault(s: Option<string>, default: string): string {
    if s.Some? && |s.value| > 0 then s.value else default
  }

  /** The reference definition of an invoice amount: the sum over its lines
      of unit price times quantity. */
  function LinesAmount(lines: seq<ItemInput>): int {
    if |lines| == 0 then 0
    else LinesAmount(lines[..|lines| - 1]) + lines[|lines| - 1].unitPrice * lines[|lines| - 1].quantity
  }

  function ItemsTotal(items: seq<Item>): int {
    if |items| == 0 then 0 else ItemsTotal(items[..|items| - 1]) + items[|items| - 1].total
  }

  function MakeItem(it: ItemInput): Item {
    Item(it.description, it.quantity, it.unit, it.unitPrice, it.unitPrice * it.quantity)
  }

  /** The stored items, and the running subtotal the creation loop keeps. */
  function MakeItems(lines: seq<ItemInput>): (items: seq<Item>)
    ensures |items| == |lines|
    ensures forall k :: 0 <= k < |lines| ==> items[k] == MakeItem(lines[k])
    ensures ItemsTotal(items) == LinesAmount(lines)
  {
    if |lines| == 0 then []
    else
      var init := MakeItems(lines[..|lines| - 1]);
      var items := init + [MakeItem(lines[|lines| - 1])];
      assert items[..|items| - 1] == init;
      items
  }

  /** `create_invoice_manual`: a draft invoice whose items carry
      `unit_price * quantity`, whose subtotal and total are their sum, and
      whose number is built from the current UTC date and the new row id. */
  function CreateInvoice(b: Books, inp: InvoiceInput, now: Civil.DateTime): (r: (Books, Invoice))
    requires Civil.Valid(now)
    ensures r.1.id == |b.invoices| + 1
    ensures r.1.status == "draft"
    ensures r.1.serverTime == Civil.Seconds(now)
    ensures |r.1.items| == |inp.items|
    ensures forall k :: 0 <= k < |inp.items| ==>
              r.1.items[k].total == inp.items[k].unitPrice * inp.items[k].quantity
    ensures r.1.subtotal == Some(LinesAmount(inp.items)) && r.1.total == r.1.subtotal && r.1.tax == None
    ensures r.1.number == Some(DocNumber(InvoicePrefix(inp.invoiceType), now, r.1.id))
    ensures r.0 == b.(invoices := b.invoices + [r.1])
    ensures Wf(b) ==> Wf(r.0)
  {
    var id := |b.invoices| + 1;
    var items := MakeItems(inp.items);
    var subtotal := ItemsTotal(items);
    var inv := Invoice(
      id := id,
      number := Some(DocNumber(InvoicePrefix(inp.invoiceType), now, id)),
      invoiceType := inp.invoiceType,
      mode := OrDefault(inp.mode, "manual"),
      partyId := inp.partyId,
      partyName := inp.partyName,
      clientTime := inp.clientTime,
      serverTime := Civil.Seconds(now),
      status := "draft",
      subtotal := Some(subtotal),
      tax := None,
      total := Some(subtotal),
      note := inp.note,
      items := items);
    (b.(invoices := b.invoices + [inv]), inv)
  }

  // ---------------------------------------------------------------------
  // Invoice update
  // ---------------------------------------------------------------------

  /** One `key: value` pair of the update dictionary. Keys that name no
      column of the invoice are ignored, as `hasattr` makes them. The
      primary key `id` is a column too, so a payload can rename the row. */
  datatype FieldUpdate =
    | SetId(id: nat)
    | SetNumber(number: Option<string>)
    | SetInvoiceType(invoiceType: string)
    | SetMode(mode: string)
    | SetPartyId(partyId: Option<string>)
    | SetPartyName(partyName: Option<string>)
    | SetClientTime(clientTime: Option<int>)
    | SetServerTime(serverTime: int)
    | SetStatus(status: string)
    | SetSubtotal(subtotal: Option<int>)
    | SetTax(tax: Option<int>)
    | SetTotal(total: Option<int>)
    | SetNote(note: Option<string>)
    | UnknownKey(key: string)

  /** `setattr(inv, k, v)`. */
  function ApplyField(inv: Invoice, u: FieldUpdate): Invoice {
    match u
    case SetId(v) => inv.(id := v)
    case SetNumber(v) => inv.(number := v)
    case SetInvoiceType(v) => inv.(invoiceType := v)
    case SetMode(v) => inv.(mode := v)
    case SetPartyId(v) => inv.(partyId := v)
    case SetPartyName(v) => inv.(partyName := v)
    case SetClientTime(v) => inv.(clientTime := v)
    case SetServerTime(v) => inv.(serverTime := v)
    case SetStatus(v) => inv.(status := v)
    case SetSubtotal(v) => inv.(subtotal := v)
    case SetTax(v) => inv.(tax := v)
    case SetTotal(v) => inv.(total := v)
    case SetNote(v) => inv.(note := v)
    case UnknownKey(_) => inv
  }

  /** The keys of the payload applied in order. Without an `id` key the row
      keeps its id; otherwise the last `id` wins. The columns never touch
      the item rows. */
  function ApplyFields(inv: Invoice, us: seq<FieldUpdate>): (r: Invoice)
    ensures r.items == inv.items
    ensures (forall k :: 0 <= k < |us| ==> !us[k].SetId?) ==> r.id == inv.id
    ensures forall k :: 0 <= k < |us| && us[k].SetId? && (forall j :: k < j < |us| ==> !us[j].SetId?) ==>
              r.id == us[k].id
    decreases |us|
  {
    if |us| == 0 then inv
    else
      var r := ApplyFields(ApplyField(inv, us[0]), us[1..]);
      assert forall k :: 1 <= k < |us| ==> us[1..][k - 1] == us[k];
      r
  }

  /** Why `update_invoice` can fail once the row is found: `commit` refuses
      an id or an invoice number that another invoice already holds. */
  datatype UpdateError = NotFound | DuplicateKey

  /** Another invoice than the one at `k` holds the id or the number of
      `inv`, so the primary key or the unique number index refuses it. */
  predicate Clashes(s: seq<Invoice>, k: nat, inv: Invoice) {
    exists j :: 0 <= j < |s| && j != k && (s[j].id == inv.id || (inv.number.Some? && s[j].number == inv.number))
  }

  /** The updated row as it is read back: its item rows are found by
      `invoice_id`, which the update leaves at the old id, so a row given a
      new id comes back without items. */
  function Stored(before: Invoice, inv: Invoice): (r: Invoice)
    ensures r.id == inv.id
    ensures r.items == if inv.id == before.id then inv.items else []
  {
    if inv.id == before.id then inv else inv.(items := [])
  }

  /** `update_invoice`: `None` for an unknown id; otherwise the named columns
      are overwritten in order and nothing else in the database changes (in
      particular nothing is posted, even when the total of a final invoice
      changes). A commit that breaks a unique key raises instead. */
  function UpdateInvoice(b: Books, id: int, us: seq<FieldUpdate>): (r: Result<(Books, Invoice), UpdateError>)
    ensures r == Failure(NotFound) <==> forall j :: 0 <= j < |b.invoices| ==> b.invoices[j].id != id
    ensures r == Failure(DuplicateKey) <==>
              var k := InvoiceIndex(b.invoices, id);
              k >= 0 && Clashes(b.invoices, k, ApplyFields(b.invoices[k], us))
    ensures r.Success? ==>
              var k := InvoiceIndex(b.invoices, id);
              && k >= 0
              && r.value.1 == Stored(b.invoices[k], ApplyFields(b.invoices[k], us))
              && r.value.0 == b.(invoices := b.invoices[k := r.value.1])
  {
    var k := InvoiceIndex(b.invoices, id);
    if k < 0 then Failure(NotFound)
    else
      var inv := ApplyFields(b.invoices[k], us);
      if Clashes(b.invoices, k, inv) then Failure(DuplicateKey)
      else
        var st := Stored(b.invoices[k], inv);
        Success((b.(invoices := b.invoices[k := st]), st))
  }

  /** After a successful update the row is found under its new id, and every
      other invoice is found where it was. */
  lemma UpdatedFoundUnderNewId(b: Books, id: int, us: seq<FieldUpdate>)
    requires UpdateInvoice(b, id, us).Success?
    ensures var r := UpdateInvoice(b, id, us).value;
            && InvoiceIndex(r.0.invoices, r.1.id) == InvoiceIndex(b.invoices, id)
            && r.0.payments == b.payments && r.0.ledger == b.ledger && r.0.years == b.years
  {
    var k := InvoiceIndex(b.invoices, id);
    var inv := Stored(b.invoices[k], ApplyFields(b.invoices[k], us));
    var s := b.invoices[k := inv];
    assert s[k].id == inv.id;
    forall j | 0 <= j < k ensures s[j].id != inv.id {
      assert !(b.invoices[j].id == inv.id);
    }
    InvoiceIndexFirst(s, k, inv.id);
  }

  /** The first position holding an id is what the lookup finds. */
  lemma {:induction false} InvoiceIndexFirst(s: seq<Invoice>, k: nat, id: int)
    requires k < |s| && s[k].id == id && forall j :: 0 <= j < k ==> s[j].id != id
    ensures InvoiceIndex(s, id) == k
    decreases |s|
  {
    if k < |s| - 1 {
      var p := s[..|s| - 1];
      assert p[k] == s[k];
      assert forall j :: 0 <= j < k ==> p[j] == s[j];
      InvoiceIndexFirst(p, k, id);
    }
  }

  /** An update made only of keys the invoice does not have changes nothing. */
  lemma {:induction false} UnknownKeysIgnored(inv: Invoice, us: seq<FieldUpdate>)
    requires forall k :: 0 <= k < |us| ==> us[k].UnknownKey?
    ensures ApplyFields(inv, us) == inv
    decreases |us|
  {
    if |us| > 0 {
      UnknownKeysIgnored(inv, us[1..]);
    }
  }

  // ---------------------------------------------------------------------
  // Ledger posting
  // ---------------------------------------------------------------------

  /** `create_ledger_entry`: appends one entry dated `now`. */
  function Post(ledger: seq<Entry>, refType: string, refId: string, debit: string, credit: string, amount: int,
                partyId: Option<string>, partyName: Option<string>, description: string, now: int): (r: seq<Entry>)
    ensures |r| == |ledger| + 1 && r[..|ledger|] == ledger
    ensures r[|ledger|] == Entry(|ledger| + 1, Some(refType), Some(refId), now, debit, credit, amount,
                                 partyId, partyName, Some(description))
  {
    ledger + [Entry(|ledger| + 1, Some(refType), Some(refId), now, debit, credit, amount, partyId, partyName, Some(description))]
  }

  /** `f'{x}'` of an optional document number. */
  function NumberText(n: Option<string>): string {
    match n
    case Some(s) => s
    case None => "None"
  }

  // ---------------------------------------------------------------------
  // Invoice finalization
  // ---------------------------------------------------------------------

  /** `finalize_invoice`: `None` for an unknown id; otherwise the invoice
      becomes 'final' (client time replaced when given, server time set to
      now) and one entry debiting AccountsReceivable and crediting Sales by
      `total or 0` is posted. No guard on the previous status and no check of
      the invoice type: every call posts again, purchases included. */
  function FinalizeInvoice(b: Books, id: int, clientTime: Option<int>, now: int): (r: Option<(Books, Invoice)>)
    ensures r.None? <==> forall j :: 0 <= j < |b.invoices| ==> b.invoices[j].id != id
    ensures r.Some? ==>
              var k := InvoiceIndex(b.invoices, id);
              var old_ := b.invoices[k];
              var inv := r.value.1;
              var b' := r.value.0;
              && inv == old_.(status := "final", clientTime := if clientTime.Some? then clientTime else old_.clientTime,
                               serverTime := now)
              && b'.invoices == b.invoices[k := inv]
              && b'.payments == b.payments && b'.years == b.years
              && |b'.ledger| == |b.ledger| + 1 && b'.ledger[..|b.ledger|] == b.ledger
              && b'.ledger[|b.ledger|].debit == "AccountsReceivable"
              && b'.ledger[|b.ledger|].credit == "Sales"
              && b'.ledger[|b.ledger|].amount == old_.total.GetOr(0)
              && b'.ledger[|b.ledger|].refType == Some("invoice")
              && b'.ledger[|b.ledger|].refId == Some(Text.NatToString(old_.id))
              && b'.ledger[|b.ledger|].entryDate == now
    ensures r.Some? && Wf(b) ==> Wf(r.value.0)
  {
    var k := InvoiceIndex(b.invoices, id);
    if k < 0 then None
    else
      var old_ := b.invoices[k];
      var inv := old_.(status := "final",
                       clientTime := if clientTime.Some? then clientTime else old_.clientTime,
                       serverTime := now);
      var ledger := Post(b.ledger, "invoice", Text.NatToString(inv.id), "AccountsReceivable", "Sales",
                         inv.total.GetOr(0), inv.partyId, inv.partyName, "Invoice " + NumberText(inv.number), now);
      Some((b.(invoices := b.invoices[k := inv], ledger := ledger), inv))
  }

  /** Sum of the amounts of the entries referring to (`refType`, `refId`). */
  function RefAmount(ledger: seq<Entry>, refType: string, refId: string): int {
    if |ledger| == 0 then 0
    else
      var e := ledger[|ledger| - 1];
      RefAmount(ledger[..|ledger| - 1], refType, refId)
        + (if e.refType == Some(refType) && e.refId == Some(refId) then e.amount else 0)
  }

  /** Finalizing an invoice that nothing has been posted for yet leaves the
      ledger holding exactly its total against it. */
  lemma FinalizeInvoicePostsTotal(b: Books, id: int, clientTime: Option<int>, now: int)
    requires exists j :: 0 <= j < |b.invoices| && b.invoices[j].id == id
    requires RefAmount(b.ledger, "invoice", Text.NatToString(b.invoices[InvoiceIndex(b.invoices, id)].id)) == 0
    ensures var r := FinalizeInvoice(b, id, clientTime, now);
            r.Some? && RefAmount(r.value.0.ledger, "invoice", Text.NatToString(r.value.1.id)) == r.value.1.total.GetOr(0)
  {
    var r := FinalizeInvoice(b, id, clientTime, now);
    var l := r.value.0.ledger;
    assert l[..|l| - 1] == b.ledger;
  }

  /** Without a status guard, finalizing twice posts the total twice: the
      ledger then holds twice the invoice total against it. */
  lemma FinalizeInvoiceTwicePostsTwice(b: Books, id: int, now1: int, now2: int)
    requires exists j :: 0 <= j < |b.invoices| && b.invoices[j].id == id
    requires RefAmount(b.ledger, "invoice", Text.NatToString(b.invoices[InvoiceIndex(b.invoices, id)].id)) == 0
    ensures var r1 := FinalizeInvoice(b, id, None, now1);
            r1.Some? &&
            var r2 := FinalizeInvoice(r1.value.0, id, None, now2);
            && r2.Some?
            && |r2.value.0.ledger| == |b.ledger| + 2
            && RefAmount(r2.value.0.ledger, "invoice", Text.NatToString(r2.value.1.id)) == 2 * r2.value.1.total.GetOr(0)
  {
    var r1 := FinalizeInvoice(b, id, None, now1);
    FinalizeInvoicePostsTotal(b, id, None, now1);
    var b1 := r1.value.0;
    var k := InvoiceIndex(b.invoices, id);
    assert b1.invoices[k].id == id;
    assert InvoiceIndex(b1.invoices, id) == k by {
      forall j | 0 <= j < k ensures b1.invoices[j].id != id {
        assert b1.invoices[j] == b.invoices[j];
      }
    }
    var r2 := FinalizeInvoice(b1, id, None, now2);
    var l := r2.value.0.ledger;
    assert l[..|l| - 1] == b1.ledger;
  }

  // ---------------------------------------------------------------------
  // Payments
  // ---------------------------------------------------------------------

  datatype PaymentInput = PaymentInput(
    direction: Direction,
    mode: Option<string>,
    partyId: Option<string>,
    partyName: Option<string>,
    payMethod: Option<string>,
    amount: int,
    reference: Option<string>,
    clientTime: Option<int>,
    note: Option<string>)

  /** `create_payment_manual`: a draft payment numbered `I-…` for receipts
      and `O-…` for payments out. The linked invoice id, due date and
      tracking code of the request are not stored by this function. */
  function CreatePayment(b: Books, inp: PaymentInput, now: Civil.DateTime): (r: (Books, Payment))
    requires Civil.Valid(now)
    ensures r.1.id == |b.payments| + 1
    ensures r.1.status == "draft" && r.1.amount == inp.amount && r.1.direction == inp.direction
    ensures r.1.number == Some(DocNumber(if inp.direction == In then 'I' else 'O', now, r.1.id))
    ensures r.0 == b.(payments := b.payments + [r.1])
    ensures Wf(b) ==> Wf(r.0)
  {
    var id := |b.payments| + 1;
    var pay := Payment(
      id := id,
      number := Some(DocNumber(PaymentPrefix(inp.direction), now, id)),
      direction := inp.direction,
      mode := OrDefault(inp.mode, "manual"),
      partyId := inp.partyId,
      partyName := inp.partyName,
      payMethod := inp.payMethod,
      amount := inp.amount,
      reference := inp.reference,
      clientTime := inp.clientTime,
      serverTime := Civil.Seconds(now),
      status := "draft",
      note := inp.note);
    (b.(payments := b.payments + [pay]), pay)
  }

  /** The cash-like account a payment method books to. */
  function AssetAccount(payMethod: Option<string>): (a: string)
    ensures a == "Cash" <==> (payMethod.None? || |payMethod.value| == 0 || Text.LowerAscii(payMethod.value) == "cash")
    ensures a == "Bank" <==> (a != "Cash" && Text.Contains(Text.LowerAscii(payMethod.value), "bank"))
    ensures a == "Cash" || a == "Bank" || a == "POS"
  {
    if payMethod.None? || |payMethod.value| == 0 || Text.LowerAscii(payMethod.value) == "cash" then "Cash"
    else if Text.Contains(Text.LowerAscii(payMethod.value), "bank") then "Bank"
    else "POS"
  }

  /** The (debit, credit) pair a payment posts: the asset account on the
      side the direction picks, against AccountsReceivable or Expenses. */
  function PaymentAccounts(d: Direction, payMethod: Option<string>): (r: (string, string))
    ensures r.0 != r.1
    ensures d == In <==> r.0 == AssetAccount(payMethod)
    ensures d == Out <==> r.1 == AssetAccount(payMethod)
    ensures {r.0, r.1} == {AssetAccount(payMethod), if d == In then "AccountsReceivable" else "Expenses"}
  {
    var a := AssetAccount(payMethod);
    assert |a| <= 4 < |"Expenses"| < |"AccountsReceivable"|;
    assert a != "AccountsReceivable" && a != "Expenses";
    match d
    case In => (a, "AccountsReceivable")
    case Out => ("Expenses", a)
  }

  /** `finalize_payment`: `None` for an unknown id; otherwise the payment is
      'posted' and one entry chosen by direction and method is posted. */
  function FinalizePayment(b: Books, id: int, clientTime: Option<int>, now: int): (r: Option<(Books, Payment)>)
    ensures r.None? <==> forall j :: 0 <= j < |b.payments| ==> b.payments[j].id != id
    ensures r.Some? ==>
              var k := PaymentIndex(b.payments, id);
              var old_ := b.payments[k];
              var p := r.value.1;
              var b' := r.value.0;
              && p == old_.(status := "posted", clientTime := if clientTime.Some? then clientTime else old_.clientTime,
                             serverTime := now)
              && b'.payments == b.payments[k := p]
              && b'.invoices == b.invoices && b'.years == b.years
              && |b'.ledger| == |b.ledger| + 1 && b'.ledger[..|b.ledger|] == b.ledger
              && (b'.ledger[|b.ledger|].debit, b'.ledger[|b.ledger|].credit) == PaymentAccounts(old_.direction, old_.payMethod)
              && b'.ledger[|b.ledger|].amount == old_.amount
              && b'.ledger[|b.ledger|].refType == Some("payment")
    ensures r.Some? && Wf(b) ==> Wf(r.value.0)
  {
    var k := PaymentIndex(b.payments, id);
    if k < 0 then None
    else
      var old_ := b.payments[k];
      var p := old_.(status := "posted",
                     clientTime := if clientTime.Some? then clientTime else old_.clientTime,
                     serverTime := now);
      var accounts := PaymentAccounts(p.direction, p.payMethod);
      var ledger := Post(b.ledger, "payment", Text.NatToString(p.id), accounts.0, accounts.1, p.amount,
                         p.partyId, p.partyName, "Payment " + NumberText(p.number), now);
      Some((b.(payments := b.payments[k := p], ledger := ledger), p))
  }

  // ---------------------------------------------------------------------
  // Account balances
  // ---------------------------------------------------------------------

  /** The reference definition of an account balance: everything debited to
      it minus everything credited to it. */
  function Balance(ledger: seq<Entry>, account: string): int {
    if |ledger| == 0 then 0
    else
      var e := ledger[|ledger| - 1];
      Balance(ledger[..|ledger| - 1], account)
        + (if e.debit == account then e.amount else 0)
        - (if e.credit == account then e.amount else 0)
  }

  lemma {:induction false} BalanceAppend(a: seq<Entry>, c: seq<Entry>, account: string)
    ensures Balance(a + c, account) == Balance(a, account) + Balance(c, account)
    decreases |c|
  {
    if |c| == 0 {
      assert a + c == a;
    } else {
      assert (a + c)[..|a + c| - 1] == a + c[..|c| - 1];
      BalanceAppend(a, c[..|c| - 1], account);
    }
  }

  /** A receipt moves its amount from AccountsReceivable into the asset
      account of its method; a payment out moves it from that account into
      Expenses. */
  lemma FinalizePaymentMovesAmount(b: Books, id: int, clientTime: Option<int>, now: int)
    requires exists j :: 0 <= j < |b.payments| && b.payments[j].id == id
    ensures var r := FinalizePayment(b, id, clientTime, now);
            && r.Some?
            && var p := r.value.1;
               var l := r.value.0.ledger;
               var asset := AssetAccount(p.payMethod);
               if p.direction == In then
                 && Balance(l, asset) == Balance(b.ledger, asset) + p.amount
                 && Balance(l, "AccountsReceivable") == Balance(b.ledger, "AccountsReceivable") - p.amount
               else
                 && Balance(l, asset) == Balance(b.ledger, asset) - p.amount
                 && Balance(l, "Expenses") == Balance(b.ledger, "Expenses") + p.amount
  {
    var r := FinalizePayment(b, id, clientTime, now);
    var l := r.value.0.ledger;
    assert l[..|l| - 1] == b.ledger;
  }

  // ---------------------------------------------------------------------
  // Financial years
  // ---------------------------------------------------------------------

  predicate HasYearNamed(years: seq<FinancialYear>, name: string) {
    exists j :: 0 <= j < |years| && years[j].name == name
  }

  /** `create_financial_year`: a new open year. Parsing the ISO date
      strings is left to the caller (an end date that does not parse
      arrives as `None`); the unique index on the name makes a second year
      of the same name fail. */
  function CreateFinancialYear(b: Books, name: string, start: int, end: Option<int>): (r: Option<(Books, FinancialYear)>)
    ensures r.None? <==> HasYearNamed(b.years, name)
    ensures r.Some? ==>
              && r.value.1 == FinancialYear(|b.years| + 1, name, start, end, false, None, None)
              && r.value.0 == b.(years := b.years + [r.value.1])
              && HasYearNamed(r.value.0.years, name)
    ensures r.Some? && Wf(b) ==> Wf(r.value.0)
  {
    if HasYearNamed(b.years, name) then None
    else
      var fy := FinancialYear(|b.years| + 1, name, start, end, false, None, None);
      var years := b.years + [fy];
      assert years[|b.years|].name == name;
      Some((b.(years := years), fy))
  }
}

=== FILE: civil.dfy ===
/** The proleptic Gregorian calendar of Python's `datetime`, reduced to what
    the bookkeeping core needs: broken-down date-times, their position on a
    single integer time line, and the weekday. A timestamp everywhere in the
    model is an `int` number of seconds since 0001-01-01T00:00:00 (UTC for the
    server clock); the clock itself is always a parameter. */
module Civil {
  import Text

  const SecondsPerDay: int := 86400

  predicate IsLeapYear(y: int) {
    y % 4 == 0 && (y % 100 != 0 || y % 400 == 0)
  }

  function YearLength(y: int): int {
    if IsLeapYear(y) then 366 else 365
  }

  function DaysInMonth(y: int, m: int): (d: int)
    requires 1 <= m <= 12
    ensures 28 <= d <= 31
  {
    if m == 2 then (if IsLeapYear(y) then 29 else 28)
    else if m == 4 || m == 6 || m == 9 || m == 11 then 30
    else 31
  }

  /** Days in the months of year `y` before month `m`. */
  function DaysBeforeMonth(y: int, m: int): nat
    requires 1 <= m <= 12
  {
    var cumulative := [0, 31, 59, 90, 120, 151, 181, 212, 243, 273, 304, 334];
    cumulative[m - 1] + (if m > 2 && IsLeapYear(y) then 1 else 0)
  }

  /** Days from 0001-01-01 to the first day of year `y`. */
  function DaysBeforeYear(y: int): nat
    requires y >= 1
    decreases y
  {
    if y == 1 then 0 else DaysBeforeYear(y - 1) + YearLength(y - 1)
  }

  datatype DateTime = DateTime(year: int, month: int, day: int, hour: int, minute: int, second: int)

  predicate ValidDate(y: int, m: int, d: int) {
    y >= 1 && 1 <= m <= 12 && 1 <= d <= DaysInMonth(y, m)
  }

  predicate Valid(t: DateTime) {
    && ValidDate(t.year, t.month, t.day)
    && 0 <= t.hour < 24 && 0 <= t.minute < 60 && 0 <= t.second < 60
  }

  /** Days since 0001-01-01 (Python's `toordinal() - 1`). */
  function DayNumber(y: int, m: int, d: int): int
    requires y >= 1 && 1 <= m <= 12
  {
    DaysBeforeYear(y) + DaysBeforeMonth(y, m) + d - 1
  }

  function SecondOfDay(t: DateTime): int {
    t.hour * 3600 + t.minute * 60 + t.second
  }

  /** The position of a date-time on the model's time line. */
  function Seconds(t: DateTime): int
    requires t.year >= 1 && 1 <= t.month <= 12
  {
    DayNumber(t.year, t.month, t.day) * SecondsPerDay + SecondOfDay(t)
  }

  /** Python's `weekday()`: 0 is Monday. 0001-01-01 was a Monday. */
  function Weekday(t: DateTime): int
    requires t.year >= 1 && 1 <= t.month <= 12
  {
    DayNumber(t.year, t.month, t.day) % 7
  }

  /** The month after (`y`, `m`): December rolls over to January of `y + 1`. */
  function NextMonth(y: int, m: int): (r: (int, int))
    requires 1 <= m <= 12
    ensures 1 <= r.1 <= 12
    ensures 12 * r.0 + r.1 == 12 * y + m + 1
  {
    if m == 12 then (y + 1, 1) else (y, m + 1)
  }

  /** The first day of the next month lies exactly one month length after the
      first day of this month. */
  lemma MonthSpan(y: int, m: int)
    requires y >= 1 && 1 <= m <= 12
    ensures DayNumber(NextMonth(y, m).0, NextMonth(y, m).1, 1) == DayNumber(y, m, 1) + DaysInMonth(y, m)
  {
    if m == 12 {
      assert DaysBeforeYear(y + 1) == DaysBeforeYear(y) + YearLength(y);
    }
  }

  /** `%Y%m%d` of `strftime` (years below 1000 are not padded, as with the C
      library's `strftime`). */
  function DateDigits(t: DateTime): (s: string)
    requires Valid(t)
    ensures Text.AllAsciiDigits(s)
    ensures |s| == |Text.NatToString(t.year)| + 4
    ensures 1000 <= t.year <= 9999 ==> |s| == 8
  {
    var y := Text.NatToString(t.year);
    var m := Text.NatToString(t.month);
    var d := Text.NatToString(t.day);
    NatToStringShort(t.month);
    NatToStringShort(t.day);
    YearDigits(t.year);
    var pm := Text.ZeroPad(m, 2);
    var pd := Text.ZeroPad(d, 2);
    assert |pm| == 2 && |pd| == 2;
    assert Text.AllAsciiDigits(pm) by { PaddedDigits(m, 2); }
    assert Text.AllAsciiDigits(pd) by { PaddedDigits(d, 2); }
    y + pm + pd
  }

  lemma PaddedDigits(s: string, w: nat)
    requires Text.AllAsciiDigits(s)
    ensures Text.AllAsciiDigits(Text.ZeroPad(s, w))
  {
    var r := Text.ZeroPad(s, w);
    forall i | 0 <= i < |r|
      ensures Text.IsAsciiDigit(r[i])
    {
      if i >= |r| - |s| {
        assert r[i] == s[i - (|r| - |s|)];
      }
    }
  }

  lemma NatToStringShort(n: nat)
    ensures n < 100 ==> |Text.NatToString(n)| <= 2
  {
    if 10 <= n < 100 {
      assert Text.NatToString(n) == Text.NatToString(n / 10) + [Text.AsciiDigit(n % 10)];
    }
  }

  lemma YearDigits(y: nat)
    ensures 1000 <= y <= 9999 ==> |Text.NatToString(y)| == 4
  {
    if 1000 <= y <= 9999 {
      assert Text.NatToString(y) == Text.NatToString(y / 10) + [Text.AsciiDigit(y % 10)];
      assert Text.NatToString(y / 10) == Text.NatToString(y / 100) + [Text.AsciiDigit(y / 10 % 10)];
      assert Text.NatToString(y / 100) == Text.NatToString(y / 1000) + [Text.AsciiDigit(y / 100 % 10)];
    }
  }
}

=== FILE: financial_automation.dfy ===
/** Financial years named after the current Jalali year, the context the
    user interface receives about them, and the quarter arithmetic of the
    date suggestions. The Jalali calendar itself is not modelled: today's
    Jalali date is a parameter, and so are the conversions between Jalali
    and Gregorian dates. */
module FinancialAutomation {
  import opened Wrappers
  import Text
  import opened Books

  datatype JalaliDate = JalaliDate(year: nat, month: nat, day: nat)

  /** `"سال مالی {year}"`. */
  function YearName(jy: nat): string {
    "سال مالی " + Text.NatToString(jy)
  }

  lemma YearNameInjective(a: nat, b: nat)
    requires YearName(a) == YearName(b)
    ensures a == b
  {
    var p := "سال مالی ";
    assert YearName(a)[|p|..] == Text.NatToString(a);
    assert YearName(b)[|p|..] == Text.NatToString(b);
    Text.NatToStringRoundTrip(a);
    Text.NatToStringRoundTrip(b);
  }

  /** `strftime("%Y/%m/%d")` of a Jalali date. */
  function JalaliText(d: JalaliDate): string {
    Text.NatToString(d.year) + "/" + Text.ZeroPad(Text.NatToString(d.month), 2) + "/"
      + Text.ZeroPad(Text.NatToString(d.day), 2)
  }

  /** `_to_jalali_str`: no date gives no text; otherwise the conversion,
      which may fail and then also gives no text. */
  function ToJalaliText(dt: Option<int>, fromGregorian: int -> Option<JalaliDate>): (r: Option<string>)
    ensures dt.None? ==> r.None?
    ensures dt.Some? && fromGregorian(dt.value).Some? ==> r == Some(JalaliText(fromGregorian(dt.value).value))
  {
    match dt
    case None => None
    case Some(t) =>
      match fromGregorian(t)
      case None => None
      case Some(j) => Some(JalaliText(j))
  }

  /** The first year with the given name (`filter(name == ...).first()`). */
  function YearNamed(years: seq<FinancialYear>, name: string): (k: int)
    ensures -1 <= k < |years|
    ensures k >= 0 ==> years[k].name == name && forall j :: 0 <= j < k ==> years[j].name != name
    ensures k == -1 <==> !HasYearNamed(years, name)
  {
    assert forall j :: 0 <= j < |years| ==>
             (((y: FinancialYear) => y.name == name)(years[j]) <==> years[j].name == name);
    FirstIndex(years, (y: FinancialYear) => y.name == name)
  }

  // ---------------------------------------------------------------------
  // get_or_create_current_financial_year
  // ---------------------------------------------------------------------

  datatype CallError = TypeError(message: string)

  /** The function as written: the create path calls `create_financial_year`
      with a keyword `session`, which that function does not accept (its
      first parameter is `db`), so the call raises before anything is
      stored. */
  function GetOrCreateYearAsWritten(b: Books, today: JalaliDate): (r: Result<FinancialYear, CallError>)
    ensures r.Success? <==> HasYearNamed(b.years, YearName(today.year))
    ensures r.Success? ==> r.value == b.years[YearNamed(b.years, YearName(today.year))]
  {
    var k := YearNamed(b.years, YearName(today.year));
    if k >= 0 then Success(b.years[k])
    else Failure(TypeError("create_financial_year() got an unexpected keyword argument 'session'"))
  }

  /** The evidently intended function: an existing year of the current name
      is returned untouched; otherwise a year running from 1 Farvardin to
      29 Esfand of the current Jalali year is created. `toGregorian` gives
      the timestamp of midnight of a Jalali date. */
  function GetOrCreateYear(b: Books, today: JalaliDate, toGregorian: JalaliDate -> int): (r: (Books, FinancialYear))
    ensures r.1.name == YearName(today.year)
    ensures HasYearNamed(b.years, YearName(today.year)) ==>
              r.0 == b && r.1 == b.years[YearNamed(b.years, YearName(today.year))]
    ensures !HasYearNamed(b.years, YearName(today.year)) ==>
              && r.1.startDate == toGregorian(JalaliDate(today.year, 1, 1))
              && r.1.endDate == Some(toGregorian(JalaliDate(today.year, 12, 29)))
              && !r.1.isClosed
              && r.0 == b.(years := b.years + [r.1])
    ensures HasYearNamed(r.0.years, YearName(today.year))
  {
    var name := YearName(today.year);
    var k := YearNamed(b.years, name);
    if k >= 0 then (b, b.years[k])
    else
      var created := CreateFinancialYear(b, name, toGregorian(JalaliDate(today.year, 1, 1)),
                                         Some(toGregorian(JalaliDate(today.year, 12, 29))));
      created.value
  }

  /** Where the current year exists, both versions agree; where it does
      not, the version as written fails while the intended one stores the
      year. */
  lemma AsWrittenVersusIntended(b: Books, today: JalaliDate, toGregorian: JalaliDate -> int)
    ensures HasYearNamed(b.years, YearName(today.year)) ==>
              GetOrCreateYearAsWritten(b, today) == Success(GetOrCreateYear(b, today, toGregorian).1)
    ensures !HasYearNamed(b.years, YearName(today.year)) ==>
              && GetOrCreateYearAsWritten(b, today).Failure?
              && !HasYearNamed(b.years, YearName(today.year))
              && HasYearNamed(GetOrCreateYear(b, today, toGregorian).0.years, YearName(today.year))
  {
  }

  /** Calling it again the same year finds the year the first call made. */
  lemma GetOrCreateYearIdempotent(b: Books, today: JalaliDate, toGregorian: JalaliDate -> int)
    ensures var r1 := GetOrCreateYear(b, today, toGregorian);
            GetOrCreateYear(r1.0, today, toGregorian) == r1
  {
    var r1 := GetOrCreateYear(b, today, toGregorian);
    var name := YearName(today.year);
    if !HasYearNamed(b.years, name) {
      var ys := r1.0.years;
      assert ys[..|b.years|] == b.years;
      assert YearNamed(ys[..|ys| - 1], name) == -1;
    }
  }

  // ---------------------------------------------------------------------
  // auto_determine_financial_context
  // ---------------------------------------------------------------------

  datatype YearView = YearView(
    id: nat,
    name: string,
    startDate: int,
    endDate: Option<int>,
    startDateJalali: Option<string>,
    endDateJalali: Option<string>,
    isClosed: bool)

  datatype Context = Context(
    currentYear: YearView,
    today: JalaliDate,
    todayText: string,
    autoCreated: bool)

  /** `auto_determine_financial_context`, using the corrected get-or-create:
      `auto_created` is set exactly when no year of the current name
      existed before the call. */
  function AutoDetermineContext(b: Books, today: JalaliDate, toGregorian: JalaliDate -> int,
                                fromGregorian: int -> Option<JalaliDate>): (r: (Books, Context))
    ensures r.1.autoCreated <==> !HasYearNamed(b.years, YearName(today.year))
    ensures r.1.currentYear.name == YearName(today.year)
    ensures r.1.autoCreated ==> r.1.currentYear.endDate.Some? && !r.1.currentYear.isClosed
    ensures !r.1.autoCreated ==> r.0 == b
    ensures r.1.todayText == JalaliText(today)
  {
    var existed := HasYearNamed(b.years, YearName(today.year));
    var (b', fy) := GetOrCreateYear(b, today, toGregorian);
    (b', Context(View(fy, fromGregorian), today, JalaliText(today), !existed))
  }

  /** The `current_financial_year` entry: the year's fields, with its dates
      also given as Jalali text. */
  function View(fy: FinancialYear, fromGregorian: int -> Option<JalaliDate>): YearView {
    YearView(fy.id, fy.name, fy.startDate, fy.endDate,
             ToJalaliText(Some(fy.startDate), fromGregorian), ToJalaliText(fy.endDate, fromGregorian),
             fy.isClosed)
  }

  /** `auto_determine_financial_context` as written, on the get-or-create
      as written: it fails exactly when the current year has to be created,
      so a context it does return never reports `auto_created`. */
  function AutoDetermineContextAsWritten(b: Books, today: JalaliDate,
                                         fromGregorian: int -> Option<JalaliDate>): (r: Result<Context, CallError>)
    ensures r.Failure? <==> !HasYearNamed(b.years, YearName(today.year))
    ensures r.Success? ==> !r.value.autoCreated && r.value.currentYear.name == YearName(today.year)
    ensures r.Success? ==> r.value.todayText == JalaliText(today)
  {
    match GetOrCreateYearAsWritten(b, today)
    case Failure(e) => Failure(e)
    case Success(fy) =>
      var existed := HasYearNamed(b.years, YearName(today.year));
      Success(Context(View(fy, fromGregorian), today, JalaliText(today), !existed))
  }

  /** Where the current year exists, the context as written is the intended
      one and nothing is stored; where it does not, only the intended
      version answers. */
  lemma ContextAsWrittenVersusIntended(b: Books, today: JalaliDate, toGregorian: JalaliDate -> int,
                                       fromGregorian: int -> Option<JalaliDate>)
    ensures HasYearNamed(b.years, YearName(today.year)) ==>
              && AutoDetermineContextAsWritten(b, today, fromGregorian)
                   == Success(AutoDetermineContext(b, today, toGregorian, fromGregorian).1)
              && AutoDetermineContext(b, today, toGregorian, fromGregorian).0 == b
    ensures !HasYearNamed(b.years, YearName(today.year)) ==>
              && AutoDetermineContextAsWritten(b, today, fromGregorian).Failure?
              && AutoDetermineContext(b, today, toGregorian, fromGregorian).1.autoCreated
  {
    AsWrittenVersusIntended(b, today, toGregorian);
  }

  // ---------------------------------------------------------------------
  // get_smart_date_suggestions
  // ---------------------------------------------------------------------

  /** `((m - 1) // 3) * 3 + 1`: the first month of the quarter containing
      month `m`. It is one of 1, 4, 7, 10, at most `m`, and within the same
      quarter as `m`. */
  function QuarterMonth(m: int): (q: int)
    requires 1 <= m <= 12
    ensures q in {1, 4, 7, 10}
    ensures q <= m && m - q <= 2
    ensures (q - 1) / 3 == (m - 1) / 3
  {
    ((m - 1) / 3) * 3 + 1
  }

  datatype Suggestions = Suggestions(
    today: string,
    monthStart: string,
    quarterStart: string,
    yearStart: Option<string>,
    yearStartIso: int,
    yearEnd: Option<string>,
    yearEndIso: Option<int>)

  /** `get_smart_date_suggestions`. */
  function SmartDateSuggestions(b: Books, today: JalaliDate, toGregorian: JalaliDate -> int,
                                fromGregorian: int -> Option<JalaliDate>): (r: (Books, Suggestions))
    requires 1 <= today.month <= 12
    ensures r.1.monthStart == JalaliText(JalaliDate(today.year, today.month, 1))
    ensures r.1.quarterStart == JalaliText(JalaliDate(today.year, QuarterMonth(today.month) as nat, 1))
    ensures r.0 == GetOrCreateYear(b, today, toGregorian).0
    ensures r.1.today == JalaliText(today)
    ensures var fy := GetOrCreateYear(b, today, toGregorian).1;
            && fy.name == YearName(today.year)
            && r.1.yearStartIso == fy.startDate && r.1.yearEndIso == fy.endDate
  {
    var (b', fy) := GetOrCreateYear(b, today, toGregorian);
    (b', Suggest(today, fy, fromGregorian))
  }

  /** The suggestions for today and the given financial year. */
  function Suggest(today: JalaliDate, fy: FinancialYear, fromGregorian: int -> Option<JalaliDate>): Suggestions
    requires 1 <= today.month <= 12
  {
    Suggestions(
      JalaliText(today),
      JalaliText(JalaliDate(today.year, today.month, 1)),
      JalaliText(JalaliDate(today.year, QuarterMonth(today.month) as nat, 1)),
      ToJalaliText(Some(fy.startDate), fromGregorian),
      fy.startDate,
      ToJalaliText(fy.endDate, fromGregorian),
      fy.endDate)
  }

  /** `get_smart_date_suggestions` as written, on the get-or-create as
      written: it fails exactly when the current year has to be created. */
  function SmartDateSuggestionsAsWritten(b: Books, today: JalaliDate,
                                         fromGregorian: int -> Option<JalaliDate>): (r: Result<Suggestions, CallError>)
    requires 1 <= today.month <= 12
    ensures r.Failure? <==> !HasYearNamed(b.years, YearName(today.year))
    ensures r.Success? ==> r.value.monthStart == JalaliText(JalaliDate(today.year, today.month, 1))
    ensures r.Success? ==> r.value.quarterStart == JalaliText(JalaliDate(today.year, QuarterMonth(today.month) as nat, 1))
  {
    match GetOrCreateYearAsWritten(b, today)
    case Failure(e) => Failure(e)
    case Success(fy) => Success(Suggest(today, fy, fromGregorian))
  }

  /** Where the current year exists, the suggestions as written are the
      intended ones and nothing is stored; where it does not, only the
      intended version answers. */
  lemma SuggestionsAsWrittenVersusIntended(b: Books, today: JalaliDate, toGregorian: JalaliDate -> int,
                                           fromGregorian: int -> Option<JalaliDate>)
    requires 1 <= today.month <= 12
    ensures HasYearNamed(b.years, YearName(today.year)) ==>
              && SmartDateSuggestionsAsWritten(b, today, fromGregorian)
                   == Success(SmartDateSuggestions(b, today, toGregorian, fromGregorian).1)
              && SmartDateSuggestions(b, today, toGregorian, fromGregorian).0 == b
    ensures !HasYearNamed(b.years, YearName(today.year)) ==>
              SmartDateSuggestionsAsWritten(b, today, fromGregorian).Failure?
  {
    AsWrittenVersusIntended(b, today, toGregorian);
  }
}

=== FILE: jalali_input.dfy ===
/** The date field of the frontend: `parseJalaliInput` reads what a user
    typed as a Jalali (Solar Hijri) date. The digits may be ASCII, Persian or
    Arabic-Indic; every run of non-digits separates two numbers. Three or
    more numbers are year/month/day, or day/month/year when only the third
    has four digits; two numbers are month/day of the current year; a single
    number is YYYYMMDD, a bare year, or a day of the current month. The
    month must lie in 1..12 and the day in 1..31; the result is the ISO
    instant of the Gregorian midnight and the text `Y/MM/DD`.

    The calendar conversion is a parameter `toIso`; it answers `None` where
    the conversion throws, which the source turns into `null`. The current
    Jalali year and month are parameters too. */
module JalaliInput {
  import opened Wrappers
  import Text
  import N = Normalizer
  import W = WebNormalizer

  // ---------------------------------------------------------------------
  // Digits and numbers
  // ---------------------------------------------------------------------

  /** `normalizeJalaliDigits`, one character at a time as its loop goes:
      a Persian or Arabic-Indic digit is replaced by the ASCII digit at the
      same position of its table, anything else is kept. */
  function JalaliDigits(input: string): (out: string)
    ensures |out| == |input|
    decreases |input|
  {
    if |input| == 0 then ""
    else JalaliDigits(input[..|input| - 1]) + [N.LatinDigit(input[|input| - 1])]
  }

  /** The frontend's digit rewriting is the backend's `digits_to_latin`. */
  lemma {:induction false} JalaliDigitsAreLatin(input: string)
    ensures JalaliDigits(input) == N.DigitsToLatin(input)
    decreases |input|
  {
    if |input| > 0 {
      var front := input[..|input| - 1];
      JalaliDigitsAreLatin(front);
      assert N.DigitsToLatin(input) == N.DigitsToLatin(front) + [N.LatinDigit(input[|input| - 1])];
    }
  }

  /** The numbers of `s.split(/[^0-9]+/).filter(Boolean)`: the maximal runs
      of ASCII digits, in order. */
  function DigitRuns(s: string): (parts: seq<string>)
    ensures forall k :: 0 <= k < |parts| ==> |parts[k]| > 0 && Text.AllAsciiDigits(parts[k])
    decreases |s|
  {
    if |s| == 0 then []
    else if !Text.IsAsciiDigit(s[0]) then DigitRuns(s[1..])
    else
      var e := Text.RunEnd(s, 0, Text.IsAsciiDigit);
      [s[..e]] + DigitRuns(s[e..])
  }

  function JoinRuns(parts: seq<string>): string {
    if |parts| == 0 then "" else parts[0] + JoinRuns(parts[1..])
  }

  /** The runs hold every digit of the text, in order, and nothing else:
      splitting loses no digit and invents none. */
  lemma {:induction false} DigitRunsKeepDigits(s: string)
    ensures JoinRuns(DigitRuns(s)) == Text.Without(s, Text.NotAsciiDigit)
    decreases |s|
  {
    if |s| > 0 {
      if !Text.IsAsciiDigit(s[0]) {
        DigitRunsKeepDigits(s[1..]);
      } else {
        var e := Text.RunEnd(s, 0, Text.IsAsciiDigit);
        DigitRunsKeepDigits(s[e..]);
        assert s == s[..e] + s[e..];
        Text.WithoutAppend(s[..e], s[e..], Text.NotAsciiDigit);
        Text.WithoutNone(s[..e], Text.NotAsciiDigit);
      }
    }
  }

  /** A text without ASCII digits has no runs. */
  lemma {:induction false} NoDigitNoRuns(s: string)
    requires forall i :: 0 <= i < |s| ==> !Text.IsAsciiDigit(s[i])
    ensures DigitRuns(s) == []
    decreases |s|
  {
    if |s| > 0 {
      NoDigitNoRuns(s[1..]);
    }
  }

  /** A text that starts with the digits `x`, followed by nothing or by a
      non-digit, has `x` as its first run. */
  lemma LeadingRun(x: string, rest: string)
    requires |x| > 0 && Text.AllAsciiDigits(x)
    requires rest == [] || !Text.IsAsciiDigit(rest[0])
    ensures DigitRuns(x + rest) == [x] + DigitRuns(rest)
  {
    var s := x + rest;
    var e := Text.RunEnd(s, 0, Text.IsAsciiDigit);
    if rest != [] {
      assert s[|x|] == rest[0];
    }
    assert s[..e] == x && s[e..] == rest;
  }

  /** A separator character starts no run. */
  lemma SkipSeparator(c: char, rest: string)
    requires !Text.IsAsciiDigit(c)
    ensures DigitRuns([c] + rest) == DigitRuns(rest)
  {
    assert ([c] + rest)[1..] == rest;
  }

  /** Three digit strings joined by two separators are three runs. */
  lemma ThreeRuns(x: string, a: char, y: string, b: char, z: string)
    requires |x| > 0 && Text.AllAsciiDigits(x)
    requires |y| > 0 && Text.AllAsciiDigits(y)
    requires |z| > 0 && Text.AllAsciiDigits(z)
    requires !Text.IsAsciiDigit(a) && !Text.IsAsciiDigit(b)
    ensures DigitRuns(x + [a] + y + [b] + z) == [x, y, z]
  {
    var m := y + [b] + z;
    var am := [a] + m;
    TwoRuns(y, b, z);
    SkipSeparator(a, m);
    assert DigitRuns(am) == [y, z];
    LeadingRun(x, am);
    assert DigitRuns(x + am) == [x, y, z];
    Regroup(x, a, y, b, z);
  }

  lemma Regroup(x: string, a: char, y: string, b: char, z: string)
    ensures x + [a] + y + [b] + z == x + ([a] + (y + [b] + z))
  {
  }

  /** Two digit strings joined by one separator are two runs. */
  lemma TwoRuns(x: string, a: char, y: string)
    requires |x| > 0 && Text.AllAsciiDigits(x)
    requires |y| > 0 && Text.AllAsciiDigits(y)
    requires !Text.IsAsciiDigit(a)
    ensures DigitRuns(x + [a] + y) == [x, y]
  {
    LeadingRun(y, "");
    assert y + "" == y;
    SkipSeparator(a, y);
    LeadingRun(x, [a] + y);
    assert x + [a] + y == x + ([a] + y);
  }

  /** A digit string is one run. */
  lemma OneRun(x: string)
    requires |x| > 0 && Text.AllAsciiDigits(x)
    ensures DigitRuns(x) == [x]
  {
    LeadingRun(x, "");
    assert x + "" == x;
  }

  /** `Number(p)` of a run of ASCII digits. */
  function Number(p: string): nat
    requires Text.AllAsciiDigits(p)
  {
    assert Text.AllDigits(p);
    Text.DecimalValue(p)
  }

  /** `Number(p.slice(i, j))` of a run. */
  function NumberAt(p: string, i: nat, j: nat): nat
    requires Text.AllAsciiDigits(p) && i <= j <= |p|
  {
    var q := p[i..j];
    assert forall k :: 0 <= k < |q| ==> q[k] == p[i + k];
    Number(q)
  }

  // ---------------------------------------------------------------------
  // Reading the fields
  // ---------------------------------------------------------------------

  /** A year, month and day as read, before any range check. */
  datatype Ymd = Ymd(year: int, month: int, day: int)

  /** `parts.findIndex(p => p.length === 4)`: the first run of four digits,
      or -1. */
  function IndexOfLengthFour(parts: seq<string>): (k: int)
    ensures -1 <= k < |parts|
    ensures k >= 0 ==> |parts[k]| == 4 && forall j :: 0 <= j < k ==> |parts[j]| != 4
    ensures k == -1 ==> forall j :: 0 <= j < |parts| ==> |parts[j]| != 4
  {
    if |parts| == 0 then -1
    else if |parts[0]| == 4 then 0
    else
      var k := IndexOfLengthFour(parts[1..]);
      if k == -1 then -1 else k + 1
  }

  /** The year, month and day the digit runs of `s` stand for; `None` when
      there is no run. Runs past the third are ignored. */
  function Fields(s: string, nowYear: int, nowMonth: int): (r: Option<Ymd>)
    ensures r.None? <==> DigitRuns(s) == []
    ensures r.Some? ==> r.value.year >= 0 || r.value.year == nowYear
  {
    var parts := DigitRuns(s);
    if |parts| >= 3 then
      var idxYear := IndexOfLengthFour(parts);
      if idxYear == 0 then Some(Ymd(Number(parts[0]), Number(parts[1]), Number(parts[2])))
      else if idxYear == 2 then Some(Ymd(Number(parts[2]), Number(parts[1]), Number(parts[0])))
      else Some(Ymd(Number(parts[0]), Number(parts[1]), Number(parts[2])))
    else if |parts| == 2 then Some(Ymd(nowYear, Number(parts[0]), Number(parts[1])))
    else if |parts| == 1 then
      var p := parts[0];
      if |p| == 8 then Some(Ymd(NumberAt(p, 0, 4), NumberAt(p, 4, 6), NumberAt(p, 6, 8)))
      else if |p| == 4 then Some(Ymd(Number(p), 1, 1))
      else Some(Ymd(nowYear, nowMonth, Number(p)))
    else None
  }

  // ---------------------------------------------------------------------
  // The result
  // ---------------------------------------------------------------------

  /** `String(n).padStart(2, '0')`. */
  function Pad2(n: int): string {
    Text.ZeroPad(Text.IntToString(n), 2)
  }

  /** The `${jy}/${mm}/${dd}` text of a date. */
  function SlashedDate(f: Ymd): string {
    Text.IntToString(f.year) + "/" + Pad2(f.month) + "/" + Pad2(f.day)
  }

  datatype Parsed = Parsed(iso: string, jalali: string)

  /** The range check and the conversion: a month outside 1..12, a day
      outside 1..31, or a conversion that throws gives `None`; otherwise the
      instant and the padded text. */
  function AcceptedDate(f: Ymd, toIso: (int, int, int) -> Option<string>): (r: Option<Parsed>)
    ensures r.Some? <==> 1 <= f.month <= 12 && 1 <= f.day <= 31 && toIso(f.year, f.month, f.day).Some?
    ensures r.Some? ==> r.value.iso == toIso(f.year, f.month, f.day).value
    ensures r.Some? ==> r.value.jalali == SlashedDate(f)
  {
    if f.month < 1 || f.month > 12 then None
    else if f.day < 1 || f.day > 31 then None
    else match toIso(f.year, f.month, f.day)
      case None => None
      case Some(iso) => Some(Parsed(iso, SlashedDate(f)))
  }

  /** `parseJalaliInput`: the empty text is `null`; otherwise the trimmed
      text with its digits in ASCII is split into runs and read. */
  function ParseJalaliInput(raw: string, nowYear: int, nowMonth: int,
                            toIso: (int, int, int) -> Option<string>): (r: Option<Parsed>)
    ensures raw == "" ==> r == None
    ensures r.Some? ==> var f := Fields(JalaliDigits(Text.Trim(raw, Text.IsJsSpace)), nowYear, nowMonth);
                        && f.Some? && 1 <= f.value.month <= 12 && 1 <= f.value.day <= 31
                        && r.value.jalali == SlashedDate(f.value)
                        && Some(r.value.iso) == toIso(f.value.year, f.value.month, f.value.day)
  {
    if raw == "" then None
    else
      var s := JalaliDigits(Text.Trim(raw, Text.IsJsSpace));
      match Fields(s, nowYear, nowMonth)
      case None => None
      case Some(f) => AcceptedDate(f, toIso)
  }

  // ---------------------------------------------------------------------
  // What the accepted spellings read as
  // ---------------------------------------------------------------------

  /** A text that starts and ends with an ASCII digit and holds no Persian
      or Arabic-Indic digit is read as it stands. */
  lemma ReadAsWritten(t: string)
    requires |t| > 0 && Text.IsAsciiDigit(t[0]) && Text.IsAsciiDigit(t[|t| - 1])
    requires N.LatinDigitsOnly(t)
    ensures JalaliDigits(Text.Trim(t, Text.IsJsSpace)) == t
  {
    TrimNothing(t, Text.IsJsSpace);
    JalaliDigitsAreLatin(t);
    N.DigitsToLatinIdempotent(t);
  }

  /** Trimming a text that neither starts nor ends with whitespace keeps
      it whole. */
  lemma TrimNothing(t: string, ws: char -> bool)
    requires |t| > 0 && !ws(t[0]) && !ws(t[|t| - 1])
    ensures Text.Trim(t, ws) == t
  {
    assert Text.LeadingSpaces(t, ws) == 0;
    assert t[0..] == t;
    assert Text.SpacelessLength(t, ws) == |t|;
    assert t[..|t|] == t;
  }

  predicate Numeral(p: string) {
    |p| > 0 && Text.AllAsciiDigits(p)
  }

  predicate Separator(c: char) {
    !Text.IsDecimalDigit(c)
  }

  lemma JoinedLatin(x: string, a: char, y: string, b: char, z: string)
    requires Numeral(x) && Numeral(y) && Numeral(z) && Separator(a) && Separator(b)
    ensures var t := x + [a] + y + [b] + z;
            && |t| > 0 && Text.IsAsciiDigit(t[0]) && Text.IsAsciiDigit(t[|t| - 1]) && N.LatinDigitsOnly(t)
  {
    var t := x + [a] + y + [b] + z;
    forall i | 0 <= i < |t|
      ensures !Text.IsPersianDigit(t[i]) && !Text.IsArabicIndicDigit(t[i])
    {
      if i < |x| {
        assert t[i] == x[i];
      } else if i == |x| {
        assert t[i] == a;
      } else if i < |x| + 1 + |y| {
        assert t[i] == y[i - |x| - 1];
      } else if i == |x| + 1 + |y| {
        assert t[i] == b;
      } else {
        assert t[i] == z[i - |x| - |y| - 2];
      }
    }
    assert t[0] == x[0] && t[|t| - 1] == z[|z| - 1];
  }

  /** Three numbers, the last not of four digits, are year, month and day
      whatever the separators: "1403/5/9", "1403-05-09" and "1403 5 9" are
      the same date. */
  lemma YearFirst(y: string, a: char, m: string, b: char, d: string,
                  nowYear: int, nowMonth: int, toIso: (int, int, int) -> Option<string>)
    requires Numeral(y) && Numeral(m) && Numeral(d) && Separator(a) && Separator(b)
    requires |m| != 4 && |d| != 4
    ensures ParseJalaliInput(y + [a] + m + [b] + d, nowYear, nowMonth, toIso)
            == AcceptedDate(Ymd(Number(y), Number(m), Number(d)), toIso)
  {
    var t := y + [a] + m + [b] + d;
    JoinedLatin(y, a, m, b, d);
    ReadAsWritten(t);
    ThreeRuns(y, a, m, b, d);
    YearFirstFields(t, y, m, d, nowYear, nowMonth);
    ParsedAs(t, Ymd(Number(y), Number(m), Number(d)), nowYear, nowMonth, toIso);
  }

  /** Three runs with no four-digit run after the first are read in
      order. */
  lemma YearFirstFields(s: string, y: string, m: string, d: string, nowYear: int, nowMonth: int)
    requires Numeral(y) && Numeral(m) && Numeral(d) && |m| != 4 && |d| != 4
    requires DigitRuns(s) == [y, m, d]
    ensures Fields(s, nowYear, nowMonth) == Some(Ymd(Number(y), Number(m), Number(d)))
  {
    var k := IndexOfLengthFour([y, m, d]);
    assert k != 1 && k != 2;
  }

  /** Three runs with only the last one four digits long are read from the
      end. */
  lemma YearLastFields(s: string, d: string, m: string, y: string, nowYear: int, nowMonth: int)
    requires Numeral(y) && Numeral(m) && Numeral(d) && |d| != 4 && |m| != 4 && |y| == 4
    requires DigitRuns(s) == [d, m, y]
    ensures Fields(s, nowYear, nowMonth) == Some(Ymd(Number(y), Number(m), Number(d)))
  {
    var k := IndexOfLengthFour([d, m, y]);
    assert k == 2;
  }

  /** A text that reads as written and whose fields are `f` parses as `f`
      accepted. */
  lemma ParsedAs(t: string, f: Ymd, nowYear: int, nowMonth: int, toIso: (int, int, int) -> Option<string>)
    requires t != "" && JalaliDigits(Text.Trim(t, Text.IsJsSpace)) == t
    requires Fields(t, nowYear, nowMonth) == Some(f)
    ensures ParseJalaliInput(t, nowYear, nowMonth, toIso) == AcceptedDate(f, toIso)
  {
  }

  /** Three numbers whose third alone has four digits are day, month and
      year: "9/5/1403" is the ninth of Mordad 1403. */
  lemma DayFirst(d: string, a: char, m: string, b: char, y: string,
                 nowYear: int, nowMonth: int, toIso: (int, int, int) -> Option<string>)
    requires Numeral(y) && Numeral(m) && Numeral(d) && Separator(a) && Separator(b)
    requires |d| != 4 && |m| != 4 && |y| == 4
    ensures ParseJalaliInput(d + [a] + m + [b] + y, nowYear, nowMonth, toIso)
            == AcceptedDate(Ymd(Number(y), Number(m), Number(d)), toIso)
  {
    var t := d + [a] + m + [b] + y;
    JoinedLatin(d, a, m, b, y);
    ReadAsWritten(t);
    ThreeRuns(d, a, m, b, y);
    YearLastFields(t, d, m, y, nowYear, nowMonth);
    ParsedAs(t, Ymd(Number(y), Number(m), Number(d)), nowYear, nowMonth, toIso);
  }

  /** Two numbers are month and day of the current year. */
  lemma MonthDay(m: string, a: char, d: string,
                 nowYear: int, nowMonth: int, toIso: (int, int, int) -> Option<string>)
    requires Numeral(m) && Numeral(d) && Separator(a)
    ensures ParseJalaliInput(m + [a] + d, nowYear, nowMonth, toIso)
            == AcceptedDate(Ymd(nowYear, Number(m), Number(d)), toIso)
  {
    var t := m + [a] + d;
    assert t[0] == m[0] && t[|t| - 1] == d[|d| - 1];
    assert N.LatinDigitsOnly(t) by {
      forall i | 0 <= i < |t|
        ensures !Text.IsPersianDigit(t[i]) && !Text.IsArabicIndicDigit(t[i])
      {
        if i < |m| {
          assert t[i] == m[i];
        } else if i > |m| {
          assert t[i] == d[i - |m| - 1];
        }
      }
    }
    ReadAsWritten(t);
    TwoRuns(m, a, d);
  }

  /** Eight digits are YYYYMMDD: "14030509" reads as "1403/05/09". */
  lemma Compact(p: string, nowYear: int, nowMonth: int, toIso: (int, int, int) -> Option<string>)
    requires Numeral(p) && |p| == 8
    ensures ParseJalaliInput(p, nowYear, nowMonth, toIso)
            == ParseJalaliInput(p[..4] + "/" + p[4..6] + "/" + p[6..], nowYear, nowMonth, toIso)
  {
    var y, m, d := p[..4], p[4..6], p[6..];
    assert Numeral(y) && Numeral(m) && Numeral(d) by {
      assert forall k :: 0 <= k < 2 ==> m[k] == p[4 + k] && d[k] == p[6 + k];
    }
    CompactFields(p, nowYear, nowMonth);
    YearFirst(y, '/', m, '/', d, nowYear, nowMonth, toIso);
  }

  lemma CompactFields(p: string, nowYear: int, nowMonth: int)
    requires Numeral(p) && |p| == 8
    ensures Numeral(p[..4]) && Numeral(p[4..6]) && Numeral(p[6..])
    ensures Fields(JalaliDigits(Text.Trim(p, Text.IsJsSpace)), nowYear, nowMonth)
            == Some(Ymd(Number(p[..4]), Number(p[4..6]), Number(p[6..])))
  {
    ReadAsWritten(p);
    OneRun(p);
    assert p[6..8] == p[6..];
  }

  /** Four digits alone are the first day of that year. */
  lemma YearOnly(p: string, nowYear: int, nowMonth: int, toIso: (int, int, int) -> Option<string>)
    requires Numeral(p) && |p| == 4
    ensures ParseJalaliInput(p, nowYear, nowMonth, toIso) == AcceptedDate(Ymd(Number(p), 1, 1), toIso)
  {
    ReadAsWritten(p);
    OneRun(p);
    assert Fields(p, nowYear, nowMonth) == Some(Ymd(Number(p), 1, 1));
  }

  /** Any other single number is a day of the current month. */
  lemma DayOnly(p: string, nowYear: int, nowMonth: int, toIso: (int, int, int) -> Option<string>)
    requires Numeral(p) && |p| != 4 && |p| != 8
    ensures ParseJalaliInput(p, nowYear, nowMonth, toIso) == AcceptedDate(Ymd(nowYear, nowMonth, Number(p)), toIso)
  {
    ReadAsWritten(p);
    OneRun(p);
    assert Fields(p, nowYear, nowMonth) == Some(Ymd(nowYear, nowMonth, Number(p)));
  }

  /** Text without any digit of the three scripts is never a date. */
  lemma NoDigitNoDate(raw: string, nowYear: int, nowMonth: int, toIso: (int, int, int) -> Option<string>)
    requires NoDigitIn(raw)
    ensures ParseJalaliInput(raw, nowYear, nowMonth, toIso) == None
  {
    if raw != "" {
      var v := Text.Trim(raw, Text.IsJsSpace);
      NoDigitTrimmed(raw);
      var s := JalaliDigits(v);
      JalaliDigitsAreLatin(v);
      NoDigitNoRuns(s);
    }
  }

  /** Trimming keeps a part of the text, so it adds no digit. */
  lemma NoDigitTrimmed(raw: string)
    requires NoDigitIn(raw)
    ensures NoDigitIn(Text.Trim(raw, Text.IsJsSpace))
  {
    var u := Text.TrimStart(raw, Text.IsJsSpace);
    NoDigitSlice(raw, |raw| - |u|, |raw|);
    assert u == raw[|raw| - |u|..|raw|];
    var v := Text.TrimEnd(u, Text.IsJsSpace);
    NoDigitSlice(u, 0, |v|);
    assert v == u[0..|v|];
  }

  predicate NoDigitIn(s: string) {
    forall i :: 0 <= i < |s| ==> !Text.IsDecimalDigit(s[i])
  }

  lemma NoDigitSlice(s: string, a: nat, b: nat)
    requires NoDigitIn(s) && a <= b <= |s|
    ensures NoDigitIn(s[a..b])
  {
    assert forall i :: 0 <= i < b - a ==> s[a..b][i] == s[a + i];
  }



  // ---------------------------------------------------------------------
  // Round trip and digit scripts
  // ---------------------------------------------------------------------

  /** A number under 100 padded to two digits reads back as itself. */
  lemma PadTwo(n: nat)
    requires n < 100
    ensures Numeral(Pad2(n)) && |Pad2(n)| == 2 && Number(Pad2(n)) == n
  {
    var t := Text.NatToString(n);
    ShortNumber(n);
    PadDigits(t);
    Text.ZeroPadValue(t, 2);
    Text.NatToStringRoundTrip(n);
  }

  lemma ShortNumber(n: nat)
    requires n < 100
    ensures |Text.NatToString(n)| <= 2
  {
    if n >= 10 {
      assert |Text.NatToString(n / 10)| == 1;
    }
  }

  /** Zero padding to two places keeps a text of ASCII digits. */
  lemma PadDigits(t: string)
    requires Text.AllAsciiDigits(t) && |t| <= 2
    ensures Text.AllAsciiDigits(Text.ZeroPad(t, 2))
  {
    var r := Text.ZeroPad(t, 2);
    forall i | 0 <= i < 2
      ensures Text.IsAsciiDigit(r[i])
    {
      if i >= 2 - |t| {
        assert r[i] == r[2 - |t|..][i - (2 - |t|)];
      }
    }
  }

  /** The text a date is shown as reads back as that date: a result's
      `jalali` field, typed in again, gives the same result. */
  lemma ReadBack(f: Ymd, nowYear: int, nowMonth: int, toIso: (int, int, int) -> Option<string>)
    requires f.year >= 0 && 0 <= f.month < 100 && 0 <= f.day < 100
    ensures ParseJalaliInput(SlashedDate(f), nowYear, nowMonth, toIso) == AcceptedDate(f, toIso)
  {
    DatePieces(f);
    ReadBackFrom(f, Text.NatToString(f.year), Pad2(f.month), Pad2(f.day), nowYear, nowMonth, toIso);
  }

  /** `y/m/d` is the text of `f`, and its numbers read back as `f`. */
  predicate Pieces(f: Ymd, y: string, m: string, d: string) {
    && SlashedDate(f) == y + ['/'] + m + ['/'] + d
    && Numeral(y) && Numeral(m) && Numeral(d) && |m| == 2 && |d| == 2
    && Ymd(Number(y), Number(m), Number(d)) == f
  }

  lemma ReadBackFrom(f: Ymd, y: string, m: string, d: string,
                     nowYear: int, nowMonth: int, toIso: (int, int, int) -> Option<string>)
    requires Pieces(f, y, m, d)
    ensures ParseJalaliInput(SlashedDate(f), nowYear, nowMonth, toIso) == AcceptedDate(f, toIso)
  {
    YearFirst(y, '/', m, '/', d, nowYear, nowMonth, toIso);
  }

  /** The pieces of a date's text and the numbers they read as. */
  lemma DatePieces(f: Ymd)
    requires f.year >= 0 && 0 <= f.month < 100 && 0 <= f.day < 100
    ensures Pieces(f, Text.NatToString(f.year), Pad2(f.month), Pad2(f.day))
  {
    TextPieces(f);
    NumberPieces(f);
  }

  /** A date's text is its three numbers with slashes between. */
  lemma TextPieces(f: Ymd)
    requires f.year >= 0
    ensures SlashedDate(f) == Text.NatToString(f.year) + ['/'] + Pad2(f.month) + ['/'] + Pad2(f.day)
  {
    assert Text.IntToString(f.year) == Text.NatToString(f.year);
  }

  /** The three numbers of a date's text read back as the date. */
  lemma NumberPieces(f: Ymd)
    requires f.year >= 0 && 0 <= f.month < 100 && 0 <= f.day < 100
    ensures Numeral(Text.NatToString(f.year)) && Numeral(Pad2(f.month)) && Numeral(Pad2(f.day))
    ensures |Pad2(f.month)| == 2 && |Pad2(f.day)| == 2
    ensures Ymd(Number(Text.NatToString(f.year)), Number(Pad2(f.month)), Number(Pad2(f.day))) == f
  {
    PadTwo(f.month);
    PadTwo(f.day);
    Text.NatToStringRoundTrip(f.year);
  }

  /** Every accepted date shows as a text that is accepted again with the
      same result (the current year being a year of the era). */
  lemma ResultStable(raw: string, nowYear: int, nowMonth: int, toIso: (int, int, int) -> Option<string>)
    requires nowYear >= 0
    requires ParseJalaliInput(raw, nowYear, nowMonth, toIso).Some?
    ensures var r := ParseJalaliInput(raw, nowYear, nowMonth, toIso).value;
            ParseJalaliInput(r.jalali, nowYear, nowMonth, toIso) == Some(r)
  {
    var r := ParseJalaliInput(raw, nowYear, nowMonth, toIso).value;
    var f := Fields(JalaliDigits(Text.Trim(raw, Text.IsJsSpace)), nowYear, nowMonth).value;
    ReadBack(f, nowYear, nowMonth, toIso);
    assert AcceptedDate(f, toIso) == Some(r);
  }

  /** Two texts with whitespace at the same places trim at the same
      places. */
  lemma SameSpaces(s: string, t: string, ws: char -> bool)
    requires |s| == |t| && forall i :: 0 <= i < |s| ==> ws(s[i]) == ws(t[i])
    ensures Text.LeadingSpaces(s, ws) == Text.LeadingSpaces(t, ws)
    ensures Text.SpacelessLength(s, ws) == Text.SpacelessLength(t, ws)
  {
  }

  /** Writing the digits in Persian moves no whitespace, so it commutes
      with trimming. */
  lemma TrimPersian(s: string)
    ensures Text.Trim(W.DigitsToPersian(s), Text.IsJsSpace) == W.DigitsToPersian(Text.Trim(s, Text.IsJsSpace))
  {
    var u := Text.TrimStart(s, Text.IsJsSpace);
    TrimStartPersian(s);
    TrimEndPersian(u);
  }

  lemma TrimStartPersian(s: string)
    ensures Text.TrimStart(W.DigitsToPersian(s), Text.IsJsSpace) == W.DigitsToPersian(Text.TrimStart(s, Text.IsJsSpace))
  {
    var p := W.DigitsToPersian(s);
    var a := Text.LeadingSpaces(s, Text.IsJsSpace);
    PersianSpaces(s);
    assert Text.TrimStart(p, Text.IsJsSpace) == p[a..];
    assert Text.TrimStart(s, Text.IsJsSpace) == s[a..];
    PersianSuffix(s, a);
  }

  lemma PersianSuffix(s: string, a: nat)
    requires a <= |s|
    ensures W.DigitsToPersian(s)[a..] == W.DigitsToPersian(s[a..])
  {
  }

  lemma TrimEndPersian(u: string)
    ensures Text.TrimEnd(W.DigitsToPersian(u), Text.IsJsSpace) == W.DigitsToPersian(Text.TrimEnd(u, Text.IsJsSpace))
  {
    var pu := W.DigitsToPersian(u);
    PersianSpaces(u);
    var n := Text.SpacelessLength(u, Text.IsJsSpace);
    PersianSlice(u, 0, n);
    assert u[0..n] == u[..n] && pu[0..n] == pu[..n];
  }

  lemma PersianSpaces(s: string)
    ensures Text.LeadingSpaces(W.DigitsToPersian(s), Text.IsJsSpace) == Text.LeadingSpaces(s, Text.IsJsSpace)
    ensures Text.SpacelessLength(W.DigitsToPersian(s), Text.IsJsSpace) == Text.SpacelessLength(s, Text.IsJsSpace)
  {
    var p := W.DigitsToPersian(s);
    forall i | 0 <= i < |s|
      ensures Text.IsJsSpace(s[i]) == Text.IsJsSpace(p[i])
    {
    }
    SameSpaces(s, p, Text.IsJsSpace);
  }

  lemma PersianSlice(s: string, a: nat, b: nat)
    requires a <= b <= |s|
    ensures W.DigitsToPersian(s)[a..b] == W.DigitsToPersian(s[a..b])
  {
  }

  /** The date field reads Persian digits as it reads ASCII ones: typing
      "۱۴۰۳/۰۵/۰۹" or "1403/05/09" gives the same result. */
  lemma PersianDigitsAlike(raw: string, nowYear: int, nowMonth: int, toIso: (int, int, int) -> Option<string>)
    ensures ParseJalaliInput(W.DigitsToPersian(raw), nowYear, nowMonth, toIso)
            == ParseJalaliInput(raw, nowYear, nowMonth, toIso)
  {
    var v := Text.Trim(raw, Text.IsJsSpace);
    TrimPersian(raw);
    JalaliDigitsAreLatin(v);
    JalaliDigitsAreLatin(W.DigitsToPersian(v));
    W.DigitsRoundTrip(v);
  }
}

=== FILE: normalizer.dfy ===
/** The search normalisation of the backend: Persian and Arabic-Indic digits
    become ASCII digits, Arabic letter forms become their Persian
    counterparts, the tatweel and the invisible joiners are removed,
    whitespace is collapsed and trimmed, and the result is lower-cased. The
    character tables are shared with the frontend. */
module Normalizer {
  import opened Wrappers
  import Text

  // ---------------------------------------------------------------------
  // Digits
  // ---------------------------------------------------------------------

  /** One character of `digits_to_latin`: a Persian or Arabic-Indic digit
      becomes the ASCII digit of the same value. */
  function LatinDigit(c: char): (r: char)
    ensures Text.IsDecimalDigit(c) ==> Text.IsAsciiDigit(r) && Text.DigitValue(r) == Text.DigitValue(c)
    ensures !Text.IsDecimalDigit(c) ==> r == c
  {
    if Text.IsPersianDigit(c) then Text.AsciiDigit(c as int - 0x06F0)
    else if Text.IsArabicIndicDigit(c) then Text.AsciiDigit(c as int - 0x0660)
    else c
  }

  /** `digits_to_latin`: every digit of the three scripts is rewritten as
      the ASCII digit of the same value and nothing else changes. */
  function DigitsToLatin(s: string): (r: string)
    ensures |r| == |s|
    ensures forall i :: 0 <= i < |s| && Text.IsDecimalDigit(s[i]) ==>
              Text.IsAsciiDigit(r[i]) && Text.DigitValue(r[i]) == Text.DigitValue(s[i])
    ensures forall i :: 0 <= i < |s| && !Text.IsDecimalDigit(s[i]) ==> r[i] == s[i]
  {
    seq(|s|, i requires 0 <= i < |s| => LatinDigit(s[i]))
  }

  /** No digit of the other two scripts is left. */
  predicate LatinDigitsOnly(s: string) {
    forall i :: 0 <= i < |s| ==> !Text.IsPersianDigit(s[i]) && !Text.IsArabicIndicDigit(s[i])
  }

  lemma DigitsToLatinLeavesLatin(s: string)
    ensures LatinDigitsOnly(DigitsToLatin(s))
  {
  }

  /** A string written in ASCII digits only is left alone, so converting
      twice is converting once. */
  lemma DigitsToLatinIdempotent(s: string)
    ensures LatinDigitsOnly(s) ==> DigitsToLatin(s) == s
    ensures DigitsToLatin(DigitsToLatin(s)) == DigitsToLatin(s)
  {
  }

  /** A number keeps its value when its digits are converted. */
  lemma {:induction false} DigitsToLatinValue(s: string)
    requires Text.AllDigits(s)
    ensures Text.AllAsciiDigits(DigitsToLatin(s))
    ensures Text.DecimalValue(DigitsToLatin(s)) == Text.DecimalValue(s)
    decreases |s|
  {
    if |s| > 0 {
      var p := s[..|s| - 1];
      DigitsToLatinValue(p);
      assert DigitsToLatin(s)[..|s| - 1] == DigitsToLatin(p);
    }
  }

  // ---------------------------------------------------------------------
  // Letters
  // ---------------------------------------------------------------------

  /** The keys of `ARABIC_TO_PERSIAN`: Arabic kaf, yeh, yeh with hamza,
      teh marbuta, waw with hamza and the three hamza/madda forms of alef. */
  predicate IsArabicForm(c: char) {
    c == 'ك' || c == 'ي' || c == 'ئ' || c == 'ة'
    || c == 'ؤ' || c == 'أ' || c == 'إ' || c == 'آ'
  }

  /** The values of the table: Persian keheh, Farsi yeh, heh, waw, alef. */
  predicate IsPersianForm(c: char) {
    c == 'ک' || c == 'ی' || c == 'ه' || c == 'و' || c == 'ا'
  }

  /** One lookup in `ARABIC_TO_PERSIAN`, the character itself when absent. */
  function PersianLetter(c: char): (r: char)
    ensures IsArabicForm(c) ==> IsPersianForm(r)
    ensures !IsArabicForm(c) ==> r == c
    ensures !IsArabicForm(r)
  {
    match c
    case 'ك' => 'ک'
    case 'ي' => 'ی'
    case 'ئ' => 'ی'
    case 'ة' => 'ه'
    case 'ؤ' => 'و'
    case 'أ' => 'ا'
    case 'إ' => 'ا'
    case 'آ' => 'ا'
    case _ => c
  }

  /** `replace_arabic_letters`: every Arabic form becomes a Persian letter,
      everything else is kept, and no Arabic form remains. */
  function ReplaceArabicLetters(s: string): (r: string)
    ensures |r| == |s|
    ensures forall i :: 0 <= i < |s| && IsArabicForm(s[i]) ==> IsPersianForm(r[i])
    ensures forall i :: 0 <= i < |s| && !IsArabicForm(s[i]) ==> r[i] == s[i]
    ensures forall i :: 0 <= i < |r| ==> !IsArabicForm(r[i])
  {
    seq(|s|, i requires 0 <= i < |s| => PersianLetter(s[i]))
  }

  lemma ReplaceArabicLettersIdempotent(s: string)
    ensures (forall i :: 0 <= i < |s| ==> !IsArabicForm(s[i])) ==> ReplaceArabicLetters(s) == s
    ensures ReplaceArabicLetters(ReplaceArabicLetters(s)) == ReplaceArabicLetters(s)
  {
  }

  /** The digit and letter rewritings touch disjoint characters, so their
      order does not matter. */
  lemma DigitsAndLettersCommute(s: string)
    ensures DigitsToLatin(ReplaceArabicLetters(s)) == ReplaceArabicLetters(DigitsToLatin(s))
  {
  }

  // ---------------------------------------------------------------------
  // Invisible marks
  // ---------------------------------------------------------------------

  /** Tatweel, zero-width non-joiner, zero-width space and soft hyphen. */
  predicate IsInvisibleMark(c: char) {
    c == 'ـ' || c == '‌' || c == '​' || c == '­'
  }

  /** `remove_tatweel_zwnj`: the marks are removed and every other
      character is kept, in order. */
  function RemoveTatweel(s: string): (r: string)
    ensures forall c :: c in r <==> c in s && !IsInvisibleMark(c)
  {
    Text.WithoutMembers(s, IsInvisibleMark);
    Text.Without(s, IsInvisibleMark)
  }

  // ---------------------------------------------------------------------
  // The pipeline
  // ---------------------------------------------------------------------

  /** `normalize_spaces`: `re.sub(r'\s+', ' ', s).strip()`. */
  function NormalizeSpaces(s: string): (r: string)
    ensures Text.SpacesNormal(r, Text.IsPythonSpace)
    ensures Text.Without(r, Text.IsPythonSpace) == Text.Without(s, Text.IsPythonSpace)
  {
    Text.NormalizeSpacesSpec(s, Text.IsPythonSpace);
    Text.NormalizeSpaces(s, Text.IsPythonSpace)
  }

  /** A character a search key may hold: no digit of the other scripts,
      no Arabic letter form and no invisible mark. */
  predicate Tidy(x: char) {
    !Text.IsPersianDigit(x) && !Text.IsArabicIndicDigit(x) && !IsArabicForm(x) && !IsInvisibleMark(x)
  }

  predicate Clean(s: string) {
    forall x :: x in s ==> Tidy(x)
  }

  /** What every search key satisfies. */
  predicate SearchKey(r: string) {
    && Text.SpacesNormal(r, Text.IsPythonSpace)
    && Clean(r)
    && (forall i :: 0 <= i < |r| ==> !('A' <= r[i] <= 'Z'))
  }

  /** The three character rewritings leave a clean string. */
  lemma RewritingsClean(t: string)
    ensures Clean(RemoveTatweel(ReplaceArabicLetters(DigitsToLatin(t))))
  {
    var a := DigitsToLatin(t);
    var b := ReplaceArabicLetters(a);
    forall x | x in RemoveTatweel(b)
      ensures Tidy(x)
    {
      assert x in b;
      var i :| 0 <= i < |b| && b[i] == x;
      assert !Text.IsPersianDigit(a[i]) && !Text.IsArabicIndicDigit(a[i]);
    }
  }

  /** Whitespace normalisation only adds the space character, so it keeps
      a string clean. */
  lemma NormalizeSpacesClean(c: string)
    requires Clean(c)
    ensures Clean(NormalizeSpaces(c))
  {
    Text.NormalizeSpacesKeeps(c, Text.IsPythonSpace, Tidy);
  }

  /** `normalize_for_search`: no text gives the empty key; otherwise the
      key has normal whitespace, ASCII digits, Persian letter forms, no
      invisible marks and no upper-case ASCII letter. */
  function NormalizeForSearch(s: Option<string>): (r: string)
    ensures s.None? ==> r == ""
    ensures SearchKey(r)
  {
    match s
    case None => ""
    case Some(t) =>
      var c := RemoveTatweel(ReplaceArabicLetters(DigitsToLatin(t)));
      RewritingsClean(t);
      NormalizeSpacesClean(c);
      LowerKey(NormalizeSpaces(c));
      Text.LowerAscii(NormalizeSpaces(c))
  }

  /** Lower-casing ASCII letters keeps every property of a key: it turns
      no character into whitespace, a digit, an Arabic form or a mark. */
  lemma LowerKey(d: string)
    requires Text.SpacesNormal(d, Text.IsPythonSpace)
    requires Clean(d)
    ensures SearchKey(Text.LowerAscii(d))
  {
    var r := Text.LowerAscii(d);
    forall i | 0 <= i < |d|
      ensures Text.IsPythonSpace(r[i]) <==> Text.IsPythonSpace(d[i])
    {
    }
    forall x | x in r
      ensures Tidy(x)
    {
      var i :| 0 <= i < |r| && r[i] == x;
      assert d[i] in d;
    }
  }

  /** The character rewritings leave a clean string as it is. */
  lemma CleanFixed(r: string)
    requires Clean(r)
    ensures RemoveTatweel(ReplaceArabicLetters(DigitsToLatin(r))) == r
  {
    forall i | 0 <= i < |r|
      ensures Tidy(r[i])
    {
      assert r[i] in r;
    }
    assert DigitsToLatin(r) == r;
    assert ReplaceArabicLetters(r) == r;
    Text.WithoutNone(r, IsInvisibleMark);
  }

  /** Whitespace normalisation and lower-casing leave a key as it is. */
  lemma KeyFixed(r: string)
    requires SearchKey(r)
    ensures Text.LowerAscii(NormalizeSpaces(r)) == r
  {
    Text.NormalFixed(r, Text.IsPythonSpace);
    Text.LowerFixed(r);
  }

  /** Every key is its own key: the normalisation changes exactly what a
      key may not hold. */
  lemma KeyIsOwnKey(t: string)
    requires SearchKey(t)
    ensures NormalizeForSearch(Some(t)) == t
  {
    CleanFixed(t);
    KeyFixed(t);
  }

  /** A key normalises to itself. */
  lemma NormalizeForSearchIdempotent(s: Option<string>)
    ensures NormalizeForSearch(Some(NormalizeForSearch(s))) == NormalizeForSearch(s)
  {
    var r := NormalizeForSearch(s);
    CleanFixed(r);
    KeyFixed(r);
  }

  /** Persian or Arabic-Indic digits and Arabic letter forms in the query do
      not change its key. */
  lemma SpellingDoesNotMatter(s: string)
    ensures NormalizeForSearch(Some(DigitsToLatin(s))) == NormalizeForSearch(Some(s))
    ensures NormalizeForSearch(Some(ReplaceArabicLetters(s))) == NormalizeForSearch(Some(s))
  {
    DigitsToLatinIdempotent(s);
    DigitsAndLettersCommute(s);
    ReplaceArabicLettersIdempotent(DigitsToLatin(s));
  }
}

=== FILE: persian_numbers.dfy ===
/** Persian number rendering on the frontend: ASCII digits written as
    Persian digits, integers grouped by commas, integers spelled out in
    Persian words over five scales, and the currency text built from both.
    Numbers are integers here; JavaScript's floating-point rendering is not
    modelled. */
module PersianNumbers {
  import Text
  import N = Normalizer
  import W = WebNormalizer

  // ---------------------------------------------------------------------
  // toPersianDigits
  // ---------------------------------------------------------------------

  /** `toPersianDigits`: the code points are visited in order, an ASCII
      digit is replaced by the Persian digit of the same value and every
      other character is copied. The result is the frontend's other
      digit rewriting, `digitsToPersian`. */
  method ToPersianDigits(value: string) returns (out: string)
    ensures |out| == |value|
    ensures forall i :: 0 <= i < |value| && Text.IsAsciiDigit(value[i]) ==>
              Text.IsPersianDigit(out[i]) && Text.DigitValue(out[i]) == Text.DigitValue(value[i])
    ensures forall i :: 0 <= i < |value| && !Text.IsAsciiDigit(value[i]) ==> out[i] == value[i]
    ensures out == W.DigitsToPersian(value)
  {
    out := "";
    var k := 0;
    while k < |value|
      invariant 0 <= k <= |value|
      invariant out == W.DigitsToPersian(value)[..k]
    {
      var ch := value[k];
      if '0' <= ch <= '9' {
        out := out + [Text.PersianDigit(Text.DigitValue(ch))];
      } else {
        out := out + [ch];
      }
      k := k + 1;
    }
  }

  // ---------------------------------------------------------------------
  // formatNumberFaSpaced
  // ---------------------------------------------------------------------

  predicate IsComma(c: char) { c == ',' }

  /** `r` is `d` with a comma before every position that has a positive
      multiple of three digits after it: removing the commas gives `d`,
      and the commas sit exactly every fourth character from the end. */
  predicate CommaGrouped(r: string, d: string) {
    && Text.Without(r, IsComma) == d
    && (|d| > 0 ==> |r| % 4 != 0 && |r| == |d| + (|d| - 1) / 3)
    && (forall i :: 0 <= i < |r| ==> (IsComma(r[i]) <==> (|r| - i) % 4 == 0))
  }

  /** The grouping `replace(/\B(?=(\d{3})+(?!\d))/g, ',')` performs on
      the integer part. */
  function Grouped(d: string): (r: string)
    requires forall i :: 0 <= i < |d| ==> !IsComma(d[i])
    ensures CommaGrouped(r, d)
    decreases |d|
  {
    if |d| <= 3 then
      GroupBase(d);
      d
    else
      var front := d[..|d| - 3];
      var tail := d[|d| - 3..];
      assert front + tail == d;
      var head := Grouped(front);
      GroupStep(front, head, tail);
      head + "," + tail
  }

  /** Up to three digits need no comma. */
  lemma GroupBase(d: string)
    requires |d| <= 3 && forall i :: 0 <= i < |d| ==> !IsComma(d[i])
    ensures CommaGrouped(d, d)
  {
    Text.WithoutNone(d, IsComma);
  }

  /** One more group of three behind a comma keeps the comma positions and
      the digits. */
  lemma GroupStep(d: string, head: string, tail: string)
    requires |d| > 0 && |tail| == 3 && forall i :: 0 <= i < 3 ==> !IsComma(tail[i])
    requires CommaGrouped(head, d)
    ensures CommaGrouped(head + "," + tail, d + tail)
  {
    Text.WithoutAppend(head + ",", tail, IsComma);
    Text.WithoutAppend(head, ",", IsComma);
    Text.WithoutNone(tail, IsComma);
    CommaPositions(head, tail);
  }

  lemma CommaPositions(head: string, tail: string)
    requires |tail| == 3 && forall i :: 0 <= i < 3 ==> !IsComma(tail[i])
    requires forall i :: 0 <= i < |head| ==> (IsComma(head[i]) <==> (|head| - i) % 4 == 0)
    ensures var r := head + "," + tail;
            forall i :: 0 <= i < |r| ==> (IsComma(r[i]) <==> (|r| - i) % 4 == 0)
  {
    var r := head + "," + tail;
    forall i | 0 <= i < |r|
      ensures IsComma(r[i]) <==> (|r| - i) % 4 == 0
    {
      if i < |head| {
        assert r[i] == head[i];
        assert |r| - i == (|head| - i) + 4;
      } else if i > |head| {
        assert r[i] == tail[i - |head| - 1];
      }
    }
  }

  /** The characters the filter keeps: ASCII digits, '.' and '-'. */
  predicate NumberChar(c: char) {
    Text.IsAsciiDigit(c) || c == '.' || c == '-'
  }

  predicate NotNumberChar(c: char) { !NumberChar(c) }

  function Unsigned(s: string): string {
    if |s| > 0 && s[0] == '-' then s[1..] else s
  }

  /** `Number(s)` is not NaN for a non-empty string over digits, '.' and
      '-': an optional leading minus, at most one dot and at least one
      digit. */
  predicate IsNumeral(s: string) {
    var b := Unsigned(s);
    && |s| > 0
    && (forall i :: 0 <= i < |b| ==> b[i] != '-')
    && (forall i, j :: 0 <= i < j < |b| ==> !(b[i] == '.' && b[j] == '.'))
    && (exists i :: 0 <= i < |b| && Text.IsAsciiDigit(b[i]))
  }

  /** `cleaned.split('.')`, keeping the first two fields: the integer part
      and the fraction, if there was a dot. */
  function SplitDot(b: string): (r: (string, string, bool))
    ensures r.2 ==> b == r.0 + "." + r.1
    ensures !r.2 ==> b == r.0 && r.1 == ""
    ensures forall i :: 0 <= i < |r.0| ==> r.0[i] != '.'
  {
    var k := Text.IndexOf(b, ".");
    if k < 0 then
      assert forall i :: 0 <= i < |b| ==> b[i] != '.' by {
        forall i | 0 <= i < |b| ensures b[i] != '.' {
          assert !Text.OccursAt(b, ".", i);
          assert b[i..i + 1] == [b[i]];
        }
      }
      (b, "", false)
    else
      assert b[..k] + "." + b[k + 1..] == b;
      assert forall i :: 0 <= i < k ==> b[i] != '.' by {
        forall i | 0 <= i < k ensures b[i] != '.' {
          assert !Text.OccursAt(b, ".", i);
          assert b[i..i + 1] == [b[i]];
        }
      }
      (b[..k], b[k + 1..], true)
  }

  /** The sign, grouped integer part and fraction, before the digits are
      written in Persian. A fraction that is empty ("5.") is dropped. */
  function SpacedLatin(f: string): (r: string)
    requires IsNumeral(f)
  {
    var neg := f[0] == '-';
    var parts := SplitDot(Unsigned(f));
    var grouped := GroupedPart(parts.0);
    var withFrac := if parts.2 && |parts.1| > 0 then grouped + "." + parts.1 else grouped;
    (if neg then "-" else "") + withFrac
  }

  /** The grouped integer part; it holds no comma since it holds no dot or
      minus and comes from the filtered text. */
  function GroupedPart(ip: string): (r: string)
  {
    if forall i :: 0 <= i < |ip| ==> !IsComma(ip[i]) then Grouped(ip) else ip
  }

  /** `formatNumberFaSpaced` on the text of its argument: when the text's
      digits, dots and minus signs read as a number, the sign, the integer
      part grouped by commas and a non-empty fraction, in Persian digits;
      otherwise the whole text in Persian digits. */
  function FormatSpaced(raw: string): (r: string)
    ensures !IsNumeral(Text.Without(raw, NotNumberChar)) ==> r == W.DigitsToPersian(raw)
  {
    var f := Text.Without(raw, NotNumberChar);
    if !IsNumeral(f) then W.DigitsToPersian(raw)
    else W.DigitsToPersian(SpacedLatin(f))
  }

  // ---------------------------------------------------------------------
  // Number words
  // ---------------------------------------------------------------------

  const Units: seq<string> := ["", "یک", "دو", "سه", "چهار", "پنج", "شش", "هفت", "هشت", "نه"]
  const Teens: seq<string> := ["ده", "یازده", "دوازده", "سیزده", "چهارده", "پانزده", "شانزده", "هفده", "هجده", "نوزده"]
  const Tens: seq<string> := ["", "", "بیست", "سی", "چهل", "پنجاه", "شصت", "هفتاد", "هشتاد", "نود"]
  const Hundreds: seq<string> := ["", "صد", "دویست", "سیصد", "چهارصد", "پانصد", "ششصد", "هفتصد", "هشتصد", "نهصد"]
  const Scales: seq<string> := ["", "هزار", "میلیون", "میلیارد", "تریلیون"]

  /** One word of a three-digit chunk, by the table it comes from. */
  datatype Word = Hundred(h: nat) | Ten(t: nat) | Teen(u: nat) | Unit(u: nat)
  {
    predicate Valid() {
      match this
      case Hundred(h) => 1 <= h <= 9
      case Ten(t) => 2 <= t <= 9
      case Teen(u) => u <= 9
      case Unit(u) => 1 <= u <= 9
    }

    /** The amount the word stands for. */
    function Value(): nat {
      match this
      case Hundred(h) => 100 * h
      case Ten(t) => 10 * t
      case Teen(u) => 10 + u
      case Unit(u) => u
    }

    function Spelling(): string
      requires Valid()
    {
      match this
      case Hundred(h) => Hundreds[h]
      case Ten(t) => Tens[t]
      case Teen(u) => Teens[u]
      case Unit(u) => Units[u]
    }
  }

  function WordsValue(ws: seq<Word>): nat {
    if |ws| == 0 then 0 else ws[0].Value() + WordsValue(ws[1..])
  }

  /** The words `threeDigitToWords` joins: the hundreds word, then either
      the teens word or the tens and units words, each only when its digit
      is not zero. Reading the words back gives the chunk. */
  function ChunkWords(num: nat): (ws: seq<Word>)
    requires num < 1000
    ensures forall k :: 0 <= k < |ws| ==> ws[k].Valid()
    ensures ws == [] <==> num == 0
    ensures WordsValue(ws) == num
    ensures (num % 100) / 10 == 1 ==> ws[|ws| - 1] == Teen(num % 10) && forall k :: 0 <= k < |ws| ==> !ws[k].Unit?
  {
    if num == 0 then []
    else
      var h := num / 100;
      Digits(num);
      var hs := if h != 0 then [Hundred(h)] else [];
      var rest := TensWords((num % 100) / 10, num % 10);
      WordsValueAppend(hs, rest);
      hs + rest
  }

  /** The words for the last two digits: the teens word when the tens
      digit is 1, otherwise the tens and units words of the non-zero
      digits. */
  function TensWords(t: nat, u: nat): (ws: seq<Word>)
    requires t <= 9 && u <= 9
    ensures forall k :: 0 <= k < |ws| ==> ws[k].Valid()
    ensures ws == [] <==> t == 0 && u == 0
    ensures WordsValue(ws) == 10 * t + u
    ensures t == 1 ==> ws == [Teen(u)]
  {
    if t == 1 then [Teen(u)]
    else
      var ts := if t != 0 then [Ten(t)] else [];
      var us := if u != 0 then [Unit(u)] else [];
      WordsValueAppend(ts, us);
      ts + us
  }

  /** The hundreds, tens and units digits of a chunk. */
  lemma Digits(num: nat)
    requires num < 1000
    ensures num == 100 * (num / 100) + 10 * ((num % 100) / 10) + num % 10
    ensures num / 100 <= 9 && (num % 100) / 10 <= 9
  {
    var q := num / 100;
    var r := num % 100;
    assert num == 100 * q + r;
    assert r == 10 * (r / 10) + r % 10;
    assert num == 10 * (10 * q + r / 10) + r % 10;
  }

  lemma {:induction false} WordsValueAppend(a: seq<Word>, b: seq<Word>)
    ensures WordsValue(a + b) == WordsValue(a) + WordsValue(b)
    decreases |a|
  {
    if |a| == 0 {
      assert a + b == b;
    } else {
      WordsValueAppend(a[1..], b);
      assert (a + b)[1..] == a[1..] + b;
    }
  }

  function Spellings(ws: seq<Word>): (r: seq<string>)
    requires forall k :: 0 <= k < |ws| ==> ws[k].Valid()
    ensures |r| == |ws|
  {
    if |ws| == 0 then [] else [ws[0].Spelling()] + Spellings(ws[1..])
  }

  /** `parts.join(sep)`. */
  function Join(parts: seq<string>, sep: string): string {
    if |parts| == 0 then ""
    else if |parts| == 1 then parts[0]
    else parts[0] + sep + Join(parts[1..], sep)
  }

  /** `threeDigitToWords`: the chunk's words joined by " و "; nothing for
      0. */
  function ThreeDigitToWords(num: nat): (r: string)
    requires num < 1000
    ensures num == 0 ==> r == ""
    ensures num != 0 ==> |r| > 0
  {
    if num == 0 then ""
    else
      var ws := ChunkWords(num);
      NonEmptySpelling(ws[0]);
      Join(Spellings(ws), " و ")
  }

  lemma NonEmptySpelling(w: Word)
    requires w.Valid()
    ensures |w.Spelling()| > 0
  {
  }

  /** A non-zero chunk of three digits and the index of its scale word. */
  datatype Group = Group(chunk: nat, scale: nat)
  {
    predicate Valid() { 1 <= chunk < 1000 && scale < 5 }
  }

  function Pow1000(k: nat): (p: nat)
    ensures p >= 1
  {
    if k == 0 then 1 else 1000 * Pow1000(k - 1)
  }

  /** The amount the groups stand for: each chunk times its scale. */
  function GroupsValue(gs: seq<Group>): nat {
    if |gs| == 0 then 0 else gs[0].chunk * Pow1000(gs[0].scale) + GroupsValue(gs[1..])
  }

  /** Groups are valid and listed from the highest scale down. */
  predicate Descending(gs: seq<Group>) {
    && (forall k :: 0 <= k < |gs| ==> gs[k].Valid())
    && (forall i, j :: 0 <= i < j < |gs| ==> gs[i].scale > gs[j].scale)
  }

  /** The loop of `numberToPersianWords`: at most five chunks, each non-zero
      one put in front of those found so far. */
  function Groups(n: nat, k: nat, acc: seq<Group>): (gs: seq<Group>)
    requires k <= 5 && Below(acc, k)
    ensures Descending(gs)
    decreases 5 - k
  {
    if n > 0 && k < 5 then
      Groups(n / 1000, k + 1, Push(n % 1000, k, acc))
    else acc
  }

  /** Groups found below scale `k`, highest first. */
  predicate Below(acc: seq<Group>, k: nat) {
    Descending(acc) && forall j :: 0 <= j < |acc| ==> acc[j].scale < k
  }

  /** `parts.unshift(...)` for a non-zero chunk at scale `k`. */
  function Push(chunk: nat, k: nat, acc: seq<Group>): (r: seq<Group>)
    requires chunk < 1000 && k < 5 && Below(acc, k)
    ensures Below(r, k + 1)
  {
    if chunk != 0 then [Group(chunk, k)] + acc else acc
  }

  /** Pushing a chunk adds its worth at scale `k`. */
  lemma PushValue(chunk: nat, k: nat, acc: seq<Group>)
    requires chunk < 1000 && k < 5 && Below(acc, k)
    ensures GroupsValue(Push(chunk, k, acc)) == GroupsValue(acc) + chunk * Pow1000(k)
  {
    if chunk != 0 {
      var r := [Group(chunk, k)] + acc;
      assert r[1..] == acc;
    }
  }

  /** The low `j` chunks of `n`, the part of `n` the loop can see. */
  function Low(n: nat, j: nat): nat {
    if j == 0 then 0 else n % 1000 + 1000 * Low(n / 1000, j - 1)
  }

  /** `numberToPersianWords` on a positive number: the groups it renders. */
  function WordGroups(n: nat): (gs: seq<Group>)
    ensures Descending(gs)
    ensures GroupsValue(gs) == Low(n, 5)
  {
    ReadBackFromStart(n);
    Groups(n, 0, [])
  }

  lemma ReadBackFromStart(n: nat)
    ensures GroupsValue(Groups(n, 0, [])) == Low(n, 5)
  {
    var empty: seq<Group> := [];
    assert GroupsValue(empty) == 0 && Pow1000(0) == 1;
    GroupsReadBack(n, 0, empty);
  }

  /** One group: the chunk's words and the scale word, the empty ones
      left out, joined by a space. */
  function GroupText(g: Group): string
    requires g.Valid()
  {
    var cw := ThreeDigitToWords(g.chunk);
    var sw := Scales[g.scale];
    if sw == "" then cw else cw + " " + sw
  }

  function GroupTexts(gs: seq<Group>): seq<string>
    requires forall k :: 0 <= k < |gs| ==> gs[k].Valid()
  {
    if |gs| == 0 then [] else [GroupText(gs[0])] + GroupTexts(gs[1..])
  }

  /** `numberToPersianWords` on an integer: "صفر" for zero, "منفی " before
      the words of the magnitude for a negative number, and otherwise the
      groups joined by " و ". */
  function NumberToWords(n: int): (r: string)
    ensures n == 0 ==> r == "صفر"
    ensures n < 0 ==> r == "منفی " + NumberToWords(-n)
    decreases if n < 0 then 1 else 0
  {
    if n == 0 then "صفر"
    else if n < 0 then "منفی " + NumberToWords(-n)
    else Join(GroupTexts(WordGroups(n)), " و ")
  }

  // The groups read back -------------------------------------------------

  lemma PowStep(k: nat)
    requires k < 5
    ensures Pow1000(5 - k) == 1000 * Pow1000(4 - k)
  {
  }

  lemma {:induction false} GroupsReadBack(n: nat, k: nat, acc: seq<Group>)
    requires k <= 5 && Below(acc, k)
    ensures GroupsValue(Groups(n, k, acc)) == GroupsValue(acc) + Pow1000(k) * Low(n, 5 - k)
    decreases 5 - k
  {
    if n > 0 && k < 5 {
      GroupsStep(n, k, acc);
      GroupsReadBack(n / 1000, k + 1, Push(n % 1000, k, acc));
      ReadBackRound(n, k, acc);
    } else if n == 0 {
      LowZero(5 - k);
    }
  }

  /** One round moves the low chunk from what is left into the groups
      without changing the total. */
  lemma ReadBackRound(n: nat, k: nat, acc: seq<Group>)
    requires n > 0 && k < 5 && Below(acc, k)
    ensures GroupsValue(Push(n % 1000, k, acc)) + Pow1000(k + 1) * Low(n / 1000, 5 - (k + 1))
         == GroupsValue(acc) + Pow1000(k) * Low(n, 5 - k)
  {
    PushValue(n % 1000, k, acc);
    LowStep(n, 4 - k);
    assert Pow1000(k + 1) == 1000 * Pow1000(k);
    Distribute(Pow1000(k), n % 1000, Low(n / 1000, 4 - k));
  }

  lemma LowStep(n: nat, j: nat)
    ensures Low(n, j + 1) == n % 1000 + 1000 * Low(n / 1000, j)
  {
  }

  lemma Distribute(p: nat, c: nat, l: nat)
    ensures c * p + (1000 * p) * l == p * (c + 1000 * l)
  {
  }

  lemma {:induction false} LowZero(j: nat)
    ensures Low(0, j) == 0
  {
    if j > 0 {
      LowZero(j - 1);
    }
  }

  /** Below 1000^j the low `j` chunks are the whole number. */
  lemma {:induction false} LowOfSmall(n: nat, j: nat)
    requires n < Pow1000(j)
    ensures Low(n, j) == n
  {
    if j > 0 {
      assert n / 1000 < Pow1000(j - 1);
      LowOfSmall(n / 1000, j - 1);
    } else {
      assert n == 0;
    }
  }

  lemma DivMod1000(a: nat, b: nat)
    ensures (a + 1000 * b) % 1000 == a % 1000
    ensures (a + 1000 * b) / 1000 == a / 1000 + b
  {
    assert a + 1000 * b == 1000 * (a / 1000 + b) + a % 1000;
  }

  /** `m` times 1000^j, written with multiplications by 1000 only. */
  function Shift(m: nat, j: nat): nat {
    if j == 0 then m else 1000 * Shift(m, j - 1)
  }

  lemma {:induction false} ShiftIsProduct(m: nat, j: nat)
    ensures Shift(m, j) == Pow1000(j) * m
  {
    if j > 0 {
      ShiftIsProduct(m, j - 1);
      assert 1000 * (Pow1000(j - 1) * m) == (1000 * Pow1000(j - 1)) * m;
    }
  }

  /** `a` plus a multiple of 1000^(5-k), split into the next chunk and the
      rest. */
  lemma HighSplit(a: nat, m: nat, k: nat)
    requires k < 5
    ensures (a + Shift(m, 5 - k)) % 1000 == a % 1000
    ensures (a + Shift(m, 5 - k)) / 1000 == a / 1000 + Shift(m, 4 - k)
  {
    DivMod1000(a, Shift(m, 4 - k));
  }

  /** One round of the loop. */
  lemma GroupsStep(n: nat, k: nat, acc: seq<Group>)
    requires n > 0 && k < 5 && Below(acc, k)
    ensures Groups(n, k, acc) == Groups(n / 1000, k + 1, Push(n % 1000, k, acc))
  {
  }

  /** Chunks at scale 5 and above never reach the loop's words. */
  lemma {:induction false} HighChunksIgnored(a: nat, m: nat, k: nat, acc: seq<Group>)
    requires k <= 5 && Below(acc, k)
    ensures Groups(a + Shift(m, 5 - k), k, acc) == Groups(a, k, acc)
    decreases 5 - k, 1
  {
    if k < 5 {
      if a == 0 {
        ZerosIgnored(m, k, acc);
      } else {
        HighChunkIgnored(a, m, k, acc);
      }
    }
  }

  /** The round for a non-zero `a`: both sides push the same chunk. */
  lemma {:induction false} HighChunkIgnored(a: nat, m: nat, k: nat, acc: seq<Group>)
    requires 0 < a && k < 5 && Below(acc, k)
    ensures Groups(a + Shift(m, 5 - k), k, acc) == Groups(a, k, acc)
    decreases 5 - k, 0
  {
    HighChunksIgnored(a / 1000, m, k + 1, Push(a % 1000, k, acc));
    assert 5 - (k + 1) == 4 - k;
    HighStep(a, m, k, acc);
  }

  /** One round of the loop sees the same chunk in `a` and in `a` plus the
      high part, and what is left of the latter is what is left of `a` plus
      the high part shifted down one chunk. */
  lemma HighStep(a: nat, m: nat, k: nat, acc: seq<Group>)
    requires 0 < a && k < 5 && Below(acc, k)
    requires Groups(a / 1000 + Shift(m, 4 - k), k + 1, Push(a % 1000, k, acc))
          == Groups(a / 1000, k + 1, Push(a % 1000, k, acc))
    ensures Groups(a + Shift(m, 5 - k), k, acc) == Groups(a, k, acc)
  {
    HighSplit(a, m, k);
    GroupsStep(a + Shift(m, 5 - k), k, acc);
    GroupsStep(a, k, acc);
  }

  /** A multiple of 1000^(5-k) only adds empty chunks. */
  lemma {:induction false} ZerosIgnored(m: nat, k: nat, acc: seq<Group>)
    requires k <= 5 && Below(acc, k)
    ensures Groups(Shift(m, 5 - k), k, acc) == acc
    decreases 5 - k
  {
    var n := Shift(m, 5 - k);
    if k < 5 && n > 0 {
      HighSplit(0, m, k);
      assert Push(0, k, acc) == acc;
      ZerosIgnored(m, k + 1, acc);
      GroupsStep(n, k, acc);
    }
  }

  /** Below 10^15 the words read back as the number itself. */
  lemma WordsReadBack(n: nat)
    requires n < Pow1000(5)
    ensures GroupsValue(WordGroups(n)) == n
  {
    LowOfSmall(n, 5);
  }

  /** Only five scales exist: digits from 10^15 up are dropped without a
      trace. */
  lemma HighDigitsDropped(n: nat, m: nat)
    requires n > 0
    ensures NumberToWords(n + Pow1000(5) * m) == NumberToWords(n)
  {
    var x := n + Shift(m, 5);
    ShiftIsProduct(m, 5);
    HighGroupsIgnored(n, m);
    WordsOfHigh(x, n);
    assert x == n + Pow1000(5) * m;
  }

  lemma WordsOfHigh(x: nat, n: nat)
    requires 0 < n && 0 < x && WordGroups(x) == WordGroups(n)
    ensures NumberToWords(x) == NumberToWords(n)
  {
    SameGroupsSameWords(x, n);
  }

  lemma HighGroupsIgnored(n: nat, m: nat)
    ensures WordGroups(n + Pow1000(5) * m) == WordGroups(n)
  {
    var x := n + Pow1000(5) * m;
    HighFromStart(n, m);
    assert WordGroups(x) == Groups(x, 0, []);
    assert WordGroups(n) == Groups(n, 0, []);
  }

  lemma HighFromStart(n: nat, m: nat)
    ensures Groups(n + Pow1000(5) * m, 0, []) == Groups(n, 0, [])
  {
    HighChunksIgnored(n, m, 0, []);
    SameShift(n, m);
  }

  lemma SameShift(n: nat, m: nat)
    ensures n + Shift(m, 5 - 0) == n + Pow1000(5) * m
  {
    ShiftIsProduct(m, 5);
  }

  lemma SameGroupsSameWords(x: nat, y: nat)
    requires x > 0 && y > 0 && WordGroups(x) == WordGroups(y)
    ensures NumberToWords(x) == NumberToWords(y)
  {
  }

  /** A positive multiple of 10^15 has no group at all and is rendered as
      the empty string, not as "صفر". */
  lemma WholeQuadrillionsVanish(m: nat)
    requires m > 0
    ensures NumberToWords(Pow1000(5) * m) == ""
  {
    var empty: seq<Group> := [];
    ZerosIgnored(m, 0, empty);
    ShiftIsProduct(m, 5);
    assert WordGroups(Pow1000(5) * m) == empty;
  }

  // ---------------------------------------------------------------------
  // formatCurrencyFa
  // ---------------------------------------------------------------------

  datatype CurrencyUnit = Rial | Toman
  {
    function Name(): string {
      match this
      case Rial => "ریال"
      case Toman => "تومان"
    }
  }

  datatype CurrencyText = CurrencyText(numeric: string, words: string, full: string)

  /** `formatCurrencyFa` for an integer value: the grouped number in Persian
      digits, its words when asked for, and the number, a space and the
      unit, followed by " (words unit)" only when words are asked for. */
  function FormatCurrency(value: int, unit: CurrencyUnit, withWords: bool): (r: CurrencyText)
    ensures r.numeric == FormatSpaced(Text.IntToString(value))
    ensures withWords ==> r.words == NumberToWords(value)
    ensures !withWords ==> r.words == "" && r.full == r.numeric + " " + unit.Name()
    ensures withWords ==> r.full == r.numeric + " " + unit.Name() + " (" + r.words + " " + unit.Name() + ")"
  {
    var numeric := FormatSpaced(Text.IntToString(value));
    var words := if withWords then NumberToWords(value) else "";
    var full := if withWords then numeric + " " + unit.Name() + " (" + words + " " + unit.Name() + ")"
                else numeric + " " + unit.Name();
    CurrencyText(numeric, words, full)
  }

  /** The full currency text opens with the numeric part, and that part,
      read back in ASCII with the separators removed, is the value's
      decimal text: the amount shown is the amount given. */
  lemma CurrencyReadBack(value: int, unit: CurrencyUnit, withWords: bool)
    ensures var r := FormatCurrency(value, unit, withWords);
            && Text.StartsWith(r.full, r.numeric)
            && Text.Without(N.DigitsToLatin(r.numeric), IsComma) == Text.IntToString(value)
  {
    var r := FormatCurrency(value, unit, withWords);
    FullOpensWithNumeric(r, unit, withWords);
    IntegerReadBack(value);
  }

  lemma FullOpensWithNumeric(r: CurrencyText, unit: CurrencyUnit, withWords: bool)
    requires withWords ==> r.full == r.numeric + " " + unit.Name() + " (" + r.words + " " + unit.Name() + ")"
    requires !withWords ==> r.full == r.numeric + " " + unit.Name()
    ensures Text.StartsWith(r.full, r.numeric)
  {
    var tail := if withWords then " (" + r.words + " " + unit.Name() + ")" else "";
    assert r.full == r.numeric + (" " + unit.Name() + tail);
    assert r.full[..|r.numeric|] == r.numeric;
  }


  // The grouped number read back ----------------------------------------

  /** The sign of a decimal integer text. */
  function SignText(value: int): string {
    if value < 0 then "-" else ""
  }

  function Magnitude(value: int): nat {
    if value < 0 then -value else value
  }

  predicate AsciiDigitsOnly(d: string) {
    forall i :: 0 <= i < |d| ==> Text.IsAsciiDigit(d[i])
  }

  /** The ASCII digits of a number pass the filter unchanged and read as a
      number with no dot. */
  lemma IntNumeral(value: int)
    ensures var s := Text.IntToString(value);
            && s == SignText(value) + Text.NatToString(Magnitude(value))
            && Text.Without(s, NotNumberChar) == s && IsNumeral(s)
            && Unsigned(s) == Text.NatToString(Magnitude(value))
  {
    var s := Text.IntToString(value);
    var d := Text.NatToString(Magnitude(value));
    assert s == SignText(value) + d;
    assert AsciiDigitsOnly(d);
    assert forall i :: 0 <= i < |d| ==> NumberChar(d[i]) && d[i] != '-' && d[i] != '.';
    if value < 0 {
      assert s[1..] == d;
      assert forall i :: 1 <= i < |s| ==> s[i] == d[i - 1];
    } else {
      assert s == d;
    }
    assert Unsigned(s) == d;
    assert Text.IsAsciiDigit(d[0]);
    Text.WithoutNone(s, NotNumberChar);
  }

  /** The text before the digits are written in Persian: the sign and the
      grouped digits. */
  lemma SpacedOfInt(s: string, sign: string, b: string)
    requires sign == "" || sign == "-"
    requires |b| > 0 && AsciiDigitsOnly(b) && s == sign + b && IsNumeral(s)
    ensures forall i :: 0 <= i < |b| ==> !IsComma(b[i])
    ensures SpacedLatin(s) == sign + Grouped(b)
  {
    SignSplit(s, sign, b);
    DigitsOnly(b);
    NoDotNoSplit(b);
    SpacedParts(s, b);
  }

  /** The sign in front of ASCII digits is what `Unsigned` strips. */
  lemma SignSplit(s: string, sign: string, b: string)
    requires sign == "" || sign == "-"
    requires |b| > 0 && AsciiDigitsOnly(b) && s == sign + b
    ensures |s| > 0 && Unsigned(s) == b && (s[0] == '-' <==> sign == "-")
  {
    if sign == "" {
      assert s == b && Text.IsAsciiDigit(b[0]);
    } else {
      assert s[1..] == b;
    }
  }

  /** ASCII digits are neither dots nor commas. */
  lemma DigitsOnly(b: string)
    requires AsciiDigitsOnly(b)
    ensures forall i :: 0 <= i < |b| ==> b[i] != '.' && !IsComma(b[i])
  {
  }

  /** A numeral with no dot and no comma is grouped whole. */
  lemma SpacedParts(s: string, b: string)
    requires IsNumeral(s) && Unsigned(s) == b && !SplitDot(b).2
    requires forall i :: 0 <= i < |b| ==> !IsComma(b[i])
    ensures SpacedLatin(s) == (if s[0] == '-' then "-" else "") + Grouped(b)
  {
    assert SplitDot(b).0 == b;
    assert GroupedPart(b) == Grouped(b);
  }

  /** A text without a dot is not split. */
  lemma NoDotNoSplit(b: string)
    requires forall i :: 0 <= i < |b| ==> b[i] != '.'
    ensures !SplitDot(b).2
  {
    assert '.' !in b;
  }

  /** The sign and the grouped digits hold no Persian or Arabic-Indic
      digit. */
  lemma LatinBack(sign: string, b: string, latin: string)
    requires sign == "" || sign == "-"
    requires AsciiDigitsOnly(b) && forall i :: 0 <= i < |b| ==> !IsComma(b[i])
    requires latin == sign + Grouped(b)
    ensures N.LatinDigitsOnly(latin)
  {
    GroupedAscii(b);
    PlainAppend(sign, Grouped(b));
  }

  /** ASCII digits, commas and minus signs only. */
  predicate Plain(s: string) {
    forall i :: 0 <= i < |s| ==> Text.IsAsciiDigit(s[i]) || IsComma(s[i]) || s[i] == '-'
  }

  lemma PlainAppend(a: string, c: string)
    requires Plain(a) && Plain(c)
    ensures Plain(a + c) && N.LatinDigitsOnly(a + c)
  {
    var s := a + c;
    forall i | 0 <= i < |s|
      ensures Text.IsAsciiDigit(s[i]) || IsComma(s[i]) || s[i] == '-'
    {
      if i >= |a| {
        assert s[i] == c[i - |a|];
      }
    }
  }

  /** Writing the digits in Persian and reading them back in ASCII gives a
      text with ASCII digits only back. */
  lemma PersianAndBack(s: string)
    requires N.LatinDigitsOnly(s)
    ensures N.DigitsToLatin(W.DigitsToPersian(s)) == s
  {
    W.DigitsRoundTrip(s);
  }

  lemma GroupedAscii(b: string)
    requires AsciiDigitsOnly(b) && forall i :: 0 <= i < |b| ==> !IsComma(b[i])
    ensures Plain(Grouped(b))
  {
    forall j | 0 <= j < |Grouped(b)|
      ensures Text.IsAsciiDigit(Grouped(b)[j]) || IsComma(Grouped(b)[j])
    {
      GroupedCharsAt(b, j);
    }
  }

  /** The grouped integer, read back in ASCII with the commas removed, is
      the integer's decimal text: `formatNumberFaSpaced` loses nothing. */
  lemma IntegerReadBack(value: int)
    ensures Text.Without(N.DigitsToLatin(FormatSpaced(Text.IntToString(value))), IsComma) == Text.IntToString(value)
  {
    var s := Text.IntToString(value);
    IntLatin(value);
    var latin := SpacedLatin(s);
    assert FormatSpaced(s) == W.DigitsToPersian(latin);
    PersianAndBack(latin);
  }

  /** The grouped integer before the Persian digits: ASCII only, and its
      digits are the integer's. */
  lemma IntLatin(value: int)
    ensures Text.Without(Text.IntToString(value), NotNumberChar) == Text.IntToString(value)
    ensures IsNumeral(Text.IntToString(value))
    ensures N.LatinDigitsOnly(SpacedLatin(Text.IntToString(value)))
    ensures Text.Without(SpacedLatin(Text.IntToString(value)), IsComma) == Text.IntToString(value)
  {
    var s := Text.IntToString(value);
    IntNumeral(value);
    SignedBack(s, SignText(value), Text.NatToString(Magnitude(value)));
  }

  lemma SignedBack(s: string, sign: string, b: string)
    requires sign == "" || sign == "-"
    requires |b| > 0 && AsciiDigitsOnly(b) && s == sign + b && IsNumeral(s)
    ensures N.LatinDigitsOnly(SpacedLatin(s))
    ensures Text.Without(SpacedLatin(s), IsComma) == s
  {
    SpacedOfInt(s, sign, b);
    var latin := sign + Grouped(b);
    LatinBack(sign, b, latin);
    Text.WithoutAppend(sign, Grouped(b), IsComma);
    Text.WithoutNone(sign, IsComma);
  }

  /** Each character of the grouped text is an ASCII digit or a comma. */
  lemma {:induction false} GroupedCharsAt(b: string, j: nat)
    requires AsciiDigitsOnly(b) && forall k :: 0 <= k < |b| ==> !IsComma(b[k])
    requires j < |Grouped(b)|
    ensures Text.IsAsciiDigit(Grouped(b)[j]) || IsComma(Grouped(b)[j])
    decreases |b|
  {
    if |b| > 3 {
      var front := b[..|b| - 3];
      var head := Grouped(front);
      if j < |head| {
        GroupedCharsAt(front, j);
      }
    }
  }
}

=== FILE: report_query.dfy ===
/** The natural-language report query of the backend: a short Persian or
    English request is read into filters (a minimum amount, a date range, a
    party name, an invoice type), and the newest invoices are kept when no
    filter excludes them. Also the text of the server's UTC offset. The clock
    is a parameter. */
module ReportQuery {
  import opened Wrappers
  import Text
  import Civil
  import opened Books

  // ---------------------------------------------------------------------
  // Scanning
  // ---------------------------------------------------------------------

  /** The first decimal digit at or after `from`, or -1. */
  function DigitFrom(q: string, from: nat): (k: int)
    requires from <= |q|
    ensures k == -1 || from <= k < |q|
    ensures k >= 0 ==> Text.IsDecimalDigit(q[k])
    ensures k >= 0 ==> forall j :: from <= j < k ==> !Text.IsDecimalDigit(q[j])
    ensures k == -1 ==> forall j :: from <= j < |q| ==> !Text.IsDecimalDigit(q[j])
    decreases |q| - from
  {
    if from == |q| then -1
    else if Text.IsDecimalDigit(q[from]) then from
    else DigitFrom(q, from + 1)
  }

  // ---------------------------------------------------------------------
  // The amount
  // ---------------------------------------------------------------------

  predicate IsSeparator(c: char) { c == ',' || c == '.' }

  /** The class `[\.,\d]` that continues a number. */
  predicate IsAmountChar(c: char) { Text.IsDecimalDigit(c) || IsSeparator(c) }

  /** The digits of an amount text: its commas and dots deleted. */
  function AmountDigits(a: string): (d: string)
    requires forall i :: 0 <= i < |a| ==> IsAmountChar(a[i])
    ensures Text.AllDigits(d)
  {
    SeparatorsDropped(a);
    Text.Without(a, IsSeparator)
  }

  lemma SeparatorsDropped(a: string)
    requires forall i :: 0 <= i < |a| ==> IsAmountChar(a[i])
    ensures Text.AllDigits(Text.Without(a, IsSeparator))
  {
    Text.WithoutMembers(a, IsSeparator);
    var d := Text.Without(a, IsSeparator);
    forall i | 0 <= i < |d|
      ensures Text.IsDecimalDigit(d[i])
    {
      var c := d[i];
      assert c in d;
      assert c in a && !IsSeparator(c);
      var j :| 0 <= j < |a| && a[j] == c;
      assert IsAmountChar(a[j]);
    }
  }

  /** The factor of the unit that may follow the number after optional
      whitespace: a million, a thousand, or one for toman, rial or no
      unit. */
  function UnitScale(t: string): (n: nat)
    ensures n in {1, 1000, 1000000}
  {
    var u := t[Text.LeadingSpaces(t, Text.IsPythonSpace)..];
    if Text.StartsWith(u, "میلیون") then 1000000
    else if Text.StartsWith(u, "هزار") then 1000
    else 1
  }

  /** `amount_min`: the first number of the query, its separators
      deleted before it is read, times its unit. There is none exactly when
      the query holds no digit. */
  function Amount(q: string): (r: Option<nat>)
    ensures r.None? <==> forall j :: 0 <= j < |q| ==> !Text.IsDecimalDigit(q[j])
  {
    var k := DigitFrom(q, 0);
    if k < 0 then None
    else
      var e := Text.RunEnd(q, k, IsAmountChar);
      Some(Text.DecimalValue(AmountDigits(q[k..e])) * UnitScale(q[e..]))
  }

  /** The amount of a query whose first number is `a`: the text `p` before
      it holds no digit and the text `t` after it does not continue it. */
  lemma AmountOf(p: string, a: string, t: string)
    requires forall i :: 0 <= i < |p| ==> !Text.IsDecimalDigit(p[i])
    requires |a| > 0 && Text.IsDecimalDigit(a[0])
    requires forall i :: 0 <= i < |a| ==> IsAmountChar(a[i])
    requires |t| > 0 ==> !IsAmountChar(t[0])
    ensures Amount(p + a + t) == Some(Text.DecimalValue(AmountDigits(a)) * UnitScale(t))
  {
    var q := p + a + t;
    var k := DigitFrom(q, 0);
    assert Text.IsDecimalDigit(q[|p|]);
    assert forall j :: 0 <= j < |p| ==> q[j] == p[j];
    assert k == |p|;
    var e := Text.RunEnd(q, k, IsAmountChar);
    assert forall j :: |p| <= j < |p| + |a| ==> q[j] == a[j - |p|];
    assert |t| > 0 ==> q[|p| + |a|] == t[0];
    assert e == |p| + |a|;
    assert q[k..e] == a;
    assert q[e..] == t;
  }

  /** Whitespace between the number and its unit does not matter. */
  lemma SpaceBeforeUnit(u: string)
    requires |u| > 0 && !Text.IsPythonSpace(u[0])
    ensures UnitScale(" " + u) == UnitScale(u)
  {
    var t := " " + u;
    assert t[1] == u[0];
    assert Text.LeadingSpaces(t, Text.IsPythonSpace) == 1;
    assert t[1..] == u;
  }

  /** Million and thousand scale the number. */
  lemma ScalingUnits()
    ensures UnitScale("میلیون") == 1000000
    ensures UnitScale("هزار") == 1000
  {
    assert Text.LeadingSpaces("میلیون", Text.IsPythonSpace) == 0;
    assert Text.LeadingSpaces("هزار", Text.IsPythonSpace) == 0;
  }

  /** Toman and rial are matched but leave the number as it is. */
  lemma PlainUnits()
    ensures UnitScale("تومان") == 1
    ensures UnitScale("ریال") == 1
  {
    assert Text.LeadingSpaces("تومان", Text.IsPythonSpace) == 0;
    assert Text.LeadingSpaces("ریال", Text.IsPythonSpace) == 0;
  }

  /** A query whose first number is the digit string `a`, followed by the
      text `t`, asks for the value of `a` times the unit `t` begins with. */
  lemma AmountOfDigits(p: string, a: string, t: string)
    requires forall i :: 0 <= i < |p| ==> !Text.IsDecimalDigit(p[i])
    requires |a| > 0 && Text.AllDigits(a)
    requires |t| > 0 ==> !IsAmountChar(t[0])
    ensures Amount(p + a + t) == Some(Text.DecimalValue(a) * UnitScale(t))
  {
    Text.WithoutNone(a, IsSeparator);
    AmountOf(p, a, t);
  }

  /** The separators of a number are deleted. */
  lemma SeparatorDeleted(a: string, sep: char, b: string)
    requires Text.AllDigits(a) && Text.AllDigits(b) && IsSeparator(sep)
    ensures AmountDigits(a + [sep] + b) == a + b
  {
    Text.WithoutAppend(a + [sep], b, IsSeparator);
    Text.WithoutAppend(a, [sep], IsSeparator);
    Text.WithoutNone(a, IsSeparator);
    Text.WithoutNone(b, IsSeparator);
  }

  /** A dot or a comma inside the number is deleted, never read as a
      decimal point: "2.5 میلیون" asks for 25 million. */
  lemma SeparatorIgnored(p: string, a: string, sep: char, b: string, t: string)
    requires forall i :: 0 <= i < |p| ==> !Text.IsDecimalDigit(p[i])
    requires |a| > 0 && Text.AllDigits(a) && Text.AllDigits(b) && IsSeparator(sep)
    requires |t| > 0 ==> !IsAmountChar(t[0])
    ensures Amount(p + (a + [sep] + b) + t) == Some(Text.DecimalValue(a + b) * UnitScale(t))
  {
    SeparatorDeleted(a, sep, b);
    AmountOf(p, a + [sep] + b, t);
  }

  // ---------------------------------------------------------------------
  // Date ranges
  // ---------------------------------------------------------------------

  /** The week start lies a whole number of weeks after day 0 at the time
      of day `tod`. */
  lemma WeekArithmetic(dn: int, tod: int)
    requires dn >= 0 && 0 <= tod < 86400
    ensures ((dn - dn % 7) * 86400 + tod) / 86400 == dn - dn % 7
    ensures ((dn - dn % 7) * 86400 + tod) % 86400 == tod
    ensures (dn - dn % 7) % 7 == 0
  {
    var w := dn - dn % 7;
    assert w == (dn / 7) * 7;
  }

  /** The `'هفته'` range: back to Monday by whole days, the time of day kept,
      and on for seven days less one second. It holds `now`, starts on a
      Monday (day numbers divisible by 7) at the time of day of `now`. */
  function WeekRange(now: Civil.DateTime): (r: (int, int))
    requires Civil.Valid(now)
    ensures r.0 <= Civil.Seconds(now) <= r.1
    ensures r.1 - r.0 == 7 * Civil.SecondsPerDay - 1
    ensures Civil.Seconds(now) - r.0 < 7 * Civil.SecondsPerDay
    ensures (r.0 / Civil.SecondsPerDay) % 7 == 0
    ensures r.0 % Civil.SecondsPerDay == Civil.SecondOfDay(now)
  {
    var dn := Civil.DayNumber(now.year, now.month, now.day);
    var tod := Civil.SecondOfDay(now);
    var start := Civil.Seconds(now) - Civil.Weekday(now) * Civil.SecondsPerDay;
    assert start == (dn - dn % 7) * 86400 + tod;
    WeekArithmetic(dn, tod);
    (start, start + 6 * Civil.SecondsPerDay + 23 * 3600 + 59 * 60 + 59)
  }

  /** The `'ماه'` range: from midnight of the first of the month to one
      second before the first of the next month at the current time of day,
      since `replace` keeps the hour, minute and second. It holds `now` and
      runs past the month's last second by the time of day less one
      second. */
  function MonthRange(now: Civil.DateTime): (r: (int, int))
    requires Civil.Valid(now)
    ensures r.0 == Civil.DayNumber(now.year, now.month, 1) * Civil.SecondsPerDay
    ensures r.0 <= Civil.Seconds(now) <= r.1
    ensures r.1 - r.0 == Civil.DaysInMonth(now.year, now.month) * Civil.SecondsPerDay + Civil.SecondOfDay(now) - 1
  {
    var (ny, nm) := Civil.NextMonth(now.year, now.month);
    Civil.MonthSpan(now.year, now.month);
    var first := Civil.DateTime(now.year, now.month, 1, 0, 0, 0);
    var next := Civil.DateTime(ny, nm, 1, now.hour, now.minute, now.second);
    (Civil.Seconds(first), Civil.Seconds(next) - 1)
  }

  /** The month range ends on the month's last second only when the query
      is made at midnight. */
  lemma MonthEndExactAtMidnight(now: Civil.DateTime)
    requires Civil.Valid(now)
    ensures var r := MonthRange(now);
            r.1 == r.0 + Civil.DaysInMonth(now.year, now.month) * Civil.SecondsPerDay - 1
            <==> now.hour == 0 && now.minute == 0 && now.second == 0
  {
  }

  /** `'این هفته'` holds `'هفته'` and `'ماه جاری'` holds `'ماه'`, so only
      the short keywords decide. */
  lemma LongKeywordsRedundant(q: string)
    ensures Text.Contains(q, "این هفته") ==> Text.Contains(q, "هفته")
    ensures Text.Contains(q, "ماه جاری") ==> Text.Contains(q, "ماه")
  {
    if Text.Contains(q, "این هفته") {
      Text.ContainsPart(q, "این هفته", "هفته", 4);
    }
    if Text.Contains(q, "ماه جاری") {
      Text.ContainsPart(q, "ماه جاری", "ماه", 0);
    }
  }

  /** The month range overrides the week range. */
  function DateRange(q: string, now: Civil.DateTime): (r: Option<(int, int)>)
    requires Civil.Valid(now)
    ensures r.Some? <==> Text.Contains(q, "ماه") || Text.Contains(q, "هفته")
    ensures r.Some? ==> r.value.0 <= Civil.Seconds(now) <= r.value.1
  {
    if Text.Contains(q, "ماه") then Some(MonthRange(now))
    else if Text.Contains(q, "هفته") then Some(WeekRange(now))
    else None
  }

  // ---------------------------------------------------------------------
  // The party name
  // ---------------------------------------------------------------------

  /** Python's `\w` for the characters the model distinguishes: ASCII
      letters, '_' and the decimal digits of the three scripts. */
  predicate IsWordChar(c: char) {
    ('a' <= c <= 'z') || ('A' <= c <= 'Z') || c == '_' || Text.IsDecimalDigit(c)
  }

  /** `[؀-ۿ\w\s]`. */
  predicate InPersianName(c: char) {
    0x0600 <= c as int <= 0x06FF || IsWordChar(c) || Text.IsPythonSpace(c)
  }

  /** `[\w\s]`. */
  predicate InLatinName(c: char) {
    IsWordChar(c) || Text.IsPythonSpace(c)
  }

  function NameClass(latin: bool): char -> bool {
    if latin then InLatinName else InPersianName
  }

  /** `'برای'`, or `'for'` in any letter case. */
  predicate KeywordAt(q: string, i: nat, latin: bool) {
    if latin then
      i + 3 <= |q| && Text.AsciiLower(q[i]) == 'f' && Text.AsciiLower(q[i + 1]) == 'o'
      && Text.AsciiLower(q[i + 2]) == 'r'
    else
      i + 4 <= |q| && q[i] == 'ب' && q[i + 1] == 'ر' && q[i + 2] == 'ا' && q[i + 3] == 'ی'
  }

  function KeywordLength(latin: bool): nat {
    if latin then 3 else 4
  }

  /** The name the pattern `keyword\s+(class+)` captures at position `i`,
      stripped. Whitespace belongs to the class, so the pattern matches
      exactly when the keyword is followed by whitespace and the run of
      class characters from there is at least two long; the capture is that
      run less at least one leading whitespace character, and stripping
      it gives the stripped run. */
  function NameAt(q: string, i: nat, latin: bool): (r: Option<string>)
    ensures r.Some? ==> KeywordAt(q, i, latin)
    ensures r.Some? ==> Stripped(r.value)
  {
    var j := i + KeywordLength(latin);
    if !KeywordAt(q, i, latin) || j >= |q| || !Text.IsPythonSpace(q[j]) then None
    else Capture(q, j, NameClass(latin))
  }

  /** The capture from the whitespace at `j`, stripped, when the run of
      class characters there is at least two long. */
  function Capture(q: string, j: nat, cls: char -> bool): (r: Option<string>)
    requires j <= |q|
    ensures r.Some? ==> Stripped(r.value)
  {
    var e := Text.RunEnd(q, j, cls);
    if e - j < 2 then None
    else
      TrimmedEnds(q[j..e]);
      Some(Text.Trim(q[j..e], Text.IsPythonSpace))
  }

  /** No whitespace at either end, as `strip()` leaves a string. */
  predicate Stripped(s: string) {
    |s| > 0 ==> !Text.IsPythonSpace(s[0]) && !Text.IsPythonSpace(s[|s| - 1])
  }

  /** Stripping leaves no whitespace at either end. */
  lemma TrimmedEnds(s: string)
    ensures Stripped(Text.Trim(s, Text.IsPythonSpace))
  {
    var a := Text.TrimStart(s, Text.IsPythonSpace);
    var r := Text.TrimEnd(a, Text.IsPythonSpace);
    if |r| > 0 {
      assert r[0] == a[0];
    }
  }

  /** Stripping whitespace followed by a name with no whitespace at its ends
      gives the name. */
  lemma TrimAfterSpace(n: string)
    requires |n| > 0
    requires !Text.IsPythonSpace(n[0]) && !Text.IsPythonSpace(n[|n| - 1])
    ensures Text.Trim(" " + n, Text.IsPythonSpace) == n
  {
    var s := " " + n;
    var k := Text.LeadingSpaces(s, Text.IsPythonSpace);
    assert s[1] == n[0];
    assert k == 1;
    assert Text.TrimStart(s, Text.IsPythonSpace) == n;
    Text.TrimNormal(n, Text.IsPythonSpace);
  }

  /** The name pattern, Persian or English, tried at every position of `q`. */
  function NameSearch(q: string, latin: bool): nat -> Option<string> {
    (j: nat) => NameAt(q, j, latin)
  }

  /** `re.search`: the leftmost position at or after `i` where the pattern
      matches. */
  function FirstName(q: string, i: nat, latin: bool): (r: Option<string>)
    ensures r.Some? ==> exists k :: i <= k < |q| && NameAt(q, k, latin) == r
    ensures r.None? ==> forall k :: i <= k < |q| ==> NameAt(q, k, latin).None?
  {
    assert forall k :: NameSearch(q, latin)(k) == NameAt(q, k, latin);
    FirstSome(NameSearch(q, latin), i, |q|)
  }

  /** `re.search` binds the leftmost match: when the pattern first matches
      at `k`, the search from `i` gives the capture at `k`. */
  lemma FirstNameLeftmost(q: string, i: nat, k: nat, latin: bool)
    requires i <= k < |q| && NameAt(q, k, latin).Some?
    requires forall j :: i <= j < k ==> NameAt(q, j, latin).None?
    ensures FirstName(q, i, latin) == NameAt(q, k, latin)
  {
    FirstSomeLeftmost(NameSearch(q, latin), i, k, |q|);
  }

  /** `party_name`: the Persian pattern, and the English one only when the
      Persian one finds nothing. */
  function PartyName(q: string): (r: Option<string>)
    ensures r.Some? ==> Stripped(r.value)
    ensures FirstName(q, 0, false).Some? ==> r == FirstName(q, 0, false)
  {
    if FirstName(q, 0, false).Some? then FirstName(q, 0, false) else FirstName(q, 0, true)
  }

  /** "برای" and one space before a name made of name characters, with no
      whitespace at either end, give exactly that name. */
  lemma PartyAfterKeyword(n: string)
    requires |n| > 0
    requires forall i :: 0 <= i < |n| ==> InPersianName(n[i])
    requires !Text.IsPythonSpace(n[0]) && !Text.IsPythonSpace(n[|n| - 1])
    ensures PartyName("برای " + n) == Some(n)
  {
    var q := "برای " + n;
    assert KeywordAt(q, 0, false);
    assert q[4] == ' ';
    var e := Text.RunEnd(q, 4, NameClass(false));
    assert forall j :: 5 <= j < |q| ==> q[j] == n[j - 5];
    assert e == |q|;
    assert q[4..|q|] == " " + n;
    TrimAfterSpace(n);
    assert Capture(q, 4, InPersianName) == Some(n);
    assert NameAt(q, 0, false) == Some(n);
  }

  // ---------------------------------------------------------------------
  // The invoice type
  // ---------------------------------------------------------------------

  predicate AsksPurchase(q: string) {
    Text.Contains(q, "خرید") || Text.Contains(Text.LowerAscii(q), "purchase")
  }

  predicate AsksSale(q: string) {
    Text.Contains(q, "فروش") || Text.Contains(Text.LowerAscii(q), "sell")
  }

  /** `invoice_type`: a purchase request overrides a sale request. */
  function InvoiceTypeOf(q: string): (r: Option<string>)
    ensures r == Some("purchase") <==> AsksPurchase(q)
    ensures r == Some("sale") <==> AsksSale(q) && !AsksPurchase(q)
    ensures r.None? <==> !AsksSale(q) && !AsksPurchase(q)
  {
    if AsksPurchase(q) then Some("purchase")
    else if AsksSale(q) then Some("sale")
    else None
  }

  // ---------------------------------------------------------------------
  // _parse_natural_query
  // ---------------------------------------------------------------------

  datatype Filters = Filters(
    amountMin: Option<nat>,
    start: Option<int>,
    end: Option<int>,
    partyName: Option<string>,
    invoiceType: Option<string>)

  /** The filters read from a query at time `now`. */
  function ParseQuery(q: string, now: Civil.DateTime): (f: Filters)
    requires Civil.Valid(now)
    ensures f.amountMin.None? <==> forall j :: 0 <= j < |q| ==> !Text.IsDecimalDigit(q[j])
    ensures f.start.Some? <==> f.end.Some?
    ensures f.start.Some? <==> Text.Contains(q, "ماه") || Text.Contains(q, "هفته")
    ensures f.start.Some? ==> f.start.value <= Civil.Seconds(now) <= f.end.value
    ensures Text.Contains(q, "ماه") ==> f.start == Some(Civil.DayNumber(now.year, now.month, 1) * Civil.SecondsPerDay)
    ensures !Text.Contains(q, "ماه") && Text.Contains(q, "هفته") ==> f.end.value - f.start.value == 7 * Civil.SecondsPerDay - 1
    ensures f.invoiceType == Some("purchase") <==> AsksPurchase(q)
    ensures f.invoiceType == Some("sale") <==> AsksSale(q) && !AsksPurchase(q)
  {
    var range := DateRange(q, now);
    Filters(
      Amount(q),
      if range.Some? then Some(range.value.0) else None,
      if range.Some? then Some(range.value.1) else None,
      PartyName(q),
      InvoiceTypeOf(q))
  }

  // ---------------------------------------------------------------------
  // reports_query
  // ---------------------------------------------------------------------

  /** Python truthiness of an optional text. */
  predicate NonEmpty(o: Option<string>) {
    o.Some? && o.value != ""
  }

  /** The exclusion rules, each filter applying only when it is set to a
      truthy value: the type differs; the time is before the start or after
      the end; both party names are non-empty and the filter's is not part
      of the invoice's; a nonzero minimum exceeds the total (no total counts
      as 0). */
  predicate Excluded(inv: Invoice, f: Filters) {
    || (NonEmpty(f.invoiceType) && inv.invoiceType != f.invoiceType.value)
    || (f.start.Some? && inv.serverTime < f.start.value)
    || (f.end.Some? && inv.serverTime > f.end.value)
    || (NonEmpty(f.partyName) && NonEmpty(inv.partyName) && !Text.Contains(inv.partyName.value, f.partyName.value))
    || (f.amountMin.Some? && f.amountMin.value != 0 && inv.total.GetOr(0) < f.amountMin.value)
  }

  /** The filters only narrow: clearing any one of them never excludes an
      invoice that was kept. An invoice without a party name passes the
      party filter, and a zero minimum amount filters nothing. */
  lemma FiltersOnlyNarrow(inv: Invoice, f: Filters)
    ensures Excluded(inv, f.(invoiceType := None)) ==> Excluded(inv, f)
    ensures Excluded(inv, f.(start := None)) ==> Excluded(inv, f)
    ensures Excluded(inv, f.(end := None)) ==> Excluded(inv, f)
    ensures Excluded(inv, f.(partyName := None)) ==> Excluded(inv, f)
    ensures Excluded(inv, f.(amountMin := None)) ==> Excluded(inv, f)
    ensures inv.partyName.None? ==> (Excluded(inv, f) <==> Excluded(inv, f.(partyName := None)))
    ensures f.amountMin == Some(0) ==> (Excluded(inv, f) <==> Excluded(inv, f.(amountMin := None)))
  {
  }

  /** The invoices no filter excludes, in the order given. */
  function Matches(s: seq<Invoice>, f: Filters): (r: seq<Invoice>)
    ensures |r| <= |s|
    ensures forall x :: x in r ==> x in s && !Excluded(x, f)
    ensures forall i :: 0 <= i < |s| && !Excluded(s[i], f) ==> s[i] in r
  {
    if |s| == 0 then []
    else
      var rest := Matches(s[..|s| - 1], f);
      assert forall i :: 0 <= i < |s| - 1 ==> s[i] == s[..|s| - 1][i];
      if Excluded(s[|s| - 1], f) then rest else rest + [s[|s| - 1]]
  }

  /** `get_invoices(limit=limit)`: at most `limit` invoices by descending
      id, that is the newest first. */
  function Newest(s: seq<Invoice>, limit: nat): (r: seq<Invoice>)
    ensures |r| == if |s| < limit then |s| else limit
    ensures forall i :: 0 <= i < |r| ==> r[i] == s[|s| - 1 - i]
  {
    if |s| == 0 || limit == 0 then []
    else [s[|s| - 1]] + Newest(s[..|s| - 1], limit - 1)
  }

  /** `reports_query`: an empty query is refused; otherwise the newest 500
      invoices that the parsed filters keep. */
  function ReportsQuery(b: Books, q: string, now: Civil.DateTime): (r: Result<seq<Invoice>, string>)
    requires Civil.Valid(now)
    ensures r.Failure? <==> q == ""
    ensures r.Success? ==> |r.value| <= 500
    ensures r.Success? ==> forall x :: x in r.value ==> x in b.invoices && !Excluded(x, ParseQuery(q, now))
    ensures r.Success? ==>
              forall j :: 0 <= j < |b.invoices| && |b.invoices| - j <= 500 && !Excluded(b.invoices[j], ParseQuery(q, now))
                ==> b.invoices[j] in r.value
    ensures r.Success? ==> r.value == Matches(Newest(b.invoices, 500), ParseQuery(q, now))
  {
    if q == "" then Failure("q required")
    else
      var cands := Newest(b.invoices, 500);
      forall x | x in cands
        ensures x in b.invoices
      {
        var i :| 0 <= i < |cands| && cands[i] == x;
      }
      forall j | 0 <= j < |b.invoices| && |b.invoices| - j <= 500
        ensures b.invoices[j] in cands
      {
        assert cands[|b.invoices| - 1 - j] == b.invoices[j];
      }
      Success(Matches(cands, ParseQuery(q, now)))
  }

  /** The same filter read front to back: the first invoice when no filter
      excludes it, then the rest filtered. */
  function KeptFromFront(s: seq<Invoice>, f: Filters): seq<Invoice> {
    if |s| == 0 then []
    else (if Excluded(s[0], f) then [] else [s[0]]) + KeptFromFront(s[1..], f)
  }

  /** Filtering a concatenation filters each part. */
  lemma {:induction false} MatchesAppend(a: seq<Invoice>, b: seq<Invoice>, f: Filters)
    ensures Matches(a + b, f) == Matches(a, f) + Matches(b, f)
  {
    if |b| == 0 {
      assert a + b == a;
    } else {
      var b' := b[..|b| - 1];
      var x := b[|b| - 1];
      assert a + b == (a + b') + [x] && b == b' + [x];
      MatchesSnoc(a + b', x, f);
      MatchesSnoc(b', x, f);
      MatchesAppend(a, b', f);
    }
  }

  lemma MatchesSnoc(s: seq<Invoice>, x: Invoice, f: Filters)
    ensures Matches(s + [x], f) == Matches(s, f) + (if Excluded(x, f) then [] else [x])
  {
    assert (s + [x])[..|s|] == s;
  }

  /** The matches are the invoices no filter excludes, each once and in
      their original order: the filter taken from the back equals the
      filter taken from the front. */
  lemma {:induction false} MatchesInOrder(s: seq<Invoice>, f: Filters)
    ensures Matches(s, f) == KeptFromFront(s, f)
  {
    if |s| > 0 {
      var head := if Excluded(s[0], f) then [] else [s[0]];
      var none: seq<Invoice> := [];
      assert s == [s[0]] + s[1..] && [s[0]] == none + [s[0]];
      MatchesSnoc(none, s[0], f);
      MatchesAppend([s[0]], s[1..], f);
      MatchesInOrder(s[1..], f);
      assert KeptFromFront(s, f) == head + KeptFromFront(s[1..], f);
    }
  }

  /** With no filter set every invoice is kept. */
  lemma {:induction false} NoFiltersKeepAll(s: seq<Invoice>)
    ensures Matches(s, Filters(None, None, None, None, None)) == s
  {
    if |s| > 0 {
      NoFiltersKeepAll(s[..|s| - 1]);
      assert s == s[..|s| - 1] + [s[|s| - 1]];
    }
  }

  /** A zero amount, as in "0 تومان", is falsy and filters nothing. */
  lemma {:induction false} ZeroAmountIgnored(s: seq<Invoice>, f: Filters)
    ensures Matches(s, f.(amountMin := Some(0))) == Matches(s, f.(amountMin := None))
  {
    if |s| > 0 {
      ZeroAmountIgnored(s[..|s| - 1], f);
    }
  }

  /** Filtering again with the same filters changes nothing. */
  lemma {:induction false} MatchesIdempotent(s: seq<Invoice>, f: Filters)
    ensures Matches(Matches(s, f), f) == Matches(s, f)
  {
    if |s| > 0 {
      var p := s[..|s| - 1];
      MatchesIdempotent(p, f);
      var m := Matches(p, f);
      if !Excluded(s[|s| - 1], f) {
        assert (m + [s[|s| - 1]])[..|m|] == m;
      }
    }
  }

  // ---------------------------------------------------------------------
  // The UTC offset text of time_now
  // ---------------------------------------------------------------------

  /** Two digits of a number below 100, as `{n:02d}` gives them. */
  function TwoDigits(n: nat): (s: string)
    requires n < 100
    ensures |s| == 2 && Text.AllAsciiDigits(s) && Text.DecimalValue(s) == n
  {
    var s := [Text.AsciiDigit(n / 10), Text.AsciiDigit(n % 10)];
    assert s[..1][..0] == [];
    assert s[..1] == [Text.AsciiDigit(n / 10)];
    assert Text.DecimalValue(s[..1]) == n / 10;
    s
  }

  function Abs(x: int): nat {
    if x < 0 then -x else x
  }

  /** The offset text: '+' for a non-negative offset in seconds, else '-',
      then hours and minutes of the whole minutes of its magnitude. An
      offset the clock does not report counts as 0. A UTC offset is less
      than a day in magnitude. */
  function OffsetText(offset: Option<int>): (s: string)
    requires offset.Some? ==> -Civil.SecondsPerDay < offset.value < Civil.SecondsPerDay
    ensures |s| == 6 && s[3] == ':'
    ensures s[0] == if offset.GetOr(0) >= 0 then '+' else '-'
    ensures Text.AllAsciiDigits(s[1..3]) && Text.AllAsciiDigits(s[4..])
  {
    var o := offset.GetOr(0);
    var total := Abs(o) / 60;
    [if o >= 0 then '+' else '-'] + TwoDigits(total / 60) + ":" + TwoDigits(total % 60)
  }

  /** Reads an offset text back: whether it is negative, and its minutes. */
  function ParseOffset(s: string): Option<(bool, nat)> {
    if && |s| == 6 && (s[0] == '+' || s[0] == '-') && s[3] == ':'
       && Text.AllAsciiDigits(s[1..3]) && Text.AllAsciiDigits(s[4..])
       && Text.DecimalValue(s[4..]) < 60
    then Some((s[0] == '-', Text.DecimalValue(s[1..3]) * 60 + Text.DecimalValue(s[4..])))
    else None
  }

  /** The text keeps the sign and the whole minutes of the offset; the
      seconds are lost. */
  lemma OffsetRoundTrip(offset: Option<int>)
    requires offset.Some? ==> -Civil.SecondsPerDay < offset.value < Civil.SecondsPerDay
    ensures ParseOffset(OffsetText(offset)) == Some((offset.GetOr(0) < 0, Abs(offset.GetOr(0)) / 60))
  {
    var o := offset.GetOr(0);
    var total := Abs(o) / 60;
    var s := OffsetText(offset);
    assert s[1..3] == TwoDigits(total / 60);
    assert s[4..] == TwoDigits(total % 60);
  }
}

=== FILE: reports.dfy ===
/** The profit-and-loss and cash-balance reports: integer folds over the
    final invoices and the posted payments. */
module Reports {
  import opened Wrappers
  import Text
  import Civil
  import opened Books

  /** The optional `server_time` window; a missing bound does not filter. */
  predicate InWindow(t: int, start: Option<int>, end: Option<int>) {
    (start.None? || start.value <= t) && (end.None? || t <= end.value)
  }

  /** What one invoice adds to the P&L line for `kind`. */
  function Contribution(inv: Invoice, kind: string, start: Option<int>, end: Option<int>): int {
    if inv.status == "final" && inv.invoiceType == kind && InWindow(inv.serverTime, start, end)
    then inv.total.GetOr(0) else 0
  }

  function FinalAmount(s: seq<Invoice>, kind: string, start: Option<int>, end: Option<int>): int {
    if |s| == 0 then 0
    else FinalAmount(s[..|s| - 1], kind, start, end) + Contribution(s[|s| - 1], kind, start, end)
  }

  datatype Pnl = Pnl(start: Option<int>, end: Option<int>, sales: int, purchases: int, grossProfit: int)

  /** `report_pnl`: final sales minus final purchases in the window. */
  function ReportPnl(s: seq<Invoice>, start: Option<int>, end: Option<int>): (r: Pnl)
    ensures r.grossProfit == r.sales - r.purchases
    ensures r.start == start && r.end == end
    ensures (forall k :: 0 <= k < |s| ==> s[k].status != "final") ==> r.sales == 0 && r.purchases == 0
  {
    NoFinalNoAmount(s, "sale", start, end);
    NoFinalNoAmount(s, "purchase", start, end);
    var sales := FinalAmount(s, "sale", start, end);
    var purchases := FinalAmount(s, "purchase", start, end);
    Pnl(start, end, sales, purchases, sales - purchases)
  }

  lemma {:induction false} NoFinalNoAmount(s: seq<Invoice>, kind: string, start: Option<int>, end: Option<int>)
    ensures (forall k :: 0 <= k < |s| ==> s[k].status != "final") ==> FinalAmount(s, kind, start, end) == 0
    decreases |s|
  {
    if |s| > 0 {
      NoFinalNoAmount(s[..|s| - 1], kind, start, end);
    }
  }

  /** Replacing one invoice changes the fold by the difference of the two
      contributions. */
  lemma {:induction false} FinalAmountUpdate(s: seq<Invoice>, k: nat, x: Invoice, kind: string, start: Option<int>, end: Option<int>)
    requires k < |s|
    ensures FinalAmount(s[k := x], kind, start, end)
            == FinalAmount(s, kind, start, end) - Contribution(s[k], kind, start, end) + Contribution(x, kind, start, end)
    decreases |s|
  {
    var t := s[k := x];
    if k == |s| - 1 {
      assert t[..|t| - 1] == s[..|s| - 1];
    } else {
      assert t[..|t| - 1] == s[..|s| - 1][k := x];
      FinalAmountUpdate(s[..|s| - 1], k, x, kind, start, end);
    }
  }

  lemma FinalAmountAppend(s: seq<Invoice>, x: Invoice, kind: string, start: Option<int>, end: Option<int>)
    ensures FinalAmount(s + [x], kind, start, end) == FinalAmount(s, kind, start, end) + Contribution(x, kind, start, end)
  {
    assert (s + [x])[..|s|] == s;
  }

  /** A new invoice is a draft, so creating one leaves the P&L as it was. */
  lemma CreateInvoiceKeepsPnl(b: Books, inp: InvoiceInput, now: Civil.DateTime, start: Option<int>, end: Option<int>)
    requires Civil.Valid(now)
    ensures ReportPnl(CreateInvoice(b, inp, now).0.invoices, start, end) == ReportPnl(b.invoices, start, end)
  {
    var r := CreateInvoice(b, inp, now);
    FinalAmountAppend(b.invoices, r.1, "sale", start, end);
    FinalAmountAppend(b.invoices, r.1, "purchase", start, end);
  }

  /** Finalizing an invoice that was not yet final adds its total to the
      sales line when it is a sale (to purchases when a purchase) and its
      new server time falls in the window; the other line does not move. */
  lemma FinalizeInvoiceMovesPnl(b: Books, id: int, clientTime: Option<int>, now: int, start: Option<int>, end: Option<int>)
    requires exists j :: 0 <= j < |b.invoices| && b.invoices[j].id == id
    requires b.invoices[InvoiceIndex(b.invoices, id)].status != "final"
    ensures var r := FinalizeInvoice(b, id, clientTime, now);
            && r.Some?
            && var inv := r.value.1;
               var before := ReportPnl(b.invoices, start, end);
               var after := ReportPnl(r.value.0.invoices, start, end);
               var amount := if InWindow(now, start, end) then inv.total.GetOr(0) else 0;
               && after.sales == before.sales + (if inv.invoiceType == "sale" then amount else 0)
               && after.purchases == before.purchases + (if inv.invoiceType == "purchase" then amount else 0)
  {
    var k := InvoiceIndex(b.invoices, id);
    var r := FinalizeInvoice(b, id, clientTime, now);
    FinalAmountUpdate(b.invoices, k, r.value.1, "sale", start, end);
    FinalAmountUpdate(b.invoices, k, r.value.1, "purchase", start, end);
  }

  // ---------------------------------------------------------------------
  // Cash balance
  // ---------------------------------------------------------------------

  /** `method ilike '%filter%'`, where an absent or empty filter keeps every
      payment and an absent method never matches a filter. The filter is a
      pattern: `%` and `_` in it are wildcards. */
  predicate MethodMatches(p: Payment, filter: Option<string>) {
    filter.None? || |filter.value| == 0
    || (p.payMethod.Some?
        && Text.Like(Text.LowerAscii(p.payMethod.value), "%" + Text.LowerAscii(filter.value) + "%"))
  }

  /** A filter without wildcards keeps exactly the payments whose method
      contains it, ignoring ASCII case. */
  lemma MethodMatchesLiteral(p: Payment, f: string)
    requires Text.Literal(f)
    ensures MethodMatches(p, Some(f)) <==>
              |f| == 0 || (p.payMethod.Some? && Text.Contains(Text.LowerAscii(p.payMethod.value), Text.LowerAscii(f)))
  {
    var g := Text.LowerAscii(f);
    assert Text.Literal(g);
    if p.payMethod.Some? {
      Text.LikeContains(Text.LowerAscii(p.payMethod.value), g);
    }
  }

  /** A `_` in the filter stands for any one character: "ca_h" keeps a cash
      payment although "cash" does not contain it. */
  lemma UnderscoreMatchesOne(p: Payment)
    requires p.payMethod == Some("cash")
    ensures MethodMatches(p, Some("ca_h")) && !Text.Contains("cash", "ca_h")
  {
    var m := Text.LowerAscii("cash");
    assert m == "cash";
    var f := Text.LowerAscii("ca_h");
    assert f == "ca_h";
    var pat := "%" + f + "%";
    assert pat == "%ca_h%";
    assert Text.Like("", "%");
    assert Text.Like("h", "h%");
    assert Text.Like("sh", "_h%");
    assert Text.Like("ash", "a_h%");
    assert Text.Like("cash", "ca_h%");
    assert Text.Like("cash", "%ca_h%");
    assert !Text.OccursAt("cash", "ca_h", 0);
  }

  /** Signed effect of one payment on the cash balance. */
  function CashEffect(p: Payment, filter: Option<string>): int {
    if p.status == "posted" && MethodMatches(p, filter) then
      (if p.direction == In then p.amount else -p.amount)
    else 0
  }

  function CashFlow(s: seq<Payment>, filter: Option<string>): int {
    if |s| == 0 then 0 else CashFlow(s[..|s| - 1], filter) + CashEffect(s[|s| - 1], filter)
  }

  /** Sum of the amounts of the posted, matching payments in direction `d`. */
  function PostedTotal(s: seq<Payment>, d: Direction, filter: Option<string>): int {
    if |s| == 0 then 0
    else
      var p := s[|s| - 1];
      PostedTotal(s[..|s| - 1], d, filter)
        + (if p.status == "posted" && MethodMatches(p, filter) && p.direction == d then p.amount else 0)
  }

  datatype CashBalance = CashBalance(title: string, balance: int)

  /** `report_cash_balance`: receipts in minus payments out, over posted
      payments whose method matches the optional filter. */
  function ReportCashBalance(s: seq<Payment>, filter: Option<string>): (r: CashBalance)
    ensures r.balance == PostedTotal(s, In, filter) - PostedTotal(s, Out, filter)
    ensures r.title == (if filter.Some? && |filter.value| > 0 then filter.value else "all")
  {
    CashFlowSplits(s, filter);
    CashBalance(OrDefault(filter, "all"), CashFlow(s, filter))
  }

  lemma {:induction false} CashFlowSplits(s: seq<Payment>, filter: Option<string>)
    ensures CashFlow(s, filter) == PostedTotal(s, In, filter) - PostedTotal(s, Out, filter)
    decreases |s|
  {
    if |s| > 0 {
      CashFlowSplits(s[..|s| - 1], filter);
    }
  }

  /** The cash flow of two lists of payments is the sum of theirs: the
      total does not depend on how the payments are split up. */
  lemma {:induction false} CashFlowAppend(a: seq<Payment>, c: seq<Payment>, filter: Option<string>)
    ensures CashFlow(a + c, filter) == CashFlow(a, filter) + CashFlow(c, filter)
    decreases |c|
  {
    if |c| == 0 {
      assert a + c == a;
    } else {
      CashFlowAppend(a, c[..|c| - 1], filter);
      assert (a + c)[..|a + c| - 1] == a + c[..|c| - 1];
    }
  }

  /** Payments that are not posted, or whose method does not match the
      filter, move no cash. */
  lemma {:induction false} UnpostedIgnored(s: seq<Payment>, filter: Option<string>)
    requires forall k :: 0 <= k < |s| ==> s[k].status != "posted" || !MethodMatches(s[k], filter)
    ensures CashFlow(s, filter) == 0
    decreases |s|
  {
    if |s| > 0 {
      UnpostedIgnored(s[..|s| - 1], filter);
    }
  }

  lemma {:induction false} CashFlowUpdate(s: seq<Payment>, k: nat, x: Payment, filter: Option<string>)
    requires k < |s|
    ensures CashFlow(s[k := x], filter) == CashFlow(s, filter) - CashEffect(s[k], filter) + CashEffect(x, filter)
    decreases |s|
  {
    var t := s[k := x];
    if k == |s| - 1 {
      assert t[..|t| - 1] == s[..|s| - 1];
    } else {
      assert t[..|t| - 1] == s[..|s| - 1][k := x];
      CashFlowUpdate(s[..|s| - 1], k, x, filter);
    }
  }

  /** Posting a draft receipt raises the unfiltered cash balance by its
      amount; posting a draft payment out lowers it. */
  lemma FinalizePaymentMovesCash(b: Books, id: int, clientTime: Option<int>, now: int)
    requires exists j :: 0 <= j < |b.payments| && b.payments[j].id == id
    requires b.payments[PaymentIndex(b.payments, id)].status != "posted"
    ensures var r := FinalizePayment(b, id, clientTime, now);
            && r.Some?
            && var p := r.value.1;
               ReportCashBalance(r.value.0.payments, None).balance
               == ReportCashBalance(b.payments, None).balance + (if p.direction == In then p.amount else -p.amount)
  {
    var k := PaymentIndex(b.payments, id);
    var r := FinalizePayment(b, id, clientTime, now);
    CashFlowUpdate(b.payments, k, r.value.1, None);
  }
}

=== FILE: sidebar_order.dfy ===
/** The order of the sidebar's modules. A saved order (from the server, or
    else from local storage) is merged with the modules the frontend knows:
    the saved ids that are still modules, in saved order, then the modules
    not saved, in module order. Dragging a module onto another moves it to
    the target's place. The settings modules are shown apart; the rest are
    shown in the order's order. */
module SidebarOrder {
  import opened Wrappers
  import Text

  /** A module of the sidebar; `caption` is the source's `label`. */
  datatype ModuleDef = ModuleDef(id: string, caption: string, description: string, badge: Option<string>)

  /** `modules.map(m => m.id)`. */
  function Ids(modules: seq<ModuleDef>): (ids: seq<string>)
    ensures |ids| == |modules|
    ensures forall k :: 0 <= k < |modules| ==> ids[k] == modules[k].id
  {
    seq(|modules|, k requires 0 <= k < |modules| => modules[k].id)
  }

  predicate Distinct(s: seq<string>) {
    forall i, j :: 0 <= i < j < |s| ==> s[i] != s[j]
  }

  /** `s.filter(p)`. */
  function Keep(s: seq<string>, p: string -> bool): (r: seq<string>)
    ensures |r| <= |s|
    ensures forall x :: x in r <==> x in s && p(x)
    ensures Distinct(s) ==> Distinct(r)
  {
    if |s| == 0 then []
    else
      var rest := Keep(s[1..], p);
      assert s[0] !in s[1..] ==> s[0] !in rest;
      if p(s[0]) then [s[0]] + rest else rest
  }

  /** Two filters that agree on every element keep the same elements. */
  lemma {:induction false} KeepAgree(s: seq<string>, p: string -> bool, q: string -> bool)
    requires forall x :: x in s ==> p(x) == q(x)
    ensures Keep(s, p) == Keep(s, q)
    decreases |s|
  {
    if |s| > 0 {
      assert forall x :: x in s[1..] ==> x in s;
      KeepAgree(s[1..], p, q);
    }
  }

  /** Filtering keeps the order: filtering a concatenation is filtering each
      part and concatenating the results, so an element of `s` kept before
      another stays before it. */
  lemma {:induction false} KeepAppend(s: seq<string>, t: seq<string>, p: string -> bool)
    ensures Keep(s + t, p) == Keep(s, p) + Keep(t, p)
    decreases |s|
  {
    if |s| == 0 {
      assert s + t == t;
    } else {
      assert (s + t)[1..] == s[1..] + t;
      KeepAppend(s[1..], t, p);
    }
  }

  /** `id => ids.includes(id)`. */
  function Among(ids: seq<string>): string -> bool {
    id => id in ids
  }

  /** `id => !ids.includes(id)`. */
  function NotAmong(ids: seq<string>): string -> bool {
    id => id !in ids
  }

  /** A filter that keeps every element keeps the sequence. */
  lemma {:induction false} KeepAll(s: seq<string>, p: string -> bool)
    requires forall x :: x in s ==> p(x)
    ensures Keep(s, p) == s
    decreases |s|
  {
    if |s| > 0 {
      assert forall x :: x in s[1..] ==> x in s;
      KeepAll(s[1..], p);
      assert p(s[0]);
      assert s == [s[0]] + s[1..];
    }
  }

  /** A filter that keeps no element gives nothing. */
  lemma {:induction false} KeepNone(s: seq<string>, p: string -> bool)
    requires forall x :: x in s ==> !p(x)
    ensures Keep(s, p) == []
    decreases |s|
  {
    if |s| > 0 {
      assert forall x :: x in s[1..] ==> x in s;
      KeepNone(s[1..], p);
    }
  }

  // ---------------------------------------------------------------------
  // Merging the saved order
  // ---------------------------------------------------------------------

  /** The merge expression: the saved ids that are module ids, in saved
      order, followed by the module ids that were not saved, in module
      order. It holds exactly the module ids. */
  function Merge(stored: seq<string>, ids: seq<string>): (r: seq<string>)
    ensures forall x :: x in r <==> x in ids
  {
    Keep(stored, Among(ids)) + Keep(ids, NotAmong(stored))
  }

  /** With no duplicate among the saved ids nor among the module ids, the
      merged order lists every module once: it is a permutation of the
      module ids. */
  lemma MergePermutes(stored: seq<string>, ids: seq<string>)
    requires Distinct(stored) && Distinct(ids)
    ensures Distinct(Merge(stored, ids))
    ensures multiset(Merge(stored, ids)) == multiset(ids)
  {
    var a := Keep(stored, Among(ids));
    var b := Keep(ids, NotAmong(stored));
    var r := a + b;
    forall i, j | 0 <= i < j < |r|
      ensures r[i] != r[j]
    {
      if i < |a| && j >= |a| {
        assert r[i] in a && r[j] == b[j - |a|];
      } else if i >= |a| {
        assert r[i] == b[i - |a|] && r[j] == b[j - |a|];
      }
    }
    DistinctSameMembers(r, ids);
  }

  /** The number of times a value occurs in a sequence without duplicates
      is one if it is there and zero otherwise. */
  lemma {:induction false} DistinctCount(s: seq<string>, x: string)
    requires Distinct(s)
    ensures multiset(s)[x] == if x in s then 1 else 0
    decreases |s|
  {
    if |s| > 0 {
      assert s == [s[0]] + s[1..];
      assert multiset(s) == multiset([s[0]]) + multiset(s[1..]);
      DistinctCount(s[1..], x);
      if x == s[0] {
        assert x !in s[1..];
      }
    }
  }

  /** Two sequences without duplicates that hold the same values are
      permutations of each other. */
  lemma DistinctSameMembers(a: seq<string>, b: seq<string>)
    requires Distinct(a) && Distinct(b)
    requires forall x :: x in a <==> x in b
    ensures multiset(a) == multiset(b)
  {
    forall x
      ensures multiset(a)[x] == multiset(b)[x]
    {
      DistinctCount(a, x);
      DistinctCount(b, x);
    }
  }

  /** With nothing saved, the order is the modules' own order. */
  lemma MergeNothing(ids: seq<string>)
    ensures Merge([], ids) == ids
  {
    var empty: seq<string> := [];
    KeepAll(ids, NotAmong(empty));
  }

  /** The merged order is saved and merged again the next time; with no new
      module in between, the second merge changes nothing. */
  lemma MergeStable(stored: seq<string>, ids: seq<string>)
    ensures Merge(Merge(stored, ids), ids) == Merge(stored, ids)
  {
    var r := Merge(stored, ids);
    KeepAll(r, Among(ids));
    KeepNone(ids, NotAmong(r));
  }

  /** When every saved id is still a module id, the merged order starts with
      the saved order, unchanged. */
  lemma MergeRestoresSaved(stored: seq<string>, ids: seq<string>)
    requires forall x :: x in stored ==> x in ids
    ensures |Merge(stored, ids)| >= |stored|
    ensures Merge(stored, ids)[..|stored|] == stored
  {
    KeepAll(stored, Among(ids));
    assert (stored + Keep(ids, NotAmong(stored)))[..|stored|] == stored;
  }

  /** A module added since the order was saved comes last; the order of the
      modules before it is unchanged. */
  lemma MergeNewModuleLast(stored: seq<string>, ids: seq<string>, n: string)
    requires n !in stored
    ensures Merge(stored, ids + [n]) == Merge(stored, ids) + [n]
  {
    var p, q := Among(ids + [n]), Among(ids);
    assert forall y :: y in stored ==> p(y) == q(y);
    KeepAgree(stored, p, q);
    KeepAppend(ids, [n], NotAmong(stored));
    assert Keep([n], NotAmong(stored)) == [n];
  }

  /** A saved id that is no longer a module id is dropped without moving any
      other module. */
  lemma MergeDropsStale(stored: seq<string>, ids: seq<string>, x: string)
    requires x !in ids
    ensures Merge(stored + [x], ids) == Merge(stored, ids)
  {
    var before := Keep(stored, Among(ids));
    KeepAppend(stored, [x], Among(ids));
    assert Keep([x], Among(ids)) == [];
    assert Keep(stored + [x], Among(ids)) == before;
    var p, q := NotAmong(stored + [x]), NotAmong(stored);
    assert forall y :: y in ids ==> p(y) == q(y);
    KeepAgree(ids, p, q);
  }

  /** The saved order: the server's list when it is a non-empty list, else
      the list parsed from local storage, where a missing, empty or
      unparseable entry counts as no list. A failed server request is
      `None`. */
  function SavedOrder(server: Option<seq<string>>, raw: Option<string>,
                      parse: string -> Option<seq<string>>): (stored: seq<string>)
    ensures server.Some? && server.value != [] ==> stored == server.value
    ensures (server.None? || server.value == []) && (raw.None? || raw.value == "") ==> stored == []
    ensures (server.None? || server.value == []) && raw.Some? && raw.value != "" ==>
              stored == (if parse(raw.value).Some? then parse(raw.value).value else [])
  {
    if server.Some? && |server.value| > 0 then server.value
    else if raw.None? || raw.value == "" then []
    else parse(raw.value).GetOr([])
  }

  /** `loadOrder`: the saved order merged with the module ids. */
  function LoadOrder(modules: seq<ModuleDef>, server: Option<seq<string>>, raw: Option<string>,
                     parse: string -> Option<seq<string>>): (order: seq<string>)
    ensures forall x :: x in order <==> x in Ids(modules)
    ensures var stored := SavedOrder(server, raw, parse);
              (forall x :: x in stored ==> x in Ids(modules)) ==>
                |order| >= |stored| && order[..|stored|] == stored
  {
    var stored := SavedOrder(server, raw, parse);
    if forall x :: x in stored ==> x in Ids(modules) then
      MergeRestoresSaved(stored, Ids(modules));
      Merge(stored, Ids(modules))
    else
      Merge(stored, Ids(modules))
  }

  /** Without a usable saved order the sidebar shows the modules in their
      own order. */
  lemma NoSavedOrder(modules: seq<ModuleDef>, server: Option<seq<string>>, raw: Option<string>,
                     parse: string -> Option<seq<string>>)
    requires server.None? || server.value == []
    requires raw.None? || raw.value == "" || parse(raw.value).None?
    ensures LoadOrder(modules, server, raw, parse) == Ids(modules)
  {
    MergeNothing(Ids(modules));
  }

  // ---------------------------------------------------------------------
  // Dragging a module
  // ---------------------------------------------------------------------

  /** `order.indexOf(x)`: the first position of `x`, or -1. */
  function PositionOf(s: seq<string>, x: string): (k: int)
    ensures -1 <= k < |s|
    ensures k == -1 <==> x !in s
    ensures k >= 0 ==> s[k] == x && x !in s[..k]
  {
    if |s| == 0 then -1
    else if s[0] == x then 0
    else
      var k := PositionOf(s[1..], x);
      assert s[1..] == s[..|s|][1..];
      if k == -1 then -1
      else
        assert s[..k + 1] == [s[0]] + s[1..][..k];
        k + 1
  }

  /** `next.splice(i, 1)`. */
  function RemoveAt(s: seq<string>, i: nat): (r: seq<string>)
    requires i < |s|
    ensures |r| == |s| - 1
    ensures multiset(r) + multiset{s[i]} == multiset(s)
  {
    assert s == s[..i] + [s[i]] + s[i + 1..];
    s[..i] + s[i + 1..]
  }

  /** `next.splice(i, 0, x)`. */
  function InsertAt(s: seq<string>, i: nat, x: string): (r: seq<string>)
    requires i <= |s|
    ensures |r| == |s| + 1 && r[i] == x
    ensures multiset(r) == multiset(s) + multiset{x}
  {
    assert s == s[..i] + s[i..];
    s[..i] + [x] + s[i..]
  }

  /** `onDrop`: nothing moves when the dragged id is empty, is the target,
      or either id is not in the order; otherwise the dragged id is taken
      out and put at the target's original position. */
  function Drop(order: seq<string>, sourceId: string, targetId: string): (next: seq<string>)
    ensures sourceId == "" || sourceId == targetId || sourceId !in order || targetId !in order ==> next == order
    ensures sourceId != "" && sourceId != targetId && sourceId in order && targetId in order ==>
              && |next| == |order|
              && next[PositionOf(order, targetId)] == sourceId
              && multiset(next) == multiset(order)
  {
    if sourceId == "" || sourceId == targetId then order
    else
      var sIdx := PositionOf(order, sourceId);
      var tIdx := PositionOf(order, targetId);
      if sIdx == -1 || tIdx == -1 then order
      else InsertAt(RemoveAt(order, sIdx), tIdx, sourceId)
  }

  /** Only the dragged id moves: taking it out of the new order at the
      target's position leaves the old order without it. */
  lemma DropMovesOnlySource(order: seq<string>, sourceId: string, targetId: string)
    requires sourceId != "" && sourceId != targetId && sourceId in order && targetId in order
    ensures RemoveAt(Drop(order, sourceId, targetId), PositionOf(order, targetId))
            == RemoveAt(order, PositionOf(order, sourceId))
  {
    var s := RemoveAt(order, PositionOf(order, sourceId));
    var t := PositionOf(order, targetId);
    assert Drop(order, sourceId, targetId) == InsertAt(s, t, sourceId);
    RemoveInserted(s, t, sourceId);
  }

  /** Taking out what was just put in gives the sequence back. */
  lemma RemoveInserted(s: seq<string>, i: nat, x: string)
    requires i <= |s|
    ensures RemoveAt(InsertAt(s, i, x), i) == s
  {
    var next := InsertAt(s, i, x);
    assert next[..i] == s[..i] && next[i + 1..] == s[i..];
    assert s == s[..i] + s[i..];
  }

  /** A drag keeps the order free of duplicates. */
  lemma DropKeepsDistinct(order: seq<string>, sourceId: string, targetId: string)
    requires Distinct(order)
    ensures Distinct(Drop(order, sourceId, targetId))
  {
    var next := Drop(order, sourceId, targetId);
    if next != order {
      DistinctByCount(order, next);
    }
  }

  /** Having no duplicate is a property of the multiset. */
  lemma DistinctByCount(a: seq<string>, b: seq<string>)
    requires Distinct(a) && multiset(a) == multiset(b)
    ensures Distinct(b)
  {
    forall i, j | 0 <= i < j < |b|
      ensures b[i] != b[j]
    {
      DistinctCount(a, b[i]);
      TwiceCounted(b, i, j);
    }
  }

  /** A value at two positions is counted at least twice. */
  lemma TwiceCounted(b: seq<string>, i: nat, j: nat)
    requires i < j < |b|
    ensures b[i] == b[j] ==> multiset(b)[b[i]] >= 2
  {
    assert b == b[..j] + [b[j]] + b[j + 1..];
    assert b[i] in b[..j];
  }

  // ---------------------------------------------------------------------
  // The shown modules
  // ---------------------------------------------------------------------

  /** `/system|settings|user|security|integration|auth/i.test(id)`. The
      pattern is ASCII and the flag folds ASCII letters only (a non-ASCII
      letter whose capital is ASCII is not folded without the `u` flag), so
      lower-casing the ASCII letters decides it. */
  predicate IsSettingsId(id: string) {
    var l := Text.LowerAscii(id);
    Text.Contains(l, "system") || Text.Contains(l, "settings") || Text.Contains(l, "user")
    || Text.Contains(l, "security") || Text.Contains(l, "integration") || Text.Contains(l, "auth")
  }

  /** `settingsChildren`: the settings modules, in module order. */
  function SettingsChildren(modules: seq<ModuleDef>): (r: seq<ModuleDef>)
    ensures forall m :: m in r <==> m in modules && IsSettingsId(m.id)
  {
    if |modules| == 0 then []
    else (if IsSettingsId(modules[0].id) then [modules[0]] else []) + SettingsChildren(modules[1..])
  }

  /** `moduleMap.get(id)`: the map is filled in module order, so the last
      module with the id wins. */
  function Lookup(modules: seq<ModuleDef>, id: string): (r: Option<ModuleDef>)
    ensures r.None? <==> id !in Ids(modules)
    ensures r.Some? ==> r.value in modules && r.value.id == id
  {
    if |modules| == 0 then None
    else if modules[|modules| - 1].id == id then Some(modules[|modules| - 1])
    else
      var front := modules[..|modules| - 1];
      assert Ids(modules) == Ids(front) + [modules[|modules| - 1].id];
      Lookup(front, id)
  }

  /** A later definition of an id replaces an earlier one in the map, so the
      lookup finds the last module with the id. */
  lemma LookupLast(modules: seq<ModuleDef>, k: nat, id: string)
    requires k < |modules| && modules[k].id == id
    requires id !in Ids(modules[k + 1..])
    ensures Lookup(modules, id) == Some(modules[k])
  {
    forall j | k < j < |modules|
      ensures modules[j].id != id
    {
      assert Ids(modules[k + 1..])[j - k - 1] == modules[j].id;
    }
    LookupLastAt(modules, k, id);
  }

  lemma {:induction false} LookupLastAt(modules: seq<ModuleDef>, k: nat, id: string)
    requires k < |modules| && modules[k].id == id
    requires forall j :: k < j < |modules| ==> modules[j].id != id
    ensures Lookup(modules, id) == Some(modules[k])
    decreases |modules|
  {
    if k < |modules| - 1 {
      var front := modules[..|modules| - 1];
      assert Lookup(modules, id) == Lookup(front, id);
      LookupLastAt(front, k, id);
    }
  }

  /** `.map(id => moduleMap.get(id)).filter(Boolean)`. */
  function Definitions(ids: seq<string>, modules: seq<ModuleDef>): (r: seq<ModuleDef>)
    ensures forall m :: m in r ==> m in modules
  {
    if |ids| == 0 then []
    else
      match Lookup(modules, ids[0])
      case Some(m) => [m] + Definitions(ids[1..], modules)
      case None => Definitions(ids[1..], modules)
  }

  /** `nonSettings`: the order's ids that are not settings modules, as
      module definitions, unknown ids dropped. */
  function NonSettings(order: seq<string>, modules: seq<ModuleDef>): (r: seq<ModuleDef>)
    ensures forall m :: m in r ==> m in modules && !IsSettingsId(m.id)
    ensures Ids(r) == Shown(order, modules)
  {
    var kept := Keep(order, NotAmong(Ids(SettingsChildren(modules))));
    ShownSteps(order, modules);
    Definitions(kept, modules)
  }

  /** Reference definition of the shown ids: the order's ids that are
      modules and not settings modules, in the order's order. */
  function Shown(order: seq<string>, modules: seq<ModuleDef>): seq<string> {
    if |order| == 0 then []
    else
      (if order[0] in Ids(modules) && !IsSettingsId(order[0]) then [order[0]] else [])
      + Shown(order[1..], modules)
  }

  /** An id is a settings module's id exactly when it is a module id that
      the pattern selects. */
  lemma SettingsIds(modules: seq<ModuleDef>, id: string)
    ensures id in Ids(SettingsChildren(modules)) <==> id in Ids(modules) && IsSettingsId(id)
  {
    var c := SettingsChildren(modules);
    if id in Ids(c) {
      var k :| 0 <= k < |c| && Ids(c)[k] == id;
      assert c[k] in c;
      var j :| 0 <= j < |modules| && modules[j] == c[k];
      assert Ids(modules)[j] == id;
    }
    if id in Ids(modules) && IsSettingsId(id) {
      var j :| 0 <= j < |modules| && Ids(modules)[j] == id;
      assert modules[j] in c;
      var k :| 0 <= k < |c| && c[k] == modules[j];
      assert Ids(c)[k] == id;
    }
  }

  lemma IdsAppend(a: seq<ModuleDef>, b: seq<ModuleDef>)
    ensures Ids(a + b) == Ids(a) + Ids(b)
  {
  }

  lemma ShownSteps(order: seq<string>, modules: seq<ModuleDef>)
    ensures var kept := Keep(order, NotAmong(Ids(SettingsChildren(modules))));
            && (forall m :: m in Definitions(kept, modules) ==> !IsSettingsId(m.id))
            && Ids(Definitions(kept, modules)) == Shown(order, modules)
  {
    var f := NotAmong(Ids(SettingsChildren(modules)));
    var kept := Keep(order, f);
    ShownIds(order, modules);
    DefinitionsIds(kept, modules);
    forall m | m in Definitions(kept, modules)
      ensures !IsSettingsId(m.id)
    {
      SettingsIds(modules, m.id);
    }
  }

  /** Looking up the ids the filter keeps gives the shown ids. */
  lemma {:induction false} ShownIds(order: seq<string>, modules: seq<ModuleDef>)
    ensures Ids(Definitions(Keep(order, NotAmong(Ids(SettingsChildren(modules)))), modules))
            == Shown(order, modules)
    decreases |order|
  {
    if |order| > 0 {
      var f := NotAmong(Ids(SettingsChildren(modules)));
      var o := order[0];
      var rest := Keep(order[1..], f);
      ShownIds(order[1..], modules);
      SettingsIds(modules, o);
      var head := if f(o) then [o] else [];
      assert Keep(order, f) == head + rest;
      var defs := Definitions(head + rest, modules);
      if f(o) {
        assert (head + rest)[0] == o && (head + rest)[1..] == rest;
        match Lookup(modules, o)
        case Some(m) =>
          assert defs == [m] + Definitions(rest, modules);
          IdsAppend([m], Definitions(rest, modules));
        case None =>
          assert defs == Definitions(rest, modules);
      } else {
        assert head + rest == rest;
      }
    }
  }

  /** Every definition found has one of the looked-up ids. */
  lemma {:induction false} DefinitionsIds(ids: seq<string>, modules: seq<ModuleDef>)
    ensures forall m :: m in Definitions(ids, modules) ==> m.id in ids
    decreases |ids|
  {
    if |ids| > 0 {
      DefinitionsIds(ids[1..], modules);
    }
  }

  /** The shown ids of an order without duplicates: each order id that is
      a module and not a settings module, once. */
  lemma {:induction false} ShownMembers(order: seq<string>, modules: seq<ModuleDef>)
    requires Distinct(order)
    ensures Distinct(Shown(order, modules))
    ensures forall x :: x in Shown(order, modules) <==> x in order && x in Ids(modules) && !IsSettingsId(x)
    decreases |order|
  {
    if |order| > 0 {
      var rest := order[1..];
      ShownMembers(rest, modules);
      assert forall x :: x in order <==> x == order[0] || x in rest;
    }
  }

  /** After loading, the sidebar shows every module that is not a settings
      module exactly once, whatever was saved, provided the saved list and
      the module ids have no duplicates. */
  lemma LoadedShowsEachOnce(modules: seq<ModuleDef>, server: Option<seq<string>>, raw: Option<string>,
                            parse: string -> Option<seq<string>>)
    requires Distinct(SavedOrder(server, raw, parse)) && Distinct(Ids(modules))
    ensures var shown := Ids(NonSettings(LoadOrder(modules, server, raw, parse), modules));
            && Distinct(shown)
            && forall x :: x in shown <==> x in Ids(modules) && !IsSettingsId(x)
  {
    var order := LoadOrder(modules, server, raw, parse);
    MergePermutes(SavedOrder(server, raw, parse), Ids(modules));
    ShownMembers(order, modules);
  }
}

=== FILE: text.dfy ===
/** Character classes, decimal rendering and substring helpers used by the
    Python backend and the TypeScript frontend alike. Strings are sequences of
    Unicode code points; case mapping is modelled for ASCII letters only. */
module Text {

  // ---------------------------------------------------------------------
  // Digits
  // ---------------------------------------------------------------------

  predicate IsAsciiDigit(c: char) { '0' <= c <= '9' }

  predicate NotAsciiDigit(c: char) { !IsAsciiDigit(c) }

  /** Extended Arabic-Indic (Persian) digits U+06F0..U+06F9. */
  predicate IsPersianDigit(c: char) { 0x06F0 <= c as int <= 0x06F9 }

  /** Arabic-Indic digits U+0660..U+0669. */
  predicate IsArabicIndicDigit(c: char) { 0x0660 <= c as int <= 0x0669 }

  /** The decimal digits of the three scripts the system deals with. */
  predicate IsDecimalDigit(c: char) {
    IsAsciiDigit(c) || IsPersianDigit(c) || IsArabicIndicDigit(c)
  }

  /** The numeric value of a decimal digit of any of the three scripts. */
  function DigitValue(c: char): (d: nat)
    requires IsDecimalDigit(c)
    ensures d < 10
  {
    if IsAsciiDigit(c) then c as int - '0' as int
    else if IsPersianDigit(c) then c as int - 0x06F0
    else c as int - 0x0660
  }

  function AsciiDigit(d: nat): (c: char)
    requires d < 10
    ensures IsAsciiDigit(c) && DigitValue(c) == d
  {
    ('0' as int + d) as char
  }

  function PersianDigit(d: nat): (c: char)
    requires d < 10
    ensures IsPersianDigit(c) && DigitValue(c) == d
  {
    (0x06F0 + d) as char
  }

  predicate AllDigits(s: string) {
    forall i :: 0 <= i < |s| ==> IsDecimalDigit(s[i])
  }

  predicate AllAsciiDigits(s: string) {
    forall i :: 0 <= i < |s| ==> IsAsciiDigit(s[i])
  }

  /** The value of a digit string read most significant digit first, as
      Python's `int()` and JavaScript's `Number()` read it. */
  function DecimalValue(s: string): nat
    requires AllDigits(s)
  {
    if |s| == 0 then 0
    else DecimalValue(s[..|s| - 1]) * 10 + DigitValue(s[|s| - 1])
  }

  /** Decimal rendering of a natural number without leading zeros. */
  function NatToString(n: nat): (s: string)
    ensures 1 <= |s|
    ensures AllAsciiDigits(s) && AllDigits(s)
    ensures s[0] == '0' ==> n == 0 && s == "0"
    decreases n
  {
    if n < 10 then [AsciiDigit(n)]
    else NatToString(n / 10) + [AsciiDigit(n % 10)]
  }

  /** Python's `str(i)` / JavaScript's `String(i)` for an integer. */
  function IntToString(i: int): (s: string)
    ensures i < 0 ==> |s| >= 2 && s[0] == '-' && s[1..] == NatToString(-i)
    ensures i >= 0 ==> s == NatToString(i)
  {
    if i < 0 then "-" + NatToString(-i) else NatToString(i)
  }

  lemma {:induction false} NatToStringRoundTrip(n: nat)
    ensures DecimalValue(NatToString(n)) == n
    decreases n
  {
    if n >= 10 {
      var s := NatToString(n);
      assert s[..|s| - 1] == NatToString(n / 10);
      NatToStringRoundTrip(n / 10);
    }
  }

  /** Two renderings are equal only for equal numbers. */
  lemma NatToStringInjective(a: nat, b: nat)
    ensures NatToString(a) == NatToString(b) ==> a == b
  {
    NatToStringRoundTrip(a);
    NatToStringRoundTrip(b);
  }

  function Repeat(c: char, n: nat): (s: string)
    ensures |s| == n && forall i :: 0 <= i < n ==> s[i] == c
  {
    if n == 0 then "" else [c] + Repeat(c, n - 1)
  }

  /** Left-pads with '0' up to `width` characters, as `{x:0Nd}` in Python and
      `padStart(N, '0')` in JavaScript do; longer strings are kept whole. */
  function ZeroPad(s: string, width: nat): (r: string)
    ensures |r| == if |s| >= width then |s| else width
    ensures r[|r| - |s|..] == s
    ensures forall i :: 0 <= i < |r| - |s| ==> r[i] == '0'
  {
    if |s| >= width then s else Repeat('0', width - |s|) + s
  }

  lemma {:induction false} LeadingZerosValue(z: nat, s: string)
    requires AllDigits(s)
    ensures AllDigits(Repeat('0', z) + s)
    ensures DecimalValue(Repeat('0', z) + s) == DecimalValue(s)
    decreases |s|
  {
    var t := Repeat('0', z) + s;
    if |s| == 0 {
      assert t == Repeat('0', z);
      ZerosValue(z);
    } else {
      assert t[..|t| - 1] == Repeat('0', z) + s[..|s| - 1];
      LeadingZerosValue(z, s[..|s| - 1]);
    }
  }

  lemma {:induction false} ZerosValue(z: nat)
    ensures AllDigits(Repeat('0', z)) && DecimalValue(Repeat('0', z)) == 0
  {
    if z > 0 {
      var t := Repeat('0', z);
      assert t[..z - 1] == Repeat('0', z - 1);
      ZerosValue(z - 1);
    }
  }

  /** Zero padding never changes the value a digit string denotes. */
  lemma ZeroPadValue(s: string, width: nat)
    requires AllDigits(s)
    ensures AllDigits(ZeroPad(s, width))
    ensures DecimalValue(ZeroPad(s, width)) == DecimalValue(s)
  {
    if |s| < width {
      LeadingZerosValue(width - |s|, s);
    }
  }

  // ---------------------------------------------------------------------
  // ASCII case mapping
  // ---------------------------------------------------------------------

  function AsciiLower(c: char): char {
    if 'A' <= c <= 'Z' then (c as int + 32) as char else c
  }

  function AsciiUpper(c: char): char {
    if 'a' <= c <= 'z' then (c as int - 32) as char else c
  }

  function LowerAscii(s: string): (r: string)
    ensures |r| == |s|
    ensures forall i :: 0 <= i < |s| ==> r[i] == AsciiLower(s[i])
  {
    seq(|s|, i requires 0 <= i < |s| => AsciiLower(s[i]))
  }

  /** Lower-casing a string without upper-case ASCII letters changes
      nothing. */
  lemma LowerFixed(s: string)
    requires forall i :: 0 <= i < |s| ==> !('A' <= s[i] <= 'Z')
    ensures LowerAscii(s) == s
  {
  }

  // ---------------------------------------------------------------------
  // Substrings
  // ---------------------------------------------------------------------

  predicate StartsWith(s: string, p: string) {
    |p| <= |s| && s[..|p|] == p
  }

  predicate OccursAt(s: string, t: string, i: int) {
    0 <= i && i + |t| <= |s| && s[i..i + |t|] == t
  }

  /** Python's `t in s`, JavaScript's `s.includes(t)`. */
  predicate Contains(s: string, t: string) {
    exists i | 0 <= i <= |s| - |t| :: OccursAt(s, t, i)
  }

  /** JavaScript's `s.indexOf(t)` / Python's `s.find(t)`: the first
      occurrence, or -1. */
  function IndexOf(s: string, t: string): (k: int)
    ensures -1 <= k <= |s|
    ensures k >= 0 ==> OccursAt(s, t, k)
    ensures k >= 0 ==> forall j :: 0 <= j < k ==> !OccursAt(s, t, j)
    ensures k == -1 <==> !Contains(s, t)
  {
    IndexFrom(s, t, 0)
  }

  function IndexFrom(s: string, t: string, from: nat): (k: int)
    requires from <= |s| + 1
    ensures -1 <= k <= |s|
    ensures k >= 0 ==> from <= k && OccursAt(s, t, k)
    ensures k >= 0 ==> forall j :: from <= j < k ==> !OccursAt(s, t, j)
    ensures k == -1 <==> forall j :: from <= j <= |s| - |t| ==> !OccursAt(s, t, j)
    decreases |s| + 1 - from
  {
    if from + |t| > |s| then -1
    else if s[from..from + |t|] == t then from
    else IndexFrom(s, t, from + 1)
  }

  /** The empty string occurs in every string. */
  lemma ContainsEmpty(s: string)
    ensures Contains(s, "")
  {
    assert OccursAt(s, "", 0);
  }

  /** A string that contains `t` contains every part `u` of `t`. */
  lemma ContainsPart(q: string, t: string, u: string, off: nat)
    requires off + |u| <= |t| && t[off..off + |u|] == u
    requires Contains(q, t)
    ensures Contains(q, u)
  {
    var i :| 0 <= i <= |q| - |t| && OccursAt(q, t, i);
    forall k | 0 <= k < |u|
      ensures q[i + off + k] == u[k]
    {
      assert q[i + off + k] == q[i..i + |t|][off + k];
      assert u[k] == t[off..off + |u|][k];
    }
    assert q[i + off..i + off + |u|] == u;
    assert OccursAt(q, u, i + off);
  }

  /** SQL `LIKE` with no escape character: `%` matches any run of
      characters, `_` exactly one character and every other pattern
      character itself, and the pattern must cover all of `s`. */
  predicate Like(s: string, p: string)
    decreases |s| + |p|
  {
    if |p| == 0 then |s| == 0
    else if p[0] == '%' then Like(s, p[1..]) || (|s| > 0 && Like(s[1..], p))
    else |s| > 0 && (p[0] == '_' || p[0] == s[0]) && Like(s[1..], p[1..])
  }

  /** A pattern with neither wildcard. */
  predicate Literal(p: string) {
    forall k :: 0 <= k < |p| ==> p[k] != '%' && p[k] != '_'
  }

  /** `%` alone matches every string. */
  lemma {:induction false} LikeAny(s: string)
    ensures Like(s, "%")
    decreases |s|
  {
    if |s| > 0 {
      LikeAny(s[1..]);
    }
  }

  /** Literal characters followed by `%` match exactly the strings that
      start with them. */
  lemma {:induction false} LikePrefix(s: string, f: string)
    requires Literal(f)
    ensures Like(s, f + "%") <==> StartsWith(s, f)
    decreases |f|
  {
    var p := f + "%";
    if |f| == 0 {
      assert p == "%";
      LikeAny(s);
    } else {
      assert p[0] == f[0] && p[1..] == f[1..] + "%";
      assert Literal(f[1..]);
      if |s| > 0 {
        LikePrefix(s[1..], f[1..]);
        assert StartsWith(s, f) <==> s[0] == f[0] && StartsWith(s[1..], f[1..]) by {
          if |f| <= |s| {
            assert s[..|f|] == [s[0]] + s[1..][..|f| - 1];
            assert f == [f[0]] + f[1..];
          }
        }
      }
    }
  }

  /** The suffixes of `s` from which `q` matches. */
  predicate SuffixLike(s: string, q: string) {
    exists i :: 0 <= i <= |s| && Like(s[i..], q)
  }

  /** A leading `%` matches exactly when the rest of the pattern matches some
      suffix. */
  lemma {:induction false} LikeLeadingAny(s: string, q: string)
    ensures Like(s, "%" + q) <==> SuffixLike(s, q)
    decreases |s|
  {
    var p := "%" + q;
    assert p[0] == '%' && p[1..] == q;
    assert s[0..] == s;
    if |s| > 0 {
      LikeLeadingAny(s[1..], q);
      if SuffixLike(s, q) && !Like(s, q) {
        var i :| 0 <= i <= |s| && Like(s[i..], q);
        assert i > 0 && s[1..][i - 1..] == s[i..];
      }
      if SuffixLike(s[1..], q) {
        var i :| 0 <= i <= |s| - 1 && Like(s[1..][i..], q);
        assert s[1..][i..] == s[i + 1..];
      }
    }
  }

  /** `%f%` with `f` free of wildcards matches exactly the strings that
      contain `f`: the filter then reads as a plain substring test. */
  lemma LikeContains(s: string, f: string)
    requires Literal(f)
    ensures Like(s, "%" + f + "%") <==> Contains(s, f)
  {
    assert "%" + f + "%" == "%" + (f + "%");
    LikeLeadingAny(s, f + "%");
    forall i | 0 <= i <= |s|
      ensures Like(s[i..], f + "%") <==> OccursAt(s, f, i)
    {
      LikePrefix(s[i..], f);
      if |f| <= |s| - i {
        assert s[i..][..|f|] == s[i..i + |f|];
      }
    }
  }

  /** Python's `\s` and `str.isspace()`: the characters of Unicode
      category Zs or bidirectional class WS, B or S. */
  predicate IsPythonSpace(c: char) {
    var n := c as int;
    (0x09 <= n <= 0x0D) || (0x1C <= n <= 0x20) || n == 0x85 || n == 0xA0 || n == 0x1680
    || (0x2000 <= n <= 0x200A) || n == 0x2028 || n == 0x2029 || n == 0x202F || n == 0x205F
    || n == 0x3000
  }

  /** JavaScript's `\s` and the class `trim()` removes: WhiteSpace and
      LineTerminator of section 12.2 and 12.3 of ECMA-262. */
  predicate IsJsSpace(c: char) {
    var n := c as int;
    (0x09 <= n <= 0x0D) || n == 0x20 || n == 0xA0 || n == 0x1680
    || (0x2000 <= n <= 0x200A) || n == 0x2028 || n == 0x2029 || n == 0x202F || n == 0x205F
    || n == 0x3000 || n == 0xFEFF
  }

  // ---------------------------------------------------------------------
  // Whitespace normalisation: collapse runs of whitespace into one ' ' and
  // trim both ends, for a whitespace class given as a predicate (Python's
  // `re.sub(r'\s+', ' ', s).strip()` and JavaScript's
  // `s.replace(/\s+/g, ' ').trim()` differ only in that class).
  // ---------------------------------------------------------------------

  /** The end of the longest run of characters of class `cls` that starts
      at `from`, as a greedy `[...]*` finds it. */
  function RunEnd(q: string, from: nat, cls: char -> bool): (e: nat)
    requires from <= |q|
    ensures from <= e <= |q|
    ensures forall j :: from <= j < e ==> cls(q[j])
    ensures e < |q| ==> !cls(q[e])
    decreases |q| - from
  {
    if from < |q| && cls(q[from]) then RunEnd(q, from + 1, cls) else from
  }

  /** The length of the whitespace run `s` starts with. */
  function LeadingSpaces(s: string, ws: char -> bool): (k: nat)
    ensures k <= |s|
    ensures k < |s| ==> !ws(s[k])
    ensures forall i :: 0 <= i < k ==> ws(s[i])
  {
    if |s| > 0 && ws(s[0]) then
      var k' := LeadingSpaces(s[1..], ws);
      assert forall i :: 1 <= i < k' + 1 ==> s[i] == s[1..][i - 1];
      k' + 1
    else 0
  }

  /** The length of `s` without its trailing whitespace run. */
  function SpacelessLength(s: string, ws: char -> bool): (n: nat)
    ensures n <= |s|
    ensures n > 0 ==> !ws(s[n - 1])
    ensures forall i :: n <= i < |s| ==> ws(s[i])
  {
    if |s| > 0 && ws(s[|s| - 1]) then
      var n := SpacelessLength(s[..|s| - 1], ws);
      assert forall i :: n <= i < |s| - 1 ==> s[i] == s[..|s| - 1][i];
      n
    else |s|
  }

  /** Drops leading whitespace. */
  function TrimStart(s: string, ws: char -> bool): (r: string)
    ensures |r| <= |s| && r == s[|s| - |r|..]
    ensures |r| > 0 ==> !ws(r[0])
    ensures forall i :: 0 <= i < |s| - |r| ==> ws(s[i])
  {
    s[LeadingSpaces(s, ws)..]
  }

  /** Drops trailing whitespace. */
  function TrimEnd(s: string, ws: char -> bool): (r: string)
    ensures |r| <= |s| && r == s[..|r|]
    ensures |r| > 0 ==> !ws(r[|r| - 1])
    ensures forall i :: |r| <= i < |s| ==> ws(s[i])
  {
    s[..SpacelessLength(s, ws)]
  }

  function Trim(s: string, ws: char -> bool): string {
    TrimEnd(TrimStart(s, ws), ws)
  }

  /** Replaces every maximal whitespace run by a single ' '. */
  function Collapse(s: string, ws: char -> bool): (r: string)
    requires ws(' ')
    ensures |s| > 0 <==> |r| > 0
    ensures |s| > 0 ==> r[0] == if ws(s[0]) then ' ' else s[0]
    ensures forall i :: 0 <= i < |r| && ws(r[i]) ==> r[i] == ' '
    ensures forall i :: 0 <= i < |r| - 1 && ws(r[i]) ==> !ws(r[i + 1])
    decreases |s|
  {
    if |s| == 0 then ""
    else if ws(s[0]) then " " + Collapse(TrimStart(s[1..], ws), ws)
    else [s[0]] + Collapse(s[1..], ws)
  }

  function NormalizeSpaces(s: string, ws: char -> bool): string
    requires ws(' ')
  {
    Trim(Collapse(s, ws), ws)
  }

  /** The characters of `s` that `drop` does not select, in order. With the
      whitespace class for `drop` it is the content a whitespace
      normalisation must keep; with a set of marks it is `re.sub('[...]', '', s)`. */
  function Without(s: string, drop: char -> bool): (r: string)
    ensures |r| <= |s|
  {
    if |s| == 0 then ""
    else if drop(s[0]) then Without(s[1..], drop)
    else [s[0]] + Without(s[1..], drop)
  }

  /** What `Without` keeps: exactly the characters of `s` that `drop` does
      not select. */
  lemma {:induction false} WithoutMembers(s: string, drop: char -> bool)
    ensures forall c :: c in Without(s, drop) <==> c in s && !drop(c)
    decreases |s|
  {
    if |s| > 0 {
      WithoutMembers(s[1..], drop);
      assert forall c :: c in s <==> c == s[0] || c in s[1..];
    }
  }

  /** Two selections that agree on the characters of `s` remove the same
      characters. */
  lemma {:induction false} WithoutAgree(s: string, p: char -> bool, q: char -> bool)
    requires forall i :: 0 <= i < |s| ==> p(s[i]) == q(s[i])
    ensures Without(s, p) == Without(s, q)
    decreases |s|
  {
    if |s| > 0 {
      WithoutAgree(s[1..], p, q);
    }
  }

  /** Removing characters from a string that holds none of them changes
      nothing. */
  lemma {:induction false} WithoutNone(s: string, drop: char -> bool)
    requires forall i :: 0 <= i < |s| ==> !drop(s[i])
    ensures Without(s, drop) == s
    decreases |s|
  {
    if |s| > 0 {
      WithoutNone(s[1..], drop);
    }
  }

  /** A string whose whitespace is already normalised. */
  predicate SpacesNormal(r: string, ws: char -> bool) {
    && (|r| > 0 ==> !ws(r[0]) && !ws(r[|r| - 1]))
    && (forall i :: 0 <= i < |r| && ws(r[i]) ==> r[i] == ' ')
    && (forall i :: 0 <= i < |r| - 1 && ws(r[i]) ==> !ws(r[i + 1]))
  }

  lemma {:induction false} WithoutAppend(a: string, b: string, ws: char -> bool)
    ensures Without(a + b, ws) == Without(a, ws) + Without(b, ws)
    decreases |a|
  {
    if |a| == 0 {
      assert a + b == b;
    } else {
      var ab := a + b;
      assert ab[0] == a[0];
      assert ab[1..] == a[1..] + b;
      WithoutAppend(a[1..], b, ws);
      if ws(a[0]) {
        assert Without(ab, ws) == Without(ab[1..], ws);
      } else {
        assert Without(ab, ws) == [a[0]] + Without(ab[1..], ws);
        assert Without(a, ws) == [a[0]] + Without(a[1..], ws);
      }
    }
  }

  lemma {:induction false} WithoutAll(s: string, ws: char -> bool)
    requires forall i :: 0 <= i < |s| ==> ws(s[i])
    ensures Without(s, ws) == ""
    decreases |s|
  {
    if |s| > 0 {
      WithoutAll(s[1..], ws);
    }
  }

  lemma WithoutTrimStart(s: string, ws: char -> bool)
    ensures Without(TrimStart(s, ws), ws) == Without(s, ws)
  {
    var r := TrimStart(s, ws);
    var k := |s| - |r|;
    assert s == s[..k] + r;
    WithoutAppend(s[..k], r, ws);
    WithoutAll(s[..k], ws);
  }

  lemma WithoutTrimEnd(s: string, ws: char -> bool)
    ensures Without(TrimEnd(s, ws), ws) == Without(s, ws)
  {
    var r := TrimEnd(s, ws);
    assert s == r + s[|r|..];
    WithoutAppend(r, s[|r|..], ws);
    WithoutAll(s[|r|..], ws);
  }

  lemma {:induction false} WithoutCollapse(s: string, ws: char -> bool)
    requires ws(' ')
    ensures Without(Collapse(s, ws), ws) == Without(s, ws)
    decreases |s|
  {
    if |s| > 0 {
      if ws(s[0]) {
        var t := TrimStart(s[1..], ws);
        WithoutCollapse(t, ws);
        WithoutTrimStart(s[1..], ws);
        WithoutAppend(" ", Collapse(t, ws), ws);
      } else {
        WithoutCollapse(s[1..], ws);
        WithoutAppend([s[0]], Collapse(s[1..], ws), ws);
      }
    }
  }

  /** A slice of a collapsed string keeps the collapsed shape. */
  lemma SliceKeepsShape(c: string, a: nat, r: string, ws: char -> bool)
    requires a + |r| <= |c| && r == c[a..a + |r|]
    requires forall i :: 0 <= i < |c| && ws(c[i]) ==> c[i] == ' '
    requires forall i :: 0 <= i < |c| - 1 && ws(c[i]) ==> !ws(c[i + 1])
    ensures forall i :: 0 <= i < |r| && ws(r[i]) ==> r[i] == ' '
    ensures forall i :: 0 <= i < |r| - 1 && ws(r[i]) ==> !ws(r[i + 1])
  {
    assert forall i :: 0 <= i < |r| ==> r[i] == c[a + i];
  }

  /** Whitespace normalisation leaves no leading, trailing or repeated
      whitespace, turns every whitespace character into ' ', and keeps every
      other character in order. */
  lemma NormalizeSpacesSpec(s: string, ws: char -> bool)
    requires ws(' ')
    ensures SpacesNormal(NormalizeSpaces(s, ws), ws)
    ensures Without(NormalizeSpaces(s, ws), ws) == Without(s, ws)
  {
    NormalizedShape(s, ws);
    NormalizedText(s, ws);
  }

  lemma NormalizedShape(s: string, ws: char -> bool)
    requires ws(' ')
    ensures SpacesNormal(NormalizeSpaces(s, ws), ws)
  {
    TrimShape(Collapse(s, ws), ws);
  }

  /** Trimming a text whose spaces are single blanks leaves no space at
      either end. */
  lemma TrimShape(c: string, ws: char -> bool)
    requires forall i :: 0 <= i < |c| && ws(c[i]) ==> c[i] == ' '
    requires forall i :: 0 <= i < |c| - 1 && ws(c[i]) ==> !ws(c[i + 1])
    ensures SpacesNormal(Trim(c, ws), ws)
  {
    var a := TrimStart(c, ws);
    var r := TrimEnd(a, ws);
    assert r == c[|c| - |a|..|c| - |a| + |r|];
    SliceKeepsShape(c, |c| - |a|, r, ws);
    assert |r| > 0 ==> r[0] == a[0];
  }

  lemma NormalizedText(s: string, ws: char -> bool)
    requires ws(' ')
    ensures Without(NormalizeSpaces(s, ws), ws) == Without(s, ws)
  {
    var c := Collapse(s, ws);
    WithoutCollapse(s, ws);
    WithoutTrimStart(c, ws);
    WithoutTrimEnd(TrimStart(c, ws), ws);
  }

  /** Whitespace normalisation adds no character but ' ', so it keeps any
      property that ' ' and every character of `s` have. */
  lemma NormalizeSpacesKeeps(s: string, ws: char -> bool, p: char -> bool)
    requires ws(' ') && p(' ')
    requires forall x :: x in s ==> p(x)
    ensures forall x :: x in NormalizeSpaces(s, ws) ==> p(x)
  {
    var d := NormalizeSpaces(s, ws);
    NormalizeSpacesSpec(s, ws);
    forall x | x in d
      ensures p(x)
    {
      var i :| 0 <= i < |d| && d[i] == x;
      if !ws(x) {
        WithoutMembers(d, ws);
        WithoutMembers(s, ws);
      }
    }
  }

  /** Trimming a string with no whitespace at its ends changes nothing. */
  lemma TrimNormal(r: string, ws: char -> bool)
    requires |r| > 0 ==> !ws(r[0]) && !ws(r[|r| - 1])
    ensures Trim(r, ws) == r
  {
  }

  lemma {:induction false} CollapseNormal(r: string, ws: char -> bool)
    requires ws(' ')
    requires forall i :: 0 <= i < |r| && ws(r[i]) ==> r[i] == ' '
    requires forall i :: 0 <= i < |r| - 1 && ws(r[i]) ==> !ws(r[i + 1])
    ensures Collapse(r, ws) == r
    decreases |r|
  {
    if |r| > 0 {
      CollapseNormal(r[1..], ws);
      if ws(r[0]) {
        assert TrimStart(r[1..], ws) == r[1..];
      }
    }
  }

  /** A string whose whitespace is normal is its own normalisation. */
  lemma NormalFixed(r: string, ws: char -> bool)
    requires ws(' ') && SpacesNormal(r, ws)
    ensures NormalizeSpaces(r, ws) == r
  {
    CollapseNormal(r, ws);
    TrimNormal(r, ws);
  }

  /** Normalising twice is normalising once. */
  lemma NormalizeSpacesIdempotent(s: string, ws: char -> bool)
    requires ws(' ')
    ensures NormalizeSpaces(NormalizeSpaces(s, ws), ws) == NormalizeSpaces(s, ws)
  {
    NormalizeSpacesSpec(s, ws);
    NormalFixed(NormalizeSpaces(s, ws), ws);
  }
}

=== FILE: ttl_cache.dfy ===
/** The in-process cache with a time to live. The store maps each key to
    its value and its expiry time; the clock is a parameter `now`, in whole
    seconds. An entry is still served at its expiry time and is dropped at
    the first read after it. */
module TtlCache {
  import opened Wrappers

  datatype Slot<V> = Slot(value: V, expire: int)

  type Slots<V> = map<string, Slot<V>>

  /** `set_cache`: the key's slot is replaced by the value and the expiry
      `now + ttl`; other keys keep their slots. */
  function Set<V>(st: Slots<V>, key: string, value: V, ttl: int, now: int): (r: Slots<V>)
    ensures key in r && r[key] == Slot(value, now + ttl)
    ensures forall k :: k != key ==> (k in r <==> k in st)
    ensures forall k :: k != key && k in st ==> r[k] == st[k]
  {
    st[key := Slot(value, now + ttl)]
  }

  /** Whether a slot is past its expiry at time `now`. */
  predicate Expired<V>(s: Slot<V>, now: int) {
    now > s.expire
  }

  /** `get_cache`: the value when the key is present and not expired; an
      expired key is removed by the read. */
  function Get<V>(st: Slots<V>, key: string, now: int): (r: (Option<V>, Slots<V>))
    ensures r.0.Some? <==> key in st && !Expired(st[key], now)
    ensures r.0.Some? ==> r.0.value == st[key].value
    ensures key in r.1 <==> key in st && !Expired(st[key], now)
    ensures forall k :: k != key ==> (k in r.1 <==> k in st)
    ensures forall k :: k in r.1 ==> k in st && r.1[k] == st[k]
  {
    if key !in st then (None, st)
    else if Expired(st[key], now) then (None, st - {key})
    else (Some(st[key].value), st)
  }

  /** `invalidate`: the key is gone, whether or not it was there, and other
      keys keep their slots. */
  function Invalidate<V>(st: Slots<V>, key: string): (r: Slots<V>)
    ensures key !in r
    ensures forall k :: k != key ==> (k in r <==> k in st)
    ensures forall k :: k in r ==> r[k] == st[k]
  {
    st - {key}
  }

  /** Reading an absent key gives nothing and changes nothing. */
  lemma GetAbsent<V>(st: Slots<V>, key: string, now: int)
    requires key !in st
    ensures Get(st, key, now) == (None, st)
  {
  }

  /** A value set at `now` with time to live `ttl` is served at every time
      up to and including `now + ttl`, and the read leaves the store as it
      was. */
  lemma SetThenGet<V>(st: Slots<V>, key: string, value: V, ttl: int, now: int, later: int)
    requires later <= now + ttl
    ensures Get(Set(st, key, value, ttl, now), key, later) == (Some(value), Set(st, key, value, ttl, now))
  {
  }

  /** After the expiry the read gives nothing and removes exactly that
      key. */
  lemma GetAfterExpiry<V>(st: Slots<V>, key: string, value: V, ttl: int, now: int, later: int)
    requires later > now + ttl
    ensures var st' := Set(st, key, value, ttl, now);
            Get(st', key, later) == (None, Invalidate(st', key))
  {
  }

  /** Setting a key again replaces both its value and its expiry. */
  lemma SetOverwrites<V>(st: Slots<V>, key: string, v1: V, ttl1: int, now1: int, v2: V, ttl2: int, now2: int)
    ensures Set(Set(st, key, v1, ttl1, now1), key, v2, ttl2, now2) == Set(st, key, v2, ttl2, now2)
  {
  }

  /** A read of one key never changes what another key serves. */
  lemma GetOtherKey<V>(st: Slots<V>, key: string, other: string, now: int, later: int)
    requires other != key
    ensures Get(Get(st, key, now).1, other, later).0 == Get(st, other, later).0
  {
  }

  /** After invalidation the key is absent, so a read gives nothing. */
  lemma InvalidateThenGet<V>(st: Slots<V>, key: string, now: int)
    ensures Get(Invalidate(st, key), key, now).0 == None
  {
  }
}

=== FILE: web_normalizer.dfy ===
/** The search and phone normalisation of the frontend. Digits and Arabic
    letter forms use the backend's tables; the frontend also removes the
    Arabic diacritics, and its whitespace class is JavaScript's. The
    frontend's letter table has a tenth entry, Farsi yeh to itself, which
    its replacement pattern never selects, so the letter rewriting is the
    backend's. */
module WebNormalizer {
  import opened Wrappers
  import Text
  import N = Normalizer

  // ---------------------------------------------------------------------
  // Digits
  // ---------------------------------------------------------------------

  /** `digitsToPersian`: every ASCII digit becomes the Persian digit of the
      same value; every other character, Arabic-Indic digits included, is
      kept. */
  function DigitsToPersian(s: string): (r: string)
    ensures |r| == |s|
    ensures forall i :: 0 <= i < |s| && Text.IsAsciiDigit(s[i]) ==>
              Text.IsPersianDigit(r[i]) && Text.DigitValue(r[i]) == Text.DigitValue(s[i])
    ensures forall i :: 0 <= i < |s| && !Text.IsAsciiDigit(s[i]) ==> r[i] == s[i]
  {
    seq(|s|, i requires 0 <= i < |s| =>
      if Text.IsAsciiDigit(s[i]) then Text.PersianDigit(Text.DigitValue(s[i])) else s[i])
  }

  /** Writing the digits in Persian and reading them back in ASCII is the
      same as reading them in ASCII, and gives back a string that had only
      ASCII digits. */
  lemma DigitsRoundTrip(s: string)
    ensures N.DigitsToLatin(DigitsToPersian(s)) == N.DigitsToLatin(s)
    ensures N.LatinDigitsOnly(s) ==> N.DigitsToLatin(DigitsToPersian(s)) == s
  {
  }

  /** Reading the digits in ASCII and writing them in Persian leaves no
      ASCII digit. */
  lemma NoAsciiDigitsLeft(s: string)
    ensures forall i :: 0 <= i < |s| ==> !Text.IsAsciiDigit(DigitsToPersian(N.DigitsToLatin(s))[i])
  {
  }

  // ---------------------------------------------------------------------
  // Letters
  // ---------------------------------------------------------------------

  /** The Arabic diacritics U+064B..U+0652 and the superscript alef U+0670. */
  predicate IsDiacritic(c: char) {
    (0x064B <= c as int <= 0x0652) || c as int == 0x0670
  }

  /** `normalizeLetters`: Arabic forms become Persian letters, then the
      diacritics and the invisible marks are removed. */
  function NormalizeLetters(s: string): (r: string)
    ensures forall x :: x in r ==> !N.IsArabicForm(x) && !IsDiacritic(x) && !N.IsInvisibleMark(x)
    ensures forall x :: x in s && !N.IsArabicForm(x) && !IsDiacritic(x) && !N.IsInvisibleMark(x) ==> x in r
    ensures forall x :: x in r ==> x in s || N.IsPersianForm(x)
  {
    var a := N.ReplaceArabicLetters(s);
    forall x | x in s && !N.IsArabicForm(x)
      ensures x in a
    {
      var i :| 0 <= i < |s| && s[i] == x;
      assert a[i] == x;
    }
    forall x | x in a
      ensures !N.IsArabicForm(x) && (x in s || N.IsPersianForm(x))
    {
      var i :| 0 <= i < |a| && a[i] == x;
      if !N.IsArabicForm(s[i]) {
        assert s[i] in s;
      }
    }
    Text.WithoutMembers(a, IsDiacritic);
    N.RemoveTatweel(Text.Without(a, IsDiacritic))
  }

  /** What one character becomes: nothing when it is a diacritic or an
      invisible mark, and otherwise its Persian letter. */
  function LetterOf(c: char): string {
    if IsDiacritic(c) || N.IsInvisibleMark(c) then "" else [N.PersianLetter(c)]
  }

  /** The letters, character by character from the front. */
  function LettersInOrder(s: string): string {
    if |s| == 0 then "" else LetterOf(s[0]) + LettersInOrder(s[1..])
  }

  /** `normalizeLetters` works character by character and keeps the order:
      the three passes together give each character's letter in turn. */
  lemma {:induction false} NormalizeLettersInOrder(s: string)
    ensures NormalizeLetters(s) == LettersInOrder(s)
    decreases |s|
  {
    if |s| > 0 {
      NormalizeLettersInOrder(s[1..]);
      var c := N.PersianLetter(s[0]);
      var a := N.ReplaceArabicLetters(s);
      var a' := N.ReplaceArabicLetters(s[1..]);
      assert a == [c] + a';
      var d := Text.Without(a, IsDiacritic);
      var d' := Text.Without(a', IsDiacritic);
      Text.WithoutAppend([c], a', IsDiacritic);
      Text.WithoutAppend(Text.Without([c], IsDiacritic), d', N.IsInvisibleMark);
      LetterStep(s[0]);
    }
  }

  /** The two removals on one replaced character give its letter. */
  lemma LetterStep(c: char)
    ensures Text.Without(Text.Without([N.PersianLetter(c)], IsDiacritic), N.IsInvisibleMark) == LetterOf(c)
  {
    var p := N.PersianLetter(c);
    assert [p][1..] == [];
    if !IsDiacritic(p) {
      assert Text.Without([p], IsDiacritic) == [p];
    }
  }

  // ---------------------------------------------------------------------
  // Search keys
  // ---------------------------------------------------------------------

  /** `normalizeWhitespace`: `s.replace(/\s+/g, ' ').trim()`. */
  function NormalizeWhitespace(s: string): (r: string)
    ensures Text.SpacesNormal(r, Text.IsJsSpace)
    ensures Text.Without(r, Text.IsJsSpace) == Text.Without(s, Text.IsJsSpace)
  {
    Text.NormalizeSpacesSpec(s, Text.IsJsSpace);
    Text.NormalizeSpaces(s, Text.IsJsSpace)
  }

  /** A character a frontend search key may hold. */
  predicate Tidy(x: char) {
    N.Tidy(x) && !IsDiacritic(x)
  }

  predicate Clean(s: string) {
    forall x :: x in s ==> Tidy(x)
  }

  predicate SearchKey(r: string) {
    && Text.SpacesNormal(r, Text.IsJsSpace)
    && Clean(r)
    && (forall i :: 0 <= i < |r| ==> !('A' <= r[i] <= 'Z'))
  }

  lemma RewritingsClean(t: string)
    ensures Clean(NormalizeLetters(N.DigitsToLatin(t)))
  {
    var a := N.DigitsToLatin(t);
    forall x | x in NormalizeLetters(a)
      ensures Tidy(x)
    {
      if x in a {
        var i :| 0 <= i < |a| && a[i] == x;
      }
    }
  }

  lemma NormalizeWhitespaceClean(c: string)
    requires Clean(c)
    ensures Clean(NormalizeWhitespace(c))
  {
    Text.NormalizeSpacesKeeps(c, Text.IsJsSpace, Tidy);
  }

  lemma LowerKey(d: string)
    requires Text.SpacesNormal(d, Text.IsJsSpace)
    requires Clean(d)
    ensures SearchKey(Text.LowerAscii(d))
  {
    var r := Text.LowerAscii(d);
    forall i | 0 <= i < |d|
      ensures Text.IsJsSpace(r[i]) <==> Text.IsJsSpace(d[i])
    {
    }
    forall x | x in r
      ensures Tidy(x)
    {
      var i :| 0 <= i < |r| && r[i] == x;
      assert d[i] in d;
    }
  }

  /** `normalizeForSearch`: the empty string gives the empty key; any key
      has normal whitespace, ASCII digits, Persian letter forms, no
      diacritics, no invisible marks and no upper-case ASCII letter. */
  function NormalizeForSearch(s: string): (r: string)
    ensures |s| == 0 ==> r == ""
    ensures SearchKey(r)
  {
    if |s| == 0 then ""
    else
      var c := NormalizeLetters(N.DigitsToLatin(s));
      RewritingsClean(s);
      NormalizeWhitespaceClean(c);
      LowerKey(NormalizeWhitespace(c));
      Text.LowerAscii(NormalizeWhitespace(c))
  }

  lemma CleanFixed(r: string)
    requires Clean(r)
    ensures NormalizeLetters(N.DigitsToLatin(r)) == r
  {
    forall i | 0 <= i < |r|
      ensures Tidy(r[i])
    {
      assert r[i] in r;
    }
    assert N.DigitsToLatin(r) == r;
    assert N.ReplaceArabicLetters(r) == r;
    Text.WithoutNone(r, IsDiacritic);
    Text.WithoutNone(r, N.IsInvisibleMark);
  }

  lemma KeyFixed(r: string)
    requires SearchKey(r)
    ensures Text.LowerAscii(NormalizeWhitespace(r)) == r
  {
    Text.NormalFixed(r, Text.IsJsSpace);
    Text.LowerFixed(r);
  }

  /** Every key is its own key: the normalisation changes exactly what a
      key may not hold. */
  lemma KeyIsOwnKey(t: string)
    requires SearchKey(t)
    ensures NormalizeForSearch(t) == t
  {
    if |t| > 0 {
      CleanFixed(t);
      KeyFixed(t);
    }
  }

  /** A key normalises to itself. */
  lemma NormalizeForSearchIdempotent(s: string)
    ensures NormalizeForSearch(NormalizeForSearch(s)) == NormalizeForSearch(s)
  {
    var r := NormalizeForSearch(s);
    if |r| > 0 {
      CleanFixed(r);
      KeyFixed(r);
    }
  }

  /** `equalsNormalized`. */
  predicate EqualsNormalized(a: string, b: string) {
    NormalizeForSearch(a) == NormalizeForSearch(b)
  }

  /** `containsNormalized`: `indexOf` finds the needle's key in the
      haystack's key. */
  function ContainsNormalized(hay: string, needle: string): (r: bool)
    ensures r <==> Text.Contains(NormalizeForSearch(hay), NormalizeForSearch(needle))
  {
    Text.IndexOf(NormalizeForSearch(hay), NormalizeForSearch(needle)) != -1
  }

  /** Texts equal after normalisation contain each other, and every text
      contains the empty needle. */
  lemma EqualsImpliesContains(a: string, b: string)
    ensures EqualsNormalized(a, b) ==> ContainsNormalized(a, b) && ContainsNormalized(b, a)
    ensures ContainsNormalized(a, "")
  {
    var k := NormalizeForSearch(a);
    assert Text.OccursAt(k, k, 0);
    Text.ContainsEmpty(k);
  }

  /** A Persian rendering of the digits finds the same texts as the ASCII
      one. */
  lemma PersianDigitsSearchAlike(s: string)
    ensures EqualsNormalized(DigitsToPersian(s), s)
  {
    DigitsRoundTrip(s);
  }

  // ---------------------------------------------------------------------
  // Phone numbers
  // ---------------------------------------------------------------------

  predicate Dialable(c: char) {
    Text.IsAsciiDigit(c) || c == '+'
  }

  predicate NotDialable(c: char) {
    !Dialable(c)
  }

  /** No `+` after the first character. */
  predicate PlusOnlyLeading(x: string) {
    forall i :: 1 <= i < |x| ==> x[i] != '+'
  }

  /** The input with its digits in ASCII and its ends trimmed. Trimming
      brings no `+` forward to a later position. */
  function Prepared(input: string): (t: string)
    ensures PlusOnlyLeading(input) ==> PlusOnlyLeading(t)
  {
    var u := N.DigitsToLatin(input);
    var k := |u| - |Text.TrimStart(u, Text.IsJsSpace)|;
    var t := Text.Trim(u, Text.IsJsSpace);
    assert t == u[k..k + |t|];
    assert forall i :: 0 <= i < |t| ==> t[i] == u[k + i];
    t
  }

  /** The prefix rules after the `+` has been handled: a leading `00` is
      dropped; `98` followed by `9`, at twelve characters or more, becomes
      `0`; ten characters starting with `9` get a leading `0`. */
  function DropInternational(s: string): (r: string)
    ensures Text.StartsWith(s, "00") ==> s == "00" + r
    ensures !Text.StartsWith(s, "00") ==> r == s
  {
    if Text.StartsWith(s, "00") then s[2..] else s
  }

  function CountryCode(s: string): (r: string)
    ensures |s| >= 12 && Text.StartsWith(s, "98") && s[2] == '9' ==> r == "0" + s[2..]
    ensures !(|s| >= 12 && Text.StartsWith(s, "98") && s[2] == '9') ==> r == s
    ensures |r| <= |s|
  {
    if Text.StartsWith(s, "98") && |s| >= 12 && s[2] == '9' then "0" + s[2..] else s
  }

  function LeadingZero(s: string): (r: string)
    ensures r != s <==> |s| == 10 && s[0] == '9'
    ensures r != s ==> r == "0" + s && |r| == 11
  {
    if |s| == 10 && Text.StartsWith(s, "9") then "0" + s else s
  }

  /** The second country-code rule, as written after the other two. */
  function LateCountryCode(s: string): string {
    if |s| == 12 && Text.StartsWith(s, "98") && s[2] == '9' then "0" + s[2..] else s
  }

  /** The second country-code rule never applies: a string it would match
      was already rewritten by the first, and the other rules never
      produce one. */
  lemma LateCountryCodeDead(s: string)
    ensures LateCountryCode(LeadingZero(CountryCode(s))) == LeadingZero(CountryCode(s))
  {
    var c := CountryCode(s);
    if c != s {
      assert c[0] == '0';
      assert LeadingZero(c) == c;
    } else if LeadingZero(c) != c {
      assert |LeadingZero(c)| == 11;
    }
  }

  /** The rules from the dialable characters onwards, as written. */
  function PhoneRules(s: string): (r: string)
    ensures forall i :: 0 <= i < |r| ==> r[i] == '0' || r[i] in s
  {
    var t := if Text.StartsWith(s, "+") then s[1..] else s;
    var r := LateCountryCode(LeadingZero(CountryCode(DropInternational(t))));
    assert forall i :: 0 <= i < |r| ==> r[i] == '0' || r[i] in t;
    r
  }

  /** The final check: an eleven-digit `09` number, or anything of seven
      characters or more; the first case is contained in the second. */
  function Accept(s: string): (r: Option<string>)
    ensures r.Some? <==> |s| >= 7
    ensures r.Some? ==> r.value == s
  {
    if |s| == 11 && Text.StartsWith(s, "09") then Some(s)
    else if |s| >= 7 then Some(s)
    else None
  }

  /** `normalizePhone` as written: the filter keeps every `+`, not only a
      leading one, and only one leading `+` is then removed, so a result
      can hold `+` characters. */
  function NormalizePhoneAsWritten(input: string): (r: Option<string>)
    ensures |input| == 0 ==> r.None?
    ensures r.Some? ==> |r.value| >= 7 && forall i :: 0 <= i < |r.value| ==> Dialable(r.value[i])
  {
    if |input| == 0 then None
    else
      var s := Text.Without(Prepared(input), NotDialable);
      Text.WithoutMembers(Prepared(input), NotDialable);
      Accept(PhoneRules(s))
  }

  /** The digits of the number: what the filter and the `+` removal were
      meant to leave, per the comment that `s` is digits only from there
      on. */
  function PhoneDigits(input: string): (s: string)
    ensures forall x :: x in s ==> Text.IsAsciiDigit(x)
  {
    Text.WithoutMembers(Prepared(input), Text.NotAsciiDigit);
    Text.Without(Prepared(input), Text.NotAsciiDigit)
  }

  /** `normalizePhone` as evidently intended: a non-empty input is reduced
      to its digits, the prefix rules apply, and a result of at least seven
      digits is returned. */
  function NormalizePhone(input: string): (r: Option<string>)
    ensures |input| == 0 ==> r.None?
    ensures r.Some? ==> |r.value| >= 7 && forall i :: 0 <= i < |r.value| ==> Text.IsAsciiDigit(r.value[i])
  {
    if |input| == 0 then None
    else
      Accept(PhoneRules(PhoneDigits(input)))
  }

  /** The rules leave alone a number that starts with a digit other than
      `0` and `9`. */
  lemma RulesIdle(y: string)
    requires |y| > 0 && y[0] != '+' && y[0] != '0' && y[0] != '9'
    ensures PhoneRules(y) == y
  {
    assert !Text.StartsWith(y, "+") && !Text.StartsWith(y, "00");
    assert !Text.StartsWith(y, "98") && !Text.StartsWith(y, "9");
    assert DropInternational(y) == y && CountryCode(y) == y;
    assert LeadingZero(y) == y && LateCountryCode(y) == y;
  }

  /** A string of digits and `+` without whitespace at its ends is
      prepared as it is. */
  lemma PreparedDialable(x: string)
    requires forall i :: 0 <= i < |x| ==> Text.IsAsciiDigit(x[i]) || x[i] == '+'
    ensures Prepared(x) == x
  {
    assert N.LatinDigitsOnly(x);
    assert |x| > 0 ==> !Text.IsJsSpace(x[0]) && !Text.IsJsSpace(x[|x| - 1]);
    PreparedAsIs(x);
  }

  /** A text with ASCII digits only and no whitespace at its ends is
      prepared as it is. */
  lemma PreparedAsIs(x: string)
    requires N.LatinDigitsOnly(x)
    requires |x| > 0 ==> !Text.IsJsSpace(x[0]) && !Text.IsJsSpace(x[|x| - 1])
    ensures Prepared(x) == x
  {
    N.DigitsToLatinIdempotent(x);
    Text.TrimNormal(x, Text.IsJsSpace);
  }

  /** The character of `a + "+" + b` at position `i`. */
  lemma InnerPlusChars(a: string, b: string)
    ensures var x := a + "+" + b;
            forall i :: 0 <= i < |x| ==> x[i] == if i < |a| then a[i] else if i == |a| then '+' else b[i - |a| - 1]
  {
  }

  /** A `+` between two runs of digits survives normalisation as written:
      `"1+234567"` is returned as it is. */
  lemma InnerPlusKept(a: string, b: string)
    requires Text.AllAsciiDigits(a) && Text.AllAsciiDigits(b)
    requires |a| > 0 && a[0] != '0' && a[0] != '9'
    requires |a| + |b| >= 7
    ensures NormalizePhoneAsWritten(a + "+" + b) == Some(a + "+" + b)
  {
    var x := a + "+" + b;
    InnerPlusChars(a, b);
    PreparedDialable(x);
    Text.WithoutNone(x, NotDialable);
    RulesIdle(x);
  }

  /** The intended version drops the `+`: `"1+234567"` gives
      `"1234567"`. */
  lemma InnerPlusDropped(a: string, b: string)
    requires Text.AllAsciiDigits(a) && Text.AllAsciiDigits(b)
    requires |a| > 0 && a[0] != '0' && a[0] != '9'
    requires |a| + |b| >= 7
    ensures NormalizePhone(a + "+" + b) == Some(a + b)
  {
    var x := a + "+" + b;
    InnerPlusChars(a, b);
    PreparedDialable(x);
    InnerPlusDigits(a, b);
    assert PhoneDigits(x) == a + b;
    assert (a + b)[0] == a[0];
    RulesIdle(a + b);
    PhoneAccepted(x, a + b);
  }

  lemma InnerPlusDigits(a: string, b: string)
    requires Text.AllAsciiDigits(a) && Text.AllAsciiDigits(b)
    ensures Text.Without(a + "+" + b, Text.NotAsciiDigit) == a + b
  {
    Text.WithoutAppend(a + "+", b, Text.NotAsciiDigit);
    Text.WithoutAppend(a, "+", Text.NotAsciiDigit);
    Text.WithoutNone(a, Text.NotAsciiDigit);
    Text.WithoutNone(b, Text.NotAsciiDigit);
    assert Text.Without("+", Text.NotAsciiDigit) == "";
  }

  /** With a leading `+` and no other, the filter as written keeps the `+`
      and the rules drop it, so both filters lead to the same rules. */
  lemma FiltersAgreeLeadingPlus(t: string)
    requires |t| > 0 && t[0] == '+' && PlusOnlyLeading(t)
    ensures PhoneRules(Text.Without(t, NotDialable)) == PhoneRules(Text.Without(t, Text.NotAsciiDigit))
  {
    var w := Text.Without(t[1..], Text.NotAsciiDigit);
    Text.WithoutAgree(t[1..], NotDialable, Text.NotAsciiDigit);
    assert Text.Without(t, NotDialable) == "+" + w;
    assert Text.Without(t, Text.NotAsciiDigit) == w;
    assert ("+" + w)[1..] == w;
    if |w| > 0 {
      Text.WithoutMembers(t[1..], Text.NotAsciiDigit);
      assert w[0] in w;
    }
  }

  lemma FiltersAgree(t: string)
    requires PlusOnlyLeading(t)
    ensures PhoneRules(Text.Without(t, NotDialable)) == PhoneRules(Text.Without(t, Text.NotAsciiDigit))
  {
    if |t| > 0 && t[0] == '+' {
      FiltersAgreeLeadingPlus(t);
    } else {
      Text.WithoutAgree(t, NotDialable, Text.NotAsciiDigit);
    }
  }

  /** Wherever the input holds no `+` after its first character, both
      versions agree. */
  lemma AsWrittenAgrees(input: string)
    requires PlusOnlyLeading(input)
    ensures NormalizePhoneAsWritten(input) == NormalizePhone(input)
  {
    FiltersAgree(Prepared(input));
  }

  /** `samePhone`: both numbers normalise, to the same string. */
  predicate SamePhone(a: string, b: string) {
    NormalizePhone(a).Some? && NormalizePhone(a) == NormalizePhone(b)
  }

  lemma SamePhoneSymmetric(a: string, b: string)
    ensures SamePhone(a, b) <==> SamePhone(b, a)
  {
  }

  /** `samePhone` is an equivalence on the numbers that normalise: a number
      that does not normalise is the same phone as nothing, not even
      itself, and two numbers the same as a third are the same as each
      other. */
  lemma SamePhoneEquivalence(a: string, b: string, c: string)
    ensures SamePhone(a, a) <==> NormalizePhone(a).Some?
    ensures NormalizePhone(a).None? ==> !SamePhone(a, b) && !SamePhone(b, a)
    ensures SamePhone(a, b) && SamePhone(b, c) ==> SamePhone(a, c)
  {
  }

  /** A string of ASCII digits is its own digits. */
  lemma DigitsOwnDigits(x: string)
    requires Text.AllAsciiDigits(x)
    ensures PhoneDigits(x) == x
  {
    N.DigitsToLatinIdempotent(x);
    Text.TrimNormal(x, Text.IsJsSpace);
    Text.WithoutNone(x, Text.NotAsciiDigit);
  }

  /** A leading `+` is not a digit. */
  lemma PlusDigits(x: string)
    requires Text.AllAsciiDigits(x)
    ensures PhoneDigits("+" + x) == x
  {
    var px := "+" + x;
    assert forall i :: 0 <= i < |px| ==> px[i] == '+' || Text.IsAsciiDigit(px[i]);
    PreparedDialable(px);
    assert px[1..] == x;
    Text.WithoutNone(x, Text.NotAsciiDigit);
  }

  predicate MobileDigits(d: string) {
    |d| == 9 && Text.AllAsciiDigits(d)
  }

  lemma AsciiPrefix(p: string, d: string)
    requires Text.AllAsciiDigits(p) && Text.AllAsciiDigits(d)
    ensures Text.AllAsciiDigits(p + d)
  {
    assert forall i :: 0 <= i < |p + d| ==> (p + d)[i] == if i < |p| then p[i] else d[i - |p|];
  }

  /** The prefix rules on the digits of each way of writing one mobile
      number. */
  lemma MobileRules(d: string)
    requires MobileDigits(d)
    ensures PhoneRules("09" + d) == "09" + d
    ensures PhoneRules("9" + d) == "09" + d
    ensures PhoneRules("989" + d) == "09" + d
    ensures PhoneRules("00989" + d) == "09" + d
  {
    LocalForm(d);
    BareForm(d);
    CountryForm(d);
    InternationalForm(d);
  }

  lemma LocalForm(d: string)
    requires MobileDigits(d)
    ensures PhoneRules("09" + d) == "09" + d
  {
    var z := "09" + d;
    assert z[0] == '0' && z[1] == '9';
    assert !Text.StartsWith(z, "+") && !Text.StartsWith(z, "00") && !Text.StartsWith(z, "98");
  }

  lemma BareForm(d: string)
    requires MobileDigits(d)
    ensures PhoneRules("9" + d) == "09" + d
  {
    var n := "9" + d;
    assert n[0] == '9' && |n| == 10 && !Text.StartsWith(n, "+") && !Text.StartsWith(n, "00");
    assert "0" + n == "09" + d;
  }

  lemma CountryForm(d: string)
    requires MobileDigits(d)
    ensures PhoneRules("989" + d) == "09" + d
  {
    var c := "989" + d;
    assert c[0] == '9' && c[1] == '8' && c[2] == '9' && c[2..] == "9" + d;
    assert !Text.StartsWith(c, "+") && !Text.StartsWith(c, "00") && Text.StartsWith(c, "98");
    assert "0" + c[2..] == "09" + d;
  }

  lemma InternationalForm(d: string)
    requires MobileDigits(d)
    ensures PhoneRules("00989" + d) == "09" + d
  {
    var i := "00989" + d;
    assert i[0] == '0' && !Text.StartsWith(i, "+") && Text.StartsWith(i, "00") && i[2..] == "989" + d;
    CountryForm(d);
  }

  /** A mobile number written without a `+`: its digits are the number
      as written. */
  lemma DigitsForm(d: string, p: string)
    requires MobileDigits(d) && Text.AllAsciiDigits(p)
    requires PhoneRules(p + d) == "09" + d
    ensures NormalizePhone(p + d) == Some("09" + d)
  {
    AsciiPrefix(p, d);
    DigitsOwnDigits(p + d);
    PhoneAccepted(p + d, "09" + d);
  }

  /** A mobile number written with a leading `+`. */
  lemma PlusForm(d: string, p: string)
    requires MobileDigits(d) && Text.AllAsciiDigits(p)
    requires PhoneRules(p + d) == "09" + d
    ensures NormalizePhone("+" + (p + d)) == Some("09" + d)
  {
    AsciiPrefix(p, d);
    PlusDigits(p + d);
    PhoneAccepted("+" + (p + d), "09" + d);
  }

  /** The usual ways of writing one Iranian mobile number (with a leading
      `0`, without it, with the country code written `98` or `0098`, each
      with or without a leading `+`) all normalise to the eleven-digit `09`
      form. */
  lemma MobileForms(d: string, form: string, plus: bool)
    requires MobileDigits(d)
    requires form == "09" || form == "9" || form == "989" || form == "00989"
    ensures NormalizePhone(if plus then "+" + (form + d) else form + d) == Some("09" + d)
  {
    FormRules(d, form);
    if plus {
      PlusForm(d, form);
    } else {
      DigitsForm(d, form);
    }
  }

  /** Each way of writing a mobile number is rewritten to the `09` form. */
  lemma FormRules(d: string, form: string)
    requires MobileDigits(d)
    requires form == "09" || form == "9" || form == "989" || form == "00989"
    ensures Text.AllAsciiDigits(form) && PhoneRules(form + d) == "09" + d
  {
    FormDigits(form);
    MobileRules(d);
    if form == "09" {
      assert form + d == "09" + d;
    } else if form == "9" {
      assert form + d == "9" + d;
    } else if form == "989" {
      assert form + d == "989" + d;
    } else {
      assert form + d == "00989" + d;
    }
  }

  lemma FormDigits(form: string)
    requires form == "09" || form == "9" || form == "989" || form == "00989"
    ensures Text.AllAsciiDigits(form)
  {
  }

  lemma PhoneAccepted(input: string, out: string)
    requires |input| > 0 && |out| >= 7
    requires PhoneRules(PhoneDigits(input)) == out
    ensures NormalizePhone(input) == Some(out)
  {
  }

  /** Each of those forms is the same phone as every other. */
  lemma MobileFormsSame(d: string)
    requires MobileDigits(d)
    ensures SamePhone("+" + ("989" + d), "09" + d) && SamePhone("00989" + d, "9" + d)
  {
    MobileForms(d, "989", true);
    MobileForms(d, "09", false);
    MobileForms(d, "00989", false);
    MobileForms(d, "9", false);
  }
}

=== FILE: wrappers.dfy ===
/** Failure-compatible wrappers shared by every module of the model: `Option`
    stands for Python's `None` / TypeScript's `null`, `Result` for an operation
    that can raise. */
module Wrappers {

  datatype Option<+T> = None | Some(value: T) {

    /** Returns the value, or `default` when there is none (Python's `x or d`
        for a value that cannot be falsy). */
    function GetOr(default: T): T {
      match this
      case Some(v) => v
      case None => default
    }
  }

  datatype Result<+R, +E> = Success(value: R) | Failure(error: E)

  /** The first index of `s` whose element satisfies `p`, or -1 when none
      does: the row a `.first()` lookup returns. */
  function FirstIndex<T>(s: seq<T>, p: T -> bool): (k: int)
    ensures -1 <= k < |s|
    ensures k >= 0 ==> p(s[k]) && forall j :: 0 <= j < k ==> !p(s[j])
    ensures k == -1 <==> forall j :: 0 <= j < |s| ==> !p(s[j])
  {
    if |s| == 0 then -1
    else if FirstIndex(s[..|s| - 1], p) >= 0 then FirstIndex(s[..|s| - 1], p)
    else if p(s[|s| - 1]) then |s| - 1
    else -1
  }

  /** The first position `k` in `[i, n)` where `at(k)` is present, and its
      value: what a left-to-right scan such as Python's `re.search` binds. */
  function FirstSome<T>(at: nat -> Option<T>, i: nat, n: nat): (r: Option<T>)
    ensures r.Some? ==> exists k :: i <= k < n && at(k) == r
    ensures r.None? ==> forall k :: i <= k < n ==> at(k).None?
    decreases n - i
  {
    if i >= n then None
    else if at(i).Some? then at(i)
    else FirstSome(at, i + 1, n)
  }

  /** The scan binds the leftmost match: when `k` is the first position from
      `i` where `at` is present, the scan gives `at(k)`. */
  lemma {:induction false} FirstSomeLeftmost<T>(at: nat -> Option<T>, i: nat, k: nat, n: nat)
    requires i <= k < n && at(k).Some?
    requires forall j :: i <= j < k ==> at(j).None?
    ensures FirstSome(at, i, n) == at(k)
    decreases k - i
  {
    if i < k {
      FirstSomeLeftmost(at, i + 1, k, n);
    }
  }
}

=== FILE: year_end.dfy ===
/** Closing a financial year: the ledger entries up to the year's end are
    folded into per-account balances (debit adds, credit subtracts, accounts
    kept in first-seen order), and every account other than
    RetainedEarnings with a nonzero balance gets one 'closing' entry that
    moves that balance to RetainedEarnings. */
module YearEnd {
  import opened Wrappers
  import Text
  import opened Books

  const RetainedEarnings: string := "RetainedEarnings"

  // ---------------------------------------------------------------------
  // The balance fold
  // ---------------------------------------------------------------------

  /** The `accounts` dictionary: its keys in insertion order, and the value
      of each key at the same position. */
  datatype Tally = Tally(order: seq<string>, vals: seq<int>)

  predicate Distinct(s: seq<string>) {
    forall i, j :: 0 <= i < j < |s| ==> s[i] != s[j]
  }

  predicate TallyWf(t: Tally) {
    |t.order| == |t.vals| && Distinct(t.order)
  }

  /** Position of `a` among the keys, or -1. */
  function Find(order: seq<string>, a: string): (i: int)
    ensures -1 <= i < |order|
    ensures i >= 0 ==> order[i] == a
    ensures i == -1 <==> a !in order
  {
    if |order| == 0 then -1
    else if order[|order| - 1] == a then |order| - 1
    else Find(order[..|order| - 1], a)
  }

  /** `accounts.setdefault(a, 0)`. */
  function SetDefault(t: Tally, a: string): (r: Tally)
    requires TallyWf(t)
    ensures TallyWf(r) && a in r.order
  {
    if a in t.order then t else Tally(t.order + [a], t.vals + [0])
  }

  /** `accounts[a] += x` for a present key. */
  function AddTo(t: Tally, a: string, x: int): (r: Tally)
    requires TallyWf(t) && a in t.order
    ensures TallyWf(r) && r.order == t.order
  {
    var i := Find(t.order, a);
    Tally(t.order, t.vals[i := t.vals[i] + x])
  }

  /** One loop iteration over an entry. */
  function Step(t: Tally, e: Entry): (r: Tally)
    requires TallyWf(t)
    ensures TallyWf(r)
  {
    Transfer(Opened(t, e.debit, e.credit), e.debit, e.credit, e.amount)
  }

  /** The two `setdefault` calls of one iteration. */
  function Opened(t: Tally, a: string, b: string): (r: Tally)
    requires TallyWf(t)
    ensures TallyWf(r) && a in r.order && b in r.order
  {
    SetDefaultValue(SetDefault(t, a), b, a);
    SetDefault(SetDefault(t, a), b)
  }

  /** The two additions of one iteration: `x` to `a`, `-x` to `b`. */
  function Transfer(t: Tally, a: string, b: string, x: int): (r: Tally)
    requires TallyWf(t) && a in t.order && b in t.order
    ensures TallyWf(r) && r.order == t.order
  {
    AddTo(AddTo(t, a, x), b, -x)
  }

  function Fold(entries: seq<Entry>): (t: Tally)
    ensures TallyWf(t)
  {
    if |entries| == 0 then Tally([], [])
    else Step(Fold(entries[..|entries| - 1]), entries[|entries| - 1])
  }

  /** The value of `a` in the dictionary, 0 when it is no key. */
  function ValueOf(t: Tally, a: string): int
    requires TallyWf(t)
  {
    var i := Find(t.order, a);
    if i < 0 then 0 else t.vals[i]
  }

  lemma SetDefaultValue(t: Tally, k: string, a: string)
    requires TallyWf(t)
    ensures ValueOf(SetDefault(t, k), a) == ValueOf(t, a)
    ensures a in SetDefault(t, k).order <==> a in t.order || a == k
  {
    if k !in t.order {
      var r := SetDefault(t, k);
      if a != k {
        assert r.order[..|r.order| - 1] == t.order;
      }
    }
  }

  lemma AddToValue(t: Tally, k: string, x: int, a: string)
    requires TallyWf(t) && k in t.order
    ensures ValueOf(AddTo(t, k, x), a) == ValueOf(t, a) + (if a == k then x else 0)
  {
    var i := Find(t.order, k);
    var j := Find(t.order, a);
    if j >= 0 && j != i {
      assert t.order[j] != k;
    }
  }

  lemma StepValue(t: Tally, e: Entry, a: string)
    requires TallyWf(t)
    ensures ValueOf(Step(t, e), a)
            == ValueOf(t, a) + (if a == e.debit then e.amount else 0) - (if a == e.credit then e.amount else 0)
    ensures a in Step(t, e).order <==> a in t.order || a == e.debit || a == e.credit
  {
    var t1 := SetDefault(t, e.debit);
    var t2 := SetDefault(t1, e.credit);
    SetDefaultValue(t, e.debit, a);
    SetDefaultValue(t1, e.credit, a);
    AddToValue(t2, e.debit, e.amount, a);
    AddToValue(AddTo(t2, e.debit, e.amount), e.credit, -e.amount, a);
  }

  /** The fold computes, for every account, the reference balance (debits
      minus credits); an account it has never seen has none. */
  lemma {:induction false} FoldIsBalance(entries: seq<Entry>, a: string)
    ensures ValueOf(Fold(entries), a) == Balance(entries, a)
    ensures a !in Fold(entries).order ==> Balance(entries, a) == 0
  {
    FoldValue(entries, a);
  }

  lemma {:induction false} FoldValue(entries: seq<Entry>, a: string)
    ensures ValueOf(Fold(entries), a) == Balance(entries, a)
    decreases |entries|
  {
    if |entries| > 0 {
      var init := entries[..|entries| - 1];
      FoldValue(init, a);
      StepValue(Fold(init), entries[|entries| - 1], a);
    }
  }

  function SumVals(v: seq<int>): int {
    if |v| == 0 then 0 else SumVals(v[..|v| - 1]) + v[|v| - 1]
  }

  lemma {:induction false} SumValsAdd(v: seq<int>, i: nat, x: int)
    requires i < |v|
    ensures SumVals(v[i := v[i] + x]) == SumVals(v) + x
    decreases |v|
  {
    var w := v[i := v[i] + x];
    if i == |v| - 1 {
      assert w[..|w| - 1] == v[..|v| - 1];
    } else {
      assert w[..|w| - 1] == v[..|v| - 1][i := v[i] + x];
      SumValsAdd(v[..|v| - 1], i, x);
    }
  }

  lemma SetDefaultSum(t: Tally, a: string)
    requires TallyWf(t)
    ensures SumVals(SetDefault(t, a).vals) == SumVals(t.vals)
  {
    if a !in t.order {
      var v := SetDefault(t, a).vals;
      assert v[..|v| - 1] == t.vals;
    }
  }

  lemma AddToSum(t: Tally, a: string, x: int)
    requires TallyWf(t) && a in t.order
    ensures SumVals(AddTo(t, a, x).vals) == SumVals(t.vals) + x
  {
    SumValsAdd(t.vals, Find(t.order, a), x);
  }

  lemma DefaultsSum(t: Tally, a: string, b: string)
    requires TallyWf(t)
    ensures SumVals(Opened(t, a, b).vals) == SumVals(t.vals)
  {
    SetDefaultSum(t, a);
    SetDefaultSum(SetDefault(t, a), b);
  }

  lemma TransferSum(t: Tally, a: string, b: string, x: int)
    requires TallyWf(t) && a in t.order && b in t.order
    ensures SumVals(Transfer(t, a, b, x).vals) == SumVals(t.vals)
  {
    AddToSum(t, a, x);
    AddToSum(AddTo(t, a, x), b, -x);
  }

  lemma StepSum(t: Tally, e: Entry)
    requires TallyWf(t)
    ensures SumVals(Step(t, e).vals) == SumVals(t.vals)
  {
    DefaultsSum(t, e.debit, e.credit);
    TransferSum(Opened(t, e.debit, e.credit), e.debit, e.credit, e.amount);
  }

  /** Every entry adds to one account what it takes from another, so the
      balances of all accounts always sum to zero. */
  lemma {:induction false} FoldSumsToZero(entries: seq<Entry>)
    ensures SumVals(Fold(entries).vals) == 0
    decreases |entries|
  {
    if |entries| > 0 {
      FoldSumsToZero(entries[..|entries| - 1]);
      StepSum(Fold(entries[..|entries| - 1]), entries[|entries| - 1]);
    }
  }

  // ---------------------------------------------------------------------
  // Closing entries
  // ---------------------------------------------------------------------

  /** The entries the close looks at: those dated no later than `end`. */
  function DatedBy(ledger: seq<Entry>, end: int): (r: seq<Entry>)
    ensures |r| <= |ledger|
    ensures forall k :: 0 <= k < |r| ==> r[k].entryDate <= end
    ensures forall e :: e in r <==> e in ledger && e.entryDate <= end
  {
    if |ledger| == 0 then []
    else
      var init := DatedBy(ledger[..|ledger| - 1], end);
      assert forall e :: e in ledger <==> e in ledger[..|ledger| - 1] || e == ledger[|ledger| - 1];
      if ledger[|ledger| - 1].entryDate <= end then init + [ledger[|ledger| - 1]] else init
  }

  /** The (account, balance) pairs that get a closing entry, in dictionary
      order: every account but RetainedEarnings whose balance is not zero. */
  function Closable(order: seq<string>, vals: seq<int>): (r: seq<(string, int)>)
    requires |order| == |vals|
    ensures forall k :: 0 <= k < |r| ==> r[k].0 != RetainedEarnings && r[k].1 != 0
  {
    if |order| == 0 then []
    else
      var n := |order| - 1;
      Closable(order[..n], vals[..n])
        + (if order[n] == RetainedEarnings || vals[n] == 0 then [] else [(order[n], vals[n])])
  }

  /** A positive (debit) balance is credited to the account against
      RetainedEarnings; a negative one is debited to it by its magnitude. */
  function ClosingEntry(id: nat, acct: string, bal: int, fy: FinancialYear, now: int): (e: Entry)
    ensures bal != 0 ==> e.amount > 0
    ensures e.refType == Some("closing")
    ensures (e.debit, e.credit) == if bal > 0 then (RetainedEarnings, acct) else (acct, RetainedEarnings)
  {
    var description := Some("Closing " + acct + " for FY " + fy.name);
    var ref := Some(Text.NatToString(fy.id));
    if bal > 0 then Entry(id, Some("closing"), ref, now, RetainedEarnings, acct, bal, None, None, description)
    else Entry(id, Some("closing"), ref, now, acct, RetainedEarnings, -bal, None, None, description)
  }

  /** Posts the closing entries one by one, each with the next ledger id. */
  function PostClosings(ledger: seq<Entry>, pairs: seq<(string, int)>, fy: FinancialYear, now: int): (r: seq<Entry>)
    ensures |r| == |ledger| + |pairs| && r[..|ledger|] == ledger
    ensures forall k :: 0 <= k < |pairs| ==>
              r[|ledger| + k] == ClosingEntry(|ledger| + k + 1, pairs[k].0, pairs[k].1, fy, now)
    ensures forall j :: |ledger| <= j < |r| ==> r[j].refType == Some("closing")
  {
    if |pairs| == 0 then ledger
    else
      var init := PostClosings(ledger, pairs[..|pairs| - 1], fy, now);
      var last := pairs[|pairs| - 1];
      var r := init + [ClosingEntry(|init| + 1, last.0, last.1, fy, now)];
      assert r[..|ledger|] == init[..|ledger|];
      r
  }

  /** The sum of the balances the pairs list for account `a`. */
  function PairsFor(pairs: seq<(string, int)>, a: string): int {
    if |pairs| == 0 then 0
    else PairsFor(pairs[..|pairs| - 1], a) + (if pairs[|pairs| - 1].0 == a then pairs[|pairs| - 1].1 else 0)
  }

  function PairsSum(pairs: seq<(string, int)>): int {
    if |pairs| == 0 then 0 else PairsSum(pairs[..|pairs| - 1]) + pairs[|pairs| - 1].1
  }

  /** `rollover[acct] = bal` for every closed account. */
  function Rollover(pairs: seq<(string, int)>): map<string, int> {
    if |pairs| == 0 then map[]
    else Rollover(pairs[..|pairs| - 1])[pairs[|pairs| - 1].0 := pairs[|pairs| - 1].1]
  }

  /** Each closing entry takes its account's balance away from the account
      and hands it to RetainedEarnings. */
  lemma {:induction false} PostClosingsBalance(ledger: seq<Entry>, pairs: seq<(string, int)>, fy: FinancialYear, now: int, a: string)
    requires forall k :: 0 <= k < |pairs| ==> pairs[k].0 != RetainedEarnings
    ensures a != RetainedEarnings ==>
              Balance(PostClosings(ledger, pairs, fy, now), a) == Balance(ledger, a) - PairsFor(pairs, a)
    ensures a == RetainedEarnings ==>
              Balance(PostClosings(ledger, pairs, fy, now), a) == Balance(ledger, a) + PairsSum(pairs)
    decreases |pairs|
  {
    if |pairs| > 0 {
      var init := PostClosings(ledger, pairs[..|pairs| - 1], fy, now);
      var r := PostClosings(ledger, pairs, fy, now);
      assert r[..|r| - 1] == init;
      PostClosingsBalance(ledger, pairs[..|pairs| - 1], fy, now, a);
    }
  }

  /** Reading a tally through its last key: the last key holds the last
      value, and every other key holds what it held before that key was
      added (keys are distinct, so the last key had no value before). */
  lemma ValueOfLast(order: seq<string>, vals: seq<int>, a: string)
    requires |order| == |vals| > 0 && Distinct(order)
    ensures var n := |order| - 1;
      && Distinct(order[..n])
      && ValueOf(Tally(order, vals), a)
         == (if order[n] == a then vals[n] else ValueOf(Tally(order[..n], vals[..n]), a))
      && (order[n] == a ==> ValueOf(Tally(order[..n], vals[..n]), a) == 0)
  {
    var n := |order| - 1;
    if order[n] == a {
      assert a !in order[..n];
    }
  }

  lemma ClosableFor(order: seq<string>, vals: seq<int>, a: string)
    requires |order| == |vals| && Distinct(order)
    ensures PairsFor(Closable(order, vals), a) == (if a == RetainedEarnings then 0 else ValueOf(Tally(order, vals), a))
    ensures a in Rollover(Closable(order, vals))
            <==> a != RetainedEarnings && ValueOf(Tally(order, vals), a) != 0
    ensures a in Rollover(Closable(order, vals)) ==> Rollover(Closable(order, vals))[a] == ValueOf(Tally(order, vals), a)
  {
    ClosablePairsFor(order, vals, a);
    ClosableRollover(order, vals, a);
  }

  lemma {:induction false} ClosablePairsFor(order: seq<string>, vals: seq<int>, a: string)
    requires |order| == |vals| && Distinct(order)
    ensures PairsFor(Closable(order, vals), a) == (if a == RetainedEarnings then 0 else ValueOf(Tally(order, vals), a))
    decreases |order|
  {
    if |order| > 0 {
      var n := |order| - 1;
      var c := Closable(order[..n], vals[..n]);
      ClosablePairsFor(order[..n], vals[..n], a);
      ValueOfLast(order, vals, a);
      if order[n] == RetainedEarnings || vals[n] == 0 {
        assert Closable(order, vals) == c;
      } else {
        var r := Closable(order, vals);
        assert r == c + [(order[n], vals[n])];
        assert r[..|r| - 1] == c && r[|r| - 1] == (order[n], vals[n]);
        assert PairsFor(r, a) == PairsFor(c, a) + (if order[n] == a then vals[n] else 0);
      }
    }
  }

  lemma {:induction false} ClosableRollover(order: seq<string>, vals: seq<int>, a: string)
    requires |order| == |vals| && Distinct(order)
    ensures a in Rollover(Closable(order, vals))
            <==> a != RetainedEarnings && ValueOf(Tally(order, vals), a) != 0
    ensures a in Rollover(Closable(order, vals)) ==> Rollover(Closable(order, vals))[a] == ValueOf(Tally(order, vals), a)
    decreases |order|
  {
    if |order| > 0 {
      var n := |order| - 1;
      var c := Closable(order[..n], vals[..n]);
      ClosableRollover(order[..n], vals[..n], a);
      ValueOfLast(order, vals, a);
      if order[n] == RetainedEarnings || vals[n] == 0 {
        assert Closable(order, vals) == c;
      } else {
        var r := Closable(order, vals);
        assert r[..|r| - 1] == c;
      }
    }
  }

  /** The balances of the closable accounts add up to the total of all
      balances less that of RetainedEarnings. */
  lemma {:induction false} ClosableSum(order: seq<string>, vals: seq<int>)
    requires |order| == |vals| && Distinct(order)
    ensures PairsSum(Closable(order, vals)) == SumVals(vals) - ValueOf(Tally(order, vals), RetainedEarnings)
    decreases |order|
  {
    if |order| > 0 {
      var n := |order| - 1;
      var c := Closable(order[..n], vals[..n]);
      ClosableSum(order[..n], vals[..n]);
      if order[n] == RetainedEarnings {
        assert RetainedEarnings !in order[..n];
      }
      if order[n] == RetainedEarnings || vals[n] == 0 {
        assert Closable(order, vals) == c;
      } else {
        var r := Closable(order, vals);
        assert r[..|r| - 1] == c;
      }
    }
  }

  /** How many entries have `a` on either side. */
  function Touching(ledger: seq<Entry>, a: string): nat {
    if |ledger| == 0 then 0
    else
      var e := ledger[|ledger| - 1];
      Touching(ledger[..|ledger| - 1], a) + (if e.debit == a || e.credit == a then 1 else 0)
  }

  function PairsCount(pairs: seq<(string, int)>, a: string): nat {
    if |pairs| == 0 then 0
    else PairsCount(pairs[..|pairs| - 1], a) + (if pairs[|pairs| - 1].0 == a then 1 else 0)
  }

  lemma {:induction false} PostClosingsTouching(ledger: seq<Entry>, pairs: seq<(string, int)>, fy: FinancialYear, now: int, a: string)
    requires a != RetainedEarnings
    ensures Touching(PostClosings(ledger, pairs, fy, now), a) == Touching(ledger, a) + PairsCount(pairs, a)
    decreases |pairs|
  {
    if |pairs| > 0 {
      var init := PostClosings(ledger, pairs[..|pairs| - 1], fy, now);
      var r := PostClosings(ledger, pairs, fy, now);
      assert r[..|r| - 1] == init;
      PostClosingsTouching(ledger, pairs[..|pairs| - 1], fy, now, a);
    }
  }

  lemma {:induction false} ClosableCount(order: seq<string>, vals: seq<int>, a: string)
    requires |order| == |vals| && Distinct(order)
    ensures PairsCount(Closable(order, vals), a)
            == (if a != RetainedEarnings && ValueOf(Tally(order, vals), a) != 0 then 1 else 0)
    decreases |order|
  {
    if |order| > 0 {
      var n := |order| - 1;
      var c := Closable(order[..n], vals[..n]);
      ClosableCount(order[..n], vals[..n], a);
      ValueOfLast(order, vals, a);
      if order[n] == RetainedEarnings || vals[n] == 0 {
        assert Closable(order, vals) == c;
      } else {
        var r := Closable(order, vals);
        assert r == c + [(order[n], vals[n])];
        assert r[..|r| - 1] == c && r[|r| - 1] == (order[n], vals[n]);
      }
    }
  }

  // ---------------------------------------------------------------------
  // close_financial_year
  // ---------------------------------------------------------------------

  /** The period end: the year's end date, or now when it has none. */
  function PeriodEnd(fy: FinancialYear, now: int): int {
    if fy.endDate.Some? then fy.endDate.value else now
  }

  /** The database and year after closing the open year at position `k`. */
  function CloseOpenYear(b: Books, k: nat, now: int): (r: (Books, FinancialYear))
    requires k < |b.years|
    ensures r.1 == b.years[k].(isClosed := true, closedAt := Some(now), openingBalances := r.1.openingBalances)
    ensures r.0 == b.(ledger := r.0.ledger, years := b.years[k := r.1])
    ensures |r.0.ledger| >= |b.ledger| && r.0.ledger[..|b.ledger|] == b.ledger
    ensures forall j :: |b.ledger| <= j < |r.0.ledger| ==> r.0.ledger[j].refType == Some("closing")
  {
    var fy := b.years[k];
    var t := Fold(DatedBy(b.ledger, PeriodEnd(fy, now)));
    var pairs := Closable(t.order, t.vals);
    var ledger := PostClosings(b.ledger, pairs, fy, now);
    var fy' := fy.(isClosed := true, closedAt := Some(now), openingBalances := Some(Rollover(pairs)));
    (b.(ledger := ledger, years := b.years[k := fy']), fy')
  }

  /** `close_financial_year`: `None` for an unknown id; an already closed
      year is returned with the database untouched; otherwise the closing
      entries are posted, the year is marked closed at `now` and its opening
      balances record every closed account's signed balance. The rollover
      flag and the closing user only reach the activity log, which is not
      modelled. */
  function CloseYear(b: Books, fyId: int, now: int): (r: Option<(Books, FinancialYear)>)
    ensures r.None? <==> forall j :: 0 <= j < |b.years| ==> b.years[j].id != fyId
    ensures r.Some? && b.years[YearIndex(b.years, fyId)].isClosed ==> r.value == (b, b.years[YearIndex(b.years, fyId)])
    ensures r.Some? ==>
              var k := YearIndex(b.years, fyId);
              && r.value.1.isClosed
              && r.value.1.id == b.years[k].id && r.value.1.name == b.years[k].name
              && r.value.0.years == b.years[k := r.value.1]
              && r.value.0.invoices == b.invoices && r.value.0.payments == b.payments
              && |r.value.0.ledger| >= |b.ledger| && r.value.0.ledger[..|b.ledger|] == b.ledger
  {
    var k := YearIndex(b.years, fyId);
    if k < 0 then None
    else if b.years[k].isClosed then Some((b, b.years[k]))
    else Some(CloseOpenYear(b, k, now))
  }

  /** Closing is idempotent: closing the closed year again changes nothing. */
  lemma CloseYearIdempotent(b: Books, fyId: int, now1: int, now2: int)
    requires exists j :: 0 <= j < |b.years| && b.years[j].id == fyId
    ensures var r1 := CloseYear(b, fyId, now1);
            r1.Some? && CloseYear(r1.value.0, fyId, now2) == r1
  {
    var k := YearIndex(b.years, fyId);
    var r1 := CloseYear(b, fyId, now1);
    var ys := r1.value.0.years;
    assert ys[k].id == fyId;
    forall j | 0 <= j < k ensures ys[j].id != fyId {
      assert ys[j] == b.years[j];
    }
    assert YearIndex(ys, fyId) == k;
  }

  /** What the close writes, measured against the entries it looked at:
      an account has an opening balance exactly when it is not
      RetainedEarnings and its balance over the period is not zero, and the
      opening balance is that signed balance; after the closing entries
      every account other than RetainedEarnings has lost exactly its period
      balance. */
  lemma CloseYearMovesBalances(b: Books, fyId: int, now: int, a: string)
    requires exists j :: 0 <= j < |b.years| && b.years[j].id == fyId
    requires !b.years[YearIndex(b.years, fyId)].isClosed
    ensures var r := CloseYear(b, fyId, now);
            var fy := b.years[YearIndex(b.years, fyId)];
            var period := DatedBy(b.ledger, PeriodEnd(fy, now));
            && r.Some?
            && r.value.1.closedAt == Some(now)
            && r.value.1.openingBalances.Some?
            && (a in r.value.1.openingBalances.value <==> a != RetainedEarnings && Balance(period, a) != 0)
            && (a in r.value.1.openingBalances.value ==> r.value.1.openingBalances.value[a] == Balance(period, a))
            && (a != RetainedEarnings ==> Balance(r.value.0.ledger, a) == Balance(b.ledger, a) - Balance(period, a))
  {
    var fy := b.years[YearIndex(b.years, fyId)];
    var period := DatedBy(b.ledger, PeriodEnd(fy, now));
    var t := Fold(period);
    FoldIsBalance(period, a);
    ClosableFor(t.order, t.vals, a);
    PostClosingsBalance(b.ledger, Closable(t.order, t.vals), fy, now, a);
  }

  /** The close posts exactly one entry touching each account other than
      RetainedEarnings whose period balance is not zero, and none touching
      any other account but RetainedEarnings. */
  lemma CloseYearOneEntryPerAccount(b: Books, fyId: int, now: int, a: string)
    requires exists j :: 0 <= j < |b.years| && b.years[j].id == fyId
    requires !b.years[YearIndex(b.years, fyId)].isClosed
    requires a != RetainedEarnings
    ensures var r := CloseYear(b, fyId, now);
            var fy := b.years[YearIndex(b.years, fyId)];
            var period := DatedBy(b.ledger, PeriodEnd(fy, now));
            && r.Some?
            && Touching(r.value.0.ledger, a) == Touching(b.ledger, a) + (if Balance(period, a) != 0 then 1 else 0)
  {
    var fy := b.years[YearIndex(b.years, fyId)];
    var period := DatedBy(b.ledger, PeriodEnd(fy, now));
    var t := Fold(period);
    FoldIsBalance(period, a);
    ClosableCount(t.order, t.vals, a);
    PostClosingsTouching(b.ledger, Closable(t.order, t.vals), fy, now, a);
  }

  lemma {:induction false} DatedByAll(ledger: seq<Entry>, end: int)
    requires forall k :: 0 <= k < |ledger| ==> ledger[k].entryDate <= end
    ensures DatedBy(ledger, end) == ledger
    decreases |ledger|
  {
    if |ledger| > 0 {
      DatedByAll(ledger[..|ledger| - 1], end);
    }
  }

  /** When the period covers the whole ledger, closing leaves every account,
      RetainedEarnings included, with a zero balance. */
  lemma CloseYearZeroesAccounts(b: Books, fyId: int, now: int, a: string)
    requires exists j :: 0 <= j < |b.years| && b.years[j].id == fyId
    requires !b.years[YearIndex(b.years, fyId)].isClosed
    requires forall k :: 0 <= k < |b.ledger| ==>
               b.ledger[k].entryDate <= PeriodEnd(b.years[YearIndex(b.years, fyId)], now)
    ensures var r := CloseYear(b, fyId, now);
            r.Some? && Balance(r.value.0.ledger, a) == 0
  {
    var k := YearIndex(b.years, fyId);
    var fy := b.years[k];
    assert CloseYear(b, fyId, now) == Some(CloseOpenYear(b, k, now));
    DatedByAll(b.ledger, PeriodEnd(fy, now));
    var t := Fold(b.ledger);
    var pairs := Closable(t.order, t.vals);
    PostClosingsBalance(b.ledger, pairs, fy, now, a);
    FoldIsBalance(b.ledger, a);
    ClosableFor(t.order, t.vals, a);
    if a == RetainedEarnings {
      FoldSumsToZero(b.ledger);
      ClosableSum(t.order, t.vals);
    }
  }
}
